=== FILE: README.md ===
# istakip in Dafny

istakip tracks court deliveries ("jobs") for a process-serving business. It keeps
courts, vehicles and jobs in a local SQLite database, edits them through React
forms, and fills the database from one-off Node scripts that read bank-statement
exports, Excel sheets and Markdown lists. This project models the parts of the
system that compute something, and it proves what those parts promise:

- **The import scripts** (`scripts/*.js`). Each script reads a bank-statement
  description, takes the court name and file number out of it, and resolves the
  court against the registry, first by exact name and then by `LIKE`. It then
  splits the amount into base and VAT and derives the received and scheduled
  dates. The job is inserted unless the (court, file number) pair already
  exists. The run ends with its counters. These pieces are in `descriptions.dfy`,
  `records.dfy`, `money.dfy`, `calendar.dfy` and `importer.dfy`. The database is
  `store.dfy`: a `Database` class whose tables are sequences.
- **The extract scripts** (`extract-jobs.js`, `extract-courts.js`). They read
  the bank sheet and write `ISLER.md` / `MAHKEMELER.md`. The script that reads
  `MAHKEMELER.md` back into the courts table is `import-courts-from-md.js`.
  These are in `extraction.dfy` and `courtimport.dfy`, with round-trip lemmas
  from sheet to document to database.
- **The checks and normalisation behind the forms and controllers**:
  - court, vehicle and job validation and formatting (`courts.dfy`,
    `plates.dfy`, `jobs.dfy`);
  - the similarity warnings of `SmartInput` (`similarity.dfy`);
  - the court, vehicle and job forms (`courtform.dfy`, `jobviews.dfy`);
  - the sortable, paged `DataTable` (`datatable.dfy`, `sorting.dfy`);
  - the dashboard and the upcoming-jobs popup (`dashboard.dfy`);
  - the export helpers (`export.dfy`).

Arithmetic is exact: amounts are integer kuruş, and dates are proleptic
Gregorian days (`calendar.dfy`). JavaScript's own behaviour is written out where
it matters: `parseInt`, `split`, `trim`, `toLowerCase` on Turkish letters,
`Math.round`, `new Date(y, m, d)` normalisation, and `slice` clamping
(`text.dfy`, `casing.dfy`).

The `Levenshtein` matrix of `SmartInput` is an `array2` filled by loops. The
`DataTable` page state is a class. The import runs are loops over a
`Database` object. Each of these is proved against a function that states what
it computes.

## Model

| member | source | states |
|---|---|---|
| Calendar.AddDaysNumber | scripts/import-full-bank-data.js:117-129 | `setDate(getDate() ± k)` moves a date by exactly `k` days (its day number changes by `k`), across month and year ends |
| Calendar.MakeDateExact | src/shared/types/Job.ts:112-115 | `new Date(y, m - 1, d)` of a real day in a year outside 0..99 is that very day |
| Calendar.MakeDateTwoDigitYear | src/shared/types/Job.ts:112-115 | a year 0..99 given to `new Date` is read as 1900 + year |
| Calendar.FormatDotted | src/shared/types/Job.ts:105-110 | `formatDate` gives at least seven characters with the dots at positions 2 and 5 |
| Calendar.ParseDotted | src/shared/types/Job.ts:112-115 | `parseDate` yields a real calendar day whenever the three parts are numbers as `parseInt` reads them, a `0x` prefix included (overflowing months and days are normalised) |
| Text.Magnitude | src/shared/types/Job.ts:114 | `parseInt` with no radix reads hexadecimal after a `0x`/`0X` prefix and decimal otherwise; a plain digit string is its decimal value |
| Text.ParseIntHex | src/shared/types/Job.ts:114 | on text that is a `0x` or `0X` prefix and hexadecimal digits, with or without a minus sign before it, `parseInt` gives the value of those digits, or its negation |
| Text.ParseIntBarePrefix | src/shared/types/Job.ts:114 | `0x` followed by no hexadecimal digit is `NaN` |
| Calendar.ParseDottedHex | src/shared/types/Job.ts:112-115 | `parseDate("0x1F.01.2025")` is 31 January 2025: the day is read as hexadecimal 31 |
| Calendar.ParseFormatted | src/shared/types/Job.ts:105-115 | `parseDate(formatDate(d))` is `new Date(d.year, d.month - 1, d.day)`: the three printed numbers are read back |
| Calendar.DottedRoundTrip | src/shared/types/Job.ts:105-115 | `parseDate(formatDate(d)) == d` for every day of a year outside 0..99 |
| Calendar.DottedTwoDigitYear | src/shared/types/Job.ts:105-115 | a day of a year 0..99 comes back from the round trip in the 1900s |
| Calendar.IsoDate | scripts/import-full-bank-data.js:130-134 | `toISOString().split('T')[0]` is ten characters with dashes at positions 4 and 7 |
| Money.RoundDiv | src/shared/types/Job.ts:98-99 | `Math.round(p / q)` is the integer nearest to `p / q`, halves rounded up |
| Money.ScriptSplit | scripts/import-from-excel.js:135-147 | `calculateAmounts`: the base is the total over 1.20 rounded to the kuruş, and base + VAT equals the total exactly |
| Money.UiSplit | src/shared/types/Job.ts:94-103 | `calculateVAT`: base and VAT are each the exact value rounded to the kuruş |
| Money.UiSplitSum | src/shared/types/Job.ts:94-103 | in exact arithmetic, base + VAT is the total or one kuruş more, and one kuruş more exactly when the exact base is halfway between two kuruş |
| Money.TwentyPercentBase | scripts/import-jobs-from-md.js:53-63 | at 20 % both splits give the base `(5 · total + 3) div 6` |
| Money.UiSplitOvershoots | src/shared/types/Job.ts:94-103 | in exact arithmetic 0.09 TL splits into 0.08 + 0.02 under `calculateVAT` (one kuruş over) and 0.08 + 0.01 in the scripts |
| Money.GeneratedAmount | scripts/import-full-bank-data.js:138-150 | `generateAmount`: a whole-lira base in 1000..4999 TL, VAT one fifth of it, total the sum |
| Money.GeneratedAmountUnrounded | scripts/import-jobs-from-bank.js:68-80 | the variant without rounding gives the same amounts, since they are whole kuruş |
| Similarity.NormalizeCanonical | src/shared/components/SmartInput.tsx:33-45 | `normalizeString` yields `[a-z0-9]` words separated by single spaces, with no leading or trailing space |
| Similarity.NormalizeIdempotent | src/shared/components/SmartInput.tsx:33-45 | normalising twice is normalising once |
| Similarity.LevenshteinDistance | src/shared/components/SmartInput.tsx:4-30 | the matrix loop returns the edit distance `Lev(str1, str2)` |
| Similarity.FillRow | src/shared/components/SmartInput.tsx:14-26 | one pass of the inner loop fills row `i` with the distances of the prefixes and leaves every other row as it was |
| Similarity.LevSelf | src/shared/components/SmartInput.tsx:4-30 | a string is at distance 0 from itself |
| Similarity.LevSymmetric | src/shared/components/SmartInput.tsx:4-30 | the distance does not depend on the order of the strings |
| Similarity.LevBounds | src/shared/components/SmartInput.tsx:4-30 | the distance lies between the length difference and the longer length |
| Similarity.LevZero | src/shared/components/SmartInput.tsx:4-30 | distance 0 holds exactly when the strings are equal |
| Similarity.Percent | src/shared/components/SmartInput.tsx:57-58 | `Math.round(kept / m * 100)` lies in 0..100 and is 100 exactly when `kept / m` rounds up to it |
| Similarity.Score | src/shared/components/SmartInput.tsx:32-59 | `calculateSimilarity` lies in 0..100 |
| Similarity.ScoreSymmetric | src/shared/components/SmartInput.tsx:32-59 | swapping the two strings does not change the score |
| Similarity.ScoreHundred | src/shared/components/SmartInput.tsx:47-58 | for normal forms under 200 characters, 100 means exactly that both strings have the same normal form |
| Similarity.ScoreOfNormalized | src/shared/components/SmartInput.tsx:32-59 | case, Turkish letters, punctuation and spacing do not change the score |
| Similarity.ScoreAll | src/shared/components/SmartInput.tsx:122-130 | every suggestion is paired with its score against its display text, in order |
| Similarity.KeepAtLeast | src/shared/components/SmartInput.tsx:131 | the filter keeps exactly the entries at or above the threshold |
| Similarity.Insert | src/shared/components/SmartInput.tsx:132 | inserting into a descending list keeps it descending, after every entry that scores as much |
| Similarity.InsertPermutes | src/shared/components/SmartInput.tsx:132 | insertion adds exactly the new entry (multiset) |
| Similarity.SortDescending | src/shared/components/SmartInput.tsx:132 | the sort yields a descending permutation of its input |
| Similarity.Take | src/shared/components/SmartInput.tsx:133 | `slice(0, n)` is the prefix of length min(n, length) |
| Similarity.Rank | src/shared/components/SmartInput.tsx:131-133 | filter, sort and slice give at most `max` entries, descending, each at or above the threshold and from the input |
| Similarity.RankKeepsBest | src/shared/components/SmartInput.tsx:131-133 | an entry at or above the threshold is ranked unless the list is full of entries scoring at least as much |
| Similarity.CheckSimilarity | src/shared/components/SmartInput.tsx:113-137 | `checkSimilarity`: nothing for an input shorter than `minChars`; otherwise at most `max` suggestions, highest first, each at or above the threshold and scored against its display text |
| Similarity.CheckSimilarityKeepsBest | src/shared/components/SmartInput.tsx:113-137 | a suggestion passing the threshold is offered unless the list is full of suggestions scoring at least as much |
| Similarity.Styling | src/shared/components/SmartInput.tsx:175-187 | `getInputStyling`: no suggestions means neutral; red when the first scores 90 or more, yellow for 75..89, blue otherwise |
| Similarity.StylingUsesBest | src/shared/components/SmartInput.tsx:175-187 | on a ranked list the box is red exactly when some suggestion scores 90 or more |
| Courts.ValidateEmailShape | src/modules/courts/controllers/CourtController.ts:5-8 | the scan accepts exactly the strings `^[^\s@]+@[^\s@]+\.[^\s@]+$` describes |
| Courts.StoredEmailValid | src/modules/courts/controllers/CourtController.ts:66-75 | a valid address is stored lower-cased with nothing trimmed, and it is still valid |
| Courts.ValidatePhoneDigits | src/modules/courts/controllers/CourtController.ts:10-14 | `validatePhone` accepts exactly the inputs whose non-whitespace characters are eleven digits starting with 0 |
| Courts.FormatPhoneValid | src/modules/courts/controllers/CourtController.ts:16-26 | a phone whose digits form a local number is formatted as a valid phone with the same digits |
| Courts.FormatPhoneIdempotent | src/modules/courts/controllers/CourtController.ts:16-26 | formatting a phone twice is formatting it once |
| Courts.ValidPhoneFormatted | src/modules/courts/controllers/CourtController.ts:10-26 | an accepted phone is formatted as `0XXX XXX XXXX` of its digits, whatever whitespace it had |
| Courts.SaveCourt | src/modules/courts/controllers/CourtController.ts:50-85 | `createCourt`: each error exactly when its check is the first to fail (name, city, phone, e-mail); on success only phone, e-mail, contact and notes change |
| Courts.UpdateCourt | src/modules/courts/controllers/CourtController.ts:87-122 | `updateCourt` accepts and normalises exactly as `createCourt` and keeps the id |
| Courts.SavedContactValid | src/modules/courts/controllers/CourtController.ts:62-75 | a saved checked phone is a local number, and a saved checked e-mail is the lower-cased address and valid |
| Courts.ResaveCourt | src/modules/courts/controllers/CourtController.ts:50-85 | saving a saved court again is accepted and changes nothing but dropping empty optional strings |
| Courts.PhoneResaved | src/modules/courts/controllers/CourtController.ts:62-75 | a stored phone passes the check again and formatting leaves it alone |
| Courts.EmailResaved | src/modules/courts/controllers/CourtController.ts:66-75 | a stored e-mail passes the check again; a blank one becomes empty |
| Courts.BlankPhoneKept | src/modules/courts/controllers/CourtController.ts:16-26 | a whitespace-only phone is stored as typed and is never checked |
| Courts.WithoutCourt | src/modules/courts/controllers/CourtController.ts:139-141 | the filter keeps, in order, exactly the courts with another id |
| Courts.CheckNameSimilarity | src/modules/courts/controllers/CourtController.ts:134-148 | `checkNameSimilarity`: the courts found, minus the excluded id when it is truthy; nothing when the search fails |
| CourtForms.FormOfCourt | src/modules/courts/views/CourtForm.tsx:121-131 | the form of a court keeps name and city, and each optional field up to absent/empty |
| CourtForms.ResetForm | src/modules/courts/views/CourtForm.tsx:33-56 | `resetForm`: the new-court form, or the form of the edited court |
| CourtForms.FormRequest | src/modules/courts/views/CourtForm.tsx:168-186 | the request carries the form's name and city and no district, type or address |
| CourtForms.CheckCourtForm | src/modules/courts/views/CourtForm.tsx:144-164 | the form's checks refuse exactly what the controller refuses, with the controller's first failure |
| CourtForms.SubmitCourtForm | src/modules/courts/views/CourtForm.tsx:140-195 | nothing is sent when a check fails; otherwise an update of the edited court (same id) or a new court |
| CourtForms.EditUnchangedResaves | src/modules/courts/views/CourtForm.tsx:33-56 | opening a saved court and submitting it unchanged passes the checks and stores the same contact fields |
| CourtForms.ResaveField | src/modules/courts/views/CourtForm.tsx:39-42 | an optional field sent through the form (absent becomes empty) is saved and checked as the field itself |
| CourtForms.FormatCourtName | src/modules/courts/views/CourtForm.tsx:86-99 | `formatCourtName` returns a blank name as it is |
| CourtForms.FormatCourtNameWords | src/modules/courts/views/CourtForm.tsx:86-99 | a formatted name splits at its spaces into exactly the input's words, each re-cased |
| CourtForms.HandleNameChange | src/modules/courts/views/CourtForm.tsx:101-119 | a value ending in a space is kept as typed |
| CourtForms.HandleNameChangeLastWord | src/modules/courts/views/CourtForm.tsx:101-119 | otherwise the words of the new value are the typed words with only the last one re-cased |
| CourtForms.TypedWordFormatted | src/modules/courts/views/CourtForm.tsx:86-119 | the word just typed is cased as `formatCourtName` would case it |
| CourtForms.PhoneChanged | src/modules/courts/views/CourtForm.tsx:134-138 | `handlePhoneChange` stores the formatted phone, which formatting again leaves alone, and nothing else changes |
| CourtForms.NameSuggestions | src/modules/courts/views/CourtForm.tsx:67-84 | every court but the edited one is offered, with its name as the text to compare |
| Store.FindExact | scripts/import-full-bank-data.js:193 | `WHERE name = ?` finds a court with that name exactly when one exists |
| Store.FindContains | scripts/import-full-bank-data.js:195-197 | `WHERE name LIKE '%x%'` finds the first court, in insertion order, whose name contains `x` up to ASCII case, exactly when one exists |
| Store.ExactIsLike | scripts/import-full-bank-data.js:193-197 | a court found by exact name is also found by `LIKE` |
| Store.FindAppend | scripts/import-full-bank-data.js:193-197 | courts added later never change which court a lookup finds first |
| Store.AppendNewPair | scripts/import-full-bank-data.js:205-213 | appending a job whose (court, file number) pair is new keeps the pairs unique |
| Store.AddCourt | src/main/database-handler.ts:63-67 | `INSERT INTO courts`: refused exactly when the name is taken (UNIQUE); otherwise appended with the next id; the schema constraints are kept |
| Store.AddVehicle | src/main/database-handler.ts:49-53 | `INSERT INTO vehicles`: refused exactly when the plate is taken; otherwise appended; the constraints are kept |
| Store.AddJob | scripts/import-full-bank-data.js:223-246 | `INSERT INTO jobs` always appends the job and leaves the other tables alone |
| Store.Database.InsertCourt | scripts/import-courts-from-md.js:85-88 | the database's court insert does what `AddCourt` says and keeps the constraints |
| Store.Database.InsertVehicle | scripts/prepare-database.js:159-162 | the database's vehicle insert does what `AddVehicle` says and keeps the constraints |
| Store.Database.InsertJob | scripts/import-full-bank-data.js:223-246 | the database's job insert does what `AddJob` says and keeps the constraints |
| Sorting.InsertOn | src/shared/components/DataTable.tsx:61-76 | inserting into a sorted list keeps it sorted and adds exactly the new element |
| Sorting.SortOn | src/shared/components/DataTable.tsx:61-76 | sorting yields an ascending permutation of the input |
| DataTables.SortBy | src/shared/components/DataTable.tsx:64-75 | `[...data].sort(compare)` on a column gives the same rows ordered by it in the chosen direction |
| DataTables.SortedData | src/shared/components/DataTable.tsx:61-76 | `sortedData`: the data as given with no column chosen, otherwise a permutation ordered by the column |
| DataTables.ToggleSort | src/shared/components/DataTable.tsx:89-99 | `handleSort`: the same column flips direction; another column starts ascending |
| DataTables.ToggleTwice | src/shared/components/DataTable.tsx:89-99 | sorting the same column twice restores its direction |
| DataTables.TotalPages | src/shared/components/DataTable.tsx:79 | `Math.ceil(n / size)` is the least number of pages that hold `n` rows |
| DataTables.Slice | src/shared/components/DataTable.tsx:82 | `slice(start, end)` is the subsequence when both ends are in range, and a negative start counts from the end |
| DataTables.SliceIndex | src/shared/components/DataTable.tsx:82 | an index of `slice` stays within the length, is kept when in range and counts from the end when negative |
| DataTables.PageRows | src/shared/components/DataTable.tsx:79-82 | a page holds at most `size` rows, and page `p` of the existing pages is the slice from `(p - 1) · size` |
| DataTables.PagesCoverRows | src/shared/components/DataTable.tsx:79-82 | the pages, in order, are exactly the rows |
| DataTables.PageWindow | src/shared/components/DataTable.tsx:377-390 | the page strip has `min(5, totalPages)` consecutive page numbers within range, including the current page |
| DataTables.ExportColumns | src/shared/components/DataTable.tsx:122-125 | the exported columns are, in order, exactly those other than `actions` |
| DataTables.ExportRow | src/shared/components/DataTable.tsx:131-140 | an exported row holds each exported column's raw value |
| DataTables.Table.constructor | src/shared/components/DataTable.tsx:54-60 | a table starts on page 1, unsorted, with no search term |
| DataTables.Table.Visible | src/shared/components/DataTable.tsx:79-82 | the rows on screen are at most a page, and not empty on an existing page |
| DataTables.Table.Sort | src/shared/components/DataTable.tsx:89-99 | the sort state becomes `ToggleSort` of the old one and nothing else changes |
| DataTables.Table.Previous | src/shared/components/DataTable.tsx:345 | one page back, never below 1 |
| DataTables.Table.Next | src/shared/components/DataTable.tsx:352 | one page on while there is one; the page stays in range |
| DataTables.Table.GoTo | src/shared/components/DataTable.tsx:186-190 | a page button selects that page |
| DataTables.Table.Filter | src/shared/components/DataTable.tsx:85-87 | a changed search term or page size sends the table back to page 1; setting both unchanged keeps the current page |
| DataTables.Table.Strip | src/shared/components/DataTable.tsx:377-390 | the strip shows at most five pages and includes the current one |
| Casing.LowerIdempotent | src/modules/courts/controllers/CourtController.ts:74 | `toLowerCase()` of a lower-cased string changes nothing |
| Casing.LowerKept | src/modules/courts/controllers/CourtController.ts:74 | lower-casing never shortens a string and introduces no space, `@` or `.` of its own |
| Jobs.LabelsRoundTrip | src/shared/types/Job.ts:55-76 | every job, payment and invoice status is read back from its Turkish label |
| Jobs.ParseStatus | src/shared/types/Job.ts:57 | a label read as a job status is that status's label |
| Jobs.ParsePayment | src/shared/types/Job.ts:55 | a label read as a payment status is that status's label |
| Jobs.ParseInvoice | src/shared/types/Job.ts:56 | a label read as an invoice status is that status's label |
| Jobs.StatusColorClass | src/shared/types/Job.ts:78-83 | every job status has a colour class |
| Jobs.StatusIcon | src/shared/types/Job.ts:86-91 | every job status has an icon |
| Jobs.ParseCurrencyTurkish | src/shared/types/Job.ts:127-130 | `parseCurrency` of a text whose digits and commas are `lira,kuruş` is the number those digits spell with the comma as decimal point, whatever symbols and dots surround them |
| Jobs.FirstCommaToDot | src/shared/types/Job.ts:129 | `replace(',', '.')` keeps the length |
| JobChecks.ValidateDateMeans | src/modules/jobs/controllers/JobController.ts:5-15 | `validateDate` accepts exactly `DD.MM.YYYY` naming a real calendar day of a year from 100 on |
| JobChecks.FormattedDateValid | src/modules/jobs/controllers/JobController.ts:5-15 | a date printed by `formatDate` with a four-digit year passes `validateDate` |
| JobChecks.SaveJob | src/modules/jobs/controllers/JobController.ts:59-99 | `createJob`: each message exactly when its check is the first to fail; otherwise accepted with only the file number changed, trimmed (at least three characters) or empty |
| JobChecks.SaveJobIdempotent | src/modules/jobs/controllers/JobController.ts:59-99 | saving an accepted request again is accepted and changes nothing |
| JobChecks.UpdateJob | src/modules/jobs/controllers/JobController.ts:101-141 | `updateJob` accepts, refuses and normalises exactly as `createJob`, keeping the id |
| JobChecks.CheckJobId | src/modules/jobs/controllers/JobController.ts:46-56 | `getJobById`/`deleteJob` refuse exactly the ids of 0 and below |
| JobChecks.CheckDateRange | src/modules/jobs/controllers/JobController.ts:156-166 | `getJobsByDateRange` goes ahead exactly when both ends pass `validateDate` |
| JobList.SearchJobs | src/modules/jobs/views/JobList.tsx:86-102 | an empty term keeps every job; otherwise the result is the jobs, in order, that match the term in some searched field |
| JobList.SearchIgnoresStatus | src/modules/jobs/views/JobList.tsx:86-102 | the job status is not a searched field |
| JobList.InlineEditStep | src/modules/jobs/views/JobList.tsx:148-213 | `saveInlineEdit`: asks for invoice details, a payment date, the completion form or a completion date exactly in the listed cases; otherwise stores the job with the one field changed, and a new status date only for a status change |
| JobList.FindJob | src/modules/jobs/views/JobList.tsx:153 | `jobs.find` gives a job with that id exactly when there is one |
| JobList.SaveInlineEdit | src/modules/jobs/views/JobList.tsx:148-154 | nothing happens for an unknown job; otherwise the step of that job |
| JobList.SaveInvoiceDetails | src/modules/jobs/views/JobList.tsx:216-245 | the job becomes invoiced with that number and date, and a new status date; nothing else changes |
| JobList.SavePaymentDetails | src/modules/jobs/views/JobList.tsx:248-276 | the job becomes paid on that date, with a new status date; nothing else changes |
| JobList.SaveCompletionDetails | src/modules/jobs/views/JobList.tsx:279-307 | the job becomes completed on that date, with a new status date; nothing else changes |
| JobList.InvoiceDetailsCompleteEdit | src/modules/jobs/views/JobList.tsx:157-164 | once invoice details are saved (the button needs a non-blank number), choosing "Kesildi" again stores directly |
| JobList.PaymentDetailsCompleteEdit | src/modules/jobs/views/JobList.tsx:167-173 | once a payment date is saved, choosing "Ödendi" again stores directly |
| JobList.CompletionDetailsCompleteEdit | src/modules/jobs/views/JobList.tsx:176-193 | once a completion date is saved on a job with no missing information, choosing "Tamamlandı" again stores directly |
| JobForm.NewJobForm | src/modules/jobs/views/JobForm.tsx:81-104 | a new form is dated today, pending, unpaid, not invoiced, at 20 % VAT, with nothing chosen and nothing entered |
| JobForm.FormOfJob | src/modules/jobs/views/JobForm.tsx:58-80 | the form of a job carries every one of its nineteen editable fields, absent optional ones as empty |
| JobForm.RecalculateVat | src/modules/jobs/views/JobForm.tsx:134-155 | a positive total sets base and VAT to the UI split (summing to the total or one kuruş more) and nothing else; otherwise the form is unchanged |
| JobForm.RecalculateVatSettles | src/modules/jobs/views/JobForm.tsx:144-155 | the effect reaches a fixed point: running it again changes nothing |
| JobForm.StatusChanged | src/modules/jobs/views/JobForm.tsx:615-623 | choosing a status sets it and today's status date and nothing else |
| JobForm.Errors | src/modules/jobs/views/JobForm.tsx:195-230 | the fields marked are, in the order checked, exactly those whose check fails |
| JobForm.FormErrors | src/modules/jobs/views/JobForm.tsx:195-230 | no field is marked exactly when the form is complete |
| JobForm.NoErrors | src/modules/jobs/views/JobForm.tsx:195-230 | the form passes exactly when both dates and the court are given and, for a completed job, file number, vehicle, amount and completion date too |
| JobForm.SubmitJobForm | src/modules/jobs/views/JobForm.tsx:186-260 | nothing is sent unless the form is complete, and the message shown is the last failing check's; otherwise the form is sent as an update of the edited job (same id) or as a new job |
| JobForm.NewFormNeedsDateAndCourt | src/modules/jobs/views/JobForm.tsx:81-104 | a new form is refused for its missing scheduled date and court, never for its received date |
| JobForm.IsoToDotted | src/modules/jobs/views/JobForm.tsx:304-309 | an empty date input is ignored |
| JobForm.DateInputRoundTrip | src/modules/jobs/views/JobForm.tsx:303-309 | a `DD.MM.YYYY` value shown in the date input (`split('.').reverse().join('-')`) and read back (`split('-')`) is the same value |
| JobCompletion.OpenCompletionForm | src/shared/components/JobCompletionModal.tsx:38-51 | the completion form starts with the job's file number, vehicle and amount and today's date |
| JobCompletion.CheckCompletion | src/shared/components/JobCompletionModal.tsx:72-95 | each message exactly when its check (file number, vehicle, amount, date) is the first to fail |
| JobCompletion.CompletedRequest | src/shared/components/JobCompletionModal.tsx:97-126 | the request completes the job with the form's values, a 20 % split summing to the total or one kuruş more, today's status date and the fixed note, and keeps the job's other fields |
| JobCompletion.CompleteJob | src/shared/components/JobCompletionModal.tsx:72-133 | the completed request of the job is sent exactly when the checks pass |
| JobCompletion.CompletionAccepted | src/shared/components/JobCompletionModal.tsx:72-133 | a request the modal sends for a valid job with a valid file number, vehicle and amount passes `updateJob` |
| JobCompletion.CompletionFillsMissing | src/shared/components/JobCompletionModal.tsx:72-133 | after completion the job lacks none of the information whose absence opened the modal |
| UpcomingJobs.DaysLeftOfFormatted | src/shared/components/UpcomingJobsPopup.tsx:40-42 | a scheduled date printed by `formatDate` (year outside 0..99) is that many days after today |
| UpcomingJobs.DaysLeftParsed | src/shared/components/UpcomingJobsPopup.tsx:40-42 | the days left of a readable scheduled date are its day number minus today's |
| UpcomingJobs.UrgencyOf | src/shared/components/UpcomingJobsPopup.tsx:49-69 | critical up to today, high tomorrow, medium within three days, low beyond |
| UpcomingJobs.Annotated | src/shared/components/UpcomingJobsPopup.tsx:36-78 | exactly the active jobs with a readable date are annotated with their days left |
| UpcomingJobs.AnalyzeWith | src/shared/components/UpcomingJobsPopup.tsx:32-81 | for any way of telling the days left, the list is ordered by days left and is a permutation of the annotated active jobs due within 0 to 7 days, each kept as often as it occurs |
| UpcomingJobs.AnalyzeUpcomingJobs | src/shared/components/UpcomingJobsPopup.tsx:32-81 | `analyzeUpcomingJobs` lists, ordered by days left, exactly the active jobs due today or in the next seven days, as a permutation of those annotated jobs (duplicates kept) |
| UpcomingJobs.OverdueAlwaysZero | src/shared/components/UpcomingJobsPopup.tsx:243 | the footer's overdue count is always 0, since the list holds no overdue job |
| UpcomingJobs.NoneOverdue | src/shared/components/UpcomingJobsPopup.tsx:243 | a list without negative days left has no overdue entry |
| UpcomingJobs.MissingItems | src/shared/components/UpcomingJobsPopup.tsx:214-218 | the missing-information note lists file number, vehicle and amount, in that order, exactly when each is absent |
| UpcomingJobs.MissingNoteShown | src/shared/components/UpcomingJobsPopup.tsx:210-218 | the note is shown exactly for the jobs the job list treats as missing information |
| Dashboard.CheckUpcomingJobs | src/pages/Dashboard.tsx:61-83 | `checkUpcomingJobs` holds exactly when some active job is due within the week |
| Dashboard.CheckAgreesWithPopup | src/pages/Dashboard.tsx:37 | the dashboard opens the popup exactly when the popup has something to list |
| Dashboard.DueDateTone | src/pages/Dashboard.tsx:228-235 | `getDueDateColor`: red when overdue, orange today, yellow tomorrow, blue within three days, green within the week, grey beyond and grey for a date it cannot read (`NaN` fails every comparison) |
| Dashboard.DueDateToneAgrees | src/pages/Dashboard.tsx:228-235 | the dashboard's colours agree with the popup's up to seven days; beyond, grey versus green |
| Dashboard.StatusColor | src/pages/Dashboard.tsx:207-214 | grey exactly for a cancelled job or an unknown status |
| Dashboard.PaymentColor | src/pages/Dashboard.tsx:218-223 | grey exactly for an unknown payment status |
| Dashboard.ActiveRows | src/pages/Dashboard.tsx:177-198 | every active job, in its order, becomes one row carrying its own days left, unreadable dates (`NaN`) included |
| Dashboard.SortRows | src/pages/Dashboard.tsx:199 | the sort keeps every row (same multiset), puts rows with a readable date first and nearest first; rows that are all unreadable keep their order, and rows that are all readable are sorted by days left |
| Dashboard.DatedFirst | src/pages/Dashboard.tsx:199 | readable rows sorted by days left followed by unreadable rows are in the table's order |
| Dashboard.UpcomingRows | src/pages/Dashboard.tsx:173-201 | `getUpcomingJobs`: eight rows or all the active jobs if fewer, each an active job with its own days left, ordered readable-first and nearest first, and no row placed before a readable one that was left out is further away |
| Dashboard.PrefixOrder | src/pages/Dashboard.tsx:200 | the first rows of an ordered table are ordered and come no later than the rows `slice` drops |
| Dashboard.ActiveRowOf | src/pages/Dashboard.tsx:177-198 | every row of the table belongs to an active job of the list and carries that job's days left |
| Dashboard.UndatedTable | src/pages/Dashboard.tsx:173-201 | when no active job's date has a dot, as with imported ISO dates, the table is the first eight active jobs in their own order, each grey and reading `NaN gün kaldı` |
| Calendar.IsoDateUndotted | src/pages/Dashboard.tsx:181-182 | an ISO `YYYY-MM-DD` date has no dot, so splitting it on dots gives one part and no date |
| Dashboard.CountStatus | src/pages/Dashboard.tsx:86-94 | a status count never exceeds the number of jobs |
| Dashboard.StatusCountsPartition | src/pages/Dashboard.tsx:86-89 | the four status counts add up to the number of jobs |
| Dashboard.AmountsPartition | src/pages/Dashboard.tsx:97-103 | paid and unpaid amounts add up to the total |
| Dashboard.AmountWithinTotal | src/pages/Dashboard.tsx:97-103 | with no negative amounts, each lies between 0 and the total |
| Dashboard.Percent | src/pages/Dashboard.tsx:119-151 | `Math.round(part / whole * 100)`: no number (`NaN`) for no jobs, otherwise 0..100, 100 for all and 0 for none |
| JobManagement.SelectFilter | src/modules/jobs/views/JobManagement.tsx:91-98 | choosing the active filter clears it; any other becomes active |
| JobManagement.SelectFilterTwice | src/modules/jobs/views/JobManagement.tsx:91-98 | choosing a filter twice clears it |
| JobManagement.FilteredJobs | src/modules/jobs/views/JobManagement.tsx:105-121 | no filter keeps every job; otherwise the jobs, in order, that the filter shows |
| JobManagement.GuardedPercent | src/modules/jobs/views/JobManagement.tsx:165-193 | 0 for no jobs, otherwise the dashboard's percentage; always 0..100 |
| JobManagement.CompletedPercentBounded | src/modules/jobs/views/JobManagement.tsx:165 | the completed share lies in 0..100 and is 0 with no jobs |
| JobManagement.RequestOfForm | src/modules/jobs/views/JobForm.tsx:239-253 | the request sent carries the form's dates, court, file number, vehicle, amount and statuses |
| JobManagement.HandleJobSubmit | src/modules/jobs/views/JobManagement.tsx:67-83 | an update when the data has an id, otherwise a create; either is stored exactly when `createJob`'s checks pass, as that check normalises it |
| Plates.ApplyFoldTable | src/modules/vehicles/controllers/VehicleController.ts:7-20 | the loop over the fold table replaces each Turkish letter by its ASCII counterpart, as `FoldTurkish` says |
| Plates.FormatPlate | src/modules/vehicles/controllers/VehicleController.ts:5-51 | `formatPlate`: the province code, then the first run of letters and the digits, each group after a single space |
| Plates.FormattedIdempotent | src/modules/vehicles/controllers/VehicleController.ts:5-51 | formatting a formatted plate changes nothing |
| Plates.GroupsRoundTrip | src/modules/vehicles/controllers/VehicleController.ts:32-47 | the groups keep the first letters and all the digits, and laying them out again gives the same text |
| Plates.FormattedOfCleaned | src/modules/vehicles/controllers/VehicleController.ts:23-47 | a cleaned plate of code, letters and digits is laid out as `code letters digits` |
| Plates.ValidatePlateShape | src/modules/vehicles/controllers/VehicleController.ts:54-71 | `validatePlate` accepts exactly the plates whose non-whitespace characters have the plate shape |
| Plates.ValidCleanedShape | src/modules/vehicles/controllers/VehicleController.ts:61-71 | the length, province and regular-expression checks together accept exactly two digits, one to three capital letters and digits, 5 to 8 characters, with the province code in 1..81 |
| Plates.ValidatePlateIgnoresSpaces | src/modules/vehicles/controllers/VehicleController.ts:54-71 | whitespace never changes the verdict |
| Plates.SaveVehicle | src/modules/vehicles/controllers/VehicleController.ts:94-134 | `createVehicle`/`updateVehicle`: refused exactly when `validatePlate` fails; otherwise only the plate changes, to a formatted plate |
| Plates.SavedPlate | src/modules/vehicles/controllers/VehicleController.ts:94-113 | an accepted plate is stored as `formatPlate` of it |
| Plates.SaveFormattedPlate | src/modules/vehicles/views/VehicleForm.tsx:83-87 | a plate typed into the form and passing `validatePlate` is stored exactly as shown |
| Plates.SavedPlateCanFailValidation | src/modules/vehicles/controllers/VehicleController.ts:26 | a valid plate whose letter is Q, W, X or I is stored without its letter, and the stored plate fails `validatePlate` |
| Plates.StrictPlateSavedValid | src/modules/vehicles/controllers/VehicleController.ts:54-71 | with the letters `formatPlate` deletes also refused, a stored plate keeps its characters and passes the check again |
| Plates.CheckVehicleForm | src/modules/vehicles/views/VehicleForm.tsx:95-117 | each message exactly when its check (plate, brand, model, year) is the first to fail |
| Plates.PlateChanged | src/modules/vehicles/views/VehicleForm.tsx:83-87 | typing sets the plate to its formatted form, which formatting leaves alone, and nothing else |
| Plates.FormSubmissionStored | src/modules/vehicles/views/VehicleForm.tsx:95-140 | a form that passes its checks is stored as shown |
| Plates.WithoutId | src/modules/vehicles/controllers/VehicleController.ts:152-154 | the filter keeps, in order, exactly the vehicles with another id |
| Plates.PlateSuggestions | src/modules/vehicles/views/VehicleForm.tsx:64-78 | every vehicle but the edited one is offered, with its plate as the text to compare |
| Plates.CheckPlateSimilarity | src/modules/vehicles/controllers/VehicleController.ts:146-161 | the vehicles found for the formatted plate, minus the excluded id when it is truthy; nothing when the search fails |
| Exports.ExcelRow | src/shared/utils/exportUtils.ts:30-36 | the loop builds one entry per column title, holding `row[col.key] \|\| ''` of the last column with that title; no entry is empty-valued or 0 |
| Exports.ExcelSheet | src/shared/utils/exportUtils.ts:30-37 | one such object per row, in order |
| Exports.ExcelWidth | src/shared/utils/exportUtils.ts:43 | `col.width \|\| 15`: the given width unless it is absent or 0 |
| Exports.Transliterate | src/shared/utils/exportUtils.ts:174-188 | the Turkish letters are replaced by ASCII ones and nothing else changes; the result has no Turkish letter and keeps the length |
| Exports.TransliterateIdempotent | src/shared/utils/exportUtils.ts:174-188 | transliterating twice is transliterating once |
| Exports.MinWidth | src/shared/utils/exportUtils.ts:104-109 | `minWidths[key] \|\| 25` lies in 8..25 |
| Exports.MaxWidth | src/shared/utils/exportUtils.ts:111-116 | `maxWidths[key] \|\| 50` is never below the minimum |
| Exports.Longest | src/shared/utils/exportUtils.ts:85-101 | the longest text among the rows, at least the title's length, and attained by the title or some row |
| Exports.BaseWidth | src/shared/utils/exportUtils.ts:126-130 | `Math.round(min(max(len · 2.5, min), max))` lies between the two bounds and is the nearest integer to `len · 2.5` between them |
| Exports.MeasureColumn | src/shared/utils/exportUtils.ts:85-101 | the loop over the first twenty rows returns the longest content length |
| Exports.MeasureColumns | src/shared/utils/exportUtils.ts:83-102 | every column key gets its longest content length |
| Exports.SizeColumns | src/shared/utils/exportUtils.ts:120-132 | every key gets its base width, and the total is their sum over the columns |
| Exports.ScaleColumns | src/shared/utils/exportUtils.ts:135-140 | every column width is scaled to its share of 269 mm and rounded |
| Exports.RescaledAt | src/shared/utils/exportUtils.ts:135-140 | with distinct keys, each column becomes `round(w · 269 / total)` and other keys keep their width |
| Exports.ColumnWidths | src/shared/utils/exportUtils.ts:76-143 | `calculateColumnWidths` returns the planned width of every column key |
| Exports.ColumnWidthOf | src/shared/utils/exportUtils.ts:120-140 | with distinct keys, a column has its base width when the table fits and otherwise its scaled share, never wider |
| Exports.ScaledNotWider | src/shared/utils/exportUtils.ts:135-140 | scaling down never widens a column |
| Exports.TableFits | src/shared/utils/exportUtils.ts:76-143 | with distinct keys the columns add up to at most 269 mm plus half a millimetre of rounding per column |
| Exports.Cut | src/shared/utils/exportUtils.ts:236-244 | `substring(0, max - 3) + '...'` is a prefix of the text followed by `...` |
| Exports.Abbreviate | src/shared/utils/exportUtils.ts:230-246 | a text that fits is kept; a long one is cut to the limit, a long court name shortened to at most the limit, a long status abbreviated |
| Exports.CourtNameCell | src/shared/utils/exportUtils.ts:233-238 | a long court name ends up no longer than the limit (never below three characters) |
| Exports.StatusCell | src/shared/utils/exportUtils.ts:239-242 | a long status has its first "Devam Ediyor" and "Beklemede" abbreviated |
| Exports.PdfCell | src/shared/utils/exportUtils.ts:205-248 | a PDF cell holds no Turkish letter, and an ordinary column's text fits the characters its width allows |
| Exports.PdfHeader | src/shared/utils/exportUtils.ts:168-190 | a header per column, of its title's length, with no Turkish letter |
| Exports.CsvFile | src/shared/utils/exportUtils.ts:342-349 | the file is a byte-order mark, then the header line with the titles quoted but not escaped, a newline, and the data lines |
| Exports.HeaderLineQuoteFree | src/shared/utils/exportUtils.ts:321 | when no title holds a double quote, the unescaped header is the same text as the escaped CSV line of the titles |
| Exports.QuotedTitleUnescaped | src/shared/utils/exportUtils.ts:321 | a title `a"b` is written `"a"b"`, where a cell holding it would be written `"a""b"` |
| Exports.CsvRoundTrip | src/shared/utils/exportUtils.ts:314-342 | with titles free of double quotes, reading the CSV text back (`;`-separated, `"`-quoted, `""` escaped) gives the titles, then each row's shown values whatever they hold |
| Exports.ParsePrinted | src/shared/utils/exportUtils.ts:321-342 | any records printed as quoted, escaped fields read back as the same records |
| Exports.FormatDateForExport | src/shared/utils/exportUtils.ts:374-377 | `dateStr \|\| ''`: the date as given, empty exactly when absent or empty |
| Descriptions.StripTransfer | scripts/import-full-bank-data.js:96 | `replace(/^GELEN\s+(EFT\|FAST\|HAVALE)\s*-\s*/, '')` removes a prefix, and only from a text starting with `GELEN` |
| Descriptions.TransferHeader | scripts/import-full-bank-data.js:96 | a matched transfer header lies inside the text, which starts with `GELEN` |
| Descriptions.FindOffice | scripts/import-full-bank-data.js:97 | the lazy `.*?VEZNESİ` match ends after the office word, inside the text |
| Descriptions.StripOffice | scripts/import-full-bank-data.js:97 | `replace(/^.*?VEZNESİ\s*-\s*/, '')` leaves a suffix of the text |
| Descriptions.StripPayer | scripts/prepare-database.js:100 | `replace(/-RAMAZAN ÇATAL$/, '')` leaves a prefix of the text |
| Descriptions.FileRefEnd | scripts/import-full-bank-data.js:100 | `-(\d{4}\/\d+)` is matched as a dash, four digits, a slash and a maximal run of digits |
| Descriptions.Match | scripts/import-full-bank-data.js:100-110 | a match yields a `YYYY/N` file number and a trimmed court name read from the start of the text |
| Descriptions.KeywordMatchIsLooseMatch | scripts/prepare-database.js:104-107 | wherever the pattern with a case keyword matches, the pattern without one matches too |
| Descriptions.StripCity | scripts/import-full-bank-data.js:105 | `replace(/^Antalya\s+/, '')` removes a prefix, and only `Antalya` followed by whitespace |
| Descriptions.StripCityTrimmed | scripts/import-full-bank-data.js:101-105 | a trimmed name stays trimmed once the city is removed |
| Descriptions.ParseCourtDescription | scripts/import-full-bank-data.js:93-114 | `parseCourtDescription` (each script's variant): a result has a `YYYY/N` file number and a trimmed court name, and there is one exactly when the script's pattern matches the cleaned text |
| Descriptions.FallbackAcceptsLoose | scripts/prepare-database.js:95-122 | the fallback pattern makes `prepare-database` accept exactly the texts the loose pattern matches |
| Descriptions.ReadStatement | scripts/import-full-bank-data.js:93-114 | a statement line built from a transfer header, an office, a court name, a file number and a case kind is read back as that court name (without the city where the script strips it) and that file number |
| Records.SlashToIsoThrows | scripts/import-full-bank-data.js:76-77 | reading `DD/MM/YYYY` throws (calling `padStart` of `undefined`) exactly when the date has no slash |
| Records.SlashToIsoOf | scripts/import-full-bank-data.js:76-77 | `day/month/year` becomes `year-MM-DD` with month and day padded to two digits |
| Records.SlashDateIsIso | scripts/import-full-bank-data.js:76-77 | a real day written `D/M/YYYY` or `DD/MM/YYYY` becomes its ISO 8601 date |
| Records.ExtractLine | scripts/import-full-bank-data.js:64-84 | a kept line's description names a court cashier office |
| Records.ExtractLineDropped | scripts/import-full-bank-data.js:64-74 | a line is skipped exactly when it has fewer than three tab fields or its description names no court office |
| Records.ExtractLineOf | scripts/import-full-bank-data.js:64-84 | a line `date⇥number⇥description` of a court payment yields the ISO date and the trimmed description |
| Records.BankDataLine | scripts/import-all-bank-jobs.js:79-93 | `parseBankData` skips exactly the lines with fewer than two tab fields, and reads the trimmed second field as the description |
| Records.GatherThrows | scripts/import-full-bank-data.js:60-87 | the whole parse throws exactly when some line throws |
| Records.ExtractRecords | scripts/import-full-bank-data.js:60-87 | every record parsed names a court office and comes from a kept line |
| Records.ReadLines | scripts/import-full-bank-data.js:64-84 | the `for` loop pushes the kept lines' records in order and stops at the first line that throws |
| Records.ParseBankExtract | scripts/import-full-bank-data.js:60-87 | `parseBankExtract` is the loop over the trimmed text's lines |
| Records.ParseBankData | scripts/import-all-bank-jobs.js:75-97 | `parseBankData` is the loop over the trimmed text's lines |
| Records.CellAmount | scripts/import-from-excel.js:73-81 | a number cell is its value; a text cell is `parseFloat` of it with the commas removed |
| Records.SerialDate | scripts/import-from-excel.js:61-64 | a spreadsheet serial date, when it has one, has a month in 1..12 |
| Records.ExcelDate | scripts/import-from-excel.js:59-71 | an empty date cell gives no date; a text date throws exactly when it has no slash |
| Records.ExcelRow | scripts/import-from-excel.js:44-92 | `parseExcelRow`: rows of under seven cells are skipped; a kept row names a court office in cell 5 and has a positive amount read from cell 6 |
| Records.ExcelRowDropped | scripts/import-from-excel.js:52-86 | a row with a text date and description is skipped exactly when it names no court office or its amount is not positive |
| Records.DataRows | scripts/import-from-excel.js:164 | the loop starts at row 12 |
| Records.HeaderRowsIgnored | scripts/import-from-excel.js:164-169 | whatever the first twelve rows hold, the records are the same |
| Records.ParseSheet | scripts/import-from-excel.js:163-169 | the loop gathers `parseExcelRow` of every row from 12 on |
| Records.ParseIso | scripts/import-full-bank-data.js:118 | `new Date('YYYY-MM-DD')` of a readable text is a real calendar day |
| Records.IsoRoundTrip | scripts/import-full-bank-data.js:118-134 | reading an ISO date printed by `toISOString().split('T')[0]` gives the same day |
| Records.Kurus | scripts/import-from-excel.js:135-147 | a spreadsheet amount in kuruş is never negative |
| Records.DecimalSplit | scripts/import-from-excel.js:135-147 | `calculateAmounts` of a decimal amount: base + VAT is the total, and the base is the exact base rounded to the kuruş |
| Records.WholeKurusSplit | scripts/import-from-excel.js:135-147 | for an amount in whole kuruş this is the script split of the kuruş total |
| Importer.RandomDays | scripts/import-full-bank-data.js:117-135 | `calculateDates` with random offsets: the received date falls 10 to 30 days before the payment, and the scheduled date 1 to 10 days after the received date and never after the payment; both are real dates |
| Importer.FixedDays | scripts/one-time-import.js:121-134 | the fixed variant schedules the job 7 days before the payment and receives it 3 days before that |
| Importer.Backfill | scripts/import-full-bank-data.js:117-135 | dates are derived exactly when the payment date is a real ISO date (an invalid one makes `toISOString` throw); the Markdown import uses the row's own date everywhere, and the fixed variant keeps the payment date as given |
| Importer.Amounts | scripts/import-full-bank-data.js:138-150 | the amounts always carry a 20 % rate and base + VAT = total; generated amounts are a whole lira base with VAT one fifth of it, and amounts read from a record keep the record's total |
| Importer.LookupCourt | scripts/import-full-bank-data.js:193-197 | the court is looked up by exact name first and by `LIKE '%name%'` otherwise (`import-jobs-from-bank.js` uses `LIKE` only); a court is found exactly when some court's name contains the wanted one |
| Importer.Missed | scripts/import-full-bank-data.js:199-203 | an unresolved court counts one error and changes nothing else; its name joins the not-found set where the script collects one |
| Importer.Unresolved | scripts/one-time-import.js:210-227 | a court no lookup finds is reported, or inserted as a placeholder court where the script does so; vehicles never change, courts only grow, and at most one settled job is added and counted |
| Importer.Place | scripts/import-full-bank-data.js:206-259 | with the duplicate guard, a (court, file number) pair already stored is counted as a duplicate and changes nothing; otherwise one settled job (paid, invoiced, completed) for that court and file is appended and counted, and the run aborts exactly when the payment date cannot be read |
| Importer.Step | scripts/import-full-bank-data.js:183-259 | one bank line: nothing happens once the run has aborted; the vehicles never change, courts only grow and only where the script creates them, at most one job is appended, and every appended job is settled and counted as a success |
| Importer.StepCounts | scripts/import-full-bank-data.js:183-259 | every line not ending the run adds exactly one to success + duplicates + errors |
| Importer.StepWellFormed | scripts/import-full-bank-data.js:183-259 | one line keeps court names unique and ids increasing |
| Importer.StepPairs | scripts/import-full-bank-data.js:206-214 | with the duplicate guard, one line never stores a second job with the same court and file number |
| Importer.RunAll | scripts/import-full-bank-data.js:183-259 | the whole loop: vehicles are unchanged, the jobs table only grows and by at most one row per line, and the success counter equals the number of rows added |
| Importer.RunCounts | scripts/import-full-bank-data.js:264-269 | a run that completes has success + duplicates + errors equal to the number of lines read |
| Importer.RunKeepsWellFormed | scripts/import-full-bank-data.js:183-259 | the whole loop keeps the schema's unique names and increasing ids |
| Importer.RunPairs | scripts/import-full-bank-data.js:206-214 | with the duplicate guard the loop keeps (court, file number) pairs unique |
| Importer.RunSettles | scripts/import-full-bank-data.js:223-246 | every job the loop adds is stored as paid, invoiced and completed |
| Importer.AbortedStays | scripts/import-full-bank-data.js:152-259 | once the outer `try` has caught an error, reading more lines changes nothing |
| Importer.RerunInsertsNothing | scripts/import-full-bank-data.js:206-214 | running a guarded script a second time over the same lines adds no job and counts every former success as a duplicate |
| Importer.UnguardedRerunRepeats | scripts/import-all-bank-jobs.js:178-245 | a script without the duplicate guard inserts every job again on a second run, with the same counters |
| Importer.PlaceOne | scripts/import-full-bank-data.js:206-259 | the guard query and the `INSERT` against the database do what `Place` says |
| Importer.CreateOne | scripts/one-time-import.js:211-227 | an unresolved court against the database does what `Unresolved` says: reported, or inserted as a placeholder court |
| Importer.ImportOne | scripts/import-full-bank-data.js:183-259 | one loop iteration against the database does what `Step` says |
| Importer.Launch | scripts/import-full-bank-data.js:165-259 | a script stops before the loop exactly when there are no vehicles and then changes nothing; a completed run's counters add up to the number of lines, the success count is the number of rows added, and the schema's constraints are kept |
| Importer.Import | scripts/import-full-bank-data.js:165-259 | the script's loop against the database leaves it as `Launch` says |
| Importer.Entries | scripts/import-full-bank-data.js:183-190 | each record read becomes exactly one loop entry |
| Importer.Batch | scripts/import-full-bank-data.js:152-259 | a script run: it crashes exactly when reading the input throws, stops exactly on an empty input (where the script checks) or an empty fleet and then changes nothing, and otherwise behaves as `Launch` |
| Importer.ImportBatch | scripts/import-full-bank-data.js:152-259 | the script run against the database leaves it as `Batch` says |
| Importer.Seeded | scripts/prepare-database.js:155-163 | an empty vehicles table gets the one `34ABC123` Mercedes Sprinter; a non-empty one is left alone |
| Importer.PrepareDatabase | scripts/prepare-database.js:24-267 | as written: a missing spreadsheet ends the script with nothing changed; otherwise there is afterwards always a vehicle, the run stops early exactly when the sheet is empty or has no court payment, and courts and jobs only grow |
| Importer.PrepareDatabaseIntended | scripts/prepare-database.js:24-267 | the same guarantees with the inserted court's id used at once |
| Importer.FullBankData | scripts/import-full-bank-data.js:152-259 | `import-full-bank-data` (courts reported, never created): it crashes exactly when a line of the extract cannot be parsed, stops exactly on an empty extract or an empty fleet, counts every line once when it completes, never changes vehicles or courts, and counts as successes the jobs it adds |
| Importer.AllBankJobs | scripts/import-all-bank-jobs.js:158-245 | `import-all-bank-jobs` (courts reported, no duplicate guard, no empty-batch check): it crashes exactly when parsing throws and stops only on an empty fleet; vehicles and courts never change and successes are the jobs added |
| Importer.ImportFromExcel | scripts/import-from-excel.js:149-258 | `import-from-excel` (courts reported): an empty sheet stops it with nothing changed, an unreadable row crashes it, a completed run counts every row once, and vehicles and courts never change |
| Importer.OneTimeImport | scripts/one-time-import.js:24-272 | `one-time-import` as written: a missing file or an empty sheet stops it with nothing changed; it crashes exactly when a row cannot be read; vehicles never change, courts and jobs only grow, successes are the jobs added, and the schema is kept |
| Importer.OneTimeImportIntended | scripts/one-time-import.js:24-272 | the same guarantees with the inserted court's id used at once |
| Importer.ImportJobsFromBank | scripts/import-jobs-from-bank.js:82-159 | `import-jobs-from-bank` (`LIKE` lookup, courts reported, no duplicate guard): it never crashes, stops exactly on an empty fleet, counts every payment once when it completes, and never changes vehicles or courts |
| Importer.RunAsWritten | scripts/one-time-import.js:211-227 | as written, a run of an inserting script never counts a court as created, and every court it inserts is matched by an error |
| Importer.OneTimeImportCreatesNothing | scripts/one-time-import.js:211-227 | a completed `one-time-import` reports 0 created courts, and it inserted no more courts than it counted errors |
| Importer.KnownCourtsAgree | scripts/one-time-import.js:200-227 | when every readable payment's court is already in the table, the as-written and intended loops give the same result and insert no court |
| Importer.OneTimeImportKnownCourts | scripts/one-time-import.js:200-227 | when every court of the sheet is already known, `one-time-import` as written does exactly what it does as intended |
| Importer.TableRows | scripts/import-jobs-from-md.js:43-48 | only Markdown table lines are read as rows |
| Importer.RowEntries | scripts/import-jobs-from-md.js:87-106 | each table row becomes exactly one loop entry |
| Importer.ImportJobsFromMd | scripts/import-jobs-from-md.js:20-163 | the Markdown import stops when its files are missing, never creates courts or vehicles, counts every row once when it completes and counts as successes the rows it adds |
| Importer.LaunchTwice | scripts/import-full-bank-data.js:206-214 | a second run of a guarded script over the same input leaves the database as the first run left it, its successes counted as duplicates |
| Importer.LaunchTwiceUnguarded | scripts/import-all-bank-jobs.js:178-245 | a second run of an unguarded script repeats the first run's counters and doubles the rows it added |
| Importer.FullBankDataTwice | scripts/import-full-bank-data.js:206-214 | `import-full-bank-data` run twice on the same text adds nothing the second time |
| Importer.ImportFromExcelTwice | scripts/import-from-excel.js:215-224 | `import-from-excel` run twice on the same sheet adds nothing the second time |
| Importer.ImportJobsFromMdTwice | scripts/import-jobs-from-md.js:121-131 | `import-jobs-from-md` run twice on the same document adds nothing the second time |
| Importer.AllBankJobsTwice | scripts/import-all-bank-jobs.js:178-245 | `import-all-bank-jobs` run twice inserts every job twice |
| Importer.ImportJobsFromBankTwice | scripts/import-jobs-from-bank.js:99-159 | `import-jobs-from-bank` run twice inserts every job twice |
| Importer.RunFullBankData | scripts/import-full-bank-data.js:152-259 | the script against the database leaves it as `FullBankData` says |
| Importer.RunAllBankJobs | scripts/import-all-bank-jobs.js:158-245 | the script against the database leaves it as `AllBankJobs` says |
| Importer.RunImportFromExcel | scripts/import-from-excel.js:149-258 | the script against the database leaves it as `ImportFromExcel` says |
| Importer.RunOneTimeImport | scripts/one-time-import.js:150-272 | the script as written against the database leaves it as `OneTimeImport` says |
| Importer.RunPrepareDatabase | scripts/prepare-database.js:24-267 | the script as written against the database, including its spreadsheet check, leaves it as `PrepareDatabase` says |
| Importer.RunImportJobsFromMd | scripts/import-jobs-from-md.js:65-163 | the script against the database leaves it as `ImportJobsFromMd` says |
| Importer.RunImportJobsFromBank | scripts/import-jobs-from-bank.js:82-159 | the script against the database leaves it as `ImportJobsFromBank` says |
| Importer.FindsPlaceholder | scripts/one-time-import.js:211-227 | a court inserted for a missing name is what the next lookup of that name finds, and a job for it is then added |
| Importer.CreatedCourtLosesJob | scripts/one-time-import.js:211-227 | as written, the court is inserted but `result.lastID` throws, so the line counts as an error and adds no job; a second run then adds it |
| Importer.CreatedCourtKeepsJob | scripts/one-time-import.js:211-227 | as intended, the new court's id is used: the job is added in the first run, and a second run counts it as a duplicate |
| Extraction.Screen | scripts/extract-jobs.js:28-34 | a row is kept exactly when its sixth cell is text naming a court cashier office, an administrative court or a regional court; the filter throws exactly when that cell is a non-zero number (`includes` is not a function of a number) |
| Extraction.Considered | scripts/extract-jobs.js:28-34 | below the 12 header rows, the filter throws exactly when some row would make it throw; otherwise it keeps every kept row, in sheet order, and nothing else |
| Extraction.FormatDate | scripts/extract-jobs.js:60-82 | an empty cell has no date; a text date is read exactly when it has three slash-separated parts, and reading text never throws |
| Extraction.FormatSlashDate | scripts/extract-jobs.js:68-73 | a real day written `DD/MM/YYYY` becomes its ISO 8601 date |
| Extraction.ReadJob | scripts/extract-jobs.js:98-130 | a kept row throws exactly when its date cell throws; an error names the row number given and the row's description (or `Açıklama yok`); a job has the row's date, a positive amount, and the court name and file number the description yields |
| Extraction.ReadStatementRow | scripts/extract-jobs.js:98-130 | a row dated `DD/MM/YYYY` whose description is a statement line for a court and file number is read as that date, court, file number and amount |
| Extraction.ReadJobOf | scripts/extract-jobs.js:98-130 | a row with a readable date, a positive amount and a parsable description becomes exactly that job |
| Extraction.Partition | scripts/extract-jobs.js:98-130 | every kept row becomes either a job or an error |
| Extraction.ExtractJobRows | scripts/extract-jobs.js:98-130 | the `forEach` loop over the kept rows collects the jobs and errors `Partition` describes |
| Extraction.ExtractJobs | scripts/extract-jobs.js:28-130 | filtering the sheet and reading each kept row, numbered by position + 13 as the script does, gives the jobs and errors `JobsOfAsWritten` describes |
| Extraction.JobsOfAsWritten | scripts/extract-jobs.js:28-130 | as written (rows numbered by position + 13): nothing is read when the filter throws, and otherwise every kept row gives exactly one job or one error |
| Extraction.JobsOf | scripts/extract-jobs.js:28-130 | numbered by sheet row: nothing is read when the filter throws, and otherwise every kept row gives exactly one job or one error |
| Extraction.ReadJobRenumbered | scripts/extract-jobs.js:98-130 | the number given to a row changes only the row number of its error, never whether it throws or the job it gives |
| Extraction.PartitionRenumbered | scripts/extract-jobs.js:98-130 | renumbering the rows gives the same jobs and the same errors apart from their row numbers |
| Extraction.JobsOfRenumbered | scripts/extract-jobs.js:104-105 | the script's numbering and the sheet's give the same jobs and errors apart from the row numbers |
| Extraction.JobsNameTheirRows | scripts/extract-jobs.js:98-130 | with rows numbered by their sheet row, every error names a kept row holding its description, and every job is read from some kept row |
| Extraction.ErrorsNameTheirRows | scripts/extract-jobs.js:103-121 | every error names the sheet row its description comes from |
| Extraction.JobsReadFromRows | scripts/extract-jobs.js:98-130 | every job comes from a kept row of the sheet |
| Extraction.GapSheetMisnumbered | scripts/extract-jobs.js:104-105 | as written, an error in sheet row 14 below one filtered-out row is reported as row 13; numbered by sheet row it is reported as row 14 |
| Extraction.CourtName | scripts/extract-courts.js:39-52 | a court name is found exactly when the description parses with a non-empty name, and then it is trimmed |
| Extraction.AddName | scripts/extract-courts.js:55-61 | adding to the `Set` of names keeps it free of repeats and adds exactly that name |
| Extraction.Collect | scripts/extract-courts.js:58-68 | the names collected from the kept rows have no repeats |
| Extraction.Insert | scripts/extract-courts.js:70 | inserting a new name into an ascending list keeps it ascending and adds exactly that name |
| Extraction.Sort | scripts/extract-courts.js:70 | `sort()` returns the names in ascending order, as a permutation of its input |
| Extraction.AscendingUnique | scripts/extract-courts.js:70 | two ascending lists with the same elements are equal, so the sorted list does not depend on insertion order |
| Extraction.SortKeeps | scripts/extract-courts.js:70 | sorting keeps the names free of repeats and keeps exactly the same names |
| Extraction.CollectCourtNames | scripts/extract-courts.js:58-68 | the `forEach` loop collects the names and errors `Collect` describes |
| Extraction.ExtractCourts | scripts/extract-courts.js:28-70 | filtering, collecting and sorting, rows numbered by position + 13 as the script does, gives what `CourtsOfAsWritten` describes |
| Extraction.CourtsOfAsWritten | scripts/extract-courts.js:28-70 | as written: a list exactly when the filter does not throw, and then ascending and without repeats |
| Extraction.CourtsOf | scripts/extract-courts.js:28-70 | numbered by sheet row: a list exactly when the filter does not throw, and then ascending and without repeats |
| Extraction.CollectRenumbered | scripts/extract-courts.js:58-68 | renumbering the rows gives the same names and errors with the same descriptions |
| Extraction.CourtsOfRenumbered | scripts/extract-courts.js:64 | the script's numbering and the sheet's give the same court list and errors with the same descriptions |
| Extraction.CourtsListed | scripts/extract-courts.js:28-70 | the court list is ascending, has no repeats, and holds exactly the names read from kept rows below the header |
| Extraction.JobCourtsListed | scripts/extract-courts.js:58-70 | every court named by an extracted job appears in the extracted court list |
| Extraction.ToFixed2 | scripts/extract-jobs.js:158 | `toFixed(2)` of an amount is digits and a dot, starting and ending with a digit |
| Extraction.ToFixed2Read | scripts/extract-jobs.js:158 | `parseFloat` reads a `toFixed(2)` amount back as the same amount in kuruş |
| Extraction.TableRowRead | scripts/extract-jobs.js:158 | a written table row is a table line without a line break, and its cells read back as the four fields written |
| Extraction.JobsDocumentImports | scripts/extract-jobs.js:146-165 | the rows `import-jobs-from-md` reads from `ISLER.md` are exactly the job lines written, and each becomes the entry of the job it was written from |
| CourtImport.NumberPrefixMatches | scripts/import-courts-from-md.js:46-47 | a line is a numbered line exactly when it starts with digits, a dot and a space, and the prefix stripped is exactly that |
| CourtImport.CourtLineRead | scripts/import-courts-from-md.js:44-47 | a numbered court line written by `extract-courts` is read back as the name it was written from |
| CourtImport.CourtLinesRead | scripts/import-courts-from-md.js:44-47 | the numbered lines written for a list of names are read back as that list |
| CourtImport.CourtsDocumentNames | scripts/import-courts-from-md.js:44-47 | reading `MAHKEMELER.md` as `extract-courts` writes it gives back exactly the names written, in order |
| CourtImport.DetectCityAndDistrict | scripts/import-courts-from-md.js:52-60 | the city is always Antalya, and the district is Korkuteli exactly when the name contains `Korkuteli` |
| CourtImport.BlankTrims | scripts/import-courts-from-md.js:71 | a name is skipped exactly when it is empty or only whitespace |
| CourtImport.Step | scripts/import-courts-from-md.js:70-97 | a blank name changes nothing; any other name is afterwards present, counted as a success when inserted or a duplicate when already there; jobs and vehicles never change and the schema is kept |
| CourtImport.StepCounts | scripts/import-courts-from-md.js:70-97 | each non-blank name adds exactly one to success + duplicates |
| CourtImport.ImportNames | scripts/import-courts-from-md.js:62-97 | the loop never counts an error, counts as successes the courts it adds, only adds courts and keeps the schema |
| CourtImport.ImportNamesCounts | scripts/import-courts-from-md.js:99-105 | success + duplicates is the number of non-blank names |
| CourtImport.ImportNamesPresent | scripts/import-courts-from-md.js:70-97 | after the loop every non-blank name is a court |
| CourtImport.ImportNamesPresentAlready | scripts/import-courts-from-md.js:76-81 | when every name is already a court, the loop changes nothing and counts every name as a duplicate |
| CourtImport.ImportNamesTwice | scripts/import-courts-from-md.js:76-81 | a second run over the same names changes nothing and counts them all as duplicates |
| CourtImport.ImportTidy | scripts/import-courts-from-md.js:70-97 | trimmed non-empty names are all counted and all present afterwards |
| CourtImport.CourtsFileImports | scripts/import-courts-from-md.js:44-97 | `MAHKEMELER.md` written from a sheet by `extract-courts` as written is read back as the sheet's court list, and importing it makes every one of those courts present, each counted once |
| CourtImport.ImportCourts | scripts/import-courts-from-md.js:62-97 | the loop against the database leaves it as `ImportNames` says |
| CourtImport.ImportCourtsFromMd | scripts/import-courts-from-md.js:24-97 | the script stops when either file is missing and changes nothing; otherwise it counts no errors, counts each non-blank name once, only adds courts and keeps the schema |
| CourtImport.RunImportCourtsFromMd | scripts/import-courts-from-md.js:24-97 | the script against the database leaves it as `ImportCourtsFromMd` says |

## Left out

- I/O is not modelled. This covers reading and writing files, console output, and the `sqlite3` callbacks. The database is the in-memory `Store.Database`, and the input text, sheet or document is a parameter.
- The existence checks of the scripts (`fs.existsSync`) become boolean parameters. A missing file ends the script before it opens the database, so the store is left as it was.
- `Math.random` is a parameter. The day offsets, the vehicle index and the generated base of each line come from `draws`, within the ranges the script draws from.
- Floating point is not modelled. Amounts are whole kuruş, and `Math.round(x * 100) / 100` is exact half-up rounding. Rounding errors of doubles (such as `total / 1.20`) are not represented.
- `parseFloat` is modelled on plain decimal text only. Exponents and `Infinity` are not modelled.
- Money.UiSplitSum: the characterisation holds in exact arithmetic. `calculateVAT` computes `total - total / 1.2` in doubles, and the representation error can push a halfway VAT below the half. Some totals whose exact base is halfway, such as 120.03 TL (VAT 20.004999999999995 in doubles), then add up to the total rather than one kuruş more.
- Money.UiSplitOvershoots: the example is 0.09 TL, where doubles and exact arithmetic agree (0.08 + 0.02). Totals such as 120.03 TL, which overshoot in exact arithmetic, do not in doubles.
- Spreadsheet serial dates (`XLSX.SSF.parse_date_code`) are decoded in the 1900 date system only. The 1904 system and the rounding of the time-of-day fraction are not modelled.
- The XLSX file reader is left out. A sheet is given as rows of cells.
- Timezones are not modelled. `new Date(...)` and `toISOString()` are taken to agree on the calendar day, as they do at UTC and at Turkey's fixed UTC+3 offset.
- Today's date and the current year are parameters.
- SQLite `LIKE` is modelled as ASCII-case-insensitive substring containment with `%` and `_` taken literally. The first court in insertion order is the match, where SQLite's row order is unspecified.
- String comparison, as `sort()` and `<` do it, is by character code. Characters outside the Basic Multilingual Plane would order differently under UTF-16 code units.
- Exports.Cut: lengths are counted in characters, while JavaScript's `.length` and `substring` count UTF-16 code units. A text with characters outside the Basic Multilingual Plane would be cut at a different place.
- Exports.Abbreviate: the same character-count reading of `.length` as for `Exports.Cut`.
- Exports.MaxChars: the limit is compared with a length in characters, not in UTF-16 code units.
- `toUpperCase` and `toLowerCase` use explicit tables of the characters the application's text holds. Full Unicode case mapping is not modelled.
- DataTables.SortBy: column values are integers. Comparing text or mixed values with `<` is not modelled.
- React state, effects, debounce timers and rendering are not modelled. Only the decision and computation functions behind them are.
- The PDF export's drawing with jsPDF and its `autoTable` layout are not modelled. Only the cell texts and column widths are.
- `toLocaleString` of numbers is a parameter of the exporters.
- Blob and DOM downloads are not modelled.
- The IPC services, the Electron main process, routing and the list and management views without computation are not modelled.
- The scripts that only copy or clear files are not modelled.
- Exports.TableFits: the scaled widths may exceed the 269 mm page by up to half a millimetre per column. This comes from `Math.round` and is what the code does.
- Exports.ScaledNotWider: the lemmas about column widths assume distinct column keys. With a repeated key, the code scales that column's width twice.
- Importer.LaunchTwice: the second-run property is proved for the scripts that report unresolved courts. For `one-time-import` and `prepare-database`, which insert them, it is stated only for one line, by `Importer.CreatedCourtKeepsJob`.
- Plates.SaveVehicle: this uses `validatePlate` as written, so it accepts plates that `formatPlate` then stores in a form the validator refuses (see Findings).
- Extraction.JobsDocumentImports: the round trip needs more of the fields than the scripts check. Date, court name and file number must be non-empty and trimmed. They must hold no line break, no `|` and no `---`, since `import-jobs-from-md` drops lines containing `---`. Error texts must hold no line break.
- CourtImport.CourtsDocumentNames: the round trip assumes that names hold no line break. The names `extract-courts` produces are trimmed by construction.
- CourtImport.ImportNames: the error counter stays 0. The `catch` around the `INSERT` is reached only by store failures, and the name check before it keeps the UNIQUE constraint from refusing the insert. Store failures are not modelled.
- Exports.CsvRoundTrip: the header titles are written between quotes without escaping, so the round trip is proved only for titles without a double quote. A title holding one (`Exports.QuotedTitleUnescaped`) does not read back as written. The titles are fixed texts of the application, none of which holds a quote.
- Records.ParseIso: only the ISO date-only form `YYYY-MM-DD` is read as a date; every other text counts as unreadable. The legacy fallback parser of `new Date(string)` in V8 accepts more forms, such as `25-01-05`, and those are not modelled.
- Dashboard.SortRows: when readable and unreadable dates are mixed, `(a, b) => a.daysLeft - b.daysLeft` gives `NaN`, which `sort` takes as equal. Such a comparator is inconsistent and the resulting order is left to the engine. The model puts readable rows first, nearest first, and unreadable rows after them in their own order; this is proved only as `TableOrder`. For lists that are all readable or all unreadable it matches what every engine does.
- Dashboard.UpcomingRows: for mixed lists the order of the eight rows rests on the choice in `Dashboard.SortRows` above.
- Importer.Place: an `INSERT INTO jobs` never fails in the model, because the table has no constraint the scripts could violate. The inner `catch` (scripts/import-full-bank-data.js:256-259) is therefore unreachable here.

## Findings

| source | as written | input that shows it | evidently intended | confidence | as-written member | corrected member |
|---|---|---|---|---|---|---|
| scripts/one-time-import.js:213-226 | after inserting a missing court, `result.lastID` is read from the promisified `db.run`, which resolves with no value; the `TypeError` goes to the `catch`, so the court stays inserted but the payment counts as an error and gets no job | a readable payment whose court is not in the table, with a valid ISO payment date: the first run inserts the court and counts one error; only a second run adds the job | use the new court's id, add the job in the same run, and count the court as created | high (the same code is at scripts/prepare-database.js:213-224), not executed | Importer.CreatedCourtLosesJob | Importer.CreatedCourtKeepsJob |
| scripts/extract-jobs.js:104-105 | the row reported for an unparsable payment is its position among the kept rows + 13 | a sheet whose row 13 holds no court payment and whose row 14 holds a court payment with no date: the error names row 13 | the spreadsheet row of the payment (row 14); the same numbering is in scripts/extract-courts.js:64 | high, not executed | Extraction.GapSheetMisnumbered | Extraction.JobsNameTheirRows |
| src/modules/vehicles/controllers/VehicleController.ts:26 | `formatPlate` deletes `Q`, `W`, `X` and the ASCII `I` (its class is `[QWXÇĞIÖŞÜ]`), but `validatePlate` accepts them as letters | `34X12` or `34I12` is accepted and saved as `34 12`, which `validatePlate` refuses | refuse the letters the formatter deletes, so that every saved plate passes validation again | medium, not executed | Plates.SavedPlateCanFailValidation | Plates.StrictPlateSavedValid |

=== FILE: calendar.dfy ===
/**
 * Calendar days as the JavaScript `Date` object sees them in local time:
 * the proleptic Gregorian calendar, a day count to compare and subtract
 * dates, the normalisation done by `new Date(year, monthIndex, day)`, and
 * the `DD.MM.YYYY` and ISO 8601 `YYYY-MM-DD` renderings the application uses.
 */
module Calendar {
  import opened Wrappers
  import opened Text

  datatype Date = Date(year: int, month: int, day: int)

  predicate IsLeap(y: int) {
    y % 4 == 0 && (y % 100 != 0 || y % 400 == 0)
  }

  function DaysInMonth(y: int, m: int): (n: int)
    requires 1 <= m <= 12
    ensures 28 <= n <= 31
    ensures n == 29 <==> m == 2 && IsLeap(y)
  {
    if m == 2 then (if IsLeap(y) then 29 else 28)
    else if m == 4 || m == 6 || m == 9 || m == 11 then 30
    else 31
  }

  /** A real calendar day. */
  predicate Valid(d: Date) {
    1 <= d.month <= 12 && 1 <= d.day <= DaysInMonth(d.year, d.month)
  }

  function NextDay(d: Date): (r: Date)
    requires Valid(d)
    ensures Valid(r)
  {
    if d.day < DaysInMonth(d.year, d.month) then Date(d.year, d.month, d.day + 1)
    else if d.month < 12 then Date(d.year, d.month + 1, 1)
    else Date(d.year + 1, 1, 1)
  }

  function PrevDay(d: Date): (r: Date)
    requires Valid(d)
    ensures Valid(r)
  {
    if d.day > 1 then Date(d.year, d.month, d.day - 1)
    else if d.month > 1 then Date(d.year, d.month - 1, DaysInMonth(d.year, d.month - 1))
    else Date(d.year - 1, 12, 31)
  }

  /** `date.setDate(date.getDate() + k)`: move `k` days forward (backward when negative). */
  function AddDays(d: Date, k: int): (r: Date)
    requires Valid(d)
    ensures Valid(r)
    decreases if k < 0 then -k else k
  {
    if k == 0 then d
    else if k > 0 then AddDays(NextDay(d), k - 1)
    else AddDays(PrevDay(d), k + 1)
  }

  // -------------------------------------------------------------- day numbers

  /** Days in the years before `y` (counted from year 1; negative before it). */
  function DaysBeforeYear(y: int): int {
    365 * (y - 1) + (y - 1) / 4 - (y - 1) / 100 + (y - 1) / 400
  }

  function DaysBeforeMonth(y: int, m: int): int
    requires 1 <= m <= 12
  {
    [0, 31, 59, 90, 120, 151, 181, 212, 243, 273, 304, 334][m - 1]
      + (if m > 2 && IsLeap(y) then 1 else 0)
  }

  lemma MonthStep(y: int, m: int)
    requires 1 <= m < 12
    ensures DaysBeforeMonth(y, m + 1) == DaysBeforeMonth(y, m) + DaysInMonth(y, m)
  {
  }

  /** A count of days that grows by one from each day to the next. */
  function DayNumber(d: Date): int
    requires Valid(d)
  {
    DaysBeforeYear(d.year) + DaysBeforeMonth(d.year, d.month) + d.day
  }

  lemma YearLength(y: int)
    ensures DaysBeforeYear(y + 1) == DaysBeforeYear(y) + (if IsLeap(y) then 366 else 365)
  {
    FloorStep4(y);
    FloorStep100(y);
    FloorStep400(y);
  }

  lemma FloorStep4(y: int)
    ensures y / 4 - (y - 1) / 4 == (if y % 4 == 0 then 1 else 0)
  {
  }

  lemma FloorStep100(y: int)
    ensures y / 100 - (y - 1) / 100 == (if y % 100 == 0 then 1 else 0)
  {
  }

  lemma FloorStep400(y: int)
    ensures y / 400 - (y - 1) / 400 == (if y % 400 == 0 then 1 else 0)
  {
  }

  lemma MonthBounds(y: int, m: int)
    requires 1 <= m <= 12
    ensures DaysBeforeMonth(y, m) + DaysInMonth(y, m) <= (if IsLeap(y) then 366 else 365)
    ensures DaysBeforeMonth(y, m) >= 0
  {
  }

  /** Each day's number is one more than the day before. */
  lemma NextDayNumber(d: Date)
    requires Valid(d)
    ensures DayNumber(NextDay(d)) == DayNumber(d) + 1
  {
    if d.day == DaysInMonth(d.year, d.month) {
      if d.month == 12 { YearLength(d.year); } else { MonthStep(d.year, d.month); }
    }
  }

  lemma PrevDayNumber(d: Date)
    requires Valid(d)
    ensures DayNumber(PrevDay(d)) == DayNumber(d) - 1
  {
    if d.day == 1 {
      if d.month == 1 { YearLength(d.year - 1); } else { MonthStep(d.year, d.month - 1); }
    }
  }

  /** Moving `k` days moves the day number by exactly `k`. */
  lemma {:induction false} AddDaysNumber(d: Date, k: int)
    requires Valid(d)
    ensures DayNumber(AddDays(d, k)) == DayNumber(d) + k
    decreases if k < 0 then -k else k
  {
    if k > 0 {
      NextDayNumber(d);
      AddDaysNumber(NextDay(d), k - 1);
    } else if k < 0 {
      PrevDayNumber(d);
      AddDaysNumber(PrevDay(d), k + 1);
    }
  }

  /** The days of a year have numbers strictly between the numbers bounding that year. */
  lemma YearRange(d: Date)
    requires Valid(d)
    ensures DaysBeforeYear(d.year) < DayNumber(d) <= DaysBeforeYear(d.year + 1)
  {
    MonthBounds(d.year, d.month);
    YearLength(d.year);
  }

  lemma {:induction false} YearsApart(a: int, b: int)
    requires a <= b
    ensures DaysBeforeYear(b) - DaysBeforeYear(a) >= 365 * (b - a)
    decreases b - a
  {
    if a < b {
      YearsApart(a, b - 1);
      YearLength(b - 1);
    }
  }

  lemma {:induction false} MonthsApart(y: int, m1: int, m2: int)
    requires 1 <= m1 < m2 <= 12
    ensures DaysBeforeMonth(y, m2) >= DaysBeforeMonth(y, m1) + DaysInMonth(y, m1)
    decreases m2 - m1
  {
    MonthStep(y, m1);
    if m1 + 1 < m2 {
      MonthsApart(y, m1, m2 - 1);
      MonthStep(y, m2 - 1);
    }
  }

  /** Different days have different numbers. */
  lemma DayNumberInjective(a: Date, b: Date)
    requires Valid(a) && Valid(b) && DayNumber(a) == DayNumber(b)
    ensures a == b
  {
    YearRange(a);
    YearRange(b);
    if a.year < b.year {
      YearsApart(a.year + 1, b.year);
    } else if b.year < a.year {
      YearsApart(b.year + 1, a.year);
    }
    assert a.year == b.year;
    if a.month < b.month {
      MonthsApart(a.year, a.month, b.month);
    } else if b.month < a.month {
      MonthsApart(a.year, b.month, a.month);
    }
  }

  // ------------------------------------------------------ the Date constructor

  /**
   * `new Date(y, monthIndex, day)`: a year 0..99 means 1900 + y; the month
   * index overflows into the year and the day overflows into the month.
   */
  function MakeDate(y: int, monthIndex: int, day: int): (r: Date)
    ensures Valid(r)
  {
    var yr := if 0 <= y <= 99 then 1900 + y else y;
    AddDays(Date(yr + monthIndex / 12, monthIndex % 12 + 1, 1), day - 1)
  }

  /** For a real day of a year outside 0..99 the constructor gives that day back. */
  lemma MakeDateExact(d: Date)
    requires Valid(d) && !(0 <= d.year <= 99)
    ensures MakeDate(d.year, d.month - 1, d.day) == d
  {
    var first := Date(d.year, d.month, 1);
    assert (d.month - 1) / 12 == 0 && (d.month - 1) % 12 + 1 == d.month;
    AddDaysNumber(first, d.day - 1);
    DayNumberInjective(AddDays(first, d.day - 1), d);
  }

  /** Years 0..99 are read as 1900..1999 (29 February of year 0 has no counterpart in 1900). */
  lemma MakeDateTwoDigitYear(d: Date)
    requires Valid(d) && 0 <= d.year <= 99 && Valid(Date(1900 + d.year, d.month, d.day))
    ensures MakeDate(d.year, d.month - 1, d.day) == Date(1900 + d.year, d.month, d.day)
  {
    MakeDateExact(Date(1900 + d.year, d.month, d.day));
  }

  // ------------------------------------------------------------- renderings

  /** `String(n)` for an integer. */
  function IntToString(i: int): (s: string)
    ensures |s| >= 1
  {
    if i < 0 then "-" + NatToString(-i) else NatToString(i)
  }

  /**
   * `formatDate` (src/shared/types/Job.ts): day and month padded to two
   * digits, then the year as `String(year)` prints it, joined by dots.
   */
  function FormatDotted(d: Date): (s: string)
    requires Valid(d)
    ensures |s| >= 7 && s[2] == '.' && s[5] == '.'
  {
    Pad2(d.day) + "." + Pad2(d.month) + "." + IntToString(d.year)
  }

  /**
   * `parseDate` (src/shared/types/Job.ts): split on dots and give the parts,
   * read by `parseInt`, to `new Date(year, month - 1, day)`. `None` stands
   * for an Invalid Date (a part missing or not a number).
   */
  function ParseDotted(s: string): (r: Option<Date>)
    ensures r.Some? ==> Valid(r.value)
  {
    DateOfParts(Split(s, '.'))
  }

  function DateOfParts(parts: seq<string>): (r: Option<Date>)
    ensures r.Some? ==> Valid(r.value)
  {
    if |parts| < 3 then None
    else DateOf(ParseInt(parts[0]), ParseInt(parts[1]), ParseInt(parts[2]))
  }

  /** `new Date(year, month - 1, day)` of three parsed parts; `None` if one is NaN. */
  function DateOf(day: Option<int>, month: Option<int>, year: Option<int>): (r: Option<Date>)
    ensures r.Some? ==> Valid(r.value)
  {
    if day.Some? && month.Some? && year.Some? then Some(MakeDate(year.value, month.value - 1, day.value))
    else None
  }

  lemma ParseIntString(i: int)
    ensures ParseInt(IntToString(i)) == Some(i)
  {
    var t := NatToString(if i < 0 then -i else i);
    NatToStringRoundTrip(if i < 0 then -i else i);
    if i < 0 {
      ParseIntMinus(t);
    } else {
      ParseIntDigits(t);
    }
  }

  lemma ParseIntPad2(n: nat)
    ensures ParseInt(Pad2(n)) == Some(n)
  {
    Pad2RoundTrip(n);
    ParseIntDigits(Pad2(n));
  }

  /** `parseDate` reads back the three numbers `formatDate` printed. */
  lemma ParseFormatted(d: Date)
    requires Valid(d)
    ensures ParseDotted(FormatDotted(d)) == Some(MakeDate(d.year, d.month - 1, d.day))
  {
    var s := FormatDotted(d);
    FormattedParts(d);
    ParseIntPad2(d.day);
    ParseIntPad2(d.month);
    ParseIntString(d.year);
    PartsRead(Pad2(d.day), Pad2(d.month), IntToString(d.year), d.day, d.month, d.year);
    assert ParseDotted(s) == DateOfParts(Split(s, '.'));
  }

  /**
   * `parseInt` reads a `0x` prefix as hexadecimal, so `parseDate` takes the
   * day `0x1F` as 31: "0x1F.01.2025" is 31 January 2025.
   */
  lemma ParseDottedHex()
    ensures ParseDotted("0x1F.01.2025") == Some(Date(2025, 1, 31))
  {
    HexDateParts();
    HexDateNumbers();
    PartsRead("0x1F", "01", "2025", 31, 1, 2025);
    MakeDateExact(Date(2025, 1, 31));
  }

  lemma HexDateParts()
    ensures Split("0x1F.01.2025", '.') == ["0x1F", "01", "2025"]
  {
    var a, b, c := "0x1F", "01", "2025";
    assert a + "." + b + "." + c == "0x1F.01.2025";
    JoinThree(a, b, c, ".");
    SplitJoin([a, b, c], '.');
  }

  lemma HexDateNumbers()
    ensures ParseInt("0x1F") == Some(31) && ParseInt("01") == Some(1) && ParseInt("2025") == Some(2025)
  {
    HexDay();
    ParseIntPad2(1);
    assert Pad2(1) == "01" by { assert NatToString(1) == "1"; }
    HexYear();
  }

  lemma HexYear()
    ensures ParseInt("2025") == Some(2025)
  {
    ParseIntString(2025);
    assert IntToString(2025) == "2025";
  }

  lemma HexDay()
    ensures ParseInt("0x1F") == Some(31)
  {
    assert "0x1F"[2..] == "1F";
    ParseIntHex("0x1F");
    assert HexToNat("1F") == 31 by { assert "1F"[..1] == "1"; }
  }

  lemma PartsRead(a: string, b: string, c: string, day: int, month: int, year: int)
    requires ParseInt(a) == Some(day) && ParseInt(b) == Some(month) && ParseInt(c) == Some(year)
    ensures DateOfParts([a, b, c]) == Some(MakeDate(year, month - 1, day))
  {
  }

  /** The three parts `formatDate` joins with dots. */
  lemma FormattedParts(d: Date)
    requires Valid(d)
    ensures Split(FormatDotted(d), '.') == [Pad2(d.day), Pad2(d.month), IntToString(d.year)]
  {
    var y := IntToString(d.year);
    assert '.' !in y;
    JoinThree(Pad2(d.day), Pad2(d.month), y, ".");
    SplitJoin([Pad2(d.day), Pad2(d.month), y], '.');
  }

  /** `parseDate(formatDate(d))` is the same day, for every year outside 0..99. */
  lemma DottedRoundTrip(d: Date)
    requires Valid(d) && !(0 <= d.year <= 99)
    ensures ParseDotted(FormatDotted(d)) == Some(d)
  {
    ParseFormatted(d);
    MakeDateExact(d);
  }

  /** A day formatted in a year 0..99 comes back in the 1900s. */
  lemma DottedTwoDigitYear(d: Date)
    requires Valid(d) && 0 <= d.year <= 99 && Valid(Date(1900 + d.year, d.month, d.day))
    ensures ParseDotted(FormatDotted(d)) == Some(Date(1900 + d.year, d.month, d.day))
  {
    ParseFormatted(d);
    MakeDateTwoDigitYear(d);
  }

  /** `toISOString().split('T')[0]` for years 0..9999: `YYYY-MM-DD`. */
  function IsoDate(d: Date): (s: string)
    requires Valid(d) && 0 <= d.year <= 9999
    ensures |s| == 10 && s[4] == '-' && s[7] == '-'
  {
    assert |NatToString(d.year)| <= 4 by { NatToStringLength(d.year); }
    Pad4(d.year) + "-" + Pad2(d.month) + "-" + Pad2(d.day)
  }

  /** An ISO date has no dot, so reading it as `DD.MM.YYYY` finds one part only. */
  lemma IsoDateUndotted(d: Date)
    requires Valid(d) && 0 <= d.year <= 9999
    ensures '.' !in IsoDate(d)
    ensures ParseDotted(IsoDate(d)).None?
  {
    assert |NatToString(d.year)| <= 4 by { NatToStringLength(d.year); }
    var y, m, dd := Pad4(d.year), Pad2(d.month), Pad2(d.day);
    var s := y + "-" + m + "-" + dd;
    assert s == IsoDate(d);
    forall i | 0 <= i < |s| ensures s[i] != '.' {
      if i < |y| {
        assert s[i] == y[i];
      } else if i == |y| {
      } else if i < |y| + 1 + |m| {
        assert s[i] == m[i - |y| - 1];
      } else if i == |y| + 1 + |m| {
      } else {
        assert s[i] == dd[i - |y| - 2 - |m|];
      }
    }
  }

  lemma {:induction false} NatToStringLength(n: nat)
    ensures n < 10000 ==> |NatToString(n)| <= 4
    decreases n
  {
    if n >= 10 { NatToStringLength(n / 10); }
  }
}

=== FILE: casing.dfy ===
/**
 * `String.prototype.toUpperCase` and `toLowerCase` on the characters the
 * program's text can hold: ASCII letters, the Turkish letters and, for upper
 * case, every character whose upper case contains an ASCII letter. Other
 * characters are mapped to themselves.
 */
module Casing {
  import opened Text

  // ------------------------------------------------------------ upper case

  /**
   * `toUpperCase()` of one character. Every character whose upper case holds
   * an ASCII letter is listed (ASCII `a`–`z`, dotless `ı`, long `ſ`, `ß` and
   * the Latin ligatures and letters with a combining mark that upper-case to
   * two or three characters), as are the Turkish lower-case letters of the
   * plate fold table. Any other character is kept as it is.
   */
  function UpperChar(c: char): string
  {
    if IsLower(c) then [(c as int - 32) as char]
    else if c == 'ç' then "Ç"
    else if c == 'ğ' then "Ğ"
    else if c == 'ö' then "Ö"
    else if c == 'ş' then "Ş"
    else if c == 'ü' then "Ü"
    else if c == 'ı' then "I"
    else if c == '\U{017F}' then "S"
    else if c == '\U{00DF}' then "SS"
    else if c == '\U{FB00}' then "FF"
    else if c == '\U{FB01}' then "FI"
    else if c == '\U{FB02}' then "FL"
    else if c == '\U{FB03}' then "FFI"
    else if c == '\U{FB04}' then "FFL"
    else if c == '\U{FB05}' || c == '\U{FB06}' then "ST"
    else if c == '\U{0149}' then "\U{02BC}N"
    else if c == '\U{01F0}' then "J\U{030C}"
    else if c == '\U{1E96}' then "H\U{0331}"
    else if c == '\U{1E97}' then "T\U{0308}"
    else if c == '\U{1E98}' then "W\U{030A}"
    else if c == '\U{1E99}' then "Y\U{030A}"
    else if c == '\U{1E9A}' then "A\U{02BE}"
    else [c]
  }

  function Upper(s: string): string
  {
    if s == [] then [] else UpperChar(s[0]) + Upper(s[1..])
  }

  /** Capital letters, digits and spaces are their own upper case. */
  lemma {:induction false} UpperFixed(s: string)
    requires forall k :: 0 <= k < |s| ==> IsUpper(s[k]) || IsDigit(s[k]) || s[k] == ' '
    ensures Upper(s) == s
  {
    if s != [] {
      assert UpperChar(s[0]) == [s[0]];
      UpperFixed(s[1..]);
    }
  }

  lemma {:induction false} UpperConcat(a: string, b: string)
    ensures Upper(a + b) == Upper(a) + Upper(b)
  {
    if a == [] {
      assert a + b == b;
    } else {
      assert (a + b)[0] == a[0];
      assert (a + b)[1..] == a[1..] + b;
      UpperConcat(a[1..], b);
    }
  }

  // ------------------------------------------------------------ lower case

  /** `toLowerCase()` of one character (without a locale, so `I` becomes `i` and `İ` becomes `i` with a combining dot). */
  function LowerChar(c: char): string
  {
    if IsUpper(c) then [(c as int + 32) as char]
    else if c == 'Ç' then "ç"
    else if c == 'Ğ' then "ğ"
    else if c == 'Ö' then "ö"
    else if c == 'Ş' then "ş"
    else if c == 'Ü' then "ü"
    else if c == 'İ' then "i\U{0307}"
    else [c]
  }

  function Lower(s: string): string
  {
    if s == [] then [] else LowerChar(s[0]) + Lower(s[1..])
  }

  lemma {:induction false} LowerConcat(a: string, b: string)
    ensures Lower(a + b) == Lower(a) + Lower(b)
  {
    if a == [] {
      assert a + b == b;
    } else {
      assert (a + b)[0] == a[0];
      assert (a + b)[1..] == a[1..] + b;
      LowerConcat(a[1..], b);
    }
  }

  // ------------------------------------------------------------ what case mapping keeps

  /** Whitespace, `@` and `.`: the characters the e-mail and name checks look for. */
  predicate Kept(c: char) { IsSpace(c) || c == '@' || c == '.' }

  /**
   * Lower-casing sends each character to a non-empty string, and a kept
   * character appears in it only when the character was mapped to itself.
   */
  lemma LowerOfChar(c: char)
    ensures |LowerChar(c)| >= 1
    ensures Kept(c) ==> LowerChar(c) == [c]
    ensures forall k :: 0 <= k < |LowerChar(c)| && Kept(LowerChar(c)[k]) ==> LowerChar(c) == [c]
  {
  }

  /** The same for upper-casing. */
  lemma UpperOfChar(c: char)
    ensures |UpperChar(c)| >= 1
    ensures Kept(c) ==> UpperChar(c) == [c]
    ensures forall k :: 0 <= k < |UpperChar(c)| && Kept(UpperChar(c)[k]) ==> UpperChar(c) == [c]
  {
    var u := UpperChar(c);
    if IsLower(c) {
      assert u == [(c as int - 32) as char];
    } else if |u| == 1 {
      assert u == [c] || !Kept(u[0]);
    }
  }

  /** Lower-casing never makes a string shorter, and every kept character of the result was already in the input. */
  lemma {:induction false} LowerKept(s: string)
    ensures |Lower(s)| >= |s|
    ensures forall k :: 0 <= k < |Lower(s)| && Kept(Lower(s)[k]) ==> Lower(s)[k] in s
  {
    if s != [] {
      LowerOfChar(s[0]);
      LowerKept(s[1..]);
      var h, t := LowerChar(s[0]), Lower(s[1..]);
      assert Lower(s) == h + t;
      forall k | 0 <= k < |h + t| && Kept((h + t)[k]) ensures (h + t)[k] in s {
        if k >= |h| {
          assert (h + t)[k] == t[k - |h|];
          assert (h + t)[k] in s[1..];
        }
      }
    }
  }

  /** Lower-casing a lower-cased string changes nothing. */
  lemma {:induction false} LowerIdempotent(s: string)
    ensures Lower(Lower(s)) == Lower(s)
  {
    if s != [] {
      LowerIdempotent(s[1..]);
      LowerCharIdempotent(s[0]);
      LowerConcat(LowerChar(s[0]), Lower(s[1..]));
    }
  }

  lemma LowerCharIdempotent(c: char)
    ensures Lower(LowerChar(c)) == LowerChar(c)
  {
    var l := LowerChar(c);
    if |l| == 1 {
      assert Lower(l) == LowerChar(l[0]) + Lower([]);
      if IsUpper(c) {
        assert IsLower(l[0]);
      }
    } else {
      assert l == "i\U{0307}";
      assert Lower(l) == LowerChar('i') + Lower("\U{0307}");
    }
  }

  /** Whitespace is its own lower case. */
  lemma {:induction false} LowerSpaces(s: string)
    requires AllSpaces(s)
    ensures Lower(s) == s
  {
    if s != [] {
      assert AllSpaces(s[1..]) by {
        forall k | 0 <= k < |s[1..]| ensures IsSpace(s[1..][k]) { assert s[1..][k] == s[k + 1]; }
      }
      LowerSpaces(s[1..]);
      LowerOfChar(s[0]);
      assert [s[0]] + s[1..] == s;
    }
  }
}

=== FILE: courtform.dfy ===
/**
 * The court form: word-case formatting of the court name while it is typed,
 * the phone formatting hook, the checks before submission, and the form
 * filled from a court being edited or picked from the suggestions.
 */
module CourtForms {
  import opened Wrappers
  import opened Text
  import opened Casing
  import opened Courts
  import Similarity

  datatype CourtFormData = CourtFormData(
    name: string, city: string, phone: string, email: string, contact: string, notes: string)

  /** The form of a new court: every field empty but the city, which starts as Antalya. */
  const NewCourtForm := CourtFormData("", "Antalya", "", "", "", "")

  /** `value || ''` */
  function OrEmpty(o: Option<string>): string { if o.Some? then o.value else "" }

  /**
   * The form filled from a court (`resetForm` in edit mode, and
   * `handleNameSuggestionSelect`): name and city as they are, the optional
   * fields blank when absent.
   */
  function FormOfCourt(c: Court): (f: CourtFormData)
    ensures f.name == c.name && f.city == c.city
    ensures DropEmpty(Some(f.phone)) == DropEmpty(c.phone) && DropEmpty(Some(f.email)) == DropEmpty(c.email)
    ensures DropEmpty(Some(f.contact)) == DropEmpty(c.contact) && DropEmpty(Some(f.notes)) == DropEmpty(c.notes)
  {
    CourtFormData(c.name, c.city, OrEmpty(c.phone), OrEmpty(c.email), OrEmpty(c.contact), OrEmpty(c.notes))
  }

  /** `resetForm`: the edited court's fields, or the new-court form. */
  function ResetForm(editing: Option<Court>): (f: CourtFormData)
    ensures editing.None? ==> f == NewCourtForm
    ensures editing.Some? ==> f == FormOfCourt(editing.value)
  {
    match editing
    case None => NewCourtForm
    case Some(c) => FormOfCourt(c)
  }

  /**
   * The request the form sends: its six fields, each present (an empty field
   * is sent as the empty string); district, type and address are not on the
   * form and are absent.
   */
  function FormRequest(f: CourtFormData): (r: CourtRequest)
    ensures r.name == f.name && r.city == f.city
    ensures r.district.None? && r.courtType.None? && r.address.None?
  {
    CourtRequest(f.name, f.city, None, None, None, Some(f.phone), Some(f.email), Some(f.contact), Some(f.notes))
  }

  // ------------------------------------------------------------ submission

  /**
   * `handleSubmit`: the checks of the controller, in its order, on the form's
   * fields; the message of the first failure, or none. It refuses exactly
   * what the controller would refuse, with the same message.
   */
  function CheckCourtForm(f: CourtFormData): (r: Option<string>)
    ensures r.None? <==> SaveCourt(FormRequest(f)).Ok?
    ensures r.Some? ==> SaveCourt(FormRequest(f)) == Err(r.value)
  {
    var req := FormRequest(f);
    assert Checked(req.phone) == (f.phone != [] && !IsBlank(f.phone));
    assert Checked(req.email) == (f.email != [] && !IsBlank(f.email));
    if IsBlank(f.name) then Some(NameRequired)
    else if IsBlank(f.city) then Some(CityRequired)
    else if f.phone != [] && !IsBlank(f.phone) && !ValidatePhone(f.phone) then Some(InvalidPhone)
    else if f.email != [] && !IsBlank(f.email) && !ValidateEmail(f.email) then Some(InvalidEmail)
    else None
  }

  /** The controller call a submission makes. */
  datatype CourtCall = Create(req: CourtRequest) | Update(id: int, req: CourtRequest)

  /**
   * `handleSubmit`: nothing is sent when a check fails; otherwise the form is
   * sent as an update of the edited court, or as a new court.
   */
  function SubmitCourtForm(f: CourtFormData, editing: Option<Court>): (r: Result<CourtCall>)
    ensures r.Ok? <==> CheckCourtForm(f).None?
    ensures r.Err? ==> r.message == CheckCourtForm(f).value
    ensures r.Ok? ==> r.value.req == FormRequest(f) && (r.value.Update? <==> editing.Some?)
    ensures r.Ok? && editing.Some? ==> r.value.id == editing.value.id
  {
    match CheckCourtForm(f)
    case Some(m) => Err(m)
    case None => if editing.Some? then Ok(Update(editing.value.id, FormRequest(f))) else Ok(Create(FormRequest(f)))
  }

  /**
   * Opening a saved court for editing and submitting it unchanged passes the
   * checks, and the controller stores the same phone, e-mail, contact and
   * notes again (a field that was empty is now absent).
   */
  lemma EditUnchangedResaves(req: CourtRequest, id: int)
    requires SaveCourt(req).Ok?
    ensures var s := SaveCourt(req).value;
      var c := Court(id, s.name, s.city, s.district, s.courtType, s.address, s.phone, s.email, s.contact, s.notes);
      var again := SaveCourt(FormRequest(FormOfCourt(c)));
      again.Ok?
      && again.value.phone == DropEmpty(s.phone) && again.value.email == DropEmpty(s.email)
      && again.value.contact == DropEmpty(s.contact) && again.value.notes == DropEmpty(s.notes)
  {
    var s := SaveCourt(req).value;
    ResaveCourt(req);
    var c := Court(id, s.name, s.city, s.district, s.courtType, s.address, s.phone, s.email, s.contact, s.notes);
    var f := FormOfCourt(c);
    ResaveField(s.phone, FormatPhone);
    ResaveField(s.email, StoredEmail);
    ResaveField(s.contact, Trim);
    ResaveField(s.notes, Trim);
  }

  /** Sending a field through the form (absent becomes empty) and saving it is saving the field itself. */
  lemma ResaveField(o: Option<string>, g: string -> string)
    ensures MapTruthy(Some(OrEmpty(o)), g) == MapTruthy(o, g)
    ensures Checked(Some(OrEmpty(o))) <==> Checked(o)
  {
  }

  // ------------------------------------------------------------ name case

  /** `word.charAt(0).toUpperCase() + word.slice(1).toLowerCase()`, the empty word left as it is. */
  function CapWord(w: string): string
  {
    if w == [] then [] else UpperChar(w[0]) + Lower(w[1..])
  }

  /** Re-casing a word never introduces a space. */
  lemma CapWordNoSpace(w: string)
    requires ' ' !in w
    ensures ' ' !in CapWord(w)
  {
    if w != [] {
      UpperOfChar(w[0]);
      LowerKept(w[1..]);
      assert ' ' !in w[1..];
    }
  }

  function CapWords(ws: seq<string>): (r: seq<string>)
    ensures |r| == |ws|
  {
    seq(|ws|, k requires 0 <= k < |ws| => CapWord(ws[k]))
  }

  /**
   * `formatCourtName`: a blank name is returned as it is; otherwise every
   * space-separated word is re-cased and the words are joined by the same
   * single spaces.
   */
  function FormatCourtName(name: string): (r: string)
    ensures IsBlank(name) ==> r == name
  {
    if IsBlank(name) then name else Join(CapWords(Split(name, ' ')), " ")
  }

  /** Words without spaces stay without spaces after re-casing. */
  lemma CapWordsNoSpace(ws: seq<string>)
    requires forall k :: 0 <= k < |ws| ==> ' ' !in ws[k]
    ensures forall k :: 0 <= k < |CapWords(ws)| ==> ' ' !in CapWords(ws)[k]
  {
    forall k | 0 <= k < |ws| ensures ' ' !in CapWords(ws)[k] {
      CapWordNoSpace(ws[k]);
    }
  }

  /**
   * A formatted name splits at its spaces into exactly the words of the
   * input, each re-cased: every space is kept where it was, runs of spaces
   * included.
   */
  lemma FormatCourtNameWords(name: string)
    requires !IsBlank(name)
    ensures Split(FormatCourtName(name), ' ') == CapWords(Split(name, ' '))
  {
    CapWordsNoSpace(Split(name, ' '));
    SplitJoin(CapWords(Split(name, ' ')), ' ');
  }

  /**
   * `handleNameChange`: a value ending in a space is kept as typed;
   * otherwise its last space-separated word, when not empty, is re-cased.
   */
  function HandleNameChange(value: string): (r: string)
    ensures value != [] && value[|value| - 1] == ' ' ==> r == value
  {
    if value != [] && value[|value| - 1] == ' ' then value
    else
      var words := Split(value, ' ');
      var last := words[|words| - 1];
      if last != [] then Join(words[..|words| - 1] + [CapWord(last)], " ")
      else Join(words, " ")
  }

  /**
   * Outside that case, the words of the new value are those of the typed
   * value with only the last one re-cased.
   */
  lemma HandleNameChangeLastWord(value: string)
    requires value == [] || value[|value| - 1] != ' '
    ensures var words := Split(value, ' ');
      Split(HandleNameChange(value), ' ') == words[..|words| - 1] + [CapWord(words[|words| - 1])]
  {
    var words := Split(value, ' ');
    var n := |words|;
    var last := words[n - 1];
    var ws := words[..n - 1] + [CapWord(last)];
    if last != [] {
      assert HandleNameChange(value) == Join(ws, " ");
      LastRecased(words, ws);
    } else {
      assert ws == words;
      JoinSplit(value, ' ');
    }
  }

  /** Words without spaces, the last re-cased, split back from their join. */
  lemma LastRecased(words: seq<string>, ws: seq<string>)
    requires words != [] && forall k :: 0 <= k < |words| ==> ' ' !in words[k]
    requires ws == words[..|words| - 1] + [CapWord(words[|words| - 1])]
    ensures Split(Join(ws, " "), ' ') == ws
  {
    var n := |words|;
    CapWordNoSpace(words[n - 1]);
    forall k | 0 <= k < n ensures ' ' !in ws[k] {
      if k < n - 1 { assert ws[k] == words[k]; }
    }
    SplitJoin(ws, ' ');
  }

  /** The word just typed is cased as `formatCourtName` would case it. */
  lemma TypedWordFormatted(value: string)
    requires !IsBlank(value) && value[|value| - 1] != ' '
    ensures var ws := Split(HandleNameChange(value), ' ');
      var fs := Split(FormatCourtName(value), ' ');
      |ws| == |fs| && ws[|ws| - 1] == fs[|fs| - 1]
  {
    HandleNameChangeLastWord(value);
    FormatCourtNameWords(value);
  }

  // ------------------------------------------------------------ other hooks

  /** `handlePhoneChange`: the phone is stored formatted, which formatting again would not change. */
  function PhoneChanged(f: CourtFormData, value: string): (r: CourtFormData)
    ensures r.phone == FormatPhone(value) && FormatPhone(r.phone) == r.phone
    ensures r.(phone := f.phone) == f
  {
    FormatPhoneIdempotent(value);
    f.(phone := FormatPhone(value))
  }

  /**
   * `loadNameSuggestions`: every court but the one being edited, offered
   * with its name as the text to compare.
   */
  function NameSuggestions(all: seq<Court>, editing: Option<Court>): (r: seq<Similarity.Suggestion>)
    ensures editing.None? ==> |r| == |all|
    ensures editing.Some? ==> forall k :: 0 <= k < |r| ==> r[k].id != editing.value.id
    ensures forall k :: 0 <= k < |r| ==> exists c :: c in all && r[k] == Similarity.Suggestion(c.id, c.name)
    ensures forall c :: c in all && (editing.None? || c.id != editing.value.id) ==>
      Similarity.Suggestion(c.id, c.name) in r
  {
    var kept := if editing.Some? then WithoutCourt(all, editing.value.id) else all;
    var r := seq(|kept|, k requires 0 <= k < |kept| => Similarity.Suggestion(kept[k].id, kept[k].name));
    assert forall k :: 0 <= k < |kept| ==> r[k] == Similarity.Suggestion(kept[k].id, kept[k].name);
    r
  }
}

=== FILE: courtimport.dfy ===
/**
 * scripts/import-courts-from-md.js: the numbered lines of MAHKEMELER.md
 * are court names; each one not yet in the `courts` table is inserted in
 * Antalya, with Korkuteli as its district when the name mentions it.
 */
module CourtImport {
  import opened Wrappers
  import opened Text
  import opened Store
  import Extraction
  import Records

  // ------------------------------------------------------------ reading the file

  /** `/^\d+\.\s/` at the start of `s`: the length of the match, 0 when there is none. */
  function NumberPrefix(s: string): (k: nat)
    ensures k <= |s|
  {
    var d := DigitRun(s);
    if d >= 1 && d + 1 < |s| && s[d] == '.' && IsSpace(s[d + 1]) then d + 2 else 0
  }

  /** The pattern matches exactly when one or more digits, a dot and a space open the text. */
  lemma NumberPrefixMatches(s: string)
    ensures NumberPrefix(s) > 0 <==>
      exists d :: 1 <= d && d + 1 < |s| && AllDigits(s[..d]) && s[d] == '.' && IsSpace(s[d + 1])
    ensures NumberPrefix(s) > 0 ==>
      var d := NumberPrefix(s) - 2; AllDigits(s[..d]) && s[d] == '.' && IsSpace(s[d + 1])
  {
    if d :| 1 <= d && d + 1 < |s| && AllDigits(s[..d]) && s[d] == '.' && IsSpace(s[d + 1]) {
      assert d == DigitRun(s);
    }
  }

  /** `/^\d+\.\s/.test(line.trim())` */
  predicate Numbered(line: string) {
    NumberPrefix(Trim(line)) > 0
  }

  /** `line.replace(/^\d+\.\s/, '').trim()`: the pattern is looked for in the untrimmed line. */
  function Stripped(line: string): string {
    Trim(line[NumberPrefix(line)..])
  }

  /** The court names of the file, in the order of its lines. */
  function NamesOf(md: string): seq<string> {
    Map(Select(Split(md, '\n'), Numbered), Stripped)
  }

  /** A line the numbering pattern does not open. */
  lemma ProseUnnumbered(l: string)
    requires Extraction.Prose(l)
    ensures !Numbered(l)
  {
    if l != [] {
      assert TrimStart(l) == l;
      assert Trim(l) == [] || Trim(l)[0] == l[0];
    }
  }

  /** A digit run stops where the digits of `d` end. */
  lemma DigitRunPrefix(d: string, rest: string)
    requires AllDigits(d) && rest != [] && !IsDigit(rest[0])
    ensures DigitRun(d + rest) == |d|
  {
    var k := DigitRun(d + rest);
    if k < |d| {
      assert false;
    } else if k > |d| {
      DigitInRun(d + rest, k, |d|);
      assert false;
    }
  }

  lemma DigitInRun(s: string, k: nat, j: nat)
    requires j < k <= |s| && AllDigits(s[..k])
    ensures IsDigit(s[j])
  {
    assert s[..k][j] == s[j];
  }

  /** Text neither starting nor ending with whitespace is its own trim. */
  lemma Trimmed(s: string)
    requires s != [] && !IsSpace(s[0]) && !IsSpace(s[|s| - 1])
    ensures Trim(s) == s
  {
    assert TrimStart(s) == s;
  }

  /** Digits, a dot, a space and a name: the pattern matches up to the name. */
  lemma NumberPrefixOf(digits: string, name: string)
    requires |digits| >= 1 && AllDigits(digits) && name != []
    ensures NumberPrefix(digits + ". " + name) == |digits| + 2
    ensures (digits + ". " + name)[|digits| + 2..] == name
  {
    var line := digits + ". " + name;
    assert line == digits + (". " + name);
    DigitRunPrefix(digits, ". " + name);
    assert line[|digits|] == '.' && line[|digits| + 1] == ' ';
  }

  /** A numbered line of the courts file is read back as its name. */
  lemma CourtLineRead(i: nat, name: string)
    requires Extraction.Tidy(name) && '\n' !in name
    ensures Numbered(Extraction.CourtLine(i, name))
    ensures Stripped(Extraction.CourtLine(i, name)) == name
    ensures '\n' !in Extraction.CourtLine(i, name)
  {
    var digits := NatToString(i + 1);
    var line := Extraction.CourtLine(i, name);
    NumberPrefixOf(digits, name);
    assert line[|line| - 1] == name[|name| - 1];
    Trimmed(line);
    Trimmed(name);
    Extraction.DigitsNoBreak(i + 1);
    assert '\n' !in digits + ". ";
  }

  /** Every numbered line of the list is kept, and each gives back its name. */
  lemma CourtLinesRead(names: seq<string>)
    requires forall k :: 0 <= k < |names| ==> Extraction.Tidy(names[k]) && '\n' !in names[k]
    ensures Map(Select(Extraction.CourtsBody(names), Numbered), Stripped) == names
    ensures Extraction.CourtsBody(names) != [] && Extraction.NoBreaks(Extraction.CourtsBody(names))
  {
    var ls := Extraction.CourtsBody(names);
    if names == [] {
      assert !Numbered("") by { ProseUnnumbered(""); }
      assert Select(ls, Numbered) == [];
    } else {
      forall k | 0 <= k < |names|
        ensures Numbered(ls[k]) && Stripped(ls[k]) == names[k] && '\n' !in ls[k]
      {
        CourtLineRead(k, names[k]);
      }
    }
  }

  /** Prose lines hold no numbered line. */
  lemma ProseUnselected(ls: seq<string>)
    requires Extraction.AllProse(ls)
    ensures Select(ls, Numbered) == [] && Extraction.NoBreaks(ls)
  {
    forall k | 0 <= k < |ls|
      ensures !Numbered(ls[k])
    {
      ProseUnnumbered(ls[k]);
    }
    Extraction.SelectNone(ls, Numbered);
  }

  lemma SelectMiddle<T>(a: seq<T>, b: seq<T>, c: seq<T>, p: T -> bool)
    requires Select(a, p) == [] && Select(c, p) == []
    ensures Select(a + b + c, p) == Select(b, p)
  {
    SelectConcat(a + b, c, p);
    SelectConcat(a, b, p);
  }

  /**
   * Importing MAHKEMELER.md gives back the names written to it, in order,
   * when every name is trimmed and no name or error description holds a
   * line break.
   */
  lemma CourtsDocumentNames(names: seq<string>, errors: seq<Extraction.Unparsed>)
    requires forall k :: 0 <= k < |names| ==> Extraction.Tidy(names[k]) && '\n' !in names[k]
    requires forall k :: 0 <= k < |errors| ==> '\n' !in errors[k].description
    ensures NamesOf(Extraction.CourtsDocument(names, errors)) == names
  {
    Extraction.CourtsHeadProse(|names|);
    Extraction.CourtsTailProse(errors);
    ListNames(Extraction.CourtsHead(|names|), names, Extraction.CourtsTail(errors), Extraction.CourtsDocument(names, errors));
  }

  /** The numbered list between lines of prose. */
  lemma ListNames(head: seq<string>, names: seq<string>, tail: seq<string>, md: string)
    requires forall k :: 0 <= k < |names| ==> Extraction.Tidy(names[k]) && '\n' !in names[k]
    requires Extraction.AllProse(head) && Extraction.AllProse(tail)
    requires md == Join(head + Extraction.CourtsBody(names) + tail, "\n")
    ensures NamesOf(md) == names
  {
    ProseUnselected(head);
    ProseUnselected(tail);
    CourtLinesRead(names);
    NamesOfLines(head, Extraction.CourtsBody(names), tail, names);
  }

  /** Lines joined into a file: the names read are those of the middle lines. */
  lemma NamesOfLines(head: seq<string>, body: seq<string>, tail: seq<string>, names: seq<string>)
    requires Select(head, Numbered) == [] && Extraction.NoBreaks(head)
    requires body != [] && Map(Select(body, Numbered), Stripped) == names && Extraction.NoBreaks(body)
    requires Select(tail, Numbered) == [] && Extraction.NoBreaks(tail)
    ensures NamesOf(Join(head + body + tail, "\n")) == names
  {
    MiddleLines(head, body, tail, Numbered);
  }

  lemma MiddleLines(head: seq<string>, body: seq<string>, tail: seq<string>, p: string -> bool)
    requires Select(head, p) == [] && Extraction.NoBreaks(head)
    requires body != [] && Extraction.NoBreaks(body)
    requires Select(tail, p) == [] && Extraction.NoBreaks(tail)
    ensures var lines := head + body + tail;
      Split(Join(lines, "\n"), '\n') == lines && Select(lines, p) == Select(body, p)
  {
    SelectMiddle(head, body, tail, p);
    Extraction.NoBreaksConcat(head, body);
    Extraction.NoBreaksConcat(head + body, tail);
    Extraction.SplitLines(head + body + tail);
  }

  /** `detectCityAndDistrict` */
  datatype Place = Place(city: string, district: Option<string>)

  function DetectCityAndDistrict(name: string): (p: Place)
    ensures p.city == "Antalya"
    ensures p.district.Some? <==> Contains(name, "Korkuteli")
    ensures p.district.Some? ==> p.district.value == "Korkuteli"
  {
    if Contains(name, "Korkuteli") then Place("Antalya", Some("Korkuteli")) else Place("Antalya", None)
  }

  // ------------------------------------------------------------ inserting

  /** `!courtName || courtName.trim() === ''`: nothing but whitespace. */
  predicate Blank(name: string) {
    name == [] || (IsSpace(name[0]) && Blank(name[1..]))
  }

  /** A name is blank exactly when trimming leaves nothing of it. */
  lemma {:induction false} BlankTrims(name: string)
    ensures Blank(name) <==> IsBlank(name)
  {
    AllSpacesBlank(name);
    TrimStartEmpty(name);
  }

  lemma {:induction false} AllSpacesBlank(s: string)
    ensures Blank(s) <==> AllSpaces(s)
  {
    if s != [] {
      AllSpacesBlank(s[1..]);
      assert forall i :: 1 <= i < |s| ==> s[i] == s[1..][i - 1];
    }
  }

  /** The counters the script prints. */
  datatype Counts = Counts(success: int, duplicates: int, errors: int)

  /**
   * One name: a blank one is passed over, a name already in the table is a
   * duplicate, otherwise the court is inserted without a kind; an insert
   * the database refuses counts as an error.
   */
  function Step(t: Counts, c: Contents, name: string): (r: (Counts, Contents))
    ensures r.1.jobs == c.jobs && r.1.vehicles == c.vehicles && c.courts <= r.1.courts
    ensures WellFormed(c) ==> WellFormed(r.1)
    ensures r.0.errors == t.errors
    ensures Blank(name) ==> r == (t, c)
    ensures !Blank(name) ==> FindExact(r.1.courts, name).Some?
    ensures !Blank(name) ==> r.0.success + r.0.duplicates == t.success + t.duplicates + 1
    ensures r.0.success == t.success + |r.1.courts| - |c.courts|
  {
    if Blank(name) then (t, c)
    else if FindExact(c.courts, name).Some? then (t.(duplicates := t.duplicates + 1), c)
    else
      var place := DetectCityAndDistrict(name);
      var (id, c') := AddCourt(c, name, place.city, place.district, None);
      FindAppend(c.courts, [Court(id.value, name, place.city, place.district, None)], name);
      if id.None? then (t.(errors := t.errors + 1), c') else (t.(success := t.success + 1), c')
  }

  /**
   * The `for` loop over the names, as a function of the database before
   * it: no insert fails, the inserted courts go after the ones already
   * there, and nothing but the courts changes.
   */
  function ImportNames(c: Contents, names: seq<string>): (r: (Counts, Contents))
    ensures r.0.errors == 0 && r.0.success == |r.1.courts| - |c.courts|
    ensures r.1.jobs == c.jobs && r.1.vehicles == c.vehicles && c.courts <= r.1.courts
    ensures WellFormed(c) ==> WellFormed(r.1)
    decreases |names|
  {
    if names == [] then (Counts(0, 0, 0), c)
    else
      var r := ImportNames(c, names[..|names| - 1]);
      Step(r.0, r.1, names[|names| - 1])
  }

  predicate NotBlank(name: string) { !Blank(name) }

  /** The names that are not blank. */
  function Named(names: seq<string>): seq<string> {
    Select(names, NotBlank)
  }

  /** Every name that is not blank is either inserted or a duplicate. */
  lemma {:induction false} ImportNamesCounts(c: Contents, names: seq<string>)
    ensures ImportNames(c, names).0.success + ImportNames(c, names).0.duplicates == |Named(names)|
    decreases |names|
  {
    if names != [] {
      var init := names[..|names| - 1];
      var last := names[|names| - 1];
      assert names == init + [last];
      ImportNamesCounts(c, init);
      var r := ImportNames(c, init);
      ImportNamesSnoc(c, init, last);
      StepCounts(r.0, r.1, last);
      NamedSnoc(init, last);
    }
  }

  lemma StepCounts(t: Counts, c: Contents, name: string)
    ensures Step(t, c, name).0.success + Step(t, c, name).0.duplicates == t.success + t.duplicates + |Select([name], NotBlank)|
  {
    assert Select([name], NotBlank) == if NotBlank(name) then [name] else [];
  }

  /** After the loop every name that is not blank is in the table. */
  lemma {:induction false} ImportNamesPresent(c: Contents, names: seq<string>)
    ensures forall k :: 0 <= k < |names| && !Blank(names[k]) ==> FindExact(ImportNames(c, names).1.courts, names[k]).Some?
    decreases |names|
  {
    if names != [] {
      var init := names[..|names| - 1];
      ImportNamesPresent(c, init);
      var d := ImportNames(c, init).1;
      var e := ImportNames(c, names).1;
      forall k | 0 <= k < |init| && !Blank(names[k])
        ensures FindExact(e.courts, names[k]).Some?
      {
        assert names[k] == init[k];
        var grown := e.courts[|d.courts|..];
        assert d.courts + grown == e.courts;
        FindAppend(d.courts, grown, names[k]);
      }
    }
  }

  /** A table that holds every name already: the loop only counts duplicates. */
  lemma {:induction false} ImportNamesPresentAlready(c: Contents, names: seq<string>)
    requires forall k :: 0 <= k < |names| && !Blank(names[k]) ==> FindExact(c.courts, names[k]).Some?
    ensures ImportNames(c, names) == (Counts(0, |Named(names)|, 0), c)
    decreases |names|
  {
    if names != [] {
      var init := names[..|names| - 1];
      var last := names[|names| - 1];
      assert names == init + [last];
      ImportNamesPresentAlready(c, init);
      PresentAlreadyStep(c, init, last);
    }
  }

  lemma PresentAlreadyStep(c: Contents, init: seq<string>, last: string)
    requires ImportNames(c, init) == (Counts(0, |Named(init)|, 0), c)
    requires !Blank(last) ==> FindExact(c.courts, last).Some?
    ensures ImportNames(c, init + [last]) == (Counts(0, |Named(init + [last])|, 0), c)
  {
    var t := Counts(0, |Named(init)|, 0);
    ImportNamesSnoc(c, init, last);
    StepPresent(t, c, last);
    NamedSnoc(init, last);
  }

  /** The loop over one more name is one more step. */
  lemma ImportNamesSnoc(c: Contents, init: seq<string>, last: string)
    ensures ImportNames(c, init + [last]) == Step(ImportNames(c, init).0, ImportNames(c, init).1, last)
  {
    var names := init + [last];
    assert names[..|names| - 1] == init;
  }

  lemma NamedSnoc(init: seq<string>, last: string)
    ensures |Named(init + [last])| == |Named(init)| + |Select([last], NotBlank)|
  {
    SelectConcat(init, [last], NotBlank);
  }

  lemma StepPresent(t: Counts, c: Contents, name: string)
    requires !Blank(name) ==> FindExact(c.courts, name).Some?
    ensures Step(t, c, name) == (t.(duplicates := t.duplicates + |Select([name], NotBlank)|), c)
  {
    assert Select([name], NotBlank) == if NotBlank(name) then [name] else [];
  }

  /** The loop after one more name. */
  lemma ImportNamesNext(c: Contents, names: seq<string>, i: nat)
    requires i < |names|
    ensures ImportNames(c, names[..i + 1]) == Step(ImportNames(c, names[..i]).0, ImportNames(c, names[..i]).1, names[i])
  {
    assert names[..i + 1][..i] == names[..i];
  }

  /**
   * Running the script a second time on the same file inserts nothing:
   * every name that is not blank is a duplicate and the table stays as
   * the first run left it.
   */
  lemma ImportNamesTwice(c: Contents, names: seq<string>)
    ensures var d := ImportNames(c, names).1;
      ImportNames(d, names) == (Counts(0, |Named(names)|, 0), d)
  {
    ImportNamesPresent(c, names);
    ImportNamesPresentAlready(ImportNames(c, names).1, names);
  }

  /** Importing trimmed names: each is inserted or found, and none is passed over. */
  lemma ImportTidy(c: Contents, names: seq<string>)
    requires forall k :: 0 <= k < |names| ==> Extraction.Tidy(names[k])
    ensures forall k :: 0 <= k < |names| ==> FindExact(ImportNames(c, names).1.courts, names[k]).Some?
    ensures ImportNames(c, names).0.success + ImportNames(c, names).0.duplicates == |names|
  {
    forall k | 0 <= k < |names|
      ensures NotBlank(names[k])
    {
      assert !IsSpace(names[k][0]);
    }
    assert Named(names) == names;
    ImportNamesPresent(c, names);
    ImportNamesCounts(c, names);
  }

  /**
   * scripts/extract-courts.js then scripts/import-courts-from-md.js: the
   * names read back from the MAHKEMELER.md written for a sheet are the
   * court names extracted from it, and after the import each of them is
   * in the courts table, either inserted or found there already.
   */
  lemma CourtsFileImports(sheet: seq<seq<Records.Cell>>, c: Contents)
    requires Extraction.CourtsOfAsWritten(sheet).Some?
    requires forall k :: 0 <= k < |Extraction.CourtsOfAsWritten(sheet).value.0| ==> '\n' !in Extraction.CourtsOfAsWritten(sheet).value.0[k]
    requires forall k :: 0 <= k < |Extraction.CourtsOfAsWritten(sheet).value.1| ==> '\n' !in Extraction.CourtsOfAsWritten(sheet).value.1[k].description
    ensures Extraction.CourtsFile(sheet).Some?
    ensures NamesOf(Extraction.CourtsFile(sheet).value) == Extraction.CourtsOfAsWritten(sheet).value.0
    ensures var names := Extraction.CourtsOfAsWritten(sheet).value.0;
      var r := ImportNames(c, names);
      r.0.success + r.0.duplicates == |names| && forall k :: 0 <= k < |names| ==> FindExact(r.1.courts, names[k]).Some?
  {
    var (names, errors) := Extraction.CourtsOfAsWritten(sheet).value;
    Extraction.CourtsOfRenumbered(sheet);
    Extraction.CourtsListed(sheet);
    forall k | 0 <= k < |names|
      ensures Extraction.Tidy(names[k])
    {
      assert names[k] in names;
    }
    CourtsDocumentNames(names, errors);
    ImportTidy(c, names);
  }

  /** The loop of `importCourts` on the database. */
  method ImportCourts(db: Database, names: seq<string>) returns (t: Counts)
    requires db.Valid()
    modifies db
    ensures db.Valid()
    ensures (t, db.State()) == ImportNames(old(db.State()), names)
  {
    t := Counts(0, 0, 0);
    var i := 0;
    while i < |names|
      invariant 0 <= i <= |names| && db.Valid()
      invariant (t, db.State()) == ImportNames(old(db.State()), names[..i])
    {
      var name := names[i];
      ImportNamesNext(old(db.State()), names, i);
      if Blank(name) {
      } else {
        var existing := FindExact(db.courts, name);
        if existing.Some? {
          t := t.(duplicates := t.duplicates + 1);
        } else {
          var place := DetectCityAndDistrict(name);
          var id := db.InsertCourt(name, place.city, place.district, None);
          if id.None? {
            t := t.(errors := t.errors + 1);
          } else {
            t := t.(success := t.success + 1);
          }
        }
      }
      i := i + 1;
    }
    assert names[..i] == names;
  }

  /**
   * The script: it stops when either the file or the database is missing;
   * otherwise it imports the names of the file.
   */
  function ImportCourtsFromMd(mdPresent: bool, dbPresent: bool, md: string, c: Contents): (r: (Option<Counts>, Contents))
    ensures !mdPresent || !dbPresent ==> r == (None, c)
    ensures r.0.Some? ==> r.0.value.errors == 0 && r.0.value.success + r.0.value.duplicates == |Named(NamesOf(md))|
    ensures r.1.jobs == c.jobs && r.1.vehicles == c.vehicles && c.courts <= r.1.courts
    ensures WellFormed(c) ==> WellFormed(r.1)
  {
    if !mdPresent || !dbPresent then (None, c)
    else
      ImportNamesCounts(c, NamesOf(md));
      var r := ImportNames(c, NamesOf(md));
      (Some(r.0), r.1)
  }

  method RunImportCourtsFromMd(db: Database, mdPresent: bool, dbPresent: bool, md: string) returns (r: Option<Counts>)
    requires db.Valid()
    modifies db
    ensures db.Valid()
    ensures (r, db.State()) == ImportCourtsFromMd(mdPresent, dbPresent, md, old(db.State()))
  {
    if !mdPresent || !dbPresent {
      return None;
    }
    var t := ImportCourts(db, NamesOf(md));
    r := Some(t);
  }
}

=== FILE: courts.dfy ===
/**
 * The court controller: the e-mail and phone checks, the phone formatter,
 * the checks and normalisation applied when a court is created or updated,
 * and the name-similarity lookup.
 */
module Courts {
  import opened Wrappers
  import opened Text
  import opened Casing

  // ------------------------------------------------------------ e-mail

  /** `[^\s@]`: any character but whitespace and `@` (a dot included). */
  predicate Plain(c: char) { !IsSpace(c) && c != '@' }

  predicate AllPlain(s: string) { forall k :: 0 <= k < |s| ==> Plain(s[k]) }

  /** Length of the longest prefix of `s` that matches `[^\s@]*`. */
  function PlainPrefix(s: string): (n: nat)
    ensures n <= |s| && AllPlain(s[..n])
    ensures n < |s| ==> !Plain(s[n])
  {
    if s == [] || !Plain(s[0]) then 0
    else
      var n := PlainPrefix(s[1..]);
      assert s[..n + 1] == [s[0]] + s[1..][..n];
      n + 1
  }

  /**
   * `validateEmail`: the regular expression `^[^\s@]+@[^\s@]+\.[^\s@]+$`
   * run as a scan. The first `[^\s@]+` can only end at the first character
   * outside its class, which must be the one `@`; what follows must hold no
   * whitespace or `@` and must have a dot with a character on each side.
   */
  predicate ValidateEmail(email: string) {
    var a := PlainPrefix(email);
    0 < a < |email| && email[a] == '@' && ValidDomain(email[a + 1..])
  }

  predicate ValidDomain(d: string) {
    PlainPrefix(d) == |d| && |d| >= 3 && '.' in d[1..|d| - 1]
  }

  /**
   * The regular expression read as a decomposition: `s` is a non-empty
   * local part, `@` at index `a`, a non-empty text, a dot at index `i` and a
   * non-empty text, none of the three parts holding whitespace or `@`.
   */
  predicate EmailAt(s: string, a: int, i: int) {
    0 < a && a + 1 < i < |s| - 1 && s[a] == '@' && s[i] == '.'
    && AllPlain(s[..a]) && AllPlain(s[a + 1..i]) && AllPlain(s[i + 1..])
  }

  ghost predicate EmailShape(s: string) { exists a, i :: EmailAt(s, a, i) }

  /** The scan accepts exactly the strings the regular expression describes. */
  lemma ValidateEmailShape(s: string)
    ensures ValidateEmail(s) <==> EmailShape(s)
  {
    if ValidateEmail(s) {
      var a := PlainPrefix(s);
      var d := s[a + 1..];
      assert AllPlain(d) by { assert d[..PlainPrefix(d)] == d; }
      var j :| 0 <= j < |d[1..|d| - 1]| && d[1..|d| - 1][j] == '.';
      var i := a + 2 + j;
      assert s[i] == '.';
      assert s[a + 1..i] == d[..j + 1];
      assert s[i + 1..] == d[j + 2..];
      assert EmailAt(s, a, i);
    }
    if EmailShape(s) {
      var a, i :| EmailAt(s, a, i);
      PlainPrefixAt(s, a);
      var d := s[a + 1..];
      assert AllPlain(d) by {
        forall k | 0 <= k < |d| ensures Plain(d[k]) {
          if k < i - a - 1 { assert d[k] == s[a + 1..i][k]; }
          else if k > i - a - 1 { assert d[k] == s[i + 1..][k - (i - a)]; }
        }
      }
      PlainPrefixAt(d, |d|);
      assert d[1..|d| - 1][i - a - 2] == '.';
    }
  }

  /** A prefix of plain characters ended by a non-plain one (or by the end) is the plain prefix. */
  lemma {:induction false} PlainPrefixAt(s: string, a: nat)
    requires a <= |s| && AllPlain(s[..a]) && (a < |s| ==> !Plain(s[a]))
    ensures PlainPrefix(s) == a
  {
    if a > 0 {
      assert s[0] == s[..a][0];
      assert s[1..][..a - 1] == s[..a][1..];
      PlainPrefixAt(s[1..], a - 1);
    }
  }

  /** The e-mail as stored: `email.toLowerCase().trim()`. */
  function StoredEmail(email: string): string { Trim(Lower(email)) }

  /**
   * A valid e-mail address is stored lower-cased with nothing trimmed, and
   * the stored address is valid.
   */
  lemma StoredEmailValid(e: string)
    requires ValidateEmail(e)
    ensures StoredEmail(e) == Lower(e) && ValidateEmail(Lower(e))
  {
    ValidateEmailShape(e);
    var a, i :| EmailAt(e, a, i);
    var l, d1, d2 := e[..a], e[a + 1..i], e[i + 1..];
    assert e == l + "@" + d1 + "." + d2;
    LowerEmail(l, d1, d2);
    LowerPlain(l);
    LowerPlain(d1);
    LowerPlain(d2);
    EmailOfParts(Lower(l), Lower(d1), Lower(d2));
    TrimNoSpaces(Lower(e));
  }

  /** Lower-casing an address lower-cases its three parts and keeps `@` and the dot. */
  lemma LowerEmail(l: string, d1: string, d2: string)
    ensures Lower(l + "@" + d1 + "." + d2) == Lower(l) + "@" + Lower(d1) + "." + Lower(d2)
  {
    LowerConcat(l + "@" + d1 + ".", d2);
    LowerConcat(l + "@" + d1, ".");
    LowerConcat(l + "@", d1);
    LowerConcat(l, "@");
    assert Lower("@") == "@" && Lower(".") == ".";
  }

  /** Three non-empty plain parts make a valid address without whitespace. */
  lemma EmailOfParts(l: string, d1: string, d2: string)
    requires l != [] && d1 != [] && d2 != [] && AllPlain(l) && AllPlain(d1) && AllPlain(d2)
    ensures ValidateEmail(l + "@" + d1 + "." + d2) && NoSpaces(l + "@" + d1 + "." + d2)
  {
    var e := l + "@" + d1 + "." + d2;
    var a, i := |l|, |l| + 1 + |d1|;
    assert e[..a] == l && e[a + 1..i] == d1 && e[i + 1..] == d2;
    assert EmailAt(e, a, i);
    ValidateEmailShape(e);
    forall k | 0 <= k < |e| ensures !IsSpace(e[k]) {
      if k < a { assert e[k] == l[k]; }
      else if a < k < i { assert e[k] == d1[k - a - 1]; }
      else if k > i { assert e[k] == d2[k - i - 1]; }
    }
  }

  /** Lower-casing keeps a string plain and no shorter. */
  lemma LowerPlain(s: string)
    requires AllPlain(s)
    ensures AllPlain(Lower(s)) && |Lower(s)| >= |s|
  {
    LowerKept(s);
  }

  /** A string without whitespace is its own `trim`. */
  lemma TrimNoSpaces(s: string)
    requires NoSpaces(s)
    ensures Trim(s) == s
  {
    assert TrimStart(s) == s;
    assert TrimEnd(s) == s;
  }

  // ------------------------------------------------------------ phone

  /** `\s?[0-9]{n}` matching the whole of `t`. */
  predicate OptionalSpaceDigits(t: string, n: nat) {
    (|t| == n && AllDigits(t)) || (|t| == n + 1 && IsSpace(t[0]) && AllDigits(t[1..]))
  }

  /**
   * `/^0[0-9]{3}\s?[0-9]{3}\s?[0-9]{4}$/`: `0`, three digits, then the two
   * remaining digit groups, each optionally preceded by one whitespace
   * character; the second group starts at index 7 or 8.
   */
  predicate PhonePattern(p: string) {
    |p| >= 4 && p[0] == '0' && AllDigits(p[1..4])
    && ((|p| >= 7 && OptionalSpaceDigits(p[4..7], 3) && OptionalSpaceDigits(p[7..], 4))
        || (|p| >= 8 && OptionalSpaceDigits(p[4..8], 3) && OptionalSpaceDigits(p[8..], 4)))
  }

  /** `validatePhone`: the pattern, on the input with all whitespace removed. */
  predicate ValidatePhone(phone: string) { PhonePattern(RemoveSpaces(phone)) }

  /** A Turkish phone number in digits only: eleven digits, the first `0`. */
  predicate LocalNumber(d: string) { |d| == 11 && d[0] == '0' && AllDigits(d) }

  /** Without whitespace the optional spaces never match, so the pattern means eleven digits starting with `0`. */
  lemma PhonePatternNoSpaces(q: string)
    requires NoSpaces(q)
    ensures PhonePattern(q) <==> LocalNumber(q)
  {
    if LocalNumber(q) {
      assert OptionalSpaceDigits(q[4..7], 3);
      assert OptionalSpaceDigits(q[7..], 4);
    }
    if PhonePattern(q) {
      assert |q| >= 8 ==> q[4..8][0] == q[4];
      assert q[4..7][0] == q[4];
      assert |q| > 7 ==> q[7..][0] == q[7];
      assert |q| == 11;
      forall k | 0 <= k < 11 ensures IsDigit(q[k]) {
        if 1 <= k < 4 { assert q[k] == q[1..4][k - 1]; }
        else if 4 <= k < 7 { assert q[k] == q[4..7][k - 4]; }
        else if k >= 7 { assert q[k] == q[7..][k - 7]; }
      }
    }
  }

  /** `validatePhone` ignores whitespace and accepts exactly eleven digits starting with `0`. */
  lemma ValidatePhoneDigits(phone: string)
    ensures ValidatePhone(phone) <==> LocalNumber(RemoveSpaces(phone))
  {
    RemoveSpacesNoSpaces(phone);
    PhonePatternNoSpaces(RemoveSpaces(phone));
  }

  /** `formatPhone`: the digits of the input as `0XXX XXX XXXX` when they form a local number, otherwise the input itself. */
  function FormatPhone(phone: string): (r: string)
  {
    var c := Filter(phone, IsDigit);
    if LocalNumber(c) then Grouped(c) else phone
  }

  /** `0XXX XXX XXXX` for the eleven digits `c`. */
  function Grouped(c: string): (r: string)
    requires |c| == 11
    ensures |r| == 13
  {
    c[..4] + " " + c[4..7] + " " + c[7..]
  }

  /** The digits and the whitespace of a grouped number. */
  lemma GroupedDigits(c: string)
    requires LocalNumber(c)
    ensures Filter(Grouped(c), IsDigit) == c && RemoveSpaces(Grouped(c)) == c
  {
    var a, b, d := c[..4], c[4..7], c[7..];
    assert AllDigits(a) && AllDigits(b) && AllDigits(d);
    SpacedGroupsDigits(a, b, d);
    assert c[..7] == a + b;
    assert c == c[..7] + d;
  }

  /** Three digit groups separated by single spaces: dropping the spaces gives back the digits. */
  lemma SpacedGroupsDigits(a: string, b: string, d: string)
    requires AllDigits(a) && AllDigits(b) && AllDigits(d)
    ensures Filter(a + " " + b + " " + d, IsDigit) == a + b + d
    ensures RemoveSpaces(a + " " + b + " " + d) == a + b + d
  {
    var sb, sd := " " + b, " " + d;
    SpaceThenDigits(b);
    SpaceThenDigits(d);
    DigitsKept(a);
    SpacedAssoc(a, b, d);
    FilterConcat(a, sb, IsDigit);
    FilterConcat(a + sb, sd, IsDigit);
    RemoveSpacesConcat(a, sb);
    RemoveSpacesConcat(a + sb, sd);
  }

  lemma SpacedAssoc(a: string, b: string, d: string)
    ensures a + " " + b + " " + d == a + (" " + b) + (" " + d)
  {
  }

  /** A space followed by digits: the space is the only thing dropped. */
  lemma SpaceThenDigits(y: string)
    requires AllDigits(y)
    ensures Filter(" " + y, IsDigit) == y && RemoveSpaces(" " + y) == y
  {
    var t := " " + y;
    assert t[0] == ' ' && t[1..] == y;
    assert RemoveSpaces(t) == RemoveSpaces(y);
    assert Filter(t, IsDigit) == Filter(y, IsDigit);
    DigitsKept(y);
  }

  /** Digits survive both the digit filter and whitespace removal. */
  lemma {:induction false} DigitsKept(x: string)
    requires AllDigits(x)
    ensures Filter(x, IsDigit) == x && RemoveSpaces(x) == x
  {
    if x != [] {
      assert AllDigits(x[1..]) by {
        forall k | 0 <= k < |x[1..]| ensures IsDigit(x[1..][k]) { assert x[1..][k] == x[k + 1]; }
      }
      DigitsKept(x[1..]);
      assert [x[0]] + x[1..] == x;
    }
  }

  /** A formatted local number passes `validatePhone`, with the same digits. */
  lemma FormatPhoneValid(phone: string)
    requires LocalNumber(Filter(phone, IsDigit))
    ensures ValidatePhone(FormatPhone(phone))
    ensures RemoveSpaces(FormatPhone(phone)) == Filter(phone, IsDigit)
  {
    GroupedDigits(Filter(phone, IsDigit));
    ValidatePhoneDigits(FormatPhone(phone));
  }

  /** Formatting a phone twice is formatting it once. */
  lemma FormatPhoneIdempotent(phone: string)
    ensures FormatPhone(FormatPhone(phone)) == FormatPhone(phone)
  {
    var c := Filter(phone, IsDigit);
    if LocalNumber(c) {
      GroupedDigits(c);
    }
  }

  /**
   * A phone `validatePhone` accepts is formatted as its digits in three
   * groups, whatever whitespace it had.
   */
  lemma ValidPhoneFormatted(phone: string)
    requires ValidatePhone(phone)
    ensures LocalNumber(RemoveSpaces(phone)) && FormatPhone(phone) == Grouped(RemoveSpaces(phone))
    ensures ValidatePhone(FormatPhone(phone))
  {
    ValidatePhoneDigits(phone);
    DigitsOfSpaced(phone);
    FormatPhoneValid(phone);
  }

  /** When only digits survive `RemoveSpaces`, keeping the digits gives the same string. */
  lemma {:induction false} DigitsOfSpaced(s: string)
    requires AllDigits(RemoveSpaces(s))
    ensures Filter(s, IsDigit) == RemoveSpaces(s)
  {
    if s != [] {
      var h := if IsSpace(s[0]) then [] else [s[0]];
      assert RemoveSpaces(s) == h + RemoveSpaces(s[1..]);
      assert AllDigits(RemoveSpaces(s[1..])) by {
        forall k | 0 <= k < |RemoveSpaces(s[1..])| ensures IsDigit(RemoveSpaces(s[1..])[k]) {
          assert RemoveSpaces(s[1..])[k] == RemoveSpaces(s)[k + |h|];
        }
      }
      DigitsOfSpaced(s[1..]);
      if !IsSpace(s[0]) {
        assert IsDigit(RemoveSpaces(s)[0]);
      }
    }
  }

  // ------------------------------------------------------------ courts

  datatype Court = Court(
    id: int, name: string, city: string, district: Option<string>, courtType: Option<string>,
    address: Option<string>, phone: Option<string>, email: Option<string>,
    contact: Option<string>, notes: Option<string>)

  /** `CreateCourtRequest`; `UpdateCourtRequest` is this with an id. An absent optional field is `None`. */
  datatype CourtRequest = CourtRequest(
    name: string, city: string, district: Option<string>, courtType: Option<string>,
    address: Option<string>, phone: Option<string>, email: Option<string>,
    contact: Option<string>, notes: Option<string>)

  const NameRequired := "Mahkeme adı zorunludur"
  const CityRequired := "Şehir alanı zorunludur"
  const InvalidPhone := "Geçerli bir telefon numarası giriniz (örn: 0212 555 0101)"
  const InvalidEmail := "Geçerli bir e-posta adresi giriniz"

  /** An optional string that JavaScript treats as true: present and not empty. */
  /** An optional field is checked only when it is truthy and not only whitespace. */
  predicate Checked(o: Option<string>) { Truthy(o) && !IsBlank(o.value) }

  /** `x ? f(x) : undefined` */
  function MapTruthy(o: Option<string>, f: string -> string): (r: Option<string>)
    ensures r.Some? <==> Truthy(o)
    ensures r.Some? ==> r.value == f(o.value)
  {
    if Truthy(o) then Some(f(o.value)) else None
  }

  /**
   * `createCourt` (and `updateCourt`, which runs the same code): a blank
   * name, then a blank city, then a checked phone that `validatePhone`
   * refuses, then a checked e-mail that `validateEmail` refuses is an error,
   * the first one found being reported; otherwise the request is stored
   * with the phone formatted, the e-mail lower-cased and trimmed, contact
   * and notes trimmed, each only when truthy, and nothing else changed.
   */
  function SaveCourt(req: CourtRequest): (r: Result<CourtRequest>)
    ensures r == Err(NameRequired) <==> IsBlank(req.name)
    ensures r == Err(CityRequired) <==> !IsBlank(req.name) && IsBlank(req.city)
    ensures r == Err(InvalidPhone) <==>
      !IsBlank(req.name) && !IsBlank(req.city) && Checked(req.phone) && !ValidatePhone(req.phone.value)
    ensures r.Ok? <==>
      !IsBlank(req.name) && !IsBlank(req.city)
      && (Checked(req.phone) ==> ValidatePhone(req.phone.value))
      && (Checked(req.email) ==> ValidateEmail(req.email.value))
    ensures r.Ok? ==>
      r.value.(phone := req.phone, email := req.email, contact := req.contact, notes := req.notes) == req
  {
    if IsBlank(req.name) then Err(NameRequired)
    else if IsBlank(req.city) then Err(CityRequired)
    else if Checked(req.phone) && !ValidatePhone(req.phone.value) then Err(InvalidPhone)
    else if Checked(req.email) && !ValidateEmail(req.email.value) then Err(InvalidEmail)
    else
      Ok(req.(phone := MapTruthy(req.phone, FormatPhone),
              email := MapTruthy(req.email, StoredEmail),
              contact := MapTruthy(req.contact, Trim),
              notes := MapTruthy(req.notes, Trim)))
  }

  /** `updateCourt`: the same checks and normalisation, the id passed through. */
  function UpdateCourt(id: int, req: CourtRequest): (r: Result<(int, CourtRequest)>)
    ensures r.Ok? <==> SaveCourt(req).Ok?
    ensures r.Ok? ==> r.value == (id, SaveCourt(req).value)
    ensures r.Err? ==> r.message == SaveCourt(req).message
  {
    match SaveCourt(req)
    case Ok(v) => Ok((id, v))
    case Err(m) => Err(m)
  }

  /**
   * What a saved court holds: a checked phone in the `0XXX XXX XXXX` form
   * made of its digits, and a checked e-mail lower-cased and valid.
   */
  lemma SavedContactValid(req: CourtRequest)
    requires SaveCourt(req).Ok?
    ensures Checked(req.phone) ==>
      LocalNumber(RemoveSpaces(req.phone.value))
      && SaveCourt(req).value.phone == Some(Grouped(RemoveSpaces(req.phone.value)))
      && ValidatePhone(SaveCourt(req).value.phone.value)
    ensures Checked(req.email) ==>
      SaveCourt(req).value.email == Some(Lower(req.email.value)) && ValidateEmail(Lower(req.email.value))
  {
    if Checked(req.phone) {
      ValidPhoneFormatted(req.phone.value);
    }
    if Checked(req.email) {
      StoredEmailValid(req.email.value);
    }
  }

  /** `None` for a present empty string, the value itself otherwise. */
  function DropEmpty(o: Option<string>): (r: Option<string>)
    ensures r.Some? <==> Truthy(o)
  {
    if o == Some([]) then None else o
  }

  /**
   * Saving a saved court again is accepted and changes nothing, except that
   * an optional field that was saved as an empty string is now left out.
   */
  lemma ResaveCourt(req: CourtRequest)
    requires SaveCourt(req).Ok?
    ensures SaveCourt(SaveCourt(req).value) == Ok(SaveCourt(req).value.(
      email := DropEmpty(SaveCourt(req).value.email),
      contact := DropEmpty(SaveCourt(req).value.contact),
      notes := DropEmpty(SaveCourt(req).value.notes)))
  {
    PhoneResaved(req.phone);
    EmailResaved(req.email);
    TrimResaved(req.contact);
    TrimResaved(req.notes);
  }

  /** A phone that passed the check is stored in a form that passes it again and that formatting leaves alone. */
  lemma PhoneResaved(o: Option<string>)
    requires Checked(o) ==> ValidatePhone(o.value)
    ensures var s := MapTruthy(o, FormatPhone);
      MapTruthy(s, FormatPhone) == s && (Checked(s) ==> ValidatePhone(s.value))
  {
    if Truthy(o) {
      var p := o.value;
      FormatPhoneIdempotent(p);
      if Checked(o) {
        ValidPhoneFormatted(p);
      } else {
        BlankIffAllSpaces(p);
        BlankPhoneKept(p);
      }
    }
  }

  /** An e-mail that passed the check is stored in a form that passes it again; a blank one becomes empty. */
  lemma EmailResaved(o: Option<string>)
    requires Checked(o) ==> ValidateEmail(o.value)
    ensures var s := MapTruthy(o, StoredEmail);
      MapTruthy(s, StoredEmail) == DropEmpty(s) && (Checked(s) ==> ValidateEmail(s.value))
  {
    if Truthy(o) {
      var e := o.value;
      if Checked(o) {
        StoredEmailValid(e);
        LowerIdempotent(e);
        StoredEmailValid(Lower(e));
      } else {
        BlankIffAllSpaces(e);
        LowerSpaces(e);
        assert StoredEmail(e) == [];
      }
    }
  }

  /** A whitespace-only phone has no digits, so it is stored as typed and stays unchecked. */
  lemma BlankPhoneKept(p: string)
    requires p != [] && AllSpaces(p)
    ensures FormatPhone(p) == p && !Checked(Some(p))
  {
    FilterNoDigits(p);
    BlankIffAllSpaces(p);
  }

  lemma {:induction false} FilterNoDigits(s: string)
    requires AllSpaces(s)
    ensures Filter(s, IsDigit) == []
  {
    if s != [] {
      assert AllSpaces(s[1..]) by {
        forall k | 0 <= k < |s[1..]| ensures IsSpace(s[1..][k]) { assert s[1..][k] == s[k + 1]; }
      }
      FilterNoDigits(s[1..]);
    }
  }

  /** Trimming the trimmed field again changes it only by dropping an empty string. */
  lemma TrimResaved(o: Option<string>)
    ensures MapTruthy(MapTruthy(o, Trim), Trim) == DropEmpty(MapTruthy(o, Trim))
  {
    if Truthy(o) {
      TrimIdempotent(o.value);
    }
  }

  // ------------------------------------------------------------ similar names

  /** Courts other than the one with id `id`, in their order. */
  function WithoutCourt(cs: seq<Court>, id: int): (r: seq<Court>)
    ensures |r| <= |cs| && Subseq(r, cs)
    ensures forall k :: 0 <= k < |r| ==> r[k].id != id && r[k] in cs
    ensures forall k :: 0 <= k < |cs| && cs[k].id != id ==> cs[k] in r
  {
    Select(cs, (x: Court) => x.id != id)
  }


  /**
   * `checkNameSimilarity`: the courts `search` finds for the name; a truthy
   * `excludeId` (any value but 0) removes that court, and a failed search
   * gives the empty list.
   */
  function CheckNameSimilarity(name: string, search: string -> Result<seq<Court>>, excludeId: int): (r: seq<Court>)
    ensures search(name).Err? ==> r == []
    ensures search(name).Ok? && excludeId == 0 ==> r == search(name).value
    ensures search(name).Ok? ==> forall c :: c in search(name).value && c.id != excludeId ==> c in r
    ensures excludeId != 0 ==> forall k :: 0 <= k < |r| ==> r[k].id != excludeId
    ensures forall c :: c in r ==> search(name).Ok? && c in search(name).value
  {
    match search(name)
    case Err(_) => []
    case Ok(found) => if excludeId != 0 then WithoutCourt(found, excludeId) else found
  }
}

=== FILE: dashboard.dfy ===
/**
 * The upcoming-jobs popup: active jobs scheduled within the coming week,
 * classified by urgency and sorted by the days left. "Today" is a
 * parameter (the views read the clock).
 */
module UpcomingJobs {
  import opened Wrappers
  import opened Text
  import opened Calendar
  import opened Sorting
  import opened Jobs
  import JobList

  /** Neither completed nor cancelled. */
  predicate Active(j: Job) { j.status != Completed && j.status != Cancelled }

  /**
   * Whole days from today to the job's scheduled date, the date read as
   * `parseDate` reads it (split on dots, `parseInt` of each part, then the
   * date constructor). Both are local midnights in a zone without daylight
   * saving time, so `Math.ceil` of the difference is the difference of the
   * day numbers; `today` is today's day number. `None` stands for `NaN`:
   * the date does not parse.
   */
  function DaysLeft(j: Job, today: int): Option<int> {
    Offset(ParseDotted(j.scheduledDate), today)
  }

  /** Days from `today` to a parsed date, `None` when there is none. */
  function Offset(p: Option<Date>, today: int): Option<int>
    requires p.Some? ==> Valid(p.value)
  {
    if p.Some? then Some(DayNumber(p.value) - today) else None
  }

  /** The days left of every job. */
  function DaysFrom(today: int): Job -> Option<int> {
    (j: Job) => DaysLeft(j, today)
  }

  /**
   * A job whose scheduled date is `formatDate(d)` has as many days left as
   * there are from today to `d`.
   */
  lemma DaysLeftOfFormatted(j: Job, d: Date, today: int)
    requires Valid(d) && !(0 <= d.year <= 99) && j.scheduledDate == FormatDotted(d)
    ensures DaysLeft(j, today) == Some(DayNumber(d) - today)
  {
    DottedRoundTrip(d);
    DaysLeftParsed(j, today, d);
  }

  /** A job whose date parses to `d` has the days from today to `d` left. */
  lemma DaysLeftParsed(j: Job, today: int, d: Date)
    requires ParseDotted(j.scheduledDate) == Some(d) && Valid(d)
    ensures DaysLeft(j, today) == Some(DayNumber(d) - today)
  {
    OffsetOf(ParseDotted(j.scheduledDate), today, d);
  }

  lemma OffsetOf(p: Option<Date>, today: int, d: Date)
    requires p == Some(d) && Valid(d)
    ensures Offset(p, today) == Some(DayNumber(d) - today)
  {
  }

  datatype Urgency = Critical | High | Medium | Low

  /** The urgency of a job: due or overdue is critical, tomorrow high, within three days medium. */
  function UrgencyOf(daysLeft: int): (u: Urgency)
    ensures u == Critical <==> daysLeft <= 0
    ensures u == High <==> daysLeft == 1
    ensures u == Medium <==> 2 <= daysLeft <= 3
    ensures u == Low <==> daysLeft >= 4
  {
    if daysLeft < 0 then Critical
    else if daysLeft == 0 then Critical
    else if daysLeft == 1 then High
    else if daysLeft <= 3 then Medium
    else Low
  }

  /** The colours both views use for how soon a job is due. */
  datatype Tone = Red | Orange | Yellow | Blue | Green | Gray

  function ToneName(t: Tone): string {
    match t
    case Red => "red"
    case Orange => "orange"
    case Yellow => "yellow"
    case Blue => "blue"
    case Green => "green"
    case Gray => "gray"
  }

  /** `bg-<tone>-100 text-<tone>-800` */
  function ToneClass(t: Tone): string {
    "bg-" + ToneName(t) + "-100 text-" + ToneName(t) + "-800"
  }

  /** The popup's colour: overdue red, today orange, tomorrow yellow, within three days blue, later green. */
  function UrgencyTone(daysLeft: int): Tone {
    if daysLeft < 0 then Red
    else if daysLeft == 0 then Orange
    else if daysLeft == 1 then Yellow
    else if daysLeft <= 3 then Blue
    else Green
  }

  function UrgencyColor(daysLeft: int): string {
    var t := UrgencyTone(daysLeft);
    ToneClass(t) + " border-" + ToneName(t) + "-300"
  }

  /** "<n> gün gecikmiş", "Bugün", "Yarın" or "<n> gün kaldı". */
  function UrgencyText(daysLeft: int): string {
    if daysLeft < 0 then NatToString(-daysLeft) + " gün gecikmiş"
    else if daysLeft == 0 then "Bugün"
    else if daysLeft == 1 then "Yarın"
    else NatToString(daysLeft) + " gün kaldı"
  }

  /**
   * A job with its days left; its urgency level, colour and text are
   * functions of the days left (`UrgencyOf`, `UrgencyColor`, `UrgencyText`).
   */
  datatype UpcomingJob = UpcomingJob(job: Job, daysLeft: int)

  /**
   * The active jobs with their days left, in their order, for any way `dl`
   * of telling the days left. A job whose date does not parse has `NaN`
   * days, which no later comparison lets through; it is left out here
   * already.
   */
  function Annotated(jobs: seq<Job>, dl: Job -> Option<int>): (r: seq<UpcomingJob>)
    ensures forall k :: 0 <= k < |r| ==> Active(r[k].job) && dl(r[k].job) == Some(r[k].daysLeft) && r[k].job in jobs
    ensures forall j :: j in jobs && Active(j) && dl(j).Some? ==> UpcomingJob(j, dl(j).value) in r
    decreases |jobs|
  {
    if jobs == [] then []
    else
      var rest := Annotated(jobs[1..], dl);
      assert forall j :: j in jobs <==> j == jobs[0] || j in jobs[1..];
      var j := jobs[0];
      if Active(j) && dl(j).Some? then [UpcomingJob(j, dl(j).value)] + rest else rest
  }

  predicate InWeek(e: UpcomingJob) { 0 <= e.daysLeft <= 7 }

  function DaysOf(e: UpcomingJob): int { e.daysLeft }

  /** The jobs of the popup for any way `dl` of telling the days left. */
  function AnalyzeWith(jobs: seq<Job>, dl: Job -> Option<int>): (r: seq<UpcomingJob>)
    ensures SortedOn(r, DaysOf)
    ensures multiset(r) == multiset(Select(Annotated(jobs, dl), InWeek))
    ensures forall k :: 0 <= k < |r| ==>
      0 <= r[k].daysLeft <= 7 && Active(r[k].job) && dl(r[k].job) == Some(r[k].daysLeft) && r[k].job in jobs
    ensures forall j :: j in jobs && Active(j) && dl(j).Some? && 0 <= dl(j).value <= 7 ==>
      UpcomingJob(j, dl(j).value) in r
  {
    var all := Annotated(jobs, dl);
    var week := Select(all, InWeek);
    var r := SortOn(week, DaysOf);
    forall k | 0 <= k < |r|
      ensures 0 <= r[k].daysLeft <= 7 && Active(r[k].job) && dl(r[k].job) == Some(r[k].daysLeft) && r[k].job in jobs
    {
      assert r[k] in multiset(week);
      assert r[k] in week && r[k] in all;
    }
    forall j | j in jobs && Active(j) && dl(j).Some? && 0 <= dl(j).value <= 7
      ensures UpcomingJob(j, dl(j).value) in r
    {
      var e := UpcomingJob(j, dl(j).value);
      SelectMembers(all, InWeek);
      assert e in week;
      assert e in multiset(r);
    }
    r
  }

  /**
   * `analyzeUpcomingJobs`: the active jobs due today or in the next seven
   * days, nearest first; each with its urgency, colour and text through
   * `UrgencyOf`, `UrgencyColor` and `UrgencyText`.
   */
  function AnalyzeUpcomingJobs(jobs: seq<Job>, today: int): (r: seq<UpcomingJob>)
    ensures SortedOn(r, DaysOf)
    ensures multiset(r) == multiset(Select(Annotated(jobs, DaysFrom(today)), InWeek))
    ensures forall k :: 0 <= k < |r| ==>
      0 <= r[k].daysLeft <= 7 && Active(r[k].job) && DaysLeft(r[k].job, today) == Some(r[k].daysLeft) && r[k].job in jobs
    ensures forall j :: j in jobs && Active(j) && DaysLeft(j, today).Some? && 0 <= DaysLeft(j, today).value <= 7 ==>
      UpcomingJob(j, DaysLeft(j, today).value) in r
  {
    AnalyzeWith(jobs, DaysFrom(today))
  }

  /** The popup is shown only while open and only when there is a job to list. */
  predicate ShowPopup(isOpen: bool, jobs: seq<Job>, today: int) {
    isOpen && AnalyzeUpcomingJobs(jobs, today) != []
  }

  /** The footer's overdue count: the listed jobs with fewer than 0 days left. */
  function OverdueCount(listed: seq<UpcomingJob>): nat {
    if listed == [] then 0 else (if listed[0].daysLeft < 0 then 1 else 0) + OverdueCount(listed[1..])
  }

  /** No listed job is overdue, so the count is 0. */
  lemma {:induction false} NoneOverdue(listed: seq<UpcomingJob>)
    requires forall k :: 0 <= k < |listed| ==> listed[k].daysLeft >= 0
    ensures OverdueCount(listed) == 0
  {
    if listed != [] {
      assert listed[0].daysLeft >= 0;
      NoneOverdue(listed[1..]);
    }
  }

  /** The overdue count in the footer is always 0: overdue jobs never reach the list. */
  lemma OverdueAlwaysZero(jobs: seq<Job>, today: int)
    ensures OverdueCount(AnalyzeUpcomingJobs(jobs, today)) == 0
  {
    NoneOverdue(AnalyzeUpcomingJobs(jobs, today));
  }

  datatype MissingItem = FileNo | Vehicle | Amount

  function MissingLabel(m: MissingItem): string {
    match m
    case FileNo => "Dosya No"
    case Vehicle => "Araç"
    case Amount => "Tutar"
  }

  /**
   * The missing-information note: the absent items among file number,
   * vehicle and amount, in that order.
   */
  function MissingItems(j: Job): (r: seq<MissingItem>)
    ensures (FileNo in r <==> j.fileNumber == []) && (Vehicle in r <==> j.vehicleId == 0)
    ensures Amount in r <==> j.totalAmount == 0
    ensures Subseq(r, [FileNo, Vehicle, Amount])
  {
    Select([FileNo, Vehicle, Amount], (m: MissingItem) =>
      match m
      case FileNo => j.fileNumber == []
      case Vehicle => j.vehicleId == 0
      case Amount => j.totalAmount == 0)
  }

  /** `Eksik bilgiler: ...`, the items joined by commas. */
  function MissingNote(j: Job): string {
    Join(seq(|MissingItems(j)|, k requires 0 <= k < |MissingItems(j)| => MissingLabel(MissingItems(j)[k])), ", ")
  }

  /** The note is shown exactly for the jobs the job list counts as missing information. */
  lemma MissingNoteShown(j: Job)
    ensures MissingItems(j) != [] <==> JobList.MissingInfo(j)
  {
  }
}

/**
 * The dashboard: whether to open the upcoming-jobs popup, the table of the
 * nearest active jobs, the due-date colours and the statistics cards.
 */
module Dashboard {
  import opened Wrappers
  import opened Text
  import opened Calendar
  import opened Sorting
  import opened Jobs
  import opened UpcomingJobs
  import Similarity

  /** An active job due today or within the next seven days. */
  predicate DueThisWeek(j: Job, today: int) {
    Active(j) && DaysLeft(j, today).Some? && 0 <= DaysLeft(j, today).value <= 7
  }

  /** `checkUpcomingJobs` for any way `dl` of telling the days left. */
  function CheckWith(jobs: seq<Job>, dl: Job -> Option<int>): (r: bool)
    ensures r <==> exists j :: j in jobs && Active(j) && dl(j).Some? && 0 <= dl(j).value <= 7
  {
    var due := Select(jobs, (j: Job) => Active(j) && dl(j).Some? && 0 <= dl(j).value <= 7);
    SelectMembers(jobs, (j: Job) => Active(j) && dl(j).Some? && 0 <= dl(j).value <= 7);
    if due != [] then
      assert due[0] in due;
      true
    else false
  }

  /** `checkUpcomingJobs`: some active job is due today or within the next seven days. */
  function CheckUpcomingJobs(jobs: seq<Job>, today: int): (r: bool)
    ensures r <==> exists j :: j in jobs && DueThisWeek(j, today)
  {
    CheckWith(jobs, DaysFrom(today))
  }

  /** The dashboard opens the popup exactly when the popup has something to list. */
  lemma CheckAgreesWithPopup(jobs: seq<Job>, today: int)
    ensures CheckUpcomingJobs(jobs, today) <==> AnalyzeUpcomingJobs(jobs, today) != []
  {
    var r := AnalyzeUpcomingJobs(jobs, today);
    if CheckUpcomingJobs(jobs, today) {
      var j :| j in jobs && DueThisWeek(j, today);
      assert UpcomingJob(j, DaysLeft(j, today).value) in r;
    }
    if r != [] {
      assert DueThisWeek(r[0].job, today);
    }
  }

  /** `getDueDateColor`: six bands of days left; `NaN` fails every comparison and is gray. */
  function DueDateTone(daysLeft: Option<int>): (t: Tone)
    ensures t == Red <==> daysLeft.Some? && daysLeft.value < 0
    ensures t == Orange <==> daysLeft == Some(0)
    ensures t == Yellow <==> daysLeft == Some(1)
    ensures t == Blue <==> daysLeft.Some? && 2 <= daysLeft.value <= 3
    ensures t == Green <==> daysLeft.Some? && 4 <= daysLeft.value <= 7
    ensures t == Gray <==> daysLeft.None? || daysLeft.value > 7
  {
    match daysLeft
    case None => Gray
    case Some(n) =>
      if n < 0 then Red
      else if n == 0 then Orange
      else if n == 1 then Yellow
      else if n <= 3 then Blue
      else if n <= 7 then Green
      else Gray
  }

  function DueDateColor(daysLeft: Option<int>): string {
    var t := DueDateTone(daysLeft);
    ToneClass(t) + (if t == Red || t == Orange then " font-bold" else if t == Yellow then " font-semibold" else "")
  }

  /** The table's days-left text; `NaN` is printed as it is. */
  function DueText(daysLeft: Option<int>): string {
    match daysLeft
    case None => "NaN g\U{00FC}n kald\U{0131}"
    case Some(n) => UrgencyText(n)
  }

  /** Within a week the dashboard colours a due date as the popup does; later ones are gray. */
  lemma DueDateToneAgrees(daysLeft: int)
    ensures daysLeft <= 7 ==> DueDateTone(Some(daysLeft)) == UrgencyTone(daysLeft)
    ensures daysLeft > 7 ==> DueDateTone(Some(daysLeft)) == Gray && UrgencyTone(daysLeft) == Green
  {
  }

  /** `getStatusColor`: a colour per status label, gray for cancelled and for anything unknown. */
  function StatusColor(s: string): (r: string)
    ensures r == ToneClass(Gray) <==> ParseStatus(s).None? || ParseStatus(s) == Some(Cancelled)
  {
    match ParseStatus(s)
    case Some(Completed) => ToneClass(Green)
    case Some(InProgress) => ToneClass(Yellow)
    case Some(Pending) => ToneClass(Red)
    case _ => ToneClass(Gray)
  }

  /** `getPaymentColor`: green for paid, red for unpaid, gray for anything unknown. */
  function PaymentColor(s: string): (r: string)
    ensures r == ToneClass(Gray) <==> ParsePayment(s).None?
  {
    match ParsePayment(s)
    case Some(Paid) => ToneClass(Green)
    case Some(Unpaid) => ToneClass(Red)
    case None => ToneClass(Gray)
  }

  /** A row of the dashboard's table: a job and its days left, `None` standing for `NaN`. */
  datatype TableRow = TableRow(job: Job, daysLeft: Option<int>)

  /** The row's title, colours and due-date text are functions of the job and its days left. */
  function RowTitle(e: TableRow): string { e.job.courtName + " - " + e.job.fileNumber }

  function RowStatusColor(e: TableRow): string { StatusColor(StatusLabel(e.job.status)) }

  function RowPaymentColor(e: TableRow): string { PaymentColor(PaymentLabel(e.job.paymentStatus)) }

  function RowDueDateColor(e: TableRow): string { DueDateColor(e.daysLeft) }

  function RowDueText(e: TableRow): string { DueText(e.daysLeft) }

  /** The `filter` and `map` of `getUpcomingJobs`: the active jobs, in their order, each with its days left. */
  function ActiveRows(jobs: seq<Job>, dl: Job -> Option<int>): (r: seq<TableRow>)
    ensures |r| == |Select(jobs, Active)|
    ensures forall k :: 0 <= k < |r| ==> r[k].job == Select(jobs, Active)[k] && r[k].daysLeft == dl(r[k].job)
  {
    Map(Select(jobs, Active), (j: Job) => TableRow(j, dl(j)))
  }

  predicate Dated(e: TableRow) { e.daysLeft.Some? }

  predicate Undated(e: TableRow) { e.daysLeft.None? }

  function RowDays(e: TableRow): int { if e.daysLeft.Some? then e.daysLeft.value else 0 }

  /** Dated rows come before undated ones, and dated rows are nearest first. */
  predicate TableOrder(r: seq<TableRow>) {
    forall k, m :: 0 <= k < m < |r| && Dated(r[m]) ==> Dated(r[k]) && RowDays(r[k]) <= RowDays(r[m])
  }

  /** Every row is dated or undated. */
  lemma {:induction false} DatedUndated(rows: seq<TableRow>)
    ensures multiset(Select(rows, Dated)) + multiset(Select(rows, Undated)) == multiset(rows)
    decreases |rows|
  {
    if rows != [] {
      DatedUndated(rows[1..]);
      assert rows == [rows[0]] + rows[1..];
    }
  }

  /**
   * `.sort((a, b) => a.daysLeft - b.daysLeft)`. Between two dated rows the
   * comparator orders by the days left; with an undated row it gives `NaN`,
   * which the sort takes as "equal". The dated rows come first, nearest
   * first, and the undated ones after them in their order; with no dated
   * row at all this is the order the stable sort keeps.
   */
  function SortRows(rows: seq<TableRow>): (r: seq<TableRow>)
    ensures multiset(r) == multiset(rows)
    ensures TableOrder(r)
    ensures (forall k :: 0 <= k < |rows| ==> Undated(rows[k])) ==> r == rows
    ensures (forall k :: 0 <= k < |rows| ==> Dated(rows[k])) ==> r == SortOn(rows, RowDays)
  {
    var dated := SortOn(Select(rows, Dated), RowDays);
    var undated := Select(rows, Undated);
    DatedUndated(rows);
    SortedDated(rows);
    DatedFirst(dated, undated);
    NoneDated(rows);
    NoneUndated(rows);
    dated + undated
  }

  /** The sorted dated rows are dated. */
  lemma SortedDated(rows: seq<TableRow>)
    ensures forall k :: 0 <= k < |SortOn(Select(rows, Dated), RowDays)| ==> Dated(SortOn(Select(rows, Dated), RowDays)[k])
  {
    var d := Select(rows, Dated);
    var sd := SortOn(d, RowDays);
    forall k | 0 <= k < |sd| ensures Dated(sd[k]) {
      assert sd[k] in multiset(d);
    }
  }

  /** Sorted dated rows followed by undated ones are in the table's order. */
  lemma DatedFirst(dated: seq<TableRow>, undated: seq<TableRow>)
    requires SortedOn(dated, RowDays)
    requires forall k :: 0 <= k < |dated| ==> Dated(dated[k])
    requires forall k :: 0 <= k < |undated| ==> Undated(undated[k])
    ensures TableOrder(dated + undated)
  {
    var r := dated + undated;
    forall m | |dated| <= m < |r| ensures Undated(r[m]) {
      assert r[m] == undated[m - |dated|];
    }
    forall k, m | 0 <= k < m < |r| && Dated(r[m]) ensures Dated(r[k]) && RowDays(r[k]) <= RowDays(r[m]) {
      assert r[k] == dated[k] && r[m] == dated[m];
    }
  }

  /** With no dated row, there is nothing to sort. */
  lemma NoneDated(rows: seq<TableRow>)
    ensures (forall k :: 0 <= k < |rows| ==> Undated(rows[k])) ==> Select(rows, Dated) == [] && Select(rows, Undated) == rows
  {
    if (forall k :: 0 <= k < |rows| ==> Undated(rows[k])) && Select(rows, Dated) != [] {
      assert Select(rows, Dated)[0] in rows;
    }
  }

  /** With no undated row, the table is the sorted rows. */
  lemma NoneUndated(rows: seq<TableRow>)
    ensures (forall k :: 0 <= k < |rows| ==> Dated(rows[k])) ==> Select(rows, Undated) == [] && Select(rows, Dated) == rows
  {
    if (forall k :: 0 <= k < |rows| ==> Dated(rows[k])) && Select(rows, Undated) != [] {
      assert Select(rows, Undated)[0] in rows;
    }
  }

  /**
   * `getUpcomingJobs`: the first eight active jobs of the sorted table.
   * Dated rows come first, nearest first; a dated row left out is due no
   * sooner than every row shown, and an undated row is shown only when
   * every dated one is.
   */
  function UpcomingRows(jobs: seq<Job>, today: int): (r: seq<TableRow>)
    ensures |r| == Min(8, |Select(jobs, Active)|)
    ensures forall k :: 0 <= k < |r| ==>
      Active(r[k].job) && r[k].daysLeft == DaysLeft(r[k].job, today) && r[k].job in jobs
    ensures multiset(r) <= multiset(ActiveRows(jobs, DaysFrom(today)))
    ensures TableOrder(r)
    ensures var all := SortRows(ActiveRows(jobs, DaysFrom(today)));
      forall k, m :: 0 <= k < |r| <= m < |all| && Dated(all[m]) ==> Dated(r[k]) && RowDays(r[k]) <= RowDays(all[m])
  {
    var rows := ActiveRows(jobs, DaysFrom(today));
    var all := SortRows(rows);
    var n := Min(8, |all|);
    var r := all[..n];
    PrefixOrder(all, n);
    forall k | 0 <= k < |r|
      ensures Active(r[k].job) && r[k].daysLeft == DaysLeft(r[k].job, today) && r[k].job in jobs
    {
      assert r[k] in multiset(rows);
      ActiveRowOf(jobs, DaysFrom(today), r[k]);
    }
    r
  }

  /** A row of the table belongs to an active job, and carries that job's days. */
  lemma ActiveRowOf(jobs: seq<Job>, dl: Job -> Option<int>, e: TableRow)
    requires e in multiset(ActiveRows(jobs, dl))
    ensures Active(e.job) && e.daysLeft == dl(e.job) && e.job in jobs
  {
    var rows := ActiveRows(jobs, dl);
    var i :| 0 <= i < |rows| && rows[i] == e;
    assert rows[i].job == Select(jobs, Active)[i];
  }

  /** The first rows of an ordered table are ordered, are a sub-multiset, and come no later than the rest. */
  lemma PrefixOrder(all: seq<TableRow>, n: nat)
    requires n <= |all|
    requires TableOrder(all)
    ensures multiset(all[..n]) <= multiset(all)
    ensures TableOrder(all[..n])
    ensures forall k, m :: 0 <= k < n <= m < |all| && Dated(all[m]) ==> Dated(all[..n][k]) && RowDays(all[..n][k]) <= RowDays(all[m])
  {
    assert all == all[..n] + all[n..];
    assert multiset(all) == multiset(all[..n]) + multiset(all[n..]);
  }

  /**
   * A job whose date has no dot has `NaN` days left; when every active job is like that, as the
   * imported jobs with their ISO dates are, the table is the first eight active jobs in their
   * own order, each gray and each reading `NaN`.
   */
  lemma UndatedTable(jobs: seq<Job>, today: int)
    requires forall k :: 0 <= k < |jobs| && Active(jobs[k]) ==> '.' !in jobs[k].scheduledDate
    ensures UpcomingRows(jobs, today) == ActiveRows(jobs, DaysFrom(today))[..Min(8, |Select(jobs, Active)|)]
    ensures forall k :: 0 <= k < |UpcomingRows(jobs, today)| ==>
      DueDateTone(UpcomingRows(jobs, today)[k].daysLeft) == Gray &&
      RowDueText(UpcomingRows(jobs, today)[k]) == "NaN g\U{00FC}n kald\U{0131}"
  {
    var rows := ActiveRows(jobs, DaysFrom(today));
    forall k | 0 <= k < |rows| ensures Undated(rows[k]) {
      var j := rows[k].job;
      assert j in Select(jobs, Active);
      var i :| 0 <= i < |jobs| && jobs[i] == j;
      assert Split(j.scheduledDate, '.') == [j.scheduledDate];
    }
    assert SortRows(rows) == rows;
  }

  function Min(a: int, b: int): int { if a <= b then a else b }

  // ------------------------------------------------------------ statistics

  /** The number of jobs with the given status. */
  function CountStatus(jobs: seq<Job>, s: JobStatus): (n: nat)
    ensures n <= |jobs|
  {
    if jobs == [] then 0 else (if jobs[0].status == s then 1 else 0) + CountStatus(jobs[1..], s)
  }

  function CountPayment(jobs: seq<Job>, p: PaymentStatus): (n: nat)
    ensures n <= |jobs|
  {
    if jobs == [] then 0 else (if jobs[0].paymentStatus == p then 1 else 0) + CountPayment(jobs[1..], p)
  }

  function CountInvoice(jobs: seq<Job>, i: InvoiceStatus): (n: nat)
    ensures n <= |jobs|
  {
    if jobs == [] then 0 else (if jobs[0].invoiceStatus == i then 1 else 0) + CountInvoice(jobs[1..], i)
  }

  /** The sum of the total amounts. */
  function TotalAmount(jobs: seq<Job>): int {
    if jobs == [] then 0 else jobs[0].totalAmount + TotalAmount(jobs[1..])
  }

  /** The sum of the total amounts of the jobs with the given payment status. */
  function AmountWith(jobs: seq<Job>, p: PaymentStatus): int {
    if jobs == [] then 0
    else (if jobs[0].paymentStatus == p then jobs[0].totalAmount else 0) + AmountWith(jobs[1..], p)
  }

  /** Every job has exactly one of the four statuses. */
  lemma {:induction false} StatusCountsPartition(jobs: seq<Job>)
    ensures CountStatus(jobs, Pending) + CountStatus(jobs, InProgress) + CountStatus(jobs, Completed)
      + CountStatus(jobs, Cancelled) == |jobs|
  {
    if jobs != [] { StatusCountsPartition(jobs[1..]); }
  }

  /** The paid and the unpaid amounts add up to the total amount. */
  lemma {:induction false} AmountsPartition(jobs: seq<Job>)
    ensures AmountWith(jobs, Paid) + AmountWith(jobs, Unpaid) == TotalAmount(jobs)
  {
    if jobs != [] { AmountsPartition(jobs[1..]); }
  }

  /** When no amount is negative, neither part exceeds the total. */
  lemma {:induction false} AmountWithinTotal(jobs: seq<Job>, p: PaymentStatus)
    requires forall k :: 0 <= k < |jobs| ==> jobs[k].totalAmount >= 0
    ensures 0 <= AmountWith(jobs, p) <= TotalAmount(jobs)
  {
    if jobs != [] { AmountWithinTotal(jobs[1..], p); }
  }

  /**
   * `Math.round(part / whole * 100)` on the dashboard, which does not guard
   * the division: `None` stands for `NaN` (0 of 0). The rounding is the one
   * of the similarity score.
   */
  function Percent(part: nat, whole: nat): (r: Option<int>)
    requires part <= whole
    ensures whole == 0 <==> r.None?
    ensures r.Some? ==> 0 <= r.value <= 100
    ensures whole > 0 && part == whole ==> r == Some(100)
    ensures whole > 0 && part == 0 ==> r == Some(0)
  {
    if whole == 0 then None else Some(Similarity.Percent(part, whole))
  }
}

/**
 * The job-management page: the single quick filter, the filtered list, the
 * guarded percentages and where a submitted form goes.
 */
module JobManagement {
  import opened Wrappers
  import opened Text
  import opened Jobs
  import opened JobChecks
  import JobForm
  import Dashboard

  /** `selectFilter`: choosing the active filter again clears it; another one replaces it. */
  function SelectFilter(active: Option<string>, f: string): (r: Option<string>)
    ensures active == Some(f) ==> r.None?
    ensures active != Some(f) ==> r == Some(f)
  {
    if active == Some(f) then None else Some(f)
  }

  /** Choosing a filter twice from no filter comes back to no filter. */
  lemma SelectFilterTwice(f: string)
    ensures SelectFilter(SelectFilter(None, f), f).None?
  {
  }

  /** The rule of a quick filter; an unknown key keeps every job. */
  predicate Keeps(key: string, j: Job) {
    if key == "unpaid" then j.paymentStatus == Unpaid
    else if key == "incomplete" then j.status == InProgress || j.status == Pending
    else if key == "not-invoiced" then j.invoiceStatus == NotIssued
    else if key == "cancelled" then j.status == Cancelled
    else true
  }

  /** No filter, or the empty key, keeps every job. */
  predicate Shown(active: Option<string>, j: Job) {
    active.None? || active.value == [] || Keeps(active.value, j)
  }

  /**
   * `getFilteredJobs`: the jobs the active filter keeps, in their order;
   * every job when no filter is active.
   */
  function FilteredJobs(jobs: seq<Job>, active: Option<string>): (r: seq<Job>)
    ensures Subseq(r, jobs)
    ensures active.None? || active.value == [] ==> r == jobs
    ensures forall j :: j in r <==> j in jobs && Shown(active, j)
  {
    SelectMembers(jobs, (j: Job) => Shown(active, j));
    Select(jobs, (j: Job) => Shown(active, j))
  }

  /** `totalJobs > 0 ? Math.round((part / totalJobs) * 100) : 0` */
  function GuardedPercent(part: nat, whole: nat): (r: int)
    requires part <= whole
    ensures whole == 0 ==> r == 0
    ensures whole > 0 ==> Some(r) == Dashboard.Percent(part, whole)
    ensures 0 <= r <= 100
  {
    if whole > 0 then Dashboard.Percent(part, whole).value else 0
  }

  /** The completion percentage card: 0 with no jobs, otherwise within 0..100. */
  lemma CompletedPercentBounded(jobs: seq<Job>)
    ensures 0 <= GuardedPercent(Dashboard.CountStatus(jobs, Completed), |jobs|) <= 100
    ensures jobs == [] ==> GuardedPercent(Dashboard.CountStatus(jobs, Completed), |jobs|) == 0
  {
  }

  /** The request a submitted form becomes: every field present as the form holds it. */
  function RequestOfForm(f: JobForm.JobFormData): (q: JobRequest)
    ensures q.receivedDate == f.receivedDate && q.scheduledDate == f.scheduledDate && q.courtId == f.courtId
    ensures q.fileNumber == Some(f.fileNumber) && q.vehicleId == Some(f.vehicleId) && q.totalAmount == Some(f.totalAmount)
    ensures q.status == f.status && q.paymentStatus == f.paymentStatus && q.invoiceStatus == f.invoiceStatus
  {
    JobRequest(f.receivedDate, f.scheduledDate, f.courtId, Some(f.fileNumber), Some(f.vehicleId),
      Some(f.totalAmount), Some(f.baseAmount), Some(f.vatAmount), Some(f.vatRate as int),
      f.paymentStatus, f.invoiceStatus, f.status, f.statusDate, Some(f.statusNote), Some(f.invoiceNumber),
      Some(f.invoiceDate), Some(f.paymentDate), Some(f.completionDate), Some(f.notes))
  }

  /** What the controller did with a submission: a new job, or the updated job with its id. */
  datatype Saved = Created(req: JobRequest) | Updated(id: int, req: JobRequest)

  /**
   * `handleJobSubmit`: a submission with an id goes to `updateJob`, one
   * without to `createJob`; both run the controller's checks.
   */
  function HandleJobSubmit(s: JobForm.JobSubmission): (r: Result<Saved>)
    ensures r.Ok? <==> SaveJob(RequestOfForm(s.data)).Ok?
    ensures r.Ok? ==> (r.value.Updated? <==> s.UpdateJob?) && r.value.req == SaveJob(RequestOfForm(s.data)).value
    ensures r.Ok? && s.UpdateJob? ==> r.value.id == s.id
    ensures r.Err? ==> r.message == SaveJob(RequestOfForm(s.data)).message
  {
    match s
    case CreateJob(data) =>
      (match SaveJob(RequestOfForm(data))
       case Ok(q) => Ok(Created(q))
       case Err(m) => Err(m))
    case UpdateJob(id, data) =>
      (match UpdateJob(id, RequestOfForm(data))
       case Ok(v) => Ok(Updated(v.0, v.1))
       case Err(m) => Err(m))
  }
}

=== FILE: datatable.dfy ===
/**
 * The generic table of the application: rows sorted by a column, cut into
 * pages, a five-button page strip, and the rows handed to the exporters.
 * The table's own state (current page, sort column and direction) is a
 * class; what it shows is computed from that state by functions.
 */
module DataTables {
  import opened Wrappers
  import opened Text
  import opened Sorting

  /**
   * A row: its id and its column values. Column values are compared with
   * `<` and `>`; here they are integers, and a column the row lacks reads
   * as 0.
   */
  datatype Row = Row(id: int, values: map<string, int>)

  function Value(r: Row, key: string): int {
    if key in r.values then r.values[key] else 0
  }

  datatype Direction = Asc | Desc
  datatype SortConfig = SortConfig(key: string, direction: Direction)

  /** `a` may come before `b` in the given direction. */
  predicate InOrder(a: int, b: int, d: Direction) {
    if d == Asc then a <= b else a >= b
  }

  predicate Ordered(rows: seq<Row>, key: string, d: Direction) {
    forall i, j :: 0 <= i < j < |rows| ==> InOrder(Value(rows[i], key), Value(rows[j], key), d)
  }

  /** The key that orders rows by a column in a direction, ascending. */
  function SortKey(key: string, d: Direction): Row -> int {
    (r: Row) => if d == Asc then Value(r, key) else -Value(r, key)
  }

  /**
   * `[...data].sort(compare)` on a column: the same rows, ordered by that
   * column ascending or descending.
   */
  function SortBy(rows: seq<Row>, key: string, d: Direction): (r: seq<Row>)
    ensures Ordered(r, key, d)
    ensures multiset(r) == multiset(rows)
    ensures |r| == |rows|
  {
    var k := SortKey(key, d);
    var r := SortOn(rows, k);
    assert forall i, j :: 0 <= i < j < |r| ==> k(r[i]) <= k(r[j]);
    r
  }

  /** `sortedData`: the rows as given when no column is chosen, otherwise sorted by it. */
  function SortedData(data: seq<Row>, sort: Option<SortConfig>): (r: seq<Row>)
    ensures sort.None? ==> r == data
    ensures multiset(r) == multiset(data)
    ensures sort.Some? ==> Ordered(r, sort.value.key, sort.value.direction)
  {
    if sort.None? then data else SortBy(data, sort.value.key, sort.value.direction)
  }

  /** `handleSort`: the chosen column flips its direction; another column starts ascending. */
  function ToggleSort(current: Option<SortConfig>, key: string): (r: SortConfig)
    ensures r.key == key
    ensures current.Some? && current.value.key == key ==> r.direction != current.value.direction
    ensures !(current.Some? && current.value.key == key) ==> r.direction == Asc
  {
    if current.Some? && current.value.key == key then
      SortConfig(key, if current.value.direction == Asc then Desc else Asc)
    else SortConfig(key, Asc)
  }

  /** Sorting the same column twice gets back to the direction it had. */
  lemma ToggleTwice(c: SortConfig)
    ensures ToggleSort(Some(ToggleSort(Some(c), c.key)), c.key) == c
  {
  }

  /** `Math.ceil(n / size)` */
  function TotalPages(n: nat, size: nat): (t: nat)
    requires size > 0
    ensures (t - 1) * size < n <= t * size || (n == 0 && t == 0)
  {
    (n + size - 1) / size
  }

  /** An index of `slice`: a negative one counts from the end; both are then clamped to 0 and the length. */
  function SliceIndex(i: int, len: nat): (r: nat)
    ensures r <= len
    ensures 0 <= i <= len ==> r == i
    ensures i < 0 && len + i >= 0 ==> r == len + i
    ensures i > len ==> r == len
    ensures len + i < 0 ==> r == 0
  {
    if i < 0 then (if len + i < 0 then 0 else len + i)
    else if i > len then len else i
  }

  /** `slice(start, end)`; an end before the start gives nothing. */
  function Slice<T>(s: seq<T>, start: int, end: int): (r: seq<T>)
    ensures 0 <= start <= end <= |s| ==> r == s[start..end]
    ensures start < 0 && |s| + start >= 0 && end >= |s| ==> r == s[|s| + start..]
  {
    var a := SliceIndex(start, |s|);
    var b := SliceIndex(end, |s|);
    if b < a then [] else s[a..b]
  }

  /** The rows of page `page` (counted from 1): the slice from `(page - 1) * size`, `size` long or up to the end. */
  function PageRows(rows: seq<Row>, page: int, size: nat): (r: seq<Row>)
    requires size > 0
    ensures |r| <= size
    ensures 1 <= page <= TotalPages(|rows|, size) ==>
      var start := (page - 1) * size;
      0 <= start < |rows| && r == rows[start..Min(start + size, |rows|)] && r != []
  {
    var start := (page - 1) * size;
    if 1 <= page <= TotalPages(|rows|, size) then
      PageStart(|rows|, page, size);
      Slice(rows, start, Min(start + size, |rows|))
    else Slice(rows, start, start + size)
  }

  lemma PageStart(n: nat, page: int, size: nat)
    requires size > 0 && 1 <= page <= TotalPages(n, size)
    ensures 0 <= (page - 1) * size < n
  {
    var t := TotalPages(n, size);
    MulLe(page - 1, t - 1, size);
  }

  lemma MulLe(a: int, b: int, c: nat)
    requires 0 <= a <= b
    ensures a * c <= b * c
  {
  }

  /** Every row is on exactly one page: the pages, in order, are the rows. */
  lemma {:induction false} PagesCoverRows(rows: seq<Row>, size: nat)
    requires size > 0
    ensures Pages(rows, size) == rows
    decreases |rows|
  {
    if |rows| > size {
      PagesCoverRows(rows[size..], size);
      assert rows == rows[..size] + rows[size..];
    }
  }

  /** The pages of the rows, concatenated. */
  function Pages(rows: seq<Row>, size: nat): seq<Row>
    requires size > 0
    decreases |rows|
  {
    if |rows| <= size then rows else PageRows(rows, 1, size) + Pages(rows[size..], size)
  }

  function Min(a: int, b: int): int { if a <= b then a else b }

  /**
   * The page strip: `min(5, totalPages)` consecutive page numbers, all
   * within 1..totalPages, that include the current page when it is one.
   */
  function PageWindow(current: int, total: nat): (r: seq<int>)
    ensures |r| == Min(5, total)
    ensures forall i :: 0 <= i < |r| ==> 1 <= r[i] <= total
    ensures forall i :: 0 < i < |r| ==> r[i] == r[i - 1] + 1
    ensures 1 <= current <= total ==> current in r
  {
    var first :=
      if total <= 5 then 1
      else if current <= 3 then 1
      else if current >= total - 2 then total - 4
      else current - 2;
    var r := seq(Min(5, total), i => first + i);
    assert 1 <= current <= total ==> r[current - first] == current;
    r
  }

  /** A column of the table: its key and its title. */
  datatype Column = Column(key: string, title: string)

  /** The exported columns: all but the actions column. */
  function ExportColumns(columns: seq<Column>): (r: seq<Column>)
    ensures Subseq(r, columns)
    ensures forall k :: 0 <= k < |r| ==> r[k].key != "actions" && r[k] in columns
    ensures forall k :: 0 <= k < |columns| && columns[k].key != "actions" ==> columns[k] in r
  {
    Select(columns, (c: Column) => c.key != "actions")
  }

  /** An exported row: the raw value of each exported column. */
  function ExportRow(row: Row, columns: seq<Column>): (r: seq<int>)
    ensures |r| == |columns|
    ensures forall k :: 0 <= k < |r| ==> r[k] == Value(row, columns[k].key)
  {
    seq(|columns|, k requires 0 <= k < |columns| => Value(row, columns[k].key))
  }

  /**
   * The table's state. `data` and `pageSize` come from the page using the
   * table; the current page and the sort order are the table's own.
   */
  class Table {
    var data: seq<Row>
    var pageSize: nat
    var searchTerm: string
    var currentPage: int
    var sort: Option<SortConfig>

    predicate Valid()
      reads this
    {
      pageSize > 0 && currentPage >= 1
    }

    /** A table starts on page 1, unsorted. */
    constructor (data: seq<Row>, pageSize: nat)
      requires pageSize > 0
      ensures Valid()
      ensures this.data == data && this.pageSize == pageSize && searchTerm == []
      ensures currentPage == 1 && sort.None?
    {
      this.data := data;
      this.pageSize := pageSize;
      searchTerm := [];
      currentPage := 1;
      sort := None;
    }

    function Total(): nat
      reads this
      requires Valid()
    {
      TotalPages(|data|, pageSize)
    }

    /** The rows on the screen. */
    function Visible(): (r: seq<Row>)
      reads this
      requires Valid()
      ensures |r| <= pageSize
      ensures currentPage <= Total() ==> r != []
    {
      PageRows(SortedData(data, sort), currentPage, pageSize)
    }

    /** `handleSort` */
    method Sort(key: string)
      requires Valid()
      modifies this
      ensures Valid()
      ensures sort == Some(ToggleSort(old(sort), key))
      ensures data == old(data) && pageSize == old(pageSize) && currentPage == old(currentPage)
      ensures searchTerm == old(searchTerm)
    {
      sort := Some(ToggleSort(sort, key));
    }

    /** The previous-page button: one page back, never below 1. */
    method Previous()
      requires Valid()
      modifies this
      ensures Valid()
      ensures currentPage == if old(currentPage) > 1 then old(currentPage) - 1 else 1
      ensures data == old(data) && pageSize == old(pageSize) && sort == old(sort) && searchTerm == old(searchTerm)
    {
      currentPage := if currentPage - 1 > 1 then currentPage - 1 else 1;
    }

    /** The next-page button: one page on, never past the last page. */
    method Next()
      requires Valid()
      modifies this
      ensures Valid()
      ensures old(currentPage) < Total() ==> currentPage == old(currentPage) + 1
      ensures 1 <= old(currentPage) <= Total() ==> 1 <= currentPage <= Total()
      ensures data == old(data) && pageSize == old(pageSize) && sort == old(sort) && searchTerm == old(searchTerm)
    {
      var next := Min(Total(), currentPage + 1);
      // Math.min(0, ...) on an empty table would give page 0; the button is not shown then.
      currentPage := if next >= 1 then next else 1;
    }

    /** A page button. */
    method GoTo(page: int)
      requires Valid() && page >= 1
      modifies this
      ensures Valid() && currentPage == page
      ensures data == old(data) && pageSize == old(pageSize) && sort == old(sort) && searchTerm == old(searchTerm)
    {
      currentPage := page;
    }

    /**
     * Setting the search term and page size: a change of either sends the
     * table back to page 1; setting both to what they were keeps the page,
     * since the effect runs only when a dependency changes.
     */
    method Filter(term: string, size: nat)
      requires Valid() && size > 0
      modifies this
      ensures Valid()
      ensures currentPage == if term == old(searchTerm) && size == old(pageSize) then old(currentPage) else 1
      ensures searchTerm == term && pageSize == size && data == old(data) && sort == old(sort)
    {
      if term != searchTerm || size != pageSize {
        currentPage := 1;
      }
      searchTerm := term;
      pageSize := size;
    }

    /** The page strip of the current state. */
    function Strip(): (r: seq<int>)
      reads this
      requires Valid()
      ensures currentPage <= Total() ==> currentPage in r
      ensures |r| <= 5
    {
      PageWindow(currentPage, Total())
    }
  }
}

=== FILE: descriptions.dfy ===
/**
 * The payment descriptions of the bank statements and how the import
 * scripts read a court name and a file number out of them. A description
 * looks like
 *
 *   GELEN EFT - ANTALYA MAHKEMELER VEZNESİ - Antalya 11. Asliye Hukuk Mahkemesi-2023/432 Esas-RAMAZAN ÇATAL
 *
 * Every script strips some of the decoration and then applies one or two
 * regular expressions; which ones is a `Rules` value, one per script. The
 * regular expressions are written out as matchers here; the lazy `.*?` and
 * `.+?` of the scripts take the first position at which the rest matches,
 * and never cross a line terminator.
 */
module Descriptions {
  import opened Wrappers
  import opened Text

  /** The characters `.` in a JavaScript regular expression does not match. */
  predicate IsLineTerminator(c: char) {
    c == '\n' || c == '\r' || c == '\U{2028}' || c == '\U{2029}'
  }

  /** Number of `\s` characters at the start of `s`. */
  function SpaceRun(s: string): (k: nat)
    ensures k <= |s| && AllSpaces(s[..k])
    ensures k < |s| ==> !IsSpace(s[k])
  {
    if s != [] && IsSpace(s[0]) then
      var k := 1 + SpaceRun(s[1..]);
      assert s[..k] == [s[0]] + s[1..][..k - 1];
      k
    else 0
  }

  // ------------------------------------------------------------ the prefixes

  /** The transfer kinds of `/^GELEN\s+(EFT|FAST|HAVALE)\s*-\s*\/`. */
  function TransferKind(t: string): (n: nat)
    ensures n <= |t|
  {
    if "EFT" <= t then 3 else if "FAST" <= t then 4 else if "HAVALE" <= t then 6 else 0
  }

  /**
   * The length of the prefix `/^GELEN\s+(EFT|FAST|HAVALE)\s*-\s*\/` matches,
   * if it matches. Whitespace and the letters that follow it are disjoint,
   * so the greedy runs never need to give anything back.
   */
  function TransferHeader(s: string): (k: Option<nat>)
    ensures k.Some? ==> 5 < k.value <= |s| && "GELEN" <= s
  {
    if !("GELEN" <= s) then None
    else
      var a := 5 + SpaceRun(s[5..]);
      var b := TransferKind(s[a..]);
      if a == 5 || b == 0 then None
      else
        var c := a + b + SpaceRun(s[a + b..]);
        if c < |s| && s[c] == '-' then Some(c + 1 + SpaceRun(s[c + 1..])) else None
  }

  /** `description.replace(/^GELEN\s+(EFT|FAST|HAVALE)\s*-\s*\/, '')` */
  function StripTransfer(s: string): (r: string)
    ensures !("GELEN" <= s) ==> r == s
    ensures |r| <= |s| && r == s[|s| - |r|..]
  {
    match TransferHeader(s)
    case Some(k) => s[k..]
    case None => s
  }

  /** The end of a match of `VEZNESİ\s*-\s*` starting at `i`. */
  function OfficeAt(s: string, i: nat): (e: Option<nat>)
    requires i <= |s|
    ensures e.Some? ==> i + 8 <= e.value <= |s| && s[i] == 'V'
  {
    if !("VEZNES\U{0130}" <= s[i..]) then None
    else
      var a := i + 7 + SpaceRun(s[i + 7..]);
      if a < |s| && s[a] == '-' then Some(a + 1 + SpaceRun(s[a + 1..])) else None
  }

  /**
   * `/^.*?VEZNESİ\s*-\s*\/`: the first position from `i` on at which the
   * office marker matches, scanning no further than the first line
   * terminator.
   */
  function FindOffice(s: string, i: nat): (e: Option<nat>)
    requires i <= |s|
    ensures e.Some? ==> i + 8 <= e.value <= |s|
    decreases |s| - i
  {
    var here := OfficeAt(s, i);
    if here.Some? then here
    else if i < |s| && !IsLineTerminator(s[i]) then FindOffice(s, i + 1)
    else None
  }

  /** `.replace(/^.*?VEZNESİ\s*-\s*\/, '')` */
  function StripOffice(s: string): (r: string)
    ensures |r| <= |s| && r == s[|s| - |r|..]
  {
    match FindOffice(s, 0)
    case Some(k) => s[k..]
    case None => s
  }

  /** The payer's name the bank appends to every court payment. */
  const Payer: string := "-RAMAZAN \U{00C7}ATAL"

  /** `.replace(/-RAMAZAN ÇATAL$/, '')`: `$` without the `m` flag is the end of the input. */
  function StripPayer(s: string): (r: string)
    ensures |r| <= |s| && r == s[..|r|]
  {
    if |s| >= |Payer| && s[|s| - |Payer|..] == Payer then s[..|s| - |Payer|] else s
  }

  // ------------------------------------------------- the court and file number

  /** A file number as the patterns capture it: four digits, a slash, at least one digit. */
  predicate IsFileNumber(f: string) {
    |f| >= 6 && AllDigits(f[..4]) && f[4] == '/' && AllDigits(f[5..])
  }

  /** The end of a match of `-(\d{4}\/\d+)` at `i`; the greedy `\d+` takes the whole digit run. */
  function FileRefEnd(s: string, i: nat): (e: Option<nat>)
    requires i <= |s|
    ensures e.Some? ==> i + 7 <= e.value <= |s| && s[i] == '-' && IsFileNumber(s[i + 1..e.value])
    ensures e.Some? ==> e.value == |s| || !IsDigit(s[e.value])
  {
    if i + 7 <= |s| && s[i] == '-' && AllDigits(s[i + 1..i + 5]) && s[i + 5] == '/' then
      var k := DigitRun(s[i + 6..]);
      if k >= 1 then
        assert s[i + 1..i + 6 + k][..4] == s[i + 1..i + 5];
        assert s[i + 1..i + 6 + k][5..] == s[i + 6..][..k];
        Some(i + 6 + k)
      else None
    else None
  }

  /** The case kinds of `(Esas|Talimat|D\.İş|Satış)`. */
  predicate KeywordAt(t: string) {
    "Esas" <= t || "Talimat" <= t || "D.\U{0130}\U{015F}" <= t || "Sat\U{0131}\U{015F}" <= t
  }

  /** `\s+(Esas|Talimat|D\.İş|Satış)` at `e`. */
  predicate KeywordAfter(s: string, e: nat)
    requires e <= |s|
  {
    var k := SpaceRun(s[e..]);
    k >= 1 && KeywordAt(s[e + k..])
  }

  /** What the scripts read from a description. */
  datatype Parsed = Parsed(courtName: string, fileNumber: string)

  /**
   * `^(.+?)-(\d{4}\/\d+)` followed, when `keyword` holds, by
   * `\s+(Esas|Talimat|D\.İş|Satış)`: the lazy group is tried with `i`
   * characters, then `i + 1`, and so on. The result is the length of the
   * group and the end of the file number.
   */
  function FirstMatch(s: string, i: nat, keyword: bool): (m: Option<(nat, nat)>)
    requires 1 <= i <= |s|
    ensures m.Some? ==> i <= m.value.0 && m.value.0 + 7 <= m.value.1 <= |s|
    ensures m.Some? ==> IsFileNumber(s[m.value.0 + 1..m.value.1])
    decreases |s| - i
  {
    if IsLineTerminator(s[i - 1]) then None
    else
      var e := FileRefEnd(s, i);
      if e.Some? && (!keyword || KeywordAfter(s, e.value)) then Some((i, e.value))
      else if i < |s| then FirstMatch(s, i + 1, keyword)
      else None
  }

  /** `s.match(...)`: the court name is the lazy group trimmed; the file number needs no trimming. */
  function Match(s: string, keyword: bool): (p: Option<Parsed>)
    ensures p.Some? ==> IsFileNumber(p.value.fileNumber) && Trim(p.value.courtName) == p.value.courtName
    ensures p.Some? ==> exists j :: 1 <= j <= |s| && p.value.courtName == Trim(s[..j])
  {
    if s == [] then None
    else
      Groups(s, FirstMatch(s, 1, keyword))
  }

  /** The two capture groups of a match found at `m`. */
  function Groups(s: string, m: Option<(nat, nat)>): Option<Parsed>
    requires m.Some? ==> m.value.0 < m.value.1 <= |s|
  {
    if m.None? then None
    else Some(Parsed(GroupName(s[..m.value.0]), s[m.value.0 + 1..m.value.1]))
  }

  /** The lazy group trimmed, which trimming again leaves as it is. */
  function GroupName(g: string): (r: string)
    ensures r == Trim(g) && Trim(r) == r
  {
    TrimIdempotent(g);
    Trim(g)
  }

  /** Whenever the pattern with the case kind matches, the pattern without it matches too. */
  lemma {:induction false} KeywordMatchIsLooseMatch(s: string, i: nat)
    requires 1 <= i <= |s|
    ensures FirstMatch(s, i, true).Some? ==> FirstMatch(s, i, false).Some?
    decreases |s| - i
  {
    if !IsLineTerminator(s[i - 1]) && FileRefEnd(s, i).None? && i < |s| {
      KeywordMatchIsLooseMatch(s, i + 1);
    }
  }

  /** `courtName.replace(/^Antalya\s+/, '')` */
  function StripCity(name: string): (r: string)
    ensures |r| <= |name| && r == name[|name| - |r|..]
    ensures r != name ==> |name| > 7 && "Antalya" <= name && IsSpace(name[7])
  {
    if "Antalya" <= name then
      var k := SpaceRun(name[7..]);
      if k >= 1 then name[7 + k..] else name
    else name
  }

  /** A name that neither starts nor ends with whitespace keeps that shape once the city is stripped. */
  lemma StripCityTrimmed(name: string)
    requires Trim(name) == name
    ensures Trim(StripCity(name)) == StripCity(name)
  {
    var r := StripCity(name);
    if r != name {
      var k := SpaceRun(name[7..]);
      assert name != [] && !IsSpace(name[|name| - 1]) by {
        assert name[7] in name;
        assert Trim(name) != [];
      }
      var t := name[7..];
      assert t[|t| - 1] == name[|name| - 1];
      SpaceRunStops(t);
      assert !IsSpace(r[0]) by { assert r[0] == t[k]; }
      assert r[|r| - 1] == name[|name| - 1];
      TrimUnchanged(r);
    }
  }

  /** A run of whitespace stops before a last character that is not whitespace. */
  lemma {:induction false} SpaceRunStops(t: string)
    requires t != [] && !IsSpace(t[|t| - 1])
    ensures SpaceRun(t) < |t|
  {
    if |t| > 1 && IsSpace(t[0]) {
      SpaceRunStops(t[1..]);
    }
  }

  /** A string that neither starts nor ends with whitespace is its own trim. */
  lemma TrimUnchanged(s: string)
    requires s != [] && !IsSpace(s[0]) && !IsSpace(s[|s| - 1])
    ensures Trim(s) == s
  {
    assert TrimStart(s) == s;
  }

  // ------------------------------------------------------------- the scripts

  /**
   * Which steps a script's `parseCourtDescription` takes: strip the
   * `GELEN EFT -` header, strip everything up to the cashier office, strip
   * the payer's name at the end; match the pattern with the case kind;
   * fall back to (or only use) the pattern without it; strip `Antalya `
   * from the court name.
   */
  datatype Rules = Rules(transfer: bool, office: bool, payer: bool, keyword: bool, loose: bool, city: bool)

  /** scripts/import-full-bank-data.js and scripts/import-from-excel.js */
  const FullBankData := Rules(true, true, false, true, false, true)
  /** scripts/import-all-bank-jobs.js: no header rule. */
  const AllBankJobs := Rules(false, true, false, true, false, true)
  /** scripts/one-time-import.js: the city prefix is kept. */
  const OneTimeImport := Rules(true, true, false, true, false, false)
  /** scripts/prepare-database.js: payer stripped, fallback to the loose pattern. */
  const PrepareDatabase := Rules(true, true, true, true, true, false)
  /** scripts/extract-jobs.js and scripts/extract-courts.js: the loose pattern only. */
  const Extract := Rules(true, true, true, false, true, false)
  /** `parseDescription` of scripts/import-jobs-from-bank.js: the loose pattern on the raw text. */
  const JobsFromBank := Rules(false, false, false, false, true, false)

  /** The description after the stripping steps of the rules. */
  function Clean(r: Rules, d: string): (c: string)
    ensures |c| <= |d|
  {
    var a := if r.transfer then StripTransfer(d) else d;
    var b := if r.office then StripOffice(a) else a;
    if r.payer then StripPayer(b) else b
  }

  /**
   * The match the rules accept: the pattern with the case kind first, then
   * (or only) the loose pattern.
   */
  function Pick(r: Rules, c: string): (m: Option<Parsed>)
    ensures m.Some? ==> IsFileNumber(m.value.fileNumber) && Trim(m.value.courtName) == m.value.courtName
    ensures m.Some? ==> exists j :: 1 <= j <= |c| && m.value.courtName == Trim(c[..j])
  {
    if r.keyword && Match(c, true).Some? then Match(c, true)
    else if r.loose then Match(c, false)
    else None
  }

  /** `parseCourtDescription`: the court name and file number, or `null`. */
  function ParseCourtDescription(r: Rules, d: string): (p: Option<Parsed>)
    ensures p.Some? ==> IsFileNumber(p.value.fileNumber)
    ensures p.Some? ==> Trim(p.value.courtName) == p.value.courtName
    ensures p.Some? && !r.city ==> p == Pick(r, Clean(r, d))
    ensures p.None? <==> Pick(r, Clean(r, d)).None?
  {
    match Pick(r, Clean(r, d))
    case None => None
    case Some(q) =>
      if r.city then
        StripCityTrimmed(q.courtName);
        Some(Parsed(StripCity(q.courtName), q.fileNumber))
      else Some(q)
  }

  /**
   * With the fallback, the rules of scripts/prepare-database.js find a court
   * exactly when the loose pattern alone finds one.
   */
  lemma FallbackAcceptsLoose(d: string)
    ensures ParseCourtDescription(PrepareDatabase, d).Some? <==> Match(Clean(PrepareDatabase, d), false).Some?
  {
    var c := Clean(PrepareDatabase, d);
    if c != [] { KeywordMatchIsLooseMatch(c, 1); }
  }

  // ------------------------------------------- reading a statement line back

  /** The case kinds a statement line names after the file number. */
  const Kinds: seq<string> := ["Esas", "Talimat", "D.\U{0130}\U{015F}", "Sat\U{0131}\U{015F}"]

  /** A court name as the bank prints it: no hyphen, no line break, no surrounding whitespace. */
  predicate PlainName(name: string) {
    name != [] && !IsSpace(name[0]) && !IsSpace(name[|name| - 1])
    && forall j :: 0 <= j < |name| ==> name[j] != '-' && !IsLineTerminator(name[j])
  }

  /** The office part before `VEZNESİ`: no `V`, no line break, not starting with whitespace. */
  predicate PlainOffice(office: string) {
    (office == [] || !IsSpace(office[0]))
    && forall j :: 0 <= j < |office| ==> office[j] != 'V' && !IsLineTerminator(office[j])
  }

  /** `<name>-<year>/<number> <kind><tail>` */
  function Body(name: string, year: string, number: string, kind: string, tail: string): string {
    name + "-" + year + "/" + number + " " + kind + tail
  }

  /**
   * A statement line in the shape the rules expect: the `GELEN` header when
   * the rules strip it, the cashier office when they strip it, and the
   * payer's name at the end.
   */
  function Statement(r: Rules, transfer: string, office: string, name: string, year: string, number: string, kind: string): string {
    (if r.transfer then "GELEN " + transfer + " - " else [])
    + (if r.office then office + "VEZNES\U{0130} - " else [])
    + Body(name, year, number, kind, Payer)
  }

  /**
   * Every rule set reads the court name (without `Antalya ` where the rules
   * strip it) and the file number back out of a statement line.
   */
  lemma ReadStatement(r: Rules, transfer: string, office: string, name: string, year: string, number: string, kind: string)
    requires r.keyword || r.loose
    requires IsTransfer(transfer) && PlainOffice(office) && PlainName(name)
    requires |year| == 4 && AllDigits(year) && number != [] && AllDigits(number) && kind in Kinds
    ensures ParseCourtDescription(r, Statement(r, transfer, office, name, year, number, kind))
      == Some(Parsed(if r.city then StripCity(name) else name, year + "/" + number))
  {
    var tail := if r.payer then [] else Payer;
    CleanStatement(r, transfer, office, name, year, number, kind);
    MatchBody(r, name, year, number, kind, tail);
  }

  /** The stripping steps leave the body, without the payer where the rules strip it. */
  lemma CleanStatement(r: Rules, transfer: string, office: string, name: string, year: string, number: string, kind: string)
    requires IsTransfer(transfer) && PlainOffice(office) && PlainName(name)
    ensures Clean(r, Statement(r, transfer, office, name, year, number, kind))
      == Body(name, year, number, kind, if r.payer then [] else Payer)
  {
    var body := Body(name, year, number, kind, Payer);
    var b := if r.office then office + "VEZNES\U{0130} - " + body else body;
    var d := Statement(r, transfer, office, name, year, number, kind);
    var c := Body(name, year, number, kind, if r.payer then [] else Payer);
    assert body[0] == name[0];
    AfterHeader(r, transfer, b, d);
    AfterOffice(r, office, body, b);
    AfterPayer(r, name, year, number, kind);
    CleanSteps(r, d, b, body, c);
  }

  lemma AfterPayer(r: Rules, name: string, year: string, number: string, kind: string)
    ensures var body := Body(name, year, number, kind, Payer);
      (if r.payer then StripPayer(body) else body) == Body(name, year, number, kind, if r.payer then [] else Payer)
  {
    if r.payer {
      assert Body(name, year, number, kind, []) + Payer == Body(name, year, number, kind, Payer);
      StripPayerSuffix(Body(name, year, number, kind, []));
    }
  }

  lemma AfterHeader(r: Rules, transfer: string, b: string, d: string)
    requires IsTransfer(transfer) && b != [] && !IsSpace(b[0])
    requires d == (if r.transfer then "GELEN " + transfer + " - " else []) + b
    ensures (if r.transfer then StripTransfer(d) else d) == b
  {
    if r.transfer {
      StripHeader(transfer, b);
    } else {
      assert d == b;
    }
  }

  lemma AfterOffice(r: Rules, office: string, body: string, b: string)
    requires PlainOffice(office) && body != [] && !IsSpace(body[0])
    requires b == if r.office then office + "VEZNES\U{0130} - " + body else body
    ensures (if r.office then StripOffice(b) else b) == body
    ensures b != [] && !IsSpace(b[0])
  {
    if r.office {
      StripOfficePrefix(office, body);
      assert b[0] == if office != [] then office[0] else 'V';
    }
  }

  lemma CleanSteps(r: Rules, d: string, b: string, body: string, c: string)
    requires (if r.transfer then StripTransfer(d) else d) == b
    requires (if r.office then StripOffice(b) else b) == body
    requires (if r.payer then StripPayer(body) else body) == c
    ensures Clean(r, d) == c
  {
  }

  lemma StripHeader(transfer: string, x: string)
    requires IsTransfer(transfer)
    requires x != [] && !IsSpace(x[0])
    ensures StripTransfer("GELEN " + transfer + " - " + x) == x
  {
    var s := "GELEN " + transfer + " - " + x;
    HeaderStart(transfer, x);
    HeaderEnd(transfer, x);
    HeaderAt(s, |transfer|);
  }

  /** `GELEN`, one space and the transfer kind. */
  lemma HeaderStart(transfer: string, x: string)
    requires IsTransfer(transfer)
    ensures var s := "GELEN " + transfer + " - " + x;
      "GELEN" <= s && SpaceRun(s[5..]) == 1 && TransferKind(s[6..]) == |transfer|
  {
    var s := "GELEN " + transfer + " - " + x;
    assert s[..5] == "GELEN";
    TransferKindOf(transfer, " - " + x);
    assert s[5..] == " " + (transfer + " - " + x);
    SpaceRunOne(" ", transfer + " - " + x);
  }

  /** ` - ` after the transfer kind, then the rest. */
  lemma HeaderEnd(transfer: string, x: string)
    requires x != [] && !IsSpace(x[0])
    ensures var s := "GELEN " + transfer + " - " + x; var n := |transfer|;
      SpaceRun(s[6 + n..]) == 1 && s[7 + n] == '-' && SpaceRun(s[8 + n..]) == 1 && s[9 + n..] == x
  {
    var s := "GELEN " + transfer + " - " + x;
    var n := |transfer|;
    assert s[6 + n..] == " " + ("- " + x);
    SpaceRunOne(" ", "- " + x);
    assert s[7 + n] == '-';
    assert s[8 + n..] == " " + x;
    SpaceRunOne(" ", x);
    assert s[9 + n..] == x;
  }

  /** The header pattern read position by position. */
  lemma HeaderAt(s: string, n: nat)
    requires "GELEN" <= s && 9 + n <= |s| && n > 0
    requires SpaceRun(s[5..]) == 1 && TransferKind(s[6..]) == n
    requires SpaceRun(s[6 + n..]) == 1 && s[7 + n] == '-' && SpaceRun(s[8 + n..]) == 1
    ensures StripTransfer(s) == s[9 + n..]
  {
  }

  /** The transfer kinds the header names. */
  predicate IsTransfer(t: string) { t == "EFT" || t == "FAST" || t == "HAVALE" }

  lemma TransferKindOf(transfer: string, rest: string)
    requires IsTransfer(transfer)
    ensures TransferKind(transfer + rest) == |transfer| && !IsSpace(transfer[0])
  {
    var t := transfer + rest;
    if transfer == "EFT" {
      assert t[..3] == "EFT";
    } else if transfer == "FAST" {
      assert t[0] == 'F' && t[..4] == "FAST";
    } else {
      assert t[0] == 'H' && t[..6] == "HAVALE";
    }
  }

  /** A single space before something else is a run of one. */
  lemma SpaceRunOne(sp: string, t: string)
    requires sp == " " && t != [] && !IsSpace(t[0])
    ensures SpaceRun(sp + t) == 1
  {
    assert (sp + t)[1..] == t;
  }

  /** The office rule removes everything up to `VEZNESİ - ` when nothing before it can start a match. */
  lemma StripOfficePrefix(office: string, x: string)
    requires PlainOffice(office) && x != [] && !IsSpace(x[0])
    ensures StripOffice(office + "VEZNES\U{0130} - " + x) == x
  {
    var s := office + "VEZNES\U{0130} - " + x;
    var i := |office|;
    SkipOffice(s, office, 0);
    OfficeMarker(office, x);
    OfficeAtPosition(s, i);
  }

  /** `VEZNESİ - ` right after the office, then the rest. */
  lemma OfficeMarker(office: string, x: string)
    requires x != [] && !IsSpace(x[0])
    ensures var s := office + "VEZNES\U{0130} - " + x; var i := |office|;
      "VEZNES\U{0130}" <= s[i..] && SpaceRun(s[i + 7..]) == 1 && s[i + 8] == '-'
      && SpaceRun(s[i + 9..]) == 1 && s[i + 10..] == x
  {
    var s := office + "VEZNES\U{0130} - " + x;
    var i := |office|;
    assert s[i..][..7] == "VEZNES\U{0130}";
    assert s[i + 7..] == " " + ("- " + x);
    SpaceRunOne(" ", "- " + x);
    assert s[i + 9..] == " " + x;
    SpaceRunOne(" ", x);
  }

  /** The office pattern read position by position. */
  lemma OfficeAtPosition(s: string, i: nat)
    requires i + 10 <= |s| && "VEZNES\U{0130}" <= s[i..]
    requires SpaceRun(s[i + 7..]) == 1 && s[i + 8] == '-' && SpaceRun(s[i + 9..]) == 1
    ensures FindOffice(s, i) == Some(i + 10)
  {
    assert OfficeAt(s, i) == Some(i + 10);
  }

  lemma {:induction false} SkipOffice(s: string, office: string, i: nat)
    requires office <= s && i <= |office| && PlainOffice(office)
    ensures FindOffice(s, i) == FindOffice(s, |office|)
    decreases |office| - i
  {
    if i < |office| {
      assert s[i] == office[i];
      SkipOffice(s, office, i + 1);
    }
  }

  lemma StripPayerSuffix(x: string)
    ensures StripPayer(x + Payer) == x
  {
    var s := x + Payer;
    assert s[|s| - |Payer|..] == Payer;
    assert s[..|s| - |Payer|] == x;
  }

  /** The patterns find the name and the file number at the start of a body. */
  lemma MatchBody(r: Rules, name: string, year: string, number: string, kind: string, tail: string)
    requires r.keyword || r.loose
    requires PlainName(name) && |year| == 4 && AllDigits(year) && number != [] && AllDigits(number) && kind in Kinds
    ensures Pick(r, Body(name, year, number, kind, tail)) == Some(Parsed(name, year + "/" + number))
  {
    var s := Body(name, year, number, kind, tail);
    var i := |name|;
    var e := i + 6 + |number|;
    FileRefAfterName(s, name, year, number, " " + kind + tail);
    KeywordAfterNumber(s, e, kind, tail);
    FoundAt(s, i, e, true);
    FoundAt(s, i, e, false);
    MatchOf(s, i, e, true);
    MatchOf(s, i, e, false);
    TrimUnchanged(name);
  }

  lemma MatchOf(s: string, i: nat, e: nat, keyword: bool)
    requires 1 <= i <= e <= |s| && FirstMatch(s, 1, keyword) == Some((i, e))
    ensures Match(s, keyword) == Some(Parsed(Trim(s[..i]), s[i + 1..e]))
  {
    GroupsAt(s, FirstMatch(s, 1, keyword), i, e);
  }

  lemma GroupsAt(s: string, m: Option<(nat, nat)>, i: nat, e: nat)
    requires m == Some((i, e)) && i < e <= |s|
    ensures Groups(s, m) == Some(Parsed(Trim(s[..i]), s[i + 1..e]))
  {
  }

  /** The lazy group first succeeds with `i` characters: the match is the group and the file number. */
  lemma FoundAt(s: string, i: nat, e: nat, keyword: bool)
    requires 1 <= i && i + 7 <= e <= |s|
    requires forall j :: 0 <= j < i ==> s[j] != '-' && !IsLineTerminator(s[j])
    requires FileRefEnd(s, i) == Some(e) && KeywordAfter(s, e)
    ensures FirstMatch(s, 1, keyword) == Some((i, e))
  {
    SkipName(s, i, 1, keyword);
  }

  /** `-<year>/<number>` right after the name, ended by something other than a digit. */
  lemma FileRefAfterName(s: string, name: string, year: string, number: string, rest: string)
    requires s == name + "-" + year + "/" + number + rest && PlainName(name)
    requires |year| == 4 && AllDigits(year) && number != [] && AllDigits(number)
    requires rest != [] && !IsDigit(rest[0])
    ensures FileRefEnd(s, |name|) == Some(|name| + 6 + |number|)
    ensures s[..|name|] == name && s[|name| + 1..|name| + 6 + |number|] == year + "/" + number
    ensures forall j :: 0 <= j < |name| ==> s[j] != '-' && !IsLineTerminator(s[j])
  {
    var i := |name|;
    FileRefParts(name, year, number, rest);
    DigitRunOf(number, rest);
    FileRefAt(s, i, |number|);
  }

  lemma FileRefParts(name: string, year: string, number: string, rest: string)
    ensures var s := name + "-" + year + "/" + number + rest; var i := |name|;
      s[..i] == name && s[i] == '-' && s[i + 1..i + 5] == year && s[i + 5] == '/'
      && s[i + 6..] == number + rest && s[i + 1..i + 6 + |number|] == year + "/" + number
    requires |year| == 4
  {
    var s := name + "-" + year + "/" + number + rest;
    var i := |name|;
    assert s[i + 1..i + 6 + |number|] == year + "/" + number;
  }

  /** The file-number pattern read position by position. */
  lemma FileRefAt(s: string, i: nat, k: nat)
    requires i + 6 + k <= |s| && k >= 1
    requires s[i] == '-' && AllDigits(s[i + 1..i + 5]) && s[i + 5] == '/' && DigitRun(s[i + 6..]) == k
    ensures FileRefEnd(s, i) == Some(i + 6 + k)
  {
  }

  /** ` <kind>` right after the file number. */
  lemma KeywordAfterNumber(s: string, e: nat, kind: string, tail: string)
    requires e <= |s| && s[e..] == " " + kind + tail && kind in Kinds
    ensures KeywordAfter(s, e)
  {
    var t := s[e..];
    assert t[0] == ' ' && t[1] == kind[0];
    assert SpaceRun(t) == 1;
    assert s[e + 1..] == kind + tail;
  }

  /** Before position `n` nothing can start a match: no hyphen, no line break. */
  lemma {:induction false} SkipName(s: string, n: nat, i: nat, keyword: bool)
    requires 1 <= i <= n <= |s|
    requires forall j :: 0 <= j < n ==> s[j] != '-' && !IsLineTerminator(s[j])
    ensures FirstMatch(s, i, keyword) == FirstMatch(s, n, keyword)
    decreases n - i
  {
    if i < n {
      assert FileRefEnd(s, i).None?;
      SkipName(s, n, i + 1, keyword);
    }
  }

  /** `Antalya ` in front of a court name is stripped and nothing else is. */
  lemma StripCityOf(court: string)
    requires court != [] && !IsSpace(court[0])
    ensures StripCity("Antalya " + court) == court
  {
    var name := "Antalya " + court;
    assert name[..7] == "Antalya";
    assert name[7..] == " " + court;
    SpaceRunOne(" ", court);
  }
}

=== FILE: export.dfy ===
/**
 * The exporters of src/shared/utils/exportUtils.ts: the rows a table hands
 * over become an Excel sheet, a PDF table or a CSV file. Modelled here is the
 * text that ends up in each cell: the Excel projection of a row, the PDF
 * column widths, the transliteration and abbreviation of PDF cells, and the
 * quoting of CSV fields, together with a reader that gets the records back
 * from the CSV text.
 */
module Exports {
  import opened Wrappers
  import opened Text
  import Money
  import Calendar

  /** A value of an exported row: text, a (whole) number, or nothing (`undefined`). */
  datatype Cell = Str(s: string) | Num(n: int) | Absent

  /** An exported row: its values by column key. */
  type Record = map<string, Cell>

  /** An exported column: the key it reads, its title, and the Excel width it may ask for. */
  datatype ExportColumn = ExportColumn(key: string, title: string, width: Option<int>)

  function Get(row: Record, key: string): Cell {
    if key in row then row[key] else Absent
  }

  /** The values `||` treats as false: nothing, the empty text and 0. */
  predicate Falsy(c: Cell) { c == Absent || c == Str([]) || c == Num(0) }

  /** `value || ''` */
  function OrBlank(c: Cell): Cell { if Falsy(c) then Str([]) else c }

  /** `String(value)` */
  function Show(c: Cell): string {
    match c
    case Str(s) => s
    case Num(n) => Calendar.IntToString(n)
    case Absent => []
  }

  // ------------------------------------------------------------------ Excel

  /** The column with index `k` is the last one with its title. */
  predicate LastWithTitle(columns: seq<ExportColumn>, k: int)
    requires 0 <= k < |columns|
  {
    forall m :: k < m < |columns| ==> columns[m].title != columns[k].title
  }

  function Titles(columns: seq<ExportColumn>): set<string> {
    set c | c in columns :: c.title
  }

  /**
   * `obj` is the Excel object made from `row`: one entry per column title,
   * holding what the last column with that title reads, with `||` applied.
   */
  predicate ProjectsRow(row: Record, columns: seq<ExportColumn>, obj: map<string, Cell>) {
    && obj.Keys == Titles(columns)
    && (forall k :: 0 <= k < |columns| && LastWithTitle(columns, k) ==>
          obj[columns[k].title] == OrBlank(Get(row, columns[k].key)))
  }

  /** `newRow[col.title] = row[col.key] || ''` for each column in turn. */
  method ExcelRow(row: Record, columns: seq<ExportColumn>) returns (obj: map<string, Cell>)
    ensures ProjectsRow(row, columns, obj)
    ensures forall t :: t in obj ==> obj[t] != Absent && obj[t] != Num(0)
  {
    obj := map[];
    for i := 0 to |columns|
      invariant ProjectsRow(row, columns[..i], obj)
      invariant forall t :: t in obj ==> obj[t] != Absent && obj[t] != Num(0)
    {
      ProjectStep(row, columns, i, obj);
      obj := obj[columns[i].title := OrBlank(Get(row, columns[i].key))];
    }
    assert columns[..|columns|] == columns;
  }

  /** One more column written into the object keeps it the projection of the longer prefix. */
  lemma ProjectStep(row: Record, columns: seq<ExportColumn>, i: nat, obj: map<string, Cell>)
    requires i < |columns| && ProjectsRow(row, columns[..i], obj)
    ensures ProjectsRow(row, columns[..i + 1], obj[columns[i].title := OrBlank(Get(row, columns[i].key))])
  {
    var col := columns[i];
    var prefix := columns[..i + 1];
    var next := obj[col.title := OrBlank(Get(row, col.key))];
    assert prefix == columns[..i] + [col];
    assert Titles(prefix) == Titles(columns[..i]) + {col.title};
    forall k | 0 <= k < |prefix| && LastWithTitle(prefix, k)
      ensures next[prefix[k].title] == OrBlank(Get(row, prefix[k].key))
    {
      if k < i {
        assert prefix[k] == columns[..i][k];
        assert prefix[i] == col;
        assert prefix[k].title != prefix[i].title;
        assert LastWithTitle(columns[..i], k) by {
          forall m | k < m < i ensures columns[..i][m].title != columns[..i][k].title {
            assert columns[..i][m] == prefix[m];
          }
        }
      }
    }
  }

  /** `data.map(...)`: the sheet has one object per row, in order. */
  method ExcelSheet(data: seq<Record>, columns: seq<ExportColumn>) returns (sheet: seq<map<string, Cell>>)
    ensures |sheet| == |data|
    ensures forall i :: 0 <= i < |data| ==> ProjectsRow(data[i], columns, sheet[i])
  {
    sheet := [];
    for i := 0 to |data|
      invariant |sheet| == i
      invariant forall j :: 0 <= j < i ==> ProjectsRow(data[j], columns, sheet[j])
    {
      var obj := ExcelRow(data[i], columns);
      sheet := sheet + [obj];
    }
  }

  /** `col.width || 15`: the Excel width of a column. */
  function ExcelWidth(c: ExportColumn): (w: int)
    ensures w != 0
    ensures c.width.Some? && c.width.value != 0 ==> w == c.width.value
  {
    if c.width.Some? && c.width.value != 0 then c.width.value else 15
  }

  // -------------------------------------------------------- transliteration

  /** The twelve Turkish letters outside ASCII. */
  predicate TurkishLetter(c: char) {
    c == 'ç' || c == 'Ç' || c == 'ğ' || c == 'Ğ' || c == 'ı' || c == 'İ' ||
    c == 'ö' || c == 'Ö' || c == 'ş' || c == 'Ş' || c == 'ü' || c == 'Ü'
  }

  /** A text without any of the twelve letters. */
  predicate Plain(s: string) {
    forall i :: 0 <= i < |s| ==> !TurkishLetter(s[i])
  }

  /** The character map of the PDF export: each Turkish letter becomes its ASCII base letter, in the same case. */
  function AsciiLetter(c: char): (r: char)
    ensures TurkishLetter(c) <==> r != c
    ensures !TurkishLetter(r)
    ensures TurkishLetter(c) && (c == 'Ç' || c == 'Ğ' || c == 'İ' || c == 'Ö' || c == 'Ş' || c == 'Ü') ==> IsUpper(r)
    ensures TurkishLetter(c) && !(c == 'Ç' || c == 'Ğ' || c == 'İ' || c == 'Ö' || c == 'Ş' || c == 'Ü') ==> IsLower(r)
  {
    match c
    case 'ç' => 'c' case 'Ç' => 'C' case 'ğ' => 'g' case 'Ğ' => 'G'
    case 'ı' => 'i' case 'İ' => 'I' case 'ö' => 'o' case 'Ö' => 'O'
    case 'ş' => 's' case 'Ş' => 'S' case 'ü' => 'u' case 'Ü' => 'U'
    case _ => c
  }

  /**
   * `value.replace(/[çÇğĞıİöÖşŞüÜ]/g, ...)`: the same length, no Turkish
   * letter left, every other character where it was.
   */
  function Transliterate(s: string): (r: string)
    ensures |r| == |s| && Plain(r)
    ensures forall i :: 0 <= i < |s| && !TurkishLetter(s[i]) ==> r[i] == s[i]
    ensures Plain(s) ==> r == s
  {
    seq(|s|, i requires 0 <= i < |s| => AsciiLetter(s[i]))
  }

  /** Transliterating twice changes nothing more. */
  lemma TransliterateIdempotent(s: string)
    ensures Transliterate(Transliterate(s)) == Transliterate(s)
  {
  }

  // ------------------------------------------------------------ PDF widths

  /** The usable width of an A4 landscape page, in millimetres: 297 less two 14 mm margins. */
  const AvailableWidth: int := 297 - 28

  /** `minWidths[key] || 25` */
  function MinWidth(key: string): (w: int)
    ensures 8 <= w <= 25
  {
    if key == "id" then 8
    else if key == "date" then 25
    else if key == "fileNumber" then 20
    else if key == "totalAmount" then 18
    else 25
  }

  /** `maxWidths[key] || 50`: never below the minimum. */
  function MaxWidth(key: string): (w: int)
    ensures MinWidth(key) <= w
  {
    if key == "courtName" then 90
    else if key == "status" then 40
    else if key == "paymentStatus" then 35
    else if key == "invoiceStatus" then 35
    else 50
  }

  /** The text a PDF cell starts from: `String(value || '')`, an amount as the locale prints it followed by " TL". */
  function PdfText(row: Record, key: string, locale: int -> string): string {
    var c := Get(row, key);
    if key == "totalAmount" && c.Num? then locale(c.n) + " TL" else Show(OrBlank(c))
  }

  /** The longest of `floor` and the lengths of the texts of `key` in `rows`. */
  function Longest(rows: seq<Record>, key: string, locale: int -> string, floor: nat): (r: nat)
    ensures r >= floor
    ensures forall i :: 0 <= i < |rows| ==> r >= |PdfText(rows[i], key, locale)|
    ensures r == floor || exists i :: 0 <= i < |rows| && r == |PdfText(rows[i], key, locale)|
  {
    if rows == [] then floor
    else
      var n := |rows| - 1;
      var before := Longest(rows[..n], key, locale, floor);
      var t := |PdfText(rows[n], key, locale)|;
      assert forall i :: 0 <= i < n ==> rows[..n][i] == rows[i];
      if t > before then t else before
  }

  lemma LongestStep(rows: seq<Record>, key: string, locale: int -> string, floor: nat, j: nat)
    requires j < |rows|
    ensures var before := Longest(rows[..j], key, locale, floor);
      var t := |PdfText(rows[j], key, locale)|;
      Longest(rows[..j + 1], key, locale, floor) == if t > before then t else before
  {
    assert rows[..j + 1][..j] == rows[..j];
  }

  /** The content length of a column: its title or its longest text among `rows`. */
  function ContentLength(c: ExportColumn, rows: seq<Record>, locale: int -> string): nat {
    Longest(rows, c.key, locale, |c.title|)
  }

  function ContentLengths(rows: seq<Record>, locale: int -> string): ExportColumn -> int {
    (c: ExportColumn) => ContentLength(c, rows, locale)
  }

  /**
   * `Math.round(min(max(len * 2.5, minWidth), maxWidth))`, worked in half
   * millimetres: within the column's bounds, and 2.5 mm per character
   * rounded to the nearest millimetre when that is within them.
   */
  function BaseWidth(key: string, len: int): (w: int)
    ensures MinWidth(key) <= w <= MaxWidth(key)
    ensures 2 * MinWidth(key) <= 5 * len <= 2 * MaxWidth(key) ==> 2 * w - 1 <= 5 * len < 2 * w + 1
    ensures 5 * len <= 2 * MinWidth(key) ==> w == MinWidth(key)
    ensures 5 * len >= 2 * MaxWidth(key) ==> w == MaxWidth(key)
  {
    var halves := if 5 * len < 2 * MinWidth(key) then 2 * MinWidth(key) else 5 * len;
    var clamped := if halves > 2 * MaxWidth(key) then 2 * MaxWidth(key) else halves;
    Money.RoundDiv(clamped, 2)
  }

  /** The base width of a column for the content length recorded under its key. */
  function BaseWidths(lengths: map<string, int>): ExportColumn -> int {
    (c: ExportColumn) => if c.key in lengths then BaseWidth(c.key, lengths[c.key]) else 0
  }

  /** What a map holds under a column's key. */
  function At(m: map<string, int>): ExportColumn -> int {
    (c: ExportColumn) => if c.key in m then m[c.key] else 0
  }

  function KeySet(columns: seq<ExportColumn>): set<string> {
    set c | c in columns :: c.key
  }

  lemma KeySetPrefix(columns: seq<ExportColumn>, i: nat)
    requires i < |columns|
    ensures KeySet(columns[..i + 1]) == KeySet(columns[..i]) + {columns[i].key}
  {
    var p := columns[..i + 1];
    assert p[..i] == columns[..i] && p[i] == columns[i];
    assert p == columns[..i] + [columns[i]];
  }

  /** No two columns share a key. */
  predicate DistinctKeys(columns: seq<ExportColumn>) {
    forall i, j :: 0 <= i < j < |columns| ==> columns[i].key != columns[j].key
  }

  /**
   * `columns.forEach(col => { m[col.key] = f(col) })`: every column key, a
   * later column overwriting an earlier one with the same key.
   */
  function KeyedBy(columns: seq<ExportColumn>, f: ExportColumn -> int): (m: map<string, int>)
    ensures m.Keys == KeySet(columns)
  {
    if columns == [] then map[]
    else
      var n := |columns| - 1;
      KeySetPrefix(columns, n);
      assert columns[..n + 1] == columns;
      KeyedBy(columns[..n], f)[columns[n].key := f(columns[n])]
  }

  lemma KeyedStep(columns: seq<ExportColumn>, f: ExportColumn -> int, i: nat)
    requires i < |columns|
    ensures KeyedBy(columns[..i + 1], f) == KeyedBy(columns[..i], f)[columns[i].key := f(columns[i])]
  {
    assert columns[..i + 1][..i] == columns[..i];
  }

  /** With distinct keys, each key holds its own column's value. */
  lemma {:induction false} KeyedAt(columns: seq<ExportColumn>, f: ExportColumn -> int, k: nat)
    requires DistinctKeys(columns) && k < |columns|
    ensures KeyedBy(columns, f)[columns[k].key] == f(columns[k])
  {
    var n := |columns| - 1;
    KeyedStep(columns, f, n);
    assert columns[..n + 1] == columns;
    if k < n {
      var init := columns[..n];
      assert init[k] == columns[k];
      assert DistinctKeys(init) by {
        forall i, j | 0 <= i < j < |init| ensures init[i].key != init[j].key {
          assert init[i] == columns[i] && init[j] == columns[j];
        }
      }
      KeyedAt(init, f, k);
      assert columns[k].key != columns[n].key;
    }
  }

  /** When `f` depends on the key alone, every column's value is under its key, shared keys or not. */
  lemma {:induction false} KeyedByKey(columns: seq<ExportColumn>, f: ExportColumn -> int)
    requires forall c, d :: c in columns && d in columns && c.key == d.key ==> f(c) == f(d)
    ensures forall c :: c in columns ==> KeyedBy(columns, f)[c.key] == f(c)
  {
    if columns != [] {
      var n := |columns| - 1;
      assert columns[..n + 1] == columns;
      assert forall c :: c in columns[..n] ==> c in columns;
      KeyedByKey(columns[..n], f);
      assert columns[n] in columns;
    }
  }

  /** `f` added up over the columns, one column after the other. */
  function SumOf(columns: seq<ExportColumn>, f: ExportColumn -> int): int {
    if columns == [] then 0
    else
      var n := |columns| - 1;
      SumOf(columns[..n], f) + f(columns[n])
  }

  lemma SumStep(columns: seq<ExportColumn>, f: ExportColumn -> int, i: nat)
    requires i < |columns|
    ensures SumOf(columns[..i + 1], f) == SumOf(columns[..i], f) + f(columns[i])
  {
    assert columns[..i + 1][..i] == columns[..i];
  }

  /** Functions that agree on the columns add up to the same sum. */
  lemma {:induction false} SumAgrees(columns: seq<ExportColumn>, f: ExportColumn -> int, g: ExportColumn -> int)
    requires forall c :: c in columns ==> f(c) == g(c)
    ensures SumOf(columns, f) == SumOf(columns, g)
  {
    if columns != [] {
      var n := |columns| - 1;
      assert forall c :: c in columns[..n] ==> c in columns;
      SumAgrees(columns[..n], f, g);
      assert columns[n] in columns;
    }
  }

  /** The scaling pass: column by column, the width under its key becomes `Math.round(width * 269 / total)`. */
  function Rescaled(columns: seq<ExportColumn>, widths: map<string, int>, total: int): (m: map<string, int>)
    requires total > 0 && KeySet(columns) <= widths.Keys
    ensures m.Keys == widths.Keys
  {
    RescaledBy(columns, widths, Scale(total))
  }

  /** `Math.round(width * 269 / total)` */
  function Scale(total: int): int -> int
    requires total > 0
  {
    w => Money.RoundDiv(w * AvailableWidth, total)
  }

  /** Column by column, the width under its key becomes `scale` of it. */
  function RescaledBy(columns: seq<ExportColumn>, widths: map<string, int>, scale: int -> int): (m: map<string, int>)
    requires KeySet(columns) <= widths.Keys
    ensures m.Keys == widths.Keys
  {
    if columns == [] then widths
    else
      var n := |columns| - 1;
      KeySetPrefix(columns, n);
      assert columns[..n + 1] == columns;
      var m := RescaledBy(columns[..n], widths, scale);
      var key := columns[n].key;
      m[key := scale(m[key])]
  }

  lemma RescaledStep(columns: seq<ExportColumn>, widths: map<string, int>, total: int, i: nat)
    requires total > 0 && KeySet(columns) <= widths.Keys && i < |columns|
    ensures KeySet(columns[..i]) <= widths.Keys && KeySet(columns[..i + 1]) <= widths.Keys
    ensures var m := Rescaled(columns[..i], widths, total);
      var key := columns[i].key;
      key in m && Rescaled(columns[..i + 1], widths, total) == m[key := Money.RoundDiv(m[key] * AvailableWidth, total)]
  {
    KeySetPrefix(columns, i);
    assert forall c :: c in columns[..i + 1] ==> c in columns;
    assert columns[..i + 1][..i] == columns[..i];
  }

  /** With distinct keys, the scaling pass scales each column's width exactly once. */
  lemma RescaledAt(columns: seq<ExportColumn>, widths: map<string, int>, total: int)
    requires total > 0 && KeySet(columns) <= widths.Keys && DistinctKeys(columns)
    ensures forall c :: c in columns ==>
      Rescaled(columns, widths, total)[c.key] == Money.RoundDiv(widths[c.key] * AvailableWidth, total)
    ensures forall t :: t in widths && t !in KeySet(columns) ==> Rescaled(columns, widths, total)[t] == widths[t]
  {
    RescaledByAt(columns, widths, Scale(total));
  }

  lemma {:induction false} RescaledByAt(columns: seq<ExportColumn>, widths: map<string, int>, scale: int -> int)
    requires KeySet(columns) <= widths.Keys && DistinctKeys(columns)
    ensures forall c :: c in columns ==> RescaledBy(columns, widths, scale)[c.key] == scale(widths[c.key])
    ensures forall t :: t in widths && t !in KeySet(columns) ==> RescaledBy(columns, widths, scale)[t] == widths[t]
  {
    if columns != [] {
      var n := |columns| - 1;
      KeySetPrefix(columns, n);
      assert columns[..n + 1] == columns;
      var init := columns[..n];
      RescaledByAt(init, widths, scale);
      var m0 := RescaledBy(init, widths, scale);
      var key := columns[n].key;
      var m := RescaledBy(columns, widths, scale);
      assert m == m0[key := scale(m0[key])];
      assert key !in KeySet(init);
      forall c | c in columns
        ensures m[c.key] == scale(widths[c.key])
      {
        var k :| 0 <= k < |columns| && columns[k] == c;
        if k < n {
          assert init[k] == c;
          assert c.key != key;
        }
      }
    }
  }

  /** The widths for given content lengths: the base widths, scaled down when their total exceeds the page. */
  function Plan(columns: seq<ExportColumn>, lengths: map<string, int>): map<string, int> {
    var widths := KeyedBy(columns, BaseWidths(lengths));
    var total := SumOf(columns, BaseWidths(lengths));
    if total > AvailableWidth then Rescaled(columns, widths, total) else widths
  }

  /** The first twenty rows, which decide the content lengths. */
  function Sample(data: seq<Record>): seq<Record> {
    data[..if |data| < 20 then |data| else 20]
  }

  /** `calculateColumnWidths()` as a function of the columns and the rows. */
  function PlannedWidths(columns: seq<ExportColumn>, data: seq<Record>, locale: int -> string): map<string, int> {
    Plan(columns, KeyedBy(columns, ContentLengths(Sample(data), locale)))
  }

  /** The inner `forEach` of the first pass: the title's length, raised to each longer text among `rows`. */
  method MeasureColumn(col: ExportColumn, rows: seq<Record>, locale: int -> string) returns (maxLength: nat)
    ensures maxLength == ContentLength(col, rows, locale)
  {
    maxLength := |col.title|;
    for j := 0 to |rows|
      invariant maxLength == Longest(rows[..j], col.key, locale, |col.title|)
    {
      LongestStep(rows, col.key, locale, |col.title|, j);
      var value := PdfText(rows[j], col.key, locale);
      if |value| > maxLength {
        maxLength := |value|;
      }
    }
    assert rows[..|rows|] == rows;
  }

  /** The first pass: `maxLengths[col.key]` for every column. */
  method MeasureColumns(columns: seq<ExportColumn>, rows: seq<Record>, locale: int -> string) returns (maxLengths: map<string, int>)
    ensures maxLengths == KeyedBy(columns, ContentLengths(rows, locale))
  {
    maxLengths := map[];
    for i := 0 to |columns|
      invariant maxLengths == KeyedBy(columns[..i], ContentLengths(rows, locale))
    {
      var maxLength := MeasureColumn(columns[i], rows, locale);
      KeyedStep(columns, ContentLengths(rows, locale), i);
      maxLengths := maxLengths[columns[i].key := maxLength];
    }
    assert columns[..|columns|] == columns;
  }

  /** The second pass: `columnWidths[col.key]` and `totalCalculatedWidth`. */
  method SizeColumns(columns: seq<ExportColumn>, maxLengths: map<string, int>) returns (widths: map<string, int>, total: int)
    requires KeySet(columns) <= maxLengths.Keys
    ensures widths == KeyedBy(columns, BaseWidths(maxLengths))
    ensures total == SumOf(columns, BaseWidths(maxLengths))
  {
    widths := map[];
    total := 0;
    for i := 0 to |columns|
      invariant widths == KeyedBy(columns[..i], BaseWidths(maxLengths))
      invariant total == SumOf(columns[..i], BaseWidths(maxLengths))
    {
      var key := columns[i].key;
      assert key in maxLengths by { assert columns[i] in columns; }
      KeyedStep(columns, BaseWidths(maxLengths), i);
      SumStep(columns, BaseWidths(maxLengths), i);
      widths := widths[key := BaseWidth(key, maxLengths[key])];
      total := total + widths[key];
    }
    assert columns[..|columns|] == columns;
  }

  /** The scaling pass, when the total is wider than the page. */
  method ScaleColumns(columns: seq<ExportColumn>, unscaled: map<string, int>, total: int) returns (widths: map<string, int>)
    requires total > 0 && KeySet(columns) <= unscaled.Keys
    ensures widths == Rescaled(columns, unscaled, total)
  {
    widths := unscaled;
    for i := 0 to |columns|
      invariant widths == Rescaled(columns[..i], unscaled, total)
    {
      RescaledStep(columns, unscaled, total, i);
      var key := columns[i].key;
      widths := widths[key := Money.RoundDiv(widths[key] * AvailableWidth, total)];
    }
    assert columns[..|columns|] == columns;
  }

  /**
   * `calculateColumnWidths`: the content lengths, then the widths and their
   * running total, then the scaling pass when the total is too wide.
   */
  method ColumnWidths(columns: seq<ExportColumn>, data: seq<Record>, locale: int -> string) returns (widths: map<string, int>)
    ensures widths == PlannedWidths(columns, data, locale)
    ensures widths.Keys == KeySet(columns)
  {
    var maxLengths := MeasureColumns(columns, Sample(data), locale);
    var total;
    widths, total := SizeColumns(columns, maxLengths);
    if total > AvailableWidth {
      widths := ScaleColumns(columns, widths, total);
    }
  }

  lemma ShareStep(t: int, a: int, b: int, sr: int, sw: int, n: int)
    requires t > 0 && 2 * t * a <= 2 * (b * AvailableWidth) + t
    requires 2 * t * sr <= 2 * AvailableWidth * sw + n * t
    ensures 2 * t * (sr + a) <= 2 * AvailableWidth * (sw + b) + (n + 1) * t
  {
  }

  /** Rounded shares of a total: twice their sum exceeds twice the page width by at most one per column. */
  lemma {:induction false} RoundedSharesBound(columns: seq<ExportColumn>, f: ExportColumn -> int, g: ExportColumn -> int, total: int)
    requires total > 0
    requires forall c :: c in columns ==> g(c) == Money.RoundDiv(f(c) * AvailableWidth, total)
    ensures 2 * total * SumOf(columns, g) <= 2 * AvailableWidth * SumOf(columns, f) + |columns| * total
  {
    if columns != [] {
      var n := |columns| - 1;
      assert forall c :: c in columns[..n] ==> c in columns;
      RoundedSharesBound(columns[..n], f, g, total);
      assert columns[n] in columns;
      ShareStep(total, g(columns[n]), f(columns[n]), SumOf(columns[..n], g), SumOf(columns[..n], f), n);
    }
  }

  lemma FitsFromBound(t: int, s: int, n: int)
    requires t > 0 && 2 * t * s <= 2 * AvailableWidth * t + n * t
    ensures 2 * s <= 2 * AvailableWidth + n
  {
    assert 2 * t * s == t * (2 * s);
    assert 2 * AvailableWidth * t + n * t == t * (2 * AvailableWidth + n);
    Cancel(t, 2 * s, 2 * AvailableWidth + n);
  }

  lemma Cancel(t: int, x: int, y: int)
    requires t > 0 && t * x <= t * y
    ensures x <= y
  {
    assert t * x - t * y == t * (x - y);
  }

  /**
   * For any content lengths, the planned widths fit the page: with distinct
   * column keys they add up to at most 269 mm, give or take half a
   * millimetre of rounding per column when they had to be scaled.
   */
  lemma {:induction false} PlanFits(columns: seq<ExportColumn>, lengths: map<string, int>)
    requires DistinctKeys(columns)
    ensures 2 * SumOf(columns, At(Plan(columns, lengths))) <= 2 * AvailableWidth + |columns|
  {
    var base := BaseWidths(lengths);
    var w := KeyedBy(columns, base);
    var total := SumOf(columns, base);
    KeyedByKey(columns, base);
    SumAgrees(columns, At(w), base);
    if total > AvailableWidth {
      var r := Rescaled(columns, w, total);
      RescaledAt(columns, w, total);
      RoundedSharesBound(columns, At(w), At(r), total);
      FitsFromBound(total, SumOf(columns, At(r)), |columns|);
    }
  }

  /** The PDF table fits the page (see `PlanFits`). */
  lemma TableFits(columns: seq<ExportColumn>, data: seq<Record>, locale: int -> string)
    requires DistinctKeys(columns)
    ensures 2 * SumOf(columns, At(PlannedWidths(columns, data, locale))) <= 2 * AvailableWidth + |columns|
  {
    PlanFits(columns, KeyedBy(columns, ContentLengths(Sample(data), locale)));
  }

  /** Scaling down never widens a column. */
  lemma ScaledNotWider(w: int, total: int)
    requires w >= 0 && total > AvailableWidth
    ensures Money.RoundDiv(w * AvailableWidth, total) <= w
  {
    var r := Money.RoundDiv(w * AvailableWidth, total);
    if r > w {
      MulMonotone(total, w + 1, r);
      MulMonotone(w, AvailableWidth, total);
    }
  }

  lemma MulMonotone(t: int, a: int, b: int)
    requires t >= 0 && a <= b
    ensures t * a <= t * b
  {
  }

  /**
   * The width of one column, with distinct keys: the base width of its
   * content length when the table fits, otherwise that width scaled to its
   * share of 269 mm, which is never wider.
   */
  lemma ColumnWidthOf(columns: seq<ExportColumn>, lengths: map<string, int>, k: nat)
    requires DistinctKeys(columns) && k < |columns| && columns[k].key in lengths
    ensures var base := BaseWidth(columns[k].key, lengths[columns[k].key]);
      var total := SumOf(columns, BaseWidths(lengths));
      var w := Plan(columns, lengths);
      columns[k].key in w &&
      (total <= AvailableWidth ==> w[columns[k].key] == base) &&
      (total > AvailableWidth ==> w[columns[k].key] == Money.RoundDiv(base * AvailableWidth, total) <= base)
  {
    var base := BaseWidths(lengths);
    var w := KeyedBy(columns, base);
    var total := SumOf(columns, base);
    var key := columns[k].key;
    var b := BaseWidth(key, lengths[key]);
    KeyedAt(columns, base, k);
    assert b >= 0;
    assert w[key] == b;
    assert columns[k] in columns;
    if total > AvailableWidth {
      RescaledAt(columns, w, total);
      ScaledNotWider(b, total);
      var r := Rescaled(columns, w, total);
      assert r == Plan(columns, lengths);
      assert key in r;
      assert r[key] == Money.RoundDiv(w[key] * AvailableWidth, total);
      assert r[key] == Money.RoundDiv(b * AvailableWidth, total);
      assert r[key] <= b;
    } else {
      assert w == Plan(columns, lengths);
    }
  }

  /** The content length behind a column's width: with distinct keys, its own title and texts. */
  lemma ContentLengthOf(columns: seq<ExportColumn>, data: seq<Record>, locale: int -> string, k: nat)
    requires DistinctKeys(columns) && k < |columns|
    ensures var lengths := KeyedBy(columns, ContentLengths(Sample(data), locale));
      columns[k].key in lengths && lengths[columns[k].key] == ContentLength(columns[k], Sample(data), locale)
  {
    KeyedAt(columns, ContentLengths(Sample(data), locale), k);
    assert columns[k] in columns;
  }

  // ------------------------------------------------------------- PDF cells

  /** `Math.floor(width / 2.5)`: how many characters a column of that width holds. */
  function MaxChars(width: int): (r: int)
    ensures 5 * r <= 2 * width < 5 * r + 5
  {
    (2 * width) / 5
  }

  /** `columnWidths[col.key] || 25` */
  function CellWidth(widths: map<string, int>, key: string): (w: int)
    ensures w != 0
    ensures key in widths && widths[key] != 0 ==> w == widths[key]
  {
    if key in widths && widths[key] != 0 then widths[key] else 25
  }

  /** `s.substring(0, end)`: `end` is clamped to the length, a negative one to 0. */
  function Prefix(s: string, end: int): (r: string)
    ensures r <= s
    ensures |r| == if end < 0 then 0 else if end > |s| then |s| else end
  {
    if end < 0 then [] else if end > |s| then s else s[..end]
  }

  function Max(a: int, b: int): int { if a < b then b else a }

  /** `text.substring(0, maxLength - 3) + '...'`: a head of the text and an ellipsis. */
  function Cut(text: string, maxLength: int): (r: string)
    ensures |r| == Max(Min(maxLength - 3, |text|), 0) + 3
    ensures r[..|r| - 3] <= text && r[|r| - 3..] == "..."
    ensures Plain(text) ==> Plain(r)
  {
    var head := Prefix(text, maxLength - 3);
    var r := head + "...";
    assert r[..|head|] == head && r[|head|..] == "...";
    assert Plain(text) ==> Plain(r) by {
      if Plain(text) {
        forall j | 0 <= j < |r| ensures !TurkishLetter(r[j]) {
          if j < |head| { assert r[j] == text[j]; } else { assert r[j] == "..."[j - |head|]; }
        }
      }
    }
    r
  }

  function Min(a: int, b: int): int { if a < b then a else b }

  /**
   * The text a PDF cell shows: the value itself when it fits; a court name
   * with "Mahkemesi" and "Hukuk" shortened, cut when still too long; a
   * status with its two long words shortened and never cut; any other value
   * cut to `maxLength` characters ending in "...".
   */
  function Abbreviate(key: string, value: string, maxLength: int): (r: string)
    ensures |value| <= maxLength ==> r == value
    ensures |value| > maxLength && key != "courtName" && key != "status" ==>
      |r| == Max(maxLength, 3) && r[..|r| - 3] <= value && r[|r| - 3..] == "..."
    ensures |value| > maxLength && key == "courtName" ==> |r| <= Max(maxLength, 3)
    ensures |value| > maxLength && key == "status" ==>
      r == ReplaceTwice(value, "Devam Ediyor", "Devam Ed.", "Beklemede", "Beklem.")
    ensures Plain(value) ==> Plain(r)
  {
    if |value| <= maxLength then value
    else if key == "courtName" then CourtNameCell(value, maxLength)
    else if key == "status" then StatusCell(value)
    else Cut(value, maxLength)
  }

  /** A court name: "Mahkemesi" and "Hukuk" shortened, then cut when still too long. */
  function CourtNameCell(value: string, maxLength: int): (r: string)
    ensures |r| <= Max(maxLength, 3)
    ensures Plain(value) ==> Plain(r)
  {
    ShortFormsPlain();
    Shortened(value, maxLength, " Mahkemesi", " Mah.", " Hukuk", " H.")
  }

  lemma ShortFormsPlain()
    ensures Plain(" Mah.") && Plain(" H.")
  {
  }

  /** Two replacements, then cut to `maxLength` when still longer. */
  function Shortened(value: string, maxLength: int, p1: string, q1: string, p2: string, q2: string): (r: string)
    requires Plain(q1) && Plain(q2)
    ensures |r| <= Max(maxLength, 3)
    ensures Plain(value) ==> Plain(r)
  {
    var shorter := ReplaceTwice(value, p1, q1, p2, q2);
    if |shorter| > maxLength then Cut(shorter, maxLength) else shorter
  }

  /** A status: "Devam Ediyor" and "Beklemede" shortened, never cut. */
  function StatusCell(value: string): (r: string)
    ensures r == ReplaceTwice(value, "Devam Ediyor", "Devam Ed.", "Beklemede", "Beklem.")
    ensures Plain(value) ==> Plain(r)
  {
    assert Plain("Devam Ed.") && Plain("Beklem.");
    ReplaceTwice(value, "Devam Ediyor", "Devam Ed.", "Beklemede", "Beklem.")
  }

  /** `s.replace(p1, q1).replace(p2, q2)` */
  function ReplaceTwice(s: string, p1: string, q1: string, p2: string, q2: string): (r: string)
    ensures Plain(s) && Plain(q1) && Plain(q2) ==> Plain(r)
  {
    PlainReplace(s, p1, q1);
    PlainReplace(ReplaceFirst(s, p1, q1), p2, q2);
    ReplaceFirst(ReplaceFirst(s, p1, q1), p2, q2)
  }

  lemma PlainReplace(s: string, p: string, q: string)
    ensures Plain(s) && Plain(q) ==> Plain(ReplaceFirst(s, p, q))
  {
    IndexOfContains(s, p);
    match IndexOf(s, p)
    case None =>
    case Some(i) =>
      var r := s[..i] + q + s[i + |p|..];
      if Plain(s) && Plain(q) {
        forall j | 0 <= j < |r| ensures !TurkishLetter(r[j]) {
          if j < i { assert r[j] == s[j]; }
          else if j < i + |q| { assert r[j] == q[j - i]; }
          else { assert r[j] == s[j - |q| + |p|]; }
        }
      }
  }

  /**
   * A data cell of the PDF table: the text of the value, transliterated,
   * then abbreviated to the characters its column holds. It never holds a
   * Turkish letter, and outside the court-name and status columns it is no
   * longer than the column holds.
   */
  function PdfCell(row: Record, key: string, widths: map<string, int>, locale: int -> string): (r: string)
    ensures Plain(r)
    ensures key != "courtName" && key != "status" && CellWidth(widths, key) >= 8 ==>
      |r| <= MaxChars(CellWidth(widths, key))
  {
    Abbreviate(key, Transliterate(PdfText(row, key, locale)), MaxChars(CellWidth(widths, key)))
  }

  /** The header cells of the PDF table: the titles, transliterated, never cut. */
  function PdfHeader(columns: seq<ExportColumn>): (r: seq<string>)
    ensures |r| == |columns|
    ensures forall k :: 0 <= k < |r| ==> Plain(r[k]) && |r[k]| == |columns[k].title|
  {
    seq(|columns|, k requires 0 <= k < |columns| => Transliterate(columns[k].title))
  }

  // -------------------------------------------------------------------- CSV

  /** `s.replace(/"/g, '""')` */
  function Escape(s: string): (r: string)
    ensures |r| >= |s|
  {
    if s == [] then [] else (if s[0] == '"' then "\"\"" else [s[0]]) + Escape(s[1..])
  }

  /** A CSV field: the escaped text between double quotes. */
  function Quote(s: string): string {
    "\"" + Escape(s) + "\""
  }

  function QuoteAll(fields: seq<string>): (r: seq<string>)
    ensures |r| == |fields|
  {
    if fields == [] then [] else [Quote(fields[0])] + QuoteAll(fields[1..])
  }

  /** A CSV line: the quoted fields joined by ';'. */
  function Line(fields: seq<string>): string {
    Join(QuoteAll(fields), ";")
  }

  /** The lines of several records, in order. */
  function Lines(records: seq<seq<string>>): (r: seq<string>)
    ensures |r| == |records|
  {
    if records == [] then [] else [Line(records[0])] + Lines(records[1..])
  }

  /** The text of a cell in the CSV file: `value || ''`, a number as the locale prints it. */
  function CsvText(c: Cell, locale: int -> string): string {
    match OrBlank(c)
    case Num(n) => locale(n)
    case Str(s) => s
    case Absent => []
  }

  function HeaderFields(columns: seq<ExportColumn>): (r: seq<string>)
    ensures |r| == |columns|
  {
    seq(|columns|, k requires 0 <= k < |columns| => columns[k].title)
  }

  function RowFields(row: Record, columns: seq<ExportColumn>, locale: int -> string): (r: seq<string>)
    ensures |r| == |columns|
  {
    seq(|columns|, k requires 0 <= k < |columns| => CsvText(Get(row, columns[k].key), locale))
  }

  function DataFields(data: seq<Record>, columns: seq<ExportColumn>, locale: int -> string): (r: seq<seq<string>>)
    ensures |r| == |data|
  {
    seq(|data|, i requires 0 <= i < |data| => RowFields(data[i], columns, locale))
  }

  /** A header field: the title between double quotes, not escaped. */
  function TitleField(title: string): string {
    "\"" + title + "\""
  }

  function TitleFields(columns: seq<ExportColumn>): (r: seq<string>)
    ensures |r| == |columns|
  {
    seq(|columns|, k requires 0 <= k < |columns| => TitleField(columns[k].title))
  }

  /** `headers`: each title in double quotes as it is, joined by ';'. */
  function HeaderLine(columns: seq<ExportColumn>): string {
    Join(TitleFields(columns), ";")
  }

  /** Escaping leaves a text without double quotes as it is. */
  lemma {:induction false} EscapeQuoteFree(s: string)
    requires '"' !in s
    ensures Escape(s) == s
  {
    if s != [] {
      assert '"' !in s[1..] by {
        forall c | c in s[1..] ensures c != '"' { assert c in s; }
      }
      EscapeQuoteFree(s[1..]);
      assert [s[0]] + s[1..] == s;
    }
  }

  lemma {:induction false} QuoteAllTitles(columns: seq<ExportColumn>)
    requires forall k :: 0 <= k < |columns| ==> '"' !in columns[k].title
    ensures QuoteAll(HeaderFields(columns)) == TitleFields(columns)
    decreases |columns|
  {
    if columns != [] {
      QuoteAllTitles(columns[1..]);
      assert HeaderFields(columns)[1..] == HeaderFields(columns[1..]);
      assert TitleFields(columns)[1..] == TitleFields(columns[1..]);
      EscapeQuoteFree(columns[0].title);
    }
  }

  /**
   * The header is written without escaping; with titles free of double
   * quotes it is the same line as the escaped one.
   */
  lemma HeaderLineQuoteFree(columns: seq<ExportColumn>)
    requires forall k :: 0 <= k < |columns| ==> '"' !in columns[k].title
    ensures HeaderLine(columns) == Line(HeaderFields(columns))
  {
    QuoteAllTitles(columns);
  }

  /** A title holding a double quote is written as it is, unlike a cell holding the same text. */
  lemma QuotedTitleUnescaped(c: ExportColumn)
    requires c.title == "a\"b"
    ensures HeaderLine([c]) == "\"a\"b\""
    ensures Line(HeaderFields([c])) == "\"a\"\"b\""
  {
    assert TitleField(c.title) == "\"a\"b\"";
    assert |TitleFields([c])| == 1 && TitleFields([c])[0] == TitleField(c.title);
    assert TitleFields([c]) == ["\"a\"b\""];
    assert Join(["\"a\"b\""], ";") == "\"a\"b\"";
    assert Escape("a\"b") == "a\"\"b" by {
      assert "a\"b"[1..] == "\"b";
      assert "\"b"[1..] == "b";
      assert "b"[1..] == [];
    }
    assert HeaderFields([c]) == ["a\"b"];
    assert Quote("a\"b") == "\"a\"\"b\"";
    assert QuoteAll(["a\"b"]) == [Quote("a\"b")] + QuoteAll([]);
    assert QuoteAll(HeaderFields([c])) == ["\"a\"\"b\""];
    assert Join(["\"a\"\"b\""], ";") == "\"a\"\"b\"";
  }

  /** `csvContent`: the header line, a newline, and the data lines joined by newlines. */
  function CsvContent(data: seq<Record>, columns: seq<ExportColumn>, locale: int -> string): string {
    HeaderLine(columns) + "\n" + Join(Lines(DataFields(data, columns, locale)), "\n")
  }

  /** The file written: a byte-order mark, then the content. */
  function CsvFile(data: seq<Record>, columns: seq<ExportColumn>, locale: int -> string): (r: string)
    ensures |r| > 0 && r[0] == 0xFEFF as char && r[1..] == CsvContent(data, columns, locale)
    ensures |r| > |HeaderLine(columns)| + 1 && r[1..|HeaderLine(columns)| + 1] == HeaderLine(columns)
    ensures r[|HeaderLine(columns)| + 1] == '\n'
  {
    var h := HeaderLine(columns);
    var r := [0xFEFF as char] + CsvContent(data, columns, locale);
    assert r == [0xFEFF as char] + h + "\n" + Join(Lines(DataFields(data, columns, locale)), "\n");
    r
  }

  /**
   * Reads a quoted field after its opening quote: characters up to a lone
   * '"', a doubled '"' read as one. Gives the text and what follows the
   * closing quote.
   */
  function ReadQuoted(s: string): (r: Option<(string, string)>)
    ensures r.Some? ==> |r.value.1| < |s|
    decreases |s|
  {
    if s == [] then None
    else if s[0] == '"' then
      if |s| > 1 && s[1] == '"' then
        match ReadQuoted(s[2..])
        case None => None
        case Some((t, rest)) => Some((['"'] + t, rest))
      else Some(([], s[1..]))
    else
      match ReadQuoted(s[1..])
      case None => None
      case Some((t, rest)) => Some(([s[0]] + t, rest))
  }

  /**
   * Reads CSV text back into records: records are separated by '\n', and a
   * record is either empty or quoted fields separated by ';'.
   */
  function ParseCsv(s: string): (r: Option<seq<seq<string>>>)
    ensures r.Some? ==> |r.value| >= 1
    decreases |s|
  {
    if s == [] then Some([[]])
    else if s[0] == '\n' then
      match ParseCsv(s[1..])
      case None => None
      case Some(rs) => Some([[]] + rs)
    else if s[0] == '"' then
      match ReadQuoted(s[1..])
      case None => None
      case Some((f, rest)) =>
        if rest == [] then Some([[f]])
        else if rest[0] == ';' && |rest| > 1 && rest[1] == '"' then
          match ParseCsv(rest[1..])
          case None => None
          case Some(rs) => Some([[f] + rs[0]] + rs[1..])
        else if rest[0] == '\n' then
          match ParseCsv(rest[1..])
          case None => None
          case Some(rs) => Some([[f]] + rs)
        else None
    else None
  }

  lemma ReadClosing(rest: string)
    requires rest == [] || rest[0] != '"'
    ensures ReadQuoted(['"'] + rest) == Some(([], rest))
  {
    assert (['"'] + rest)[1..] == rest;
  }

  lemma ReadDoubled(tail: string, t: string, rest: string)
    requires ReadQuoted(tail) == Some((t, rest))
    ensures ReadQuoted(['"', '"'] + tail) == Some((['"'] + t, rest))
  {
    assert (['"', '"'] + tail)[2..] == tail;
  }

  lemma ReadPlain(c: char, tail: string, t: string, rest: string)
    requires c != '"' && ReadQuoted(tail) == Some((t, rest))
    ensures ReadQuoted([c] + tail) == Some(([c] + t, rest))
  {
    assert ([c] + tail)[1..] == tail;
  }

  /** A field's escaped text and its closing quote read back as the field. */
  lemma {:induction false} ReadEscaped(t: string, rest: string)
    requires rest == [] || rest[0] != '"'
    ensures ReadQuoted(Escape(t) + ['"'] + rest) == Some((t, rest))
    decreases |t|
  {
    if t == [] {
      assert Escape(t) + ['"'] + rest == ['"'] + rest;
      ReadClosing(rest);
    } else {
      ReadEscaped(t[1..], rest);
      var tail := Escape(t[1..]) + ['"'] + rest;
      assert t == [t[0]] + t[1..];
      if t[0] == '"' {
        assert Escape(t) + ['"'] + rest == ['"', '"'] + tail;
        ReadDoubled(tail, t[1..], rest);
      } else {
        assert Escape(t) + ['"'] + rest == [t[0]] + tail;
        ReadPlain(t[0], tail, t[1..], rest);
      }
    }
  }

  /** A quoted field followed by `rest` is read as the field, leaving `rest`. */
  lemma ReadField(f: string, rest: string)
    requires rest == [] || rest[0] != '"'
    ensures var s := Quote(f) + rest; s != [] && s[0] == '"' && ReadQuoted(s[1..]) == Some((f, rest))
  {
    var s := Quote(f) + rest;
    assert s == ['"'] + (Escape(f) + ['"'] + rest);
    ReadEscaped(f, rest);
  }

  lemma LineOne(f: string)
    ensures Line([f]) == Quote(f)
  {
    assert QuoteAll([f]) == [Quote(f)];
  }

  lemma LineCons(fields: seq<string>)
    requires |fields| >= 2
    ensures Line(fields) == Quote(fields[0]) + ";" + Line(fields[1..])
    ensures Line(fields[1..]) != [] && Line(fields[1..])[0] == '"'
  {
    var q := QuoteAll(fields);
    assert q[0] == Quote(fields[0]) && q[1..] == QuoteAll(fields[1..]);
    var q1 := QuoteAll(fields[1..]);
    assert q1[0] == Quote(fields[1]);
    if |q1| == 1 {
      assert Line(fields[1..]) == Quote(fields[1]);
    } else {
      assert Line(fields[1..]) == Quote(fields[1]) + ";" + Join(q1[1..], ";");
    }
  }

  /** The reader on an empty record followed by a newline. */
  lemma ParseEmptyRecord(s: string, rs: seq<seq<string>>)
    requires s != [] && s[0] == '\n' && ParseCsv(s[1..]) == Some(rs)
    ensures ParseCsv(s) == Some([[]] + rs)
  {
  }

  /** The reader on a field that ends the text. */
  lemma ParseLastField(s: string, f: string)
    requires s != [] && s[0] == '"' && ReadQuoted(s[1..]) == Some((f, []))
    ensures ParseCsv(s) == Some([[f]])
  {
  }

  /** The reader on a field followed by ';' and another field. */
  lemma ParseFieldThenField(s: string, f: string, rest: string, rs: seq<seq<string>>)
    requires s != [] && s[0] == '"' && ReadQuoted(s[1..]) == Some((f, rest))
    requires |rest| > 1 && rest[0] == ';' && rest[1] == '"' && ParseCsv(rest[1..]) == Some(rs)
    ensures ParseCsv(s) == Some([[f] + rs[0]] + rs[1..])
  {
  }

  /** The reader on a field that ends its record, followed by a newline. */
  lemma ParseFieldThenRecord(s: string, f: string, rest: string, rs: seq<seq<string>>)
    requires s != [] && s[0] == '"' && ReadQuoted(s[1..]) == Some((f, rest))
    requires rest != [] && rest[0] == '\n' && ParseCsv(rest[1..]) == Some(rs)
    ensures ParseCsv(s) == Some([[f]] + rs)
  {
  }

  /** What may follow a line: the end of the text, or a newline and the text of more records. */
  predicate Follows(tail: string, more: seq<seq<string>>) {
    (tail == [] && more == []) || (tail != [] && tail[0] == '\n' && ParseCsv(tail[1..]) == Some(more))
  }

  /** A line followed by the end of the text, or by a newline and more records, reads back as its fields and those records. */
  lemma {:induction false} LineThen(fields: seq<string>, tail: string, more: seq<seq<string>>)
    requires Follows(tail, more)
    ensures ParseCsv(Line(fields) + tail) == Some([fields] + more)
    decreases |fields|
  {
    if fields == [] {
      assert Line(fields) + tail == tail;
      if tail != [] {
        ParseEmptyRecord(tail, more);
      } else {
        assert [fields] + more == [[]];
      }
    } else if |fields| == 1 {
      assert fields == [fields[0]];
      OneFieldThen(fields[0], tail, more);
    } else {
      LineThen(fields[1..], tail, more);
      FieldsThen(fields, tail, more);
    }
  }

  lemma OneFieldThen(f: string, tail: string, more: seq<seq<string>>)
    requires Follows(tail, more)
    ensures ParseCsv(Line([f]) + tail) == Some([[f]] + more)
  {
    LineOne(f);
    ReadField(f, tail);
    var s := Quote(f) + tail;
    if tail == [] {
      ParseLastField(s, f);
      assert [[f]] + more == [[f]];
    } else {
      ParseFieldThenRecord(s, f, tail, more);
    }
  }

  lemma FieldsThen(fields: seq<string>, tail: string, more: seq<seq<string>>)
    requires |fields| >= 2
    requires ParseCsv(Line(fields[1..]) + tail) == Some([fields[1..]] + more)
    ensures ParseCsv(Line(fields) + tail) == Some([fields] + more)
  {
    var f := fields[0];
    var others := fields[1..];
    LineCons(fields);
    FieldThenLine(f, Line(others), tail, [others] + more);
    assert Line(fields) + tail == Quote(f) + ";" + Line(others) + tail;
    assert [f] + others == fields;
  }

  /** A field, ';' and a line that reads back as records: the field joins the first record. */
  lemma FieldThenLine(f: string, line: string, tail: string, rs: seq<seq<string>>)
    requires line != [] && line[0] == '"' && ParseCsv(line + tail) == Some(rs)
    ensures ParseCsv(Quote(f) + ";" + line + tail) == Some([[f] + rs[0]] + rs[1..])
  {
    var rest := ";" + line + tail;
    var s := Quote(f) + rest;
    assert Quote(f) + ";" + line + tail == s;
    ReadField(f, rest);
    assert rest[1..] == line + tail;
    ParseFieldThenField(s, f, rest, rs);
  }

  lemma JoinCons(parts: seq<string>, sep: string)
    requires |parts| >= 2
    ensures Join(parts, sep) == parts[0] + (sep + Join(parts[1..], sep))
  {
  }

  /** Records printed as CSV read back as the same records. */
  lemma {:induction false} ParsePrinted(records: seq<seq<string>>)
    requires records != []
    ensures ParseCsv(Join(Lines(records), "\n")) == Some(records)
    decreases |records|
  {
    var ls := Lines(records);
    assert ls[0] == Line(records[0]) && ls[1..] == Lines(records[1..]);
    if |records| == 1 {
      LineThen(records[0], [], []);
      assert Join(ls, "\n") == Line(records[0]) + [];
      assert [records[0]] + [] == records;
    } else {
      ParsePrinted(records[1..]);
      var tail := "\n" + Join(Lines(records[1..]), "\n");
      assert tail[1..] == Join(Lines(records[1..]), "\n");
      LineThen(records[0], tail, records[1..]);
      JoinCons(ls, "\n");
      assert [records[0]] + records[1..] == records;
    }
  }

  /**
   * The CSV file round-trips: reading the content back gives the titles,
   * then each row's cell texts (an empty record when there are no rows),
   * whatever quotes, ';' or newlines the cell texts hold. The titles are
   * written unescaped, so they must hold no double quote.
   */
  lemma CsvRoundTrip(data: seq<Record>, columns: seq<ExportColumn>, locale: int -> string)
    requires forall k :: 0 <= k < |columns| ==> '"' !in columns[k].title
    ensures ParseCsv(CsvContent(data, columns, locale)) ==
      Some([HeaderFields(columns)] + if data == [] then [[]] else DataFields(data, columns, locale))
  {
    var header := HeaderFields(columns);
    var rows := DataFields(data, columns, locale);
    var records := [header] + if data == [] then [[]] else rows;
    HeaderLineQuoteFree(columns);
    ParsePrinted(records);
    var ls := Lines(records);
    assert ls[0] == Line(header) && ls[1..] == Lines(records[1..]);
    if data == [] {
      assert Lines(rows) == [];
      assert Lines(records[1..]) == [Line([])];
    } else {
      assert records[1..] == rows;
    }
  }

  /** `formatDateForExport`: the text as given, a missing one as ''. */
  function FormatDateForExport(dateStr: Option<string>): (r: string)
    ensures dateStr.Some? ==> r == dateStr.value
    ensures r == [] <==> dateStr.None? || dateStr.value == []
  {
    if dateStr.Some? then dateStr.value else []
  }
}

=== FILE: extraction.dfy ===
/**
 * scripts/extract-jobs.js and scripts/extract-courts.js: the court
 * payments of a bank spreadsheet, read once more and written out as the
 * markdown files ISLER.md (one job per table row) and MAHKEMELER.md (one
 * court name per numbered line) that scripts/import-jobs-from-md.js and
 * scripts/import-courts-from-md.js read back.
 */
module Extraction {
  import opened Wrappers
  import opened Text
  import opened Calendar
  import opened Jobs
  import opened Records
  import Descriptions
  import Importer
  import Money

  // ------------------------------------------------------------ the rows looked at

  /** What the filter does with a row: leave it out, keep it, or throw. */
  datatype Verdict = Skip | Keep | FilterThrows

  /**
   * `row[5] && (row[5].includes(...) || ...)`: a missing or falsy column 5
   * is left out, a text naming a cashier office is kept, and a truthy
   * number has no `includes` and throws.
   */
  function Screen(row: seq<Cell>): (v: Verdict)
    ensures v == Keep <==> |row| > 5 && row[5].Text? && HasMarker(row[5].text)
    ensures v == FilterThrows <==> |row| > 5 && row[5].Number? && TruthyCell(row[5])
  {
    if |row| <= 5 then Skip
    else match row[5]
      case Empty => Skip
      case Text(s) => if HasMarker(s) then Keep else Skip
      case Number(n) => if n.magnitude.digits == 0 then Skip else FilterThrows
  }

  /**
   * The sheet positions, from `i` on and in order, of the rows the filter
   * keeps; `None` when it throws on one of them.
   */
  function Considered(sheet: seq<seq<Cell>>, i: nat): (r: Option<seq<nat>>)
    requires i <= |sheet|
    ensures r.None? <==> exists j :: i <= j < |sheet| && Screen(sheet[j]) == FilterThrows
    ensures r.Some? ==> forall k :: 0 <= k < |r.value| ==> i <= r.value[k] < |sheet| && Screen(sheet[r.value[k]]) == Keep
    ensures r.Some? ==> forall j :: i <= j < |sheet| && Screen(sheet[j]) == Keep ==> j in r.value
    ensures r.Some? ==> forall k, l :: 0 <= k < l < |r.value| ==> r.value[k] < r.value[l]
    decreases |sheet| - i
  {
    if i == |sheet| then Some([])
    else
      var rest := Considered(sheet, i + 1);
      match Screen(sheet[i])
      case FilterThrows => None
      case Skip => rest
      case Keep => if rest.None? then None else Some([i] + rest.value)
  }

  /** The first twelve rows are the statement's header. */
  const HeaderRows: nat := 12

  /** `data.slice(12).filter(...)`, as sheet positions. */
  function Looked(sheet: seq<seq<Cell>>): Option<seq<nat>> {
    Considered(sheet, if |sheet| < HeaderRows then |sheet| else HeaderRows)
  }

  /** The kept rows themselves. */
  function Rows(sheet: seq<seq<Cell>>, idx: seq<nat>): (rows: seq<seq<Cell>>)
    requires forall k :: 0 <= k < |idx| ==> idx[k] < |sheet|
    ensures |rows| == |idx| && forall k :: 0 <= k < |idx| ==> rows[k] == sheet[idx[k]]
  {
    seq(|idx|, k requires 0 <= k < |idx| => sheet[idx[k]])
  }

  /** Row numbers as the scripts print them: the `k`-th kept row is row `k + 13`. */
  function PositionNumbers(idx: seq<nat>): (ns: seq<nat>)
    ensures |ns| == |idx| && forall k :: 0 <= k < |idx| ==> ns[k] == k + HeaderRows + 1
  {
    seq(|idx|, k requires 0 <= k < |idx| => k + HeaderRows + 1)
  }

  /** Row numbers as the sheet shows them: the row at position `i` is row `i + 1`. */
  function SheetNumbers(idx: seq<nat>): (ns: seq<nat>)
    ensures |ns| == |idx| && forall k :: 0 <= k < |idx| ==> ns[k] == idx[k] + 1
  {
    seq(|idx|, k requires 0 <= k < |idx| => idx[k] + 1)
  }

  // ------------------------------------------------------------ scripts/extract-jobs.js

  /**
   * `formatDate`: `null` for a falsy cell and for a text that is not three
   * `/`-separated parts; a text `D/M/Y` becomes `Y-MM-DD`; a serial number
   * goes through the date code, which throws out of range.
   */
  function FormatDate(c: Cell): (r: DateCell)
    ensures !TruthyCell(c) ==> r == NoDate
    ensures c.Text? ==> (r.IsoText? <==> |Split(c.text, '/')| == 3)
    ensures c.Text? ==> !r.DateThrows?
  {
    match c
    case Empty => NoDate
    case Text(s) =>
      var parts := Split(s, '/');
      if |parts| != 3 then NoDate
      else IsoText(parts[2] + "-" + PadStart2(parts[1]) + "-" + PadStart2(parts[0]))
    case Number(n) => if n.magnitude.digits == 0 then NoDate else ExcelDate(c)
  }

  /** A real day written `DD/MM/YYYY` is read as its ISO 8601 rendering. */
  lemma FormatSlashDate(d: Date)
    requires Valid(d) && 1000 <= d.year <= 9999
    ensures FormatDate(Text(Pad2(d.day) + "/" + Pad2(d.month) + "/" + NatToString(d.year))) == IsoText(IsoDate(d))
  {
    var day, month, year := Pad2(d.day), Pad2(d.month), NatToString(d.year);
    DigitsHaveNoSlash(day);
    DigitsHaveNoSlash(month);
    DigitsHaveNoSlash(year);
    JoinThree(day, month, year, "/");
    SplitJoin([day, month, year], '/');
    SlashDateIsIso(d);
  }

  /** A job of ISLER.md. */
  datatype ExtractedJob = ExtractedJob(date: string, courtName: string, fileNumber: string, amount: Num)

  /** A row that gave no job: its row number, its description and why. */
  datatype ParseError = ParseError(row: nat, description: string, reason: string)

  /** What one kept row gives. */
  datatype RowResult = JobRow(job: ExtractedJob) | ErrorRow(error: ParseError) | RowThrows

  const NoDateReason := "Tarih parse edilemedi"
  const NoAmountReason := "Tutar parse edilemedi"
  const UnknownReason := "Bilinmeyen hata"
  const NoMatchReason := "Mahkeme ad\U{0131} veya dosya numaras\U{0131} parse edilemedi"

  /** Column 5 of a kept row, the payment description. */
  function Description(row: seq<Cell>): string {
    if |row| > 5 && row[5].Text? then row[5].text else []
  }

  /** The description an error reports: the row's, or a placeholder when it has none. */
  function Shown(row: seq<Cell>): string {
    if Description(row) == [] then "A\U{00E7}\U{0131}klama yok" else Description(row)
  }

  /**
   * The body of the `forEach` for one kept row, reported as row `number`:
   * no date, no description, no amount (zero or `NaN`) or a negative
   * amount, or a description the pattern does not read, is an error; otherwise a job
   * with the court name and the file number of the description.
   */
  function ReadJob(row: seq<Cell>, number: nat): (r: RowResult)
    ensures r.RowThrows? <==> |row| > 0 && FormatDate(row[0]).DateThrows?
    ensures r.ErrorRow? ==> r.error.row == number && r.error.description == Shown(row)
    ensures r.JobRow? ==> |row| > 0 && FormatDate(row[0]) == IsoText(r.job.date) && Positive(r.job.amount)
    ensures r.JobRow? ==>
      Descriptions.ParseCourtDescription(Descriptions.Extract, Description(row)) == Some(Descriptions.Parsed(r.job.courtName, r.job.fileNumber))
  {
    var description := Description(row);
    match FormatDate(if |row| > 0 then row[0] else Empty)
    case DateThrows => RowThrows
    case NoDate => ErrorRow(ParseError(number, Shown(row), NoDateReason))
    case IsoText(date) =>
      var amount := CellAmount(if |row| > 6 then row[6] else Empty);
      if !Accepted(amount) || description == [] then
        var zero := amount.None? || amount.value.magnitude.digits == 0;
        ErrorRow(ParseError(number, Shown(row), if zero then NoAmountReason else UnknownReason))
      else
        match Descriptions.ParseCourtDescription(Descriptions.Extract, description)
        case None => ErrorRow(ParseError(number, description, NoMatchReason))
        case Some(p) => JobRow(ExtractedJob(date, p.courtName, p.fileNumber, amount.value))
  }

  /**
   * A row with a `DD/MM/YYYY` date, a bank statement line and a positive
   * amount is the job of that day, court, file number and amount.
   */
  lemma ReadStatementRow(row: seq<Cell>, number: nat, d: Date, transfer: string, office: string,
                         name: string, year: string, serial: string, kind: string, amount: Num)
    requires Valid(d) && 1000 <= d.year <= 9999
    requires Descriptions.IsTransfer(transfer) && Descriptions.PlainOffice(office) && Descriptions.PlainName(name)
    requires |year| == 4 && AllDigits(year) && serial != [] && AllDigits(serial) && kind in Descriptions.Kinds
    requires |row| > 6 && Positive(amount) && row[6] == Number(amount)
    requires row[0] == Text(Pad2(d.day) + "/" + Pad2(d.month) + "/" + NatToString(d.year))
    requires row[5] == Text(Descriptions.Statement(Descriptions.Extract, transfer, office, name, year, serial, kind))
    requires HasMarker(row[5].text)
    ensures ReadJob(row, number) == JobRow(ExtractedJob(IsoDate(d), name, year + "/" + serial, amount))
  {
    var description := Description(row);
    assert description == Descriptions.Statement(Descriptions.Extract, transfer, office, name, year, serial, kind);
    assert |description| >= |"GELEN "|;
    assert FormatDate(row[0]) == IsoText(IsoDate(d)) by { FormatSlashDate(d); }
    assert CellAmount(row[6]) == Some(amount);
    Descriptions.ReadStatement(Descriptions.Extract, transfer, office, name, year, serial, kind);
    ReadJobOf(row, number, IsoDate(d), amount, Descriptions.Parsed(name, year + "/" + serial));
  }

  /** A row with a date, a positive amount and a description the pattern reads is a job. */
  lemma ReadJobOf(row: seq<Cell>, number: nat, date: string, amount: Num, p: Descriptions.Parsed)
    requires |row| > 6 && FormatDate(row[0]) == IsoText(date) && CellAmount(row[6]) == Some(amount) && Positive(amount)
    requires Description(row) != [] && Descriptions.ParseCourtDescription(Descriptions.Extract, Description(row)) == Some(p)
    ensures ReadJob(row, number) == JobRow(ExtractedJob(date, p.courtName, p.fileNumber, amount))
  {
    assert (if |row| > 0 then row[0] else Empty) == row[0];
    assert (if |row| > 6 then row[6] else Empty) == row[6];
    assert Accepted(Some(amount));
  }

  /**
   * The results of the kept rows, each read by `read` and reported as row
   * `numbers[k]`: the jobs and the errors, each in row order; `None` when a
   * row throws.
   */
  function Partition(rows: seq<seq<Cell>>, numbers: seq<nat>, read: (seq<Cell>, nat) -> RowResult): (r: Option<(seq<ExtractedJob>, seq<ParseError>)>)
    requires |numbers| == |rows|
    ensures r.Some? ==> |r.value.0| + |r.value.1| == |rows|
    decreases |rows|
  {
    if rows == [] then Some(([], []))
    else
      var n := |rows| - 1;
      match Partition(rows[..n], numbers[..n], read)
      case None => None
      case Some((jobs, errors)) =>
        match read(rows[n], numbers[n])
        case RowThrows => None
        case JobRow(j) => Some((jobs + [j], errors))
        case ErrorRow(e) => Some((jobs, errors + [e]))
  }

  /** The extraction stops with an error exactly when some row throws. */
  lemma {:induction false} PartitionThrows(rows: seq<seq<Cell>>, numbers: seq<nat>, read: (seq<Cell>, nat) -> RowResult)
    requires |numbers| == |rows|
    ensures Partition(rows, numbers, read).None? <==> exists k :: 0 <= k < |rows| && read(rows[k], numbers[k]).RowThrows?
    decreases |rows|
  {
    if rows != [] {
      var n := |rows| - 1;
      PartitionThrows(rows[..n], numbers[..n], read);
      if exists k :: 0 <= k < |rows| && read(rows[k], numbers[k]).RowThrows? {
        var k :| 0 <= k < |rows| && read(rows[k], numbers[k]).RowThrows?;
        if k < n { assert rows[..n][k] == rows[k] && numbers[..n][k] == numbers[k]; }
      }
    }
  }

  /** Every job and every error comes from the row it names. */
  lemma {:induction false} PartitionFrom(rows: seq<seq<Cell>>, numbers: seq<nat>, read: (seq<Cell>, nat) -> RowResult)
    requires |numbers| == |rows| && Partition(rows, numbers, read).Some?
    ensures forall j :: j in Partition(rows, numbers, read).value.0 ==>
      exists k :: 0 <= k < |rows| && read(rows[k], numbers[k]) == JobRow(j)
    ensures forall e :: e in Partition(rows, numbers, read).value.1 ==>
      exists k :: 0 <= k < |rows| && read(rows[k], numbers[k]) == ErrorRow(e)
    decreases |rows|
  {
    if rows != [] {
      var n := |rows| - 1;
      PartitionFrom(rows[..n], numbers[..n], read);
      assert forall k :: 0 <= k < n ==> rows[..n][k] == rows[k] && numbers[..n][k] == numbers[k];
    }
  }

  /** The `forEach` of scripts/extract-jobs.js over the kept rows, each read by `read`. */
  method ExtractJobRows(rows: seq<seq<Cell>>, numbers: seq<nat>, read: (seq<Cell>, nat) -> RowResult)
    returns (r: Option<(seq<ExtractedJob>, seq<ParseError>)>)
    requires |numbers| == |rows|
    ensures r == Partition(rows, numbers, read)
  {
    var jobs: seq<ExtractedJob> := [];
    var errors: seq<ParseError> := [];
    var i := 0;
    while i < |rows|
      invariant 0 <= i <= |rows|
      invariant Partition(rows[..i], numbers[..i], read) == Some((jobs, errors))
    {
      assert rows[..i + 1][..i] == rows[..i];
      assert numbers[..i + 1][..i] == numbers[..i];
      match read(rows[i], numbers[i]) {
        case RowThrows =>
          PartitionThrows(rows, numbers, read);
          return None;
        case JobRow(j) =>
          jobs := jobs + [j];
        case ErrorRow(e) =>
          errors := errors + [e];
      }
      i := i + 1;
    }
    assert rows[..i] == rows && numbers[..i] == numbers;
    r := Some((jobs, errors));
  }

  /**
   * scripts/extract-jobs.js as written: the jobs and the errors of the
   * sheet, the `k`-th kept row reported as row `k + 13`.
   */
  function JobsOfAsWritten(sheet: seq<seq<Cell>>): (r: Option<(seq<ExtractedJob>, seq<ParseError>)>)
    ensures Looked(sheet).None? ==> r.None?
    ensures r.Some? ==> Looked(sheet).Some? && |r.value.0| + |r.value.1| == |Looked(sheet).value|
  {
    match Looked(sheet)
    case None => None
    case Some(idx) => Partition(Rows(sheet, idx), PositionNumbers(idx), ReadJob)
  }

  /** scripts/extract-jobs.js with each failing row reported as the sheet row it is. */
  function JobsOf(sheet: seq<seq<Cell>>): (r: Option<(seq<ExtractedJob>, seq<ParseError>)>)
    ensures Looked(sheet).None? ==> r.None?
    ensures r.Some? ==> Looked(sheet).Some? && |r.value.0| + |r.value.1| == |Looked(sheet).value|
  {
    match Looked(sheet)
    case None => None
    case Some(idx) => Partition(Rows(sheet, idx), SheetNumbers(idx), ReadJob)
  }

  /** scripts/extract-jobs.js: filter the rows, then read them one by one, numbering them as the script does. */
  method ExtractJobs(sheet: seq<seq<Cell>>) returns (r: Option<(seq<ExtractedJob>, seq<ParseError>)>)
    ensures r == JobsOfAsWritten(sheet)
  {
    var kept := Looked(sheet);
    if kept.None? {
      return None;
    }
    var idx := kept.value;
    r := ExtractJobRows(Rows(sheet, idx), PositionNumbers(idx), ReadJob);
  }

  /** A row's number only labels its error: whether it throws, and the job it gives, do not depend on it. */
  lemma ReadJobRenumbered(row: seq<Cell>, n1: nat, n2: nat)
    ensures ReadJob(row, n1).RowThrows? <==> ReadJob(row, n2).RowThrows?
    ensures ReadJob(row, n1).JobRow? ==> ReadJob(row, n2) == ReadJob(row, n1)
    ensures ReadJob(row, n1).ErrorRow? ==> ReadJob(row, n2) == ErrorRow(ReadJob(row, n1).error.(row := n2))
  {
  }

  /** Two extractions that found the same jobs and the same errors, apart from the errors' row numbers. */
  predicate SameButNumbers(a: Option<(seq<ExtractedJob>, seq<ParseError>)>, b: Option<(seq<ExtractedJob>, seq<ParseError>)>) {
    && a.Some? == b.Some?
    && (a.Some? ==>
          && a.value.0 == b.value.0
          && |a.value.1| == |b.value.1|
          && forall k :: 0 <= k < |a.value.1| ==> a.value.1[k].(row := 0) == b.value.1[k].(row := 0))
  }

  /** One more row read: its job or its error is appended, and a row that throws ends the extraction. */
  function Extend(p: Option<(seq<ExtractedJob>, seq<ParseError>)>, res: RowResult): Option<(seq<ExtractedJob>, seq<ParseError>)> {
    match p
    case None => None
    case Some((jobs, errors)) =>
      match res
      case RowThrows => None
      case JobRow(j) => Some((jobs + [j], errors))
      case ErrorRow(e) => Some((jobs, errors + [e]))
  }

  lemma PartitionExtends(rows: seq<seq<Cell>>, numbers: seq<nat>, read: (seq<Cell>, nat) -> RowResult)
    requires |numbers| == |rows| && rows != []
    ensures Partition(rows, numbers, read) ==
      Extend(Partition(rows[..|rows| - 1], numbers[..|rows| - 1], read), read(rows[|rows| - 1], numbers[|rows| - 1]))
  {
  }

  /** Extending two extractions that differ only in row numbers by two rows that differ only in row numbers. */
  lemma ExtendRenumbered(p1: Option<(seq<ExtractedJob>, seq<ParseError>)>, p2: Option<(seq<ExtractedJob>, seq<ParseError>)>,
                         r1: RowResult, r2: RowResult)
    requires SameButNumbers(p1, p2)
    requires r1.RowThrows? <==> r2.RowThrows?
    requires r1.JobRow? ==> r2 == r1
    requires r1.ErrorRow? ==> r2.ErrorRow? && r2.error.(row := 0) == r1.error.(row := 0)
    ensures SameButNumbers(Extend(p1, r1), Extend(p2, r2))
  {
    if p1.Some? && r1.ErrorRow? {
      var e1, e2 := p1.value.1 + [r1.error], p2.value.1 + [r2.error];
      forall k | 0 <= k < |e1| ensures e1[k].(row := 0) == e2[k].(row := 0) {
        if k < |p1.value.1| {
          assert e1[k] == p1.value.1[k] && e2[k] == p2.value.1[k];
        }
      }
    }
  }

  /** Numbering the same rows differently changes only the row numbers of the errors. */
  lemma {:induction false} PartitionRenumbered(rows: seq<seq<Cell>>, ns1: seq<nat>, ns2: seq<nat>)
    requires |ns1| == |rows| && |ns2| == |rows|
    ensures SameButNumbers(Partition(rows, ns1, ReadJob), Partition(rows, ns2, ReadJob))
    decreases |rows|
  {
    if rows != [] {
      var n := |rows| - 1;
      PartitionRenumbered(rows[..n], ns1[..n], ns2[..n]);
      ReadJobRenumbered(rows[n], ns1[n], ns2[n]);
      PartitionExtends(rows, ns1, ReadJob);
      PartitionExtends(rows, ns2, ReadJob);
      ExtendRenumbered(Partition(rows[..n], ns1[..n], ReadJob), Partition(rows[..n], ns2[..n], ReadJob),
        ReadJob(rows[n], ns1[n]), ReadJob(rows[n], ns2[n]));
    }
  }

  /**
   * scripts/extract-jobs.js as written finds the same jobs as with sheet
   * row numbers, and the same errors in the same order; only the row
   * numbers of the errors differ.
   */
  lemma JobsOfRenumbered(sheet: seq<seq<Cell>>)
    ensures SameButNumbers(JobsOfAsWritten(sheet), JobsOf(sheet))
  {
    if Looked(sheet).Some? {
      var idx := Looked(sheet).value;
      PartitionRenumbered(Rows(sheet, idx), PositionNumbers(idx), SheetNumbers(idx));
    }
  }

  /**
   * Every error names the sheet row it came from, a kept row with that
   * description, and every job is what its own row reads as.
   */
  lemma JobsNameTheirRows(sheet: seq<seq<Cell>>)
    requires JobsOf(sheet).Some?
    ensures forall e :: e in JobsOf(sheet).value.1 ==>
      1 <= e.row <= |sheet| && Screen(sheet[e.row - 1]) == Keep && sheet[e.row - 1][5].text == e.description
    ensures forall j :: j in JobsOf(sheet).value.0 ==>
      exists i :: 0 <= i < |sheet| && Screen(sheet[i]) == Keep && ReadJob(sheet[i], i + 1) == JobRow(j)
  {
    ErrorsNameTheirRows(sheet);
    JobsReadFromRows(sheet);
  }

  lemma ErrorsNameTheirRows(sheet: seq<seq<Cell>>)
    requires JobsOf(sheet).Some?
    ensures forall e :: e in JobsOf(sheet).value.1 ==>
      1 <= e.row <= |sheet| && Screen(sheet[e.row - 1]) == Keep && sheet[e.row - 1][5].text == e.description
  {
    var idx := Looked(sheet).value;
    var rows, numbers := Rows(sheet, idx), SheetNumbers(idx);
    PartitionFrom(rows, numbers, ReadJob);
    forall row: seq<Cell>, number: nat | Screen(row) == Keep && ReadJob(row, number).ErrorRow?
      ensures |row| > 5 && ReadJob(row, number).error.row == number && ReadJob(row, number).error.description == row[5].text
    {
      KeptError(row, number, ReadJob(row, number).error);
    }
    KeptErrors(sheet, idx, rows, numbers, JobsOf(sheet).value.1, ReadJob);
  }

  lemma KeptErrors(sheet: seq<seq<Cell>>, idx: seq<nat>, rows: seq<seq<Cell>>, numbers: seq<nat>, errors: seq<ParseError>,
                   read: (seq<Cell>, nat) -> RowResult)
    requires |rows| == |idx| == |numbers|
    requires forall k :: 0 <= k < |idx| ==> idx[k] < |sheet| && Screen(sheet[idx[k]]) == Keep && rows[k] == sheet[idx[k]] && numbers[k] == idx[k] + 1
    requires forall e :: e in errors ==> exists k :: 0 <= k < |rows| && read(rows[k], numbers[k]) == ErrorRow(e)
    requires forall row: seq<Cell>, number: nat :: Screen(row) == Keep && read(row, number).ErrorRow? ==>
      |row| > 5 && read(row, number).error.row == number && read(row, number).error.description == row[5].text
    ensures forall e :: e in errors ==>
      1 <= e.row <= |sheet| && Screen(sheet[e.row - 1]) == Keep && sheet[e.row - 1][5].text == e.description
  {
    forall e | e in errors
      ensures 1 <= e.row <= |sheet| && Screen(sheet[e.row - 1]) == Keep && sheet[e.row - 1][5].text == e.description
    {
      var k :| 0 <= k < |rows| && read(rows[k], numbers[k]) == ErrorRow(e);
      assert e.row - 1 == idx[k];
    }
  }

  lemma JobsReadFromRows(sheet: seq<seq<Cell>>)
    requires JobsOf(sheet).Some?
    ensures forall j :: j in JobsOf(sheet).value.0 ==>
      exists i :: 0 <= i < |sheet| && Screen(sheet[i]) == Keep && ReadJob(sheet[i], i + 1) == JobRow(j)
  {
    var idx := Looked(sheet).value;
    var rows, numbers := Rows(sheet, idx), SheetNumbers(idx);
    PartitionFrom(rows, numbers, ReadJob);
    KeptJobs(sheet, idx, rows, numbers, JobsOf(sheet).value.0, ReadJob);
  }

  lemma KeptJobs(sheet: seq<seq<Cell>>, idx: seq<nat>, rows: seq<seq<Cell>>, numbers: seq<nat>, jobs: seq<ExtractedJob>,
                 read: (seq<Cell>, nat) -> RowResult)
    requires |rows| == |idx| == |numbers|
    requires forall k :: 0 <= k < |idx| ==> idx[k] < |sheet| && Screen(sheet[idx[k]]) == Keep && rows[k] == sheet[idx[k]] && numbers[k] == idx[k] + 1
    requires forall j :: j in jobs ==> exists k :: 0 <= k < |rows| && read(rows[k], numbers[k]) == JobRow(j)
    ensures forall j :: j in jobs ==>
      exists i :: 0 <= i < |sheet| && Screen(sheet[i]) == Keep && read(sheet[i], i + 1) == JobRow(j)
  {
    forall j | j in jobs
      ensures exists i :: 0 <= i < |sheet| && Screen(sheet[i]) == Keep && read(sheet[i], i + 1) == JobRow(j)
    {
      var k :| 0 <= k < |rows| && read(rows[k], numbers[k]) == JobRow(j);
      assert rows[k] == sheet[idx[k]] && numbers[k] == idx[k] + 1;
    }
  }

  /** An error of a kept row reports its number and its own description. */
  lemma KeptError(row: seq<Cell>, number: nat, e: ParseError)
    requires Screen(row) == Keep && ReadJob(row, number) == ErrorRow(e)
    ensures |row| > 5 && e.row == number && e.description == row[5].text
  {
    MarkerText(row[5].text);
  }

  /** A description holding a cashier office marker is not empty. */
  lemma MarkerText(d: string)
    requires HasMarker(d)
    ensures d != []
  {
  }

  const NoCells: seq<Cell> := []

  /** Twelve header rows, an empty row and a cashier office row with no date. */
  const GapSheet: seq<seq<Cell>> := seq(12, _ => NoCells) + [NoCells, [Empty, Empty, Empty, Empty, Empty, Text(OfficeMarker)]]

  /**
   * As written, the failing row of `GapSheet` is reported as row 13, the
   * empty row before it; it is row 14.
   */
  lemma GapSheetMisnumbered()
    ensures JobsOfAsWritten(GapSheet) == Some(([], [ParseError(13, OfficeMarker, NoDateReason)]))
    ensures Screen(GapSheet[12]) == Skip && Screen(GapSheet[13]) == Keep
    ensures JobsOf(GapSheet) == Some(([], [ParseError(14, OfficeMarker, NoDateReason)]))
  {
    var s := GapSheet;
    assert HasMarker(OfficeMarker);
    assert s[12] == NoCells && s[13] == [Empty, Empty, Empty, Empty, Empty, Text(OfficeMarker)];
    assert Screen(s[12]) == Skip && Screen(s[13]) == Keep;
    assert Considered(s, 14) == Some([]);
    assert [13] + [] == [13];
    assert Considered(s, 13) == Some([13]);
    assert Looked(s) == Some([13]);
    var row := s[13];
    assert Description(row) == OfficeMarker;
    assert ReadJob(row, 13) == ErrorRow(ParseError(13, OfficeMarker, NoDateReason));
    assert ReadJob(row, 14) == ErrorRow(ParseError(14, OfficeMarker, NoDateReason));
    var rows := Rows(s, [13]);
    assert rows == [s[13]];
    assert rows[..0] == [];
    assert PositionNumbers([13]) == [13];
    assert SheetNumbers([13]) == [14];
    var n13: seq<nat> := [13];
    var n14: seq<nat> := [14];
    assert n13[..0] == [] && n14[..0] == [];
    var none: seq<ParseError> := [];
    assert none + [ParseError(13, OfficeMarker, NoDateReason)] == [ParseError(13, OfficeMarker, NoDateReason)];
    assert none + [ParseError(14, OfficeMarker, NoDateReason)] == [ParseError(14, OfficeMarker, NoDateReason)];
    assert Partition(rows, n13, ReadJob) == Some(([], [ParseError(13, OfficeMarker, NoDateReason)]));
    assert Partition(rows, n14, ReadJob) == Some(([], [ParseError(14, OfficeMarker, NoDateReason)]));
  }

  // ------------------------------------------------------------ scripts/extract-courts.js

  /** A row that gave no court name: its row number and its description. */
  datatype Unparsed = Unparsed(row: nat, description: string)

  /**
   * `parseCourtName`: the court name of the description, trimmed; none
   * when the pattern fails, and a name that trims to nothing is falsy and
   * counts as none.
   */
  function CourtName(description: string): (r: Option<string>)
    ensures r.Some? ==> r.value != [] && Trim(r.value) == r.value
    ensures r.Some? <==> exists p :: Descriptions.ParseCourtDescription(Descriptions.Extract, description) == Some(p) && p.courtName != []
  {
    match Descriptions.ParseCourtDescription(Descriptions.Extract, description)
    case None => None
    case Some(p) => if p.courtName == [] then None else Some(p.courtName)
  }

  /** No element twice. */
  predicate Distinct(xs: seq<string>) {
    forall i, j :: 0 <= i < j < |xs| ==> xs[i] != xs[j]
  }

  /** `set.add(name)`: a name already present is not added again. */
  function AddName(names: seq<string>, name: string): (r: seq<string>)
    requires Distinct(names)
    ensures Distinct(r) && (forall x :: x in r <==> x in names || x == name)
  {
    if name in names then names else names + [name]
  }

  /**
   * The `forEach` of scripts/extract-courts.js: the `Set` of court names,
   * in insertion order, and the rows with none, in row order.
   */
  function Collect(rows: seq<seq<Cell>>, numbers: seq<nat>, read: string -> Option<string>): (r: (seq<string>, seq<Unparsed>))
    requires |numbers| == |rows|
    ensures Distinct(r.0)
    decreases |rows|
  {
    if rows == [] then ([], [])
    else
      var n := |rows| - 1;
      var (names, errors) := Collect(rows[..n], numbers[..n], read);
      match read(Description(rows[n]))
      case Some(name) => (AddName(names, name), errors)
      case None => (names, errors + [Unparsed(numbers[n], Description(rows[n]))])
  }

  /**
   * The names are exactly the names some row gives, and the errors are
   * the rows that give none, with their numbers and descriptions.
   */
  lemma {:induction false} CollectFrom(rows: seq<seq<Cell>>, numbers: seq<nat>, read: string -> Option<string>)
    requires |numbers| == |rows|
    ensures forall x :: x in Collect(rows, numbers, read).0 <==> exists k :: 0 <= k < |rows| && read(Description(rows[k])) == Some(x)
    ensures forall e :: e in Collect(rows, numbers, read).1 ==>
      exists k :: 0 <= k < |rows| && read(Description(rows[k])).None? && e == Unparsed(numbers[k], Description(rows[k]))
    decreases |rows|
  {
    if rows != [] {
      var n := |rows| - 1;
      CollectFrom(rows[..n], numbers[..n], read);
      assert forall k :: 0 <= k < n ==> rows[..n][k] == rows[k] && numbers[..n][k] == numbers[k];
    }
  }

  /** `a < b` on strings: the first differing character decides, and a proper prefix comes first. */
  predicate Below(a: string, b: string)
    decreases |a|
  {
    if a == [] then b != []
    else b != [] && (a[0] < b[0] || (a[0] == b[0] && Below(a[1..], b[1..])))
  }

  lemma {:induction false} BelowIrreflexive(a: string)
    ensures !Below(a, a)
    decreases |a|
  {
    if a != [] { BelowIrreflexive(a[1..]); }
  }

  lemma {:induction false} BelowTransitive(a: string, b: string, c: string)
    requires Below(a, b) && Below(b, c)
    ensures Below(a, c)
    decreases |a|
  {
    if a != [] && a[0] == b[0] && b[0] == c[0] {
      BelowTransitive(a[1..], b[1..], c[1..]);
    }
  }

  /** Two different strings are ordered one way or the other. */
  lemma {:induction false} BelowTotal(a: string, b: string)
    requires a != b
    ensures Below(a, b) || Below(b, a)
    decreases |a|
  {
    if a != [] && b != [] && a[0] == b[0] {
      assert a == [a[0]] + a[1..] && b == [b[0]] + b[1..];
      BelowTotal(a[1..], b[1..]);
    }
  }

  /** Each name comes before the next one. */
  predicate Ascending(xs: seq<string>) {
    forall i :: 0 < i < |xs| ==> Below(xs[i - 1], xs[i])
  }

  /** Sorted names, one after the other, are ordered pairwise. */
  lemma {:induction false} AscendingPairwise(xs: seq<string>)
    requires Ascending(xs)
    ensures forall i, j :: 0 <= i < j < |xs| ==> Below(xs[i], xs[j])
    decreases |xs|
  {
    if xs != [] {
      var n := |xs| - 1;
      AscendingPairwise(xs[..n]);
      forall i | 0 <= i < n
        ensures Below(xs[i], xs[n])
      {
        assert xs[..n][i] == xs[i];
        if i < n - 1 {
          assert xs[..n][n - 1] == xs[n - 1];
          BelowTransitive(xs[i], xs[n - 1], xs[n]);
        }
      }
    }
  }

  /** `x` put in its place among sorted names. */
  function Insert(x: string, xs: seq<string>): (r: seq<string>)
    requires Ascending(xs) && x !in xs
    ensures Ascending(r) && multiset(r) == multiset(xs) + multiset{x}
    ensures |r| == |xs| + 1 && (r[0] == x || (xs != [] && r[0] == xs[0]))
    decreases |xs|
  {
    if xs == [] then [x]
    else if Below(x, xs[0]) then [x] + xs
    else
      BelowTotal(x, xs[0]);
      var t := Insert(x, xs[1..]);
      assert xs == [xs[0]] + xs[1..];
      [xs[0]] + t
  }

  /** `.sort()`: the names in ascending order. */
  function Sort(xs: seq<string>): (r: seq<string>)
    requires Distinct(xs)
    ensures Ascending(r) && multiset(r) == multiset(xs)
    decreases |xs|
  {
    if xs == [] then []
    else
      var n := |xs| - 1;
      assert xs == xs[..n] + [xs[n]];
      var r := Sort(xs[..n]);
      assert xs[n] !in r by {
        assert xs[n] !in multiset(xs[..n]);
      }
      Insert(xs[n], r)
  }

  /**
   * There is only one ascending order of a set of names, so the list does
   * not depend on the order the names were found in, nor on how `sort`
   * works.
   */
  lemma {:induction false} AscendingUnique(a: seq<string>, b: seq<string>)
    requires Ascending(a) && Ascending(b) && multiset(a) == multiset(b)
    ensures a == b
    decreases |a|
  {
    if a != [] {
      assert a[0] in multiset(b);
      SameFirst(a, b);
      var a', b' := a[1..], b[1..];
      assert a == [a[0]] + a' && b == [b[0]] + b';
      assert multiset(a') == multiset(b') by {
        assert multiset(a) == multiset{a[0]} + multiset(a');
        assert multiset(b) == multiset{b[0]} + multiset(b');
        forall z ensures multiset(a')[z] == multiset(b')[z] {
          assert multiset(a)[z] == multiset{a[0]}[z] + multiset(a')[z];
          assert multiset(b)[z] == multiset{b[0]}[z] + multiset(b')[z];
        }
      }
      AscendingUnique(a', b');
    }
  }

  /** Sorted names with the same elements start with the same, least, name. */
  lemma SameFirst(a: seq<string>, b: seq<string>)
    requires Ascending(a) && Ascending(b) && multiset(a) == multiset(b) && a != [] && b != []
    ensures a[0] == b[0]
  {
    if a[0] != b[0] {
      assert b[0] in multiset(a) && a[0] in multiset(b);
      var i :| 0 <= i < |a| && a[i] == b[0];
      var j :| 0 <= j < |b| && b[j] == a[0];
      AscendingPairwise(a);
      AscendingPairwise(b);
      assert Below(a[0], a[i]) && Below(b[0], b[j]);
      BelowTransitive(a[0], b[0], a[0]);
      BelowIrreflexive(a[0]);
    }
  }

  /**
   * scripts/extract-courts.js as written: the distinct court names in
   * ascending order, and the rows that gave none, the `k`-th kept row
   * reported as row `k + 13`.
   */
  function CourtsOfAsWritten(sheet: seq<seq<Cell>>): (r: Option<(seq<string>, seq<Unparsed>)>)
    ensures r.Some? <==> Looked(sheet).Some?
    ensures r.Some? ==> Ascending(r.value.0) && Distinct(r.value.0)
  {
    match Looked(sheet)
    case None => None
    case Some(idx) =>
      var (names, errors) := Collect(Rows(sheet, idx), PositionNumbers(idx), CourtName);
      SortKeeps(names);
      Some((Sort(names), errors))
  }

  /** scripts/extract-courts.js with each row reported as the sheet row it is. */
  function CourtsOf(sheet: seq<seq<Cell>>): (r: Option<(seq<string>, seq<Unparsed>)>)
    ensures r.Some? <==> Looked(sheet).Some?
    ensures r.Some? ==> Ascending(r.value.0) && Distinct(r.value.0)
  {
    match Looked(sheet)
    case None => None
    case Some(idx) =>
      var (names, errors) := Collect(Rows(sheet, idx), SheetNumbers(idx), CourtName);
      SortKeeps(names);
      Some((Sort(names), errors))
  }

  /** The `forEach` of scripts/extract-courts.js: names go into the `Set`, rows without one into the errors. */
  method CollectCourtNames(rows: seq<seq<Cell>>, numbers: seq<nat>, read: string -> Option<string>)
    returns (names: seq<string>, errors: seq<Unparsed>)
    requires |numbers| == |rows|
    ensures (names, errors) == Collect(rows, numbers, read)
  {
    names, errors := [], [];
    var i := 0;
    while i < |rows|
      invariant 0 <= i <= |rows|
      invariant Collect(rows[..i], numbers[..i], read) == (names, errors)
    {
      assert rows[..i + 1][..i] == rows[..i];
      assert numbers[..i + 1][..i] == numbers[..i];
      var description := Description(rows[i]);
      match read(description) {
        case Some(name) =>
          if name !in names {
            names := names + [name];
          }
        case None =>
          errors := errors + [Unparsed(numbers[i], description)];
      }
      i := i + 1;
    }
    assert rows[..i] == rows && numbers[..i] == numbers;
  }

  /** scripts/extract-courts.js: filter the rows, collect the names, sort them, numbering the rows as the script does. */
  method ExtractCourts(sheet: seq<seq<Cell>>) returns (r: Option<(seq<string>, seq<Unparsed>)>)
    ensures r == CourtsOfAsWritten(sheet)
  {
    var kept := Looked(sheet);
    if kept.None? {
      return None;
    }
    var idx := kept.value;
    var names, errors := CollectCourtNames(Rows(sheet, idx), PositionNumbers(idx), CourtName);
    r := Some((Sort(names), errors));
  }

  /** Row numbers only label the rows without a name: the names, and the descriptions of those rows, do not depend on them. */
  lemma {:induction false} CollectRenumbered(rows: seq<seq<Cell>>, ns1: seq<nat>, ns2: seq<nat>, read: string -> Option<string>)
    requires |ns1| == |rows| && |ns2| == |rows|
    ensures Collect(rows, ns1, read).0 == Collect(rows, ns2, read).0
    ensures |Collect(rows, ns1, read).1| == |Collect(rows, ns2, read).1|
    ensures forall k :: 0 <= k < |Collect(rows, ns1, read).1| ==>
      Collect(rows, ns1, read).1[k].description == Collect(rows, ns2, read).1[k].description
    decreases |rows|
  {
    if rows != [] {
      var n := |rows| - 1;
      CollectRenumbered(rows[..n], ns1[..n], ns2[..n], read);
    }
  }

  /**
   * scripts/extract-courts.js as written lists the same courts as with
   * sheet row numbers, and the same rows without a name in the same
   * order; only their row numbers differ.
   */
  lemma CourtsOfRenumbered(sheet: seq<seq<Cell>>)
    ensures CourtsOfAsWritten(sheet).Some? <==> CourtsOf(sheet).Some?
    ensures CourtsOf(sheet).Some? ==>
      var (names1, errors1) := CourtsOfAsWritten(sheet).value;
      var (names2, errors2) := CourtsOf(sheet).value;
      names1 == names2 && |errors1| == |errors2| && forall k :: 0 <= k < |errors1| ==> errors1[k].description == errors2[k].description
  {
    if Looked(sheet).Some? {
      var idx := Looked(sheet).value;
      CollectRenumbered(Rows(sheet, idx), PositionNumbers(idx), SheetNumbers(idx), CourtName);
    }
  }

  /** Sorting keeps the names and puts each once. */
  lemma SortKeeps(xs: seq<string>)
    requires Distinct(xs)
    ensures Distinct(Sort(xs)) && forall x :: x in Sort(xs) <==> x in xs
  {
    var sorted := Sort(xs);
    forall x ensures x in sorted <==> x in xs {
      assert x in sorted <==> x in multiset(sorted);
      assert x in xs <==> x in multiset(xs);
    }
    AscendingPairwise(sorted);
    forall i, j | 0 <= i < j < |sorted| ensures sorted[i] != sorted[j] {
      if sorted[i] == sorted[j] { BelowIrreflexive(sorted[i]); }
    }
  }

  /**
   * The courts list is sorted and holds every court name a kept row of
   * the sheet gives, once.
   */
  lemma CourtsListed(sheet: seq<seq<Cell>>)
    requires CourtsOf(sheet).Some?
    ensures Ascending(CourtsOf(sheet).value.0) && Distinct(CourtsOf(sheet).value.0)
    ensures forall x :: x in CourtsOf(sheet).value.0 <==>
      exists i :: HeaderRows <= i < |sheet| && Screen(sheet[i]) == Keep && CourtName(Description(sheet[i])) == Some(x)
  {
    var idx := Looked(sheet).value;
    var rows, numbers := Rows(sheet, idx), SheetNumbers(idx);
    var names := Collect(rows, numbers, CourtName).0;
    CollectFrom(rows, numbers, CourtName);
    SortKeeps(names);
    forall x | x in names
      ensures exists i :: HeaderRows <= i < |sheet| && Screen(sheet[i]) == Keep && CourtName(Description(sheet[i])) == Some(x)
    {
      var k :| 0 <= k < |rows| && CourtName(Description(rows[k])) == Some(x);
      assert rows[k] == sheet[idx[k]] && Screen(sheet[idx[k]]) == Keep;
    }
    forall x | exists i :: HeaderRows <= i < |sheet| && Screen(sheet[i]) == Keep && CourtName(Description(sheet[i])) == Some(x)
      ensures x in names
    {
      var i :| HeaderRows <= i < |sheet| && Screen(sheet[i]) == Keep && CourtName(Description(sheet[i])) == Some(x);
      var k := KeptPosition(sheet, i);
      assert rows[k] == sheet[i];
    }
  }

  /** Where a row the filter keeps stands among the kept rows. */
  lemma KeptPosition(sheet: seq<seq<Cell>>, i: nat) returns (k: nat)
    requires Looked(sheet).Some? && HeaderRows <= i < |sheet| && Screen(sheet[i]) == Keep
    ensures k < |Looked(sheet).value| && Looked(sheet).value[k] == i
  {
    var idx := Looked(sheet).value;
    assert i in idx;
    k :| 0 <= k < |idx| && idx[k] == i;
  }

  /**
   * The court of every job that scripts/extract-jobs.js extracts from a
   * sheet is in the list scripts/extract-courts.js extracts from it.
   */
  lemma JobCourtsListed(sheet: seq<seq<Cell>>)
    requires JobsOf(sheet).Some?
    ensures CourtsOf(sheet).Some?
    ensures forall j :: j in JobsOf(sheet).value.0 && j.courtName != [] ==> j.courtName in CourtsOf(sheet).value.0
  {
    var idx := Looked(sheet).value;
    var rows, numbers := Rows(sheet, idx), SheetNumbers(idx);
    var names := Collect(rows, numbers, CourtName).0;
    CollectFrom(rows, numbers, CourtName);
    SortKeeps(names);
    PartitionFrom(rows, numbers, ReadJob);
    forall j | j in JobsOf(sheet).value.0 && j.courtName != []
      ensures j.courtName in names
    {
      var k :| 0 <= k < |rows| && ReadJob(rows[k], numbers[k]) == JobRow(j);
      JobCourtName(rows[k], numbers[k], j);
    }
  }

  /** The court of a job row is the court name of its description. */
  lemma JobCourtName(row: seq<Cell>, number: nat, j: ExtractedJob)
    requires ReadJob(row, number) == JobRow(j) && j.courtName != []
    ensures CourtName(Description(row)) == Some(j.courtName)
  {
  }

  // ------------------------------------------------------------ ISLER.md

  /** Digits followed by two more digits read as one number. */
  lemma TwoMoreDigits(s: string, t: string)
    requires AllDigits(s) && AllDigits(t) && |t| == 2
    ensures AllDigits(s + t) && DigitsToNat(s + t) == 100 * DigitsToNat(s) + DigitsToNat(t)
  {
    var u := s + t;
    var w := s + [t[0]];
    assert u[..|u| - 1] == w && u[|u| - 1] == t[1];
    assert w[..|w| - 1] == s && w[|w| - 1] == t[0];
    assert t[..1][..0] == [] && t[..1][0] == t[0];
    assert DigitsToNat(t[..1]) == DigitValue(t[0]);
  }

  /**
   * `x.toFixed(2)` for a non-negative amount `x`: the lira, a dot and two
   * kuruş digits.
   */
  function ToFixed2(d: Decimal): (s: string)
    ensures s != [] && IsDigit(s[0]) && IsDigit(s[|s| - 1])
    ensures forall i :: 0 <= i < |s| ==> IsDigit(s[i]) || s[i] == '.'
  {
    var k := Kurus(d);
    NatToString(k / 100) + "." + Pad2(k % 100)
  }

  /** `parseFloat` reads the written amount back as its kuruş, and rounding that again changes nothing. */
  lemma ToFixed2Read(d: Decimal)
    ensures ParseFloat(ToFixed2(d)) == Some(Num(false, Decimal(Kurus(d), 2)))
    ensures Kurus(Decimal(Kurus(d), 2)) == Kurus(d)
  {
    var s := ToFixed2(d);
    FixedDecimal(d);
    UnsignedFloat(s, Decimal(Kurus(d), 2));
    KurusOfKurus(Kurus(d));
  }

  /** `parseFloat` of a text starting with a digit is the decimal it starts with. */
  lemma UnsignedFloat(s: string, v: Decimal)
    requires s != [] && IsDigit(s[0]) && ParseDecimal(s) == Some(v)
    ensures ParseFloat(s) == Some(Num(false, v))
  {
    assert !IsSpace(s[0]) && s[0] != '-' && s[0] != '+';
    assert TrimStart(s) == s;
  }

  lemma FixedDecimal(d: Decimal)
    ensures ParseDecimal(ToFixed2(d)) == Some(Decimal(Kurus(d), 2))
  {
    var k := Kurus(d);
    var lira, kurus := NatToString(k / 100), Pad2(k % 100);
    assert ToFixed2(d) == lira + "." + kurus;
    ParseDecimalOf(lira, kurus);
    assert DigitsToNat(lira + kurus) == k by {
      TwoMoreDigits(lira, kurus);
      NatToStringRoundTrip(k / 100);
      Pad2RoundTrip(k % 100);
    }
  }

  /** A whole number of kuruş rounds to itself. */
  lemma KurusOfKurus(k: nat)
    ensures Kurus(Decimal(k, 2)) == k
  {
    assert Pow10(2) == 100 by {
      assert Pow10(1) == 10;
    }
    var r := Money.RoundDiv(100 * k, 100);
    assert 200 * r <= 200 * k + 100 < 200 * r + 200;
  }

  /** No `---` anywhere. */
  predicate NoRun(s: string) {
    forall i :: 0 <= i < |s| - 2 ==> !(s[i] == '-' && s[i + 1] == '-' && s[i + 2] == '-')
  }

  /** `s.includes('---')` */
  lemma {:induction false} RunContains(s: string)
    ensures Contains(s, "---") <==> !NoRun(s)
    decreases |s|
  {
    if s != [] {
      RunContains(s[1..]);
      assert NoRun(s) <==> !("---" <= s) && NoRun(s[1..]) by {
        assert forall i :: 1 <= i < |s| ==> s[1..][i - 1] == s[i];
        assert "---" <= s <==> |s| >= 3 && s[0] == '-' && s[1] == '-' && s[2] == '-';
      }
    }
  }

  /** Two parts without `---` that do not both have a dash where they meet have none together. */
  lemma NoRunJoin(x: string, y: string)
    requires NoRun(x) && NoRun(y)
    requires x == [] || y == [] || x[|x| - 1] != '-' || y[0] != '-'
    ensures NoRun(x + y)
  {
    var s := x + y;
    forall i | 0 <= i < |s| - 2
      ensures !(s[i] == '-' && s[i + 1] == '-' && s[i + 2] == '-')
    {
      if i + 2 < |x| {
        assert s[i] == x[i] && s[i + 1] == x[i + 1] && s[i + 2] == x[i + 2];
      } else if i >= |x| {
        assert s[i] == y[i - |x|] && s[i + 1] == y[i + 1 - |x|] && s[i + 2] == y[i + 2 - |x|];
      } else {
        assert s[|x| - 1] == x[|x| - 1] && s[|x|] == y[0];
      }
    }
  }

  lemma NoDashNoRun(s: string)
    requires '-' !in s
    ensures NoRun(s)
  {
    forall i | 0 <= i < |s| ensures s[i] != '-' {
      assert s[i] in s;
    }
  }

  /** A table cell that is written and read back unchanged. */
  predicate Field(s: string) {
    Tidy(s) && '|' !in s && '\n' !in s && NoRun(s)
  }

  /** Text that trimming leaves as it is. */
  predicate Tidy(s: string) {
    s != [] && !IsSpace(s[0]) && !IsSpace(s[|s| - 1])
  }

  /** The cells of a row between its bars, each padded with a space. */
  function Padded(a: string, b: string, c: string, d: string): seq<string> {
    ["", " " + a + " ", " " + b + " ", " " + c + " ", " " + d + " ", ""]
  }

  /** A table row, `| a | b | c | d |`: the padded cells joined by bars. */
  function TableRow(a: string, b: string, c: string, d: string): string {
    Join(Padded(a, b, c, d), "|")
  }

  /** Joining puts the separator after the first part. */
  lemma JoinFirst(parts: seq<string>, sep: string)
    requires |parts| >= 2
    ensures Join(parts, sep) == parts[0] + sep + Join(parts[1..], sep)
  {
  }

  /** A character in no part and not in the separator is not in the joined text. */
  lemma {:induction false} JoinAvoids(parts: seq<string>, sep: string, c: char)
    requires c !in sep && forall i :: 0 <= i < |parts| ==> c !in parts[i]
    ensures c !in Join(parts, sep)
    decreases |parts|
  {
    if |parts| >= 2 {
      JoinFirst(parts, sep);
      JoinAvoids(parts[1..], sep, c);
    }
  }

  /** Parts without `---` joined by a separator without a dash have none. */
  lemma {:induction false} JoinNoRun(parts: seq<string>, sep: string)
    requires sep != [] && '-' !in sep && forall i :: 0 <= i < |parts| ==> NoRun(parts[i])
    ensures NoRun(Join(parts, sep))
    decreases |parts|
  {
    if |parts| == 1 {
    } else if |parts| >= 2 {
      JoinFirst(parts, sep);
      JoinNoRun(parts[1..], sep);
      NoDashNoRun(sep);
      assert sep[0] in sep && sep[|sep| - 1] in sep;
      NoRunJoin(parts[0], sep);
      NoRunJoin(parts[0] + sep, Join(parts[1..], sep));
    }
  }

  /** Parts ending with an empty one, joined, end with the separator's last character. */
  lemma {:induction false} JoinEndsWithSep(parts: seq<string>, sep: string)
    requires |parts| >= 2 && parts[|parts| - 1] == [] && sep != []
    ensures var j := Join(parts, sep); j != [] && j[|j| - 1] == sep[|sep| - 1]
    decreases |parts|
  {
    JoinFirst(parts, sep);
    var rest := Join(parts[1..], sep);
    if |parts| == 2 {
      assert rest == [];
    } else {
      JoinEndsWithSep(parts[1..], sep);
    }
  }

  /** A cell padded with one space on each side trims to itself. */
  lemma TrimPadded(a: string)
    requires Tidy(a)
    ensures Trim(" " + a + " ") == a
  {
    var s := " " + a + " ";
    assert s[1..] == a + " ";
    assert TrimStart(s) == a + " ";
    assert (a + " ")[..|a|] == a;
    assert TrimEnd(a + " ") == a;
  }

  /** A padded cell has no dash run, bar or line break the cell does not have. */
  lemma PaddedField(a: string)
    requires Field(a)
    ensures NoRun(" " + a + " ") && '|' !in " " + a + " " && '\n' !in " " + a + " "
  {
    NoDashNoRun(" ");
    NoRunJoin(" ", a);
    NoRunJoin(" " + a, " ");
  }

  /**
   * A row of four cells is a table line, no line break, and its cells are
   * read back as they were written.
   */
  lemma TableRowRead(a: string, b: string, c: string, d: string)
    requires Field(a) && Field(b) && Field(c) && Field(d)
    ensures Importer.TableLine(TableRow(a, b, c, d)) && '\n' !in TableRow(a, b, c, d)
    ensures Importer.Cells(TableRow(a, b, c, d)) == [a, b, c, d]
  {
    var row := TableRow(a, b, c, d);
    TableRowShape(a, b, c, d);
    Descriptions.TrimUnchanged(row);
    RunContains(row);
    TrimCells(a, b, c, d);
    SelectCells(a, b, c, d);
  }

  /** A row starts and ends with a bar, has no `---` and no line break, and splits into its padded cells. */
  lemma TableRowShape(a: string, b: string, c: string, d: string)
    requires Field(a) && Field(b) && Field(c) && Field(d)
    ensures var row := TableRow(a, b, c, d);
      row != [] && row[0] == '|' && row[|row| - 1] == '|' && NoRun(row) && '\n' !in row
      && Split(row, '|') == Padded(a, b, c, d)
  {
    var parts := Padded(a, b, c, d);
    PaddedField(a);
    PaddedField(b);
    PaddedField(c);
    PaddedField(d);
    NoDashNoRun([]);
    assert forall i :: 0 <= i < |parts| ==> NoRun(parts[i]) && '|' !in parts[i] && '\n' !in parts[i];
    JoinNoRun(parts, "|");
    JoinAvoids(parts, "|", '\n');
    JoinFirst(parts, "|");
    JoinEndsWithSep(parts, "|");
    SplitJoin(parts, '|');
  }

  /** Trimming the padded cells gives back the cells, with an empty one at each end. */
  lemma TrimCells(a: string, b: string, c: string, d: string)
    requires Tidy(a) && Tidy(b) && Tidy(c) && Tidy(d)
    ensures Map(Padded(a, b, c, d), Trim) == ["", a, b, c, d, ""]
  {
    TrimPaddedFour(a, b, c, d);
    MapSix("", " " + a + " ", " " + b + " ", " " + c + " ", " " + d + " ", "", Trim, [], a, b, c, d, []);
  }

  lemma TrimPaddedFour(a: string, b: string, c: string, d: string)
    requires Tidy(a) && Tidy(b) && Tidy(c) && Tidy(d)
    ensures Trim(" " + a + " ") == a && Trim(" " + b + " ") == b
    ensures Trim(" " + c + " ") == c && Trim(" " + d + " ") == d
  {
    TrimPadded(a);
    TrimPadded(b);
    TrimPadded(c);
    TrimPadded(d);
  }

  /** Mapping six elements whose images are known. */
  lemma MapSix<T, U>(x0: T, x1: T, x2: T, x3: T, x4: T, x5: T, f: T -> U, u0: U, u1: U, u2: U, u3: U, u4: U, u5: U)
    requires f(x0) == u0 && f(x1) == u1 && f(x2) == u2 && f(x3) == u3 && f(x4) == u4 && f(x5) == u5
    ensures Map([x0, x1, x2, x3, x4, x5], f) == [u0, u1, u2, u3, u4, u5]
  {
  }

  /** Only non-empty cells are kept. */
  lemma SelectCells(a: string, b: string, c: string, d: string)
    requires a != [] && b != [] && c != [] && d != []
    ensures Select(["", a, b, c, d, ""], Importer.NonEmpty) == [a, b, c, d]
  {
    SelectFramed("", [a, b, c, d], "", Importer.NonEmpty);
    assert [""] + [a, b, c, d] + [""] == ["", a, b, c, d, ""];
  }

  /** Dropping a rejected first and last element, and keeping everything between. */
  lemma SelectFramed<T>(x: T, ys: seq<T>, z: T, p: T -> bool)
    requires !p(x) && !p(z) && forall k :: 0 <= k < |ys| ==> p(ys[k])
    ensures Select([x] + ys + [z], p) == ys
  {
    SelectConcat([x] + ys, [z], p);
    SelectConcat([x], ys, p);
    assert Select([z], p) == [] && Select([x], p) == [];
  }

  // ------------------------------------------------------------ ISLER.md

  const Title := "# \U{0130}\U{015F} Kay\U{0131}tlar\U{0131}"
  /** The opening words of both files' introductions. */
  const FromExcel := "Excel dosyas\U{0131}ndan \U{00E7}\U{0131}kar\U{0131}lan "
  const Intro := FromExcel + "i\U{015F} kay\U{0131}tlar\U{0131}."
  const Heading := "## \U{0130}\U{015F} Kay\U{0131}tlar\U{0131}"
  const ErrorsHeading := "## Parse Edilemeyen Kay\U{0131}tlar"

  /** The count line. */
  function Total(n: nat): string {
    "**Toplam:** " + NatToString(n) + " i\U{015F} kayd\U{0131}"
  }

  /** The title, the count and the heading of the jobs file. */
  function JobsHead(n: nat): seq<string> {
    [Title, "", Intro, "", Total(n), "", "---", "", Heading, ""]
  }

  const JobsHeader := TableRow("Tarih", "Mahkeme", "Dosya No", "Tutar (TL)")
  const JobsRule := "|-------|---------|----------|------------|"

  /** One job as a table row, its amount with two decimals. */
  function JobLine(j: ExtractedJob): string {
    TableRow(j.date, j.courtName, j.fileNumber, ToFixed2(j.amount.magnitude))
  }

  /** The rows of the table: one line per job, or one empty line when there are none. */
  function JobsBody(jobs: seq<ExtractedJob>): seq<string> {
    if jobs == [] then [""] else Map(jobs, JobLine)
  }

  function ErrorLine(e: ParseError): string {
    "- Sat\U{0131}r " + NatToString(e.row) + ": " + e.reason + " - " + e.description
  }

  /** The closing section listing the rows that gave no job, or `Yok`. */
  function JobsTail(errors: seq<ParseError>): seq<string> {
    ["", "---", "", ErrorsHeading, ""]
    + (if errors == [] then ["Yok"] else Map(errors, ErrorLine))
    + [""]
  }

  function JobsLines(jobs: seq<ExtractedJob>, errors: seq<ParseError>): seq<string> {
    JobsHead(|jobs|) + [JobsHeader, JobsRule] + JobsBody(jobs) + JobsTail(errors)
  }

  /** The text of ISLER.md. */
  function JobsDocument(jobs: seq<ExtractedJob>, errors: seq<ParseError>): string {
    Join(JobsLines(jobs, errors), "\n")
  }

  /** The file written for a sheet, when extracting it does not throw. */
  function JobsFile(sheet: seq<seq<Cell>>): Option<string> {
    match JobsOfAsWritten(sheet)
    case None => None
    case Some((jobs, errors)) => Some(JobsDocument(jobs, errors))
  }

  /**
   * A job whose fields survive the table: no bar, line break or `---` in
   * them, no surrounding space, and an amount of at least one kuruş.
   */
  predicate Writable(j: ExtractedJob) {
    Field(j.date) && Field(j.courtName) && Field(j.fileNumber) && Kurus(j.amount.magnitude) > 0
  }

  /** What the markdown importer reads from the row of a job. */
  function Imported(j: ExtractedJob): Importer.Entry {
    Importer.Readable(j.courtName, j.fileNumber, j.date, Decimal(Kurus(j.amount.magnitude), 2))
  }

  /**
   * A line of text around the table or the list: one line, and neither a
   * table line nor a numbered line because of its first character.
   */
  predicate Prose(l: string) {
    '\n' !in l && (l == [] || (!IsSpace(l[0]) && l[0] != '|' && !IsDigit(l[0])))
  }

  predicate AllProse(ls: seq<string>) {
    forall k :: 0 <= k < |ls| ==> Prose(ls[k])
  }

  predicate NoBreaks(ls: seq<string>) {
    forall k :: 0 <= k < |ls| ==> '\n' !in ls[k]
  }

  lemma ProseNotTable(l: string)
    requires Prose(l)
    ensures !Importer.TableLine(l)
  {
    if l != [] {
      assert TrimStart(l) == l;
    }
  }

  /** Filtering keeps nothing when nothing passes. */
  lemma SelectNone<T>(xs: seq<T>, p: T -> bool)
    requires forall k :: 0 <= k < |xs| ==> !p(xs[k])
    ensures Select(xs, p) == []
  {
    if Select(xs, p) != [] {
      assert false;
    }
  }

  /** Lines of prose hold no table line and no line break. */
  lemma ProseLines(ls: seq<string>)
    requires AllProse(ls)
    ensures Select(ls, Importer.TableLine) == [] && NoBreaks(ls)
  {
    forall k | 0 <= k < |ls|
      ensures !Importer.TableLine(ls[k])
    {
      ProseNotTable(ls[k]);
    }
    SelectNone(ls, Importer.TableLine);
  }

  lemma ProseConcat(a: seq<string>, b: seq<string>)
    requires AllProse(a) && AllProse(b)
    ensures AllProse(a + b)
  {
    forall k | 0 <= k < |a + b|
      ensures Prose((a + b)[k])
    {
      if k >= |a| {
        assert (a + b)[k] == b[k - |a|];
      }
    }
  }

  lemma NoBreaksConcat(a: seq<string>, b: seq<string>)
    requires NoBreaks(a) && NoBreaks(b)
    ensures NoBreaks(a + b)
  {
    forall k | 0 <= k < |a + b|
      ensures '\n' !in (a + b)[k]
    {
      if k >= |a| {
        assert (a + b)[k] == b[k - |a|];
      }
    }
  }

  lemma DigitsNoBreak(n: nat)
    ensures '\n' !in NatToString(n)
  {
    var digits := NatToString(n);
    forall i | 0 <= i < |digits| ensures digits[i] != '\n' {
      assert IsDigit(digits[i]);
    }
  }

  lemma TitleProse()
    ensures Prose(Title) && Prose(Heading)
  {
  }

  lemma IntroProse()
    ensures Prose(Intro)
  {
    FromExcelProse();
    ProseThen(FromExcel, "i\U{015F} kay\U{0131}tlar\U{0131}.");
  }

  lemma FromExcelProse()
    ensures Prose(FromExcel) && FromExcel != []
  {
  }

  /** A line of prose followed by more text on the same line. */
  lemma ProseThen(a: string, b: string)
    requires Prose(a) && a != [] && '\n' !in b
    ensures Prose(a + b)
  {
    assert (a + b)[0] == a[0];
  }

  lemma ErrorsHeadingProse()
    ensures Prose(ErrorsHeading) && Prose("---") && Prose("") && Prose("Yok")
  {
  }

  lemma TotalProse(n: nat)
    ensures Prose(Total(n))
  {
    DigitsNoBreak(n);
    assert Total(n)[0] == '*';
  }

  lemma ErrorProse(e: ParseError)
    requires '\n' !in e.reason && '\n' !in e.description
    ensures Prose(ErrorLine(e))
  {
    DigitsNoBreak(e.row);
    assert ErrorLine(e)[0] == '-';
  }

  lemma ProseFive(l0: string, l1: string, l2: string, l3: string, l4: string)
    requires Prose(l0) && Prose(l1) && Prose(l2) && Prose(l3) && Prose(l4)
    ensures AllProse([l0, l1, l2, l3, l4])
  {
  }

  /** Everything above the table is prose. */
  lemma HeadProse(n: nat)
    ensures AllProse(JobsHead(n))
  {
    TitleProse();
    IntroProse();
    ErrorsHeadingProse();
    TotalProse(n);
    ProseFive(Title, "", Intro, "", Total(n));
    ProseFive("", "---", "", Heading, "");
    ProseConcat([Title, "", Intro, "", Total(n)], ["", "---", "", Heading, ""]);
    assert JobsHead(n) == [Title, "", Intro, "", Total(n)] + ["", "---", "", Heading, ""];
  }

  /** Everything below the table is prose when no error holds a line break. */
  lemma TailProse(errors: seq<ParseError>)
    requires forall k :: 0 <= k < |errors| ==> '\n' !in errors[k].reason && '\n' !in errors[k].description
    ensures AllProse(JobsTail(errors))
  {
    ErrorsHeadingProse();
    ProseFive("", "---", "", ErrorsHeading, "");
    var listed := if errors == [] then ["Yok"] else Map(errors, ErrorLine);
    forall k | 0 <= k < |errors|
      ensures Prose(ErrorLine(errors[k]))
    {
      ErrorProse(errors[k]);
    }
    assert AllProse(listed);
    ProseConcat(["", "---", "", ErrorsHeading, ""], listed);
    ProseConcat(["", "---", "", ErrorsHeading, ""] + listed, [""]);
  }

  lemma FieldTarih()
    ensures Field("Tarih")
  {
    NoDashNoRun("Tarih");
  }

  lemma FieldMahkeme()
    ensures Field("Mahkeme")
  {
    NoDashNoRun("Mahkeme");
  }

  lemma FieldDosya()
    ensures Field("Dosya No")
  {
    NoDashNoRun("Dosya No");
  }

  lemma FieldTutar()
    ensures Field("Tutar (TL)")
  {
    NoDashNoRun("Tutar (TL)");
  }

  /** The header is a table line on one line. */
  lemma HeaderRead()
    ensures Importer.TableLine(JobsHeader) && '\n' !in JobsHeader
  {
    FieldTarih();
    FieldMahkeme();
    FieldDosya();
    FieldTutar();
    TableRowRead("Tarih", "Mahkeme", "Dosya No", "Tutar (TL)");
  }

  lemma RuleNoBreak()
    ensures '\n' !in JobsRule
  {
  }

  /** The rule below the header is not a table line, for it holds `---`. */
  lemma RuleRead()
    ensures !Importer.TableLine(JobsRule) && '\n' !in JobsRule
  {
    RuleNoBreak();
    assert "---" <= JobsRule[1..];
  }

  /** Of the header and the rule, only the header is a table line. */
  lemma HeaderAndRule()
    ensures Select([JobsHeader, JobsRule], Importer.TableLine) == [JobsHeader]
    ensures NoBreaks([JobsHeader, JobsRule])
  {
    HeaderRead();
    RuleRead();
    SelectFirst(JobsHeader, JobsRule, Importer.TableLine);
  }

  lemma SelectFirst<T>(x: T, y: T, p: T -> bool)
    requires p(x) && !p(y)
    ensures Select([x, y], p) == [x]
  {
    SelectConcat([x], [y], p);
    assert [x] + [y] == [x, y];
  }

  /** The amount written with two decimals is a cell of the table. */
  lemma FixedField(d: Decimal)
    ensures Field(ToFixed2(d))
  {
    var s := ToFixed2(d);
    assert forall c :: c in s ==> IsDigit(c) || c == '.';
    NoDashNoRun(s);
  }

  /** The row of a writable job reads back as the job, its amount rounded to kuruş. */
  lemma JobLineRead(j: ExtractedJob)
    requires Writable(j)
    ensures Importer.TableLine(JobLine(j)) && '\n' !in JobLine(j)
    ensures Importer.RowEntry(JobLine(j)) == Imported(j)
  {
    var fixed := ToFixed2(j.amount.magnitude);
    JobLineCells(j);
    ToFixed2Read(j.amount.magnitude);
    EntryOfCells(JobLine(j), j.date, j.courtName, j.fileNumber, fixed);
  }

  lemma JobLineCells(j: ExtractedJob)
    requires Field(j.date) && Field(j.courtName) && Field(j.fileNumber)
    ensures Importer.TableLine(JobLine(j)) && '\n' !in JobLine(j)
    ensures Importer.Cells(JobLine(j)) == [j.date, j.courtName, j.fileNumber, ToFixed2(j.amount.magnitude)]
  {
    FixedField(j.amount.magnitude);
    TableRowRead(j.date, j.courtName, j.fileNumber, ToFixed2(j.amount.magnitude));
  }

  /** A line of four cells whose last one is a positive number is a readable entry. */
  lemma EntryOfCells(line: string, a: string, b: string, c: string, d: string)
    requires Importer.Cells(line) == [a, b, c, d] && Accepted(ParseFloat(d))
    ensures Importer.RowEntry(line) == Importer.Readable(b, c, a, ParseFloat(d).value.magnitude)
  {
  }

  /** The table lines of the body are the rows of the jobs. */
  lemma BodyRows(jobs: seq<ExtractedJob>)
    requires forall k :: 0 <= k < |jobs| ==> Writable(jobs[k])
    ensures Select(JobsBody(jobs), Importer.TableLine) == Map(jobs, JobLine)
    ensures NoBreaks(JobsBody(jobs))
  {
    if jobs == [] {
      ErrorsHeadingProse();
      ProseLines([""]);
    } else {
      forall k | 0 <= k < |jobs|
        ensures Importer.TableLine(JobLine(jobs[k])) && '\n' !in JobLine(jobs[k])
      {
        JobLineRead(jobs[k]);
      }
    }
  }

  /**
   * The markdown importer reads ISLER.md back: its data rows are the rows
   * of the jobs, in order, and each gives the job's court name, file
   * number, date and amount rounded to kuruş.
   */
  lemma JobsDocumentImports(jobs: seq<ExtractedJob>, errors: seq<ParseError>)
    requires forall k :: 0 <= k < |jobs| ==> Writable(jobs[k])
    requires forall k :: 0 <= k < |errors| ==> '\n' !in errors[k].reason && '\n' !in errors[k].description
    ensures Importer.TableRows(JobsDocument(jobs, errors)) == Map(jobs, JobLine)
    ensures Importer.RowEntries(Importer.TableRows(JobsDocument(jobs, errors))) == Map(jobs, Imported)
  {
    DocumentLines(jobs, errors);
    var rows := Importer.TableRows(JobsDocument(jobs, errors));
    forall k | 0 <= k < |jobs|
      ensures Importer.RowEntries(rows)[k] == Imported(jobs[k])
    {
      JobLineRead(jobs[k]);
    }
  }

  /** The lines of ISLER.md that are table lines: the header, then the rows of the jobs. */
  lemma DocumentLines(jobs: seq<ExtractedJob>, errors: seq<ParseError>)
    requires forall k :: 0 <= k < |jobs| ==> Writable(jobs[k])
    requires forall k :: 0 <= k < |errors| ==> '\n' !in errors[k].reason && '\n' !in errors[k].description
    ensures Importer.TableRows(JobsDocument(jobs, errors)) == Map(jobs, JobLine)
  {
    HeadProse(|jobs|);
    ProseLines(JobsHead(|jobs|));
    TailProse(errors);
    ProseLines(JobsTail(errors));
    HeaderAndRule();
    BodyRows(jobs);
    TableOfLines(JobsHead(|jobs|), [JobsHeader, JobsRule], JobsBody(jobs), JobsTail(errors), JobsHeader, Map(jobs, JobLine));
  }

  /**
   * Lines around a table joined into a file: when only the header and the
   * rows are table lines and no line holds a break, the data rows read
   * from the file are the rows.
   */
  lemma TableOfLines(head: seq<string>, top: seq<string>, body: seq<string>, tail: seq<string>, header: string, rows: seq<string>)
    requires Select(head, Importer.TableLine) == [] && NoBreaks(head)
    requires Select(top, Importer.TableLine) == [header] && NoBreaks(top)
    requires Select(body, Importer.TableLine) == rows && NoBreaks(body)
    requires Select(tail, Importer.TableLine) == [] && NoBreaks(tail)
    ensures Importer.TableRows(Join(head + top + body + tail, "\n")) == rows
  {
    var lines := head + top + body + tail;
    LinesSelected(head, top, body, tail, Importer.TableLine, header, rows);
    RowsOfLines(Join(lines, "\n"), lines, header, rows);
  }

  lemma LinesSelected(head: seq<string>, top: seq<string>, body: seq<string>, tail: seq<string>, p: string -> bool, header: string, rows: seq<string>)
    requires Select(head, p) == [] && NoBreaks(head)
    requires Select(top, p) == [header] && NoBreaks(top)
    requires Select(body, p) == rows && NoBreaks(body)
    requires Select(tail, p) == [] && NoBreaks(tail)
    ensures var lines := head + top + body + tail;
      Split(Join(lines, "\n"), '\n') == lines && Select(lines, p) == [header] + rows
  {
    SelectedFour(head, top, body, tail, p, header, rows);
    NoBreaksFour(head, top, body, tail);
    SplitLines(head + top + body + tail);
  }

  lemma SelectedFour<T>(a: seq<T>, b: seq<T>, c: seq<T>, d: seq<T>, p: T -> bool, x: T, xs: seq<T>)
    requires Select(a, p) == [] && Select(b, p) == [x] && Select(c, p) == xs && Select(d, p) == []
    ensures Select(a + b + c + d, p) == [x] + xs && |a + b + c + d| >= 1
  {
    SelectFour(a, b, c, d, p);
    assert [] + [x] + xs + [] == [x] + xs;
  }

  lemma SplitLines(lines: seq<string>)
    requires |lines| >= 1 && NoBreaks(lines)
    ensures Split(Join(lines, "\n"), '\n') == lines
  {
    SplitJoin(lines, '\n');
  }

  lemma RowsOfLines(md: string, lines: seq<string>, header: string, rows: seq<string>)
    requires Split(md, '\n') == lines && Select(lines, Importer.TableLine) == [header] + rows
    ensures Importer.TableRows(md) == rows
  {
    assert ([header] + rows)[1..] == rows;
  }

  lemma NoBreaksFour(a: seq<string>, b: seq<string>, c: seq<string>, d: seq<string>)
    requires NoBreaks(a) && NoBreaks(b) && NoBreaks(c) && NoBreaks(d)
    ensures NoBreaks(a + b + c + d)
  {
    NoBreaksConcat(a, b);
    NoBreaksConcat(a + b, c);
    NoBreaksConcat(a + b + c, d);
  }

  lemma SelectFour<T>(a: seq<T>, b: seq<T>, c: seq<T>, d: seq<T>, p: T -> bool)
    ensures Select(a + b + c + d, p) == Select(a, p) + Select(b, p) + Select(c, p) + Select(d, p)
  {
    SelectConcat(a + b + c, d, p);
    SelectConcat(a + b, c, p);
    SelectConcat(a, b, p);
  }

  // ------------------------------------------------------------ MAHKEMELER.md

  const CourtsTitle := "# Mahkeme \U{0130}simleri"
  const CourtsIntro := FromExcel + "benzersiz mahkeme isimleri."

  function CourtsTotal(n: nat): string {
    "**Toplam:** " + NatToString(n) + " mahkeme"
  }

  /** The title and the count of the courts file. */
  function CourtsHead(n: nat): seq<string> {
    [CourtsTitle, "", CourtsIntro, "", CourtsTotal(n), "", "---", ""]
  }

  /** The `i`-th name, numbered from one. */
  function CourtLine(i: nat, name: string): string {
    NatToString(i + 1) + ". " + name
  }

  function CourtLines(names: seq<string>): (ls: seq<string>)
    ensures |ls| == |names| && forall i :: 0 <= i < |names| ==> ls[i] == CourtLine(i, names[i])
  {
    seq(|names|, i requires 0 <= i < |names| => CourtLine(i, names[i]))
  }

  /** The numbered names, or one empty line when there are none. */
  function CourtsBody(names: seq<string>): seq<string> {
    if names == [] then [""] else CourtLines(names)
  }

  function UnparsedLine(u: Unparsed): string {
    "- Sat\U{0131}r " + NatToString(u.row) + ": " + u.description
  }

  /** The closing section listing the rows that gave no name, or `Yok`. */
  function CourtsTail(errors: seq<Unparsed>): seq<string> {
    ["", "---", "", ErrorsHeading, ""]
    + (if errors == [] then ["Yok"] else Map(errors, UnparsedLine))
    + [""]
  }

  /** The text of MAHKEMELER.md. */
  function CourtsDocument(names: seq<string>, errors: seq<Unparsed>): string {
    Join(CourtsHead(|names|) + CourtsBody(names) + CourtsTail(errors), "\n")
  }

  /** The file written for a sheet, when extracting it does not throw. */
  function CourtsFile(sheet: seq<seq<Cell>>): Option<string> {
    match CourtsOfAsWritten(sheet)
    case None => None
    case Some((names, errors)) => Some(CourtsDocument(names, errors))
  }

  lemma CourtsTitleProse()
    ensures Prose(CourtsTitle)
  {
  }

  lemma CourtsIntroProse()
    ensures Prose(CourtsIntro)
  {
    FromExcelProse();
    ProseThen(FromExcel, "benzersiz mahkeme isimleri.");
  }

  lemma CourtsTotalProse(n: nat)
    ensures Prose(CourtsTotal(n))
  {
    DigitsNoBreak(n);
    assert CourtsTotal(n)[0] == '*';
  }

  lemma UnparsedProse(u: Unparsed)
    requires '\n' !in u.description
    ensures Prose(UnparsedLine(u))
  {
    DigitsNoBreak(u.row);
    assert UnparsedLine(u)[0] == '-';
  }

  /** Everything above the list is prose. */
  lemma CourtsHeadProse(n: nat)
    ensures AllProse(CourtsHead(n))
  {
    CourtsTitleProse();
    CourtsIntroProse();
    ErrorsHeadingProse();
    CourtsTotalProse(n);
    ProseFive(CourtsTitle, "", CourtsIntro, "", CourtsTotal(n));
    ProseFive("", "---", "", "", "");
    ProseConcat([CourtsTitle, "", CourtsIntro, "", CourtsTotal(n)], ["", "---", ""]);
    assert CourtsHead(n) == [CourtsTitle, "", CourtsIntro, "", CourtsTotal(n)] + ["", "---", ""];
  }

  /** Everything below the list is prose when no description holds a line break. */
  lemma CourtsTailProse(errors: seq<Unparsed>)
    requires forall k :: 0 <= k < |errors| ==> '\n' !in errors[k].description
    ensures AllProse(CourtsTail(errors))
  {
    ErrorsHeadingProse();
    ProseFive("", "---", "", ErrorsHeading, "");
    var listed := if errors == [] then ["Yok"] else Map(errors, UnparsedLine);
    forall k | 0 <= k < |errors|
      ensures Prose(UnparsedLine(errors[k]))
    {
      UnparsedProse(errors[k]);
    }
    assert AllProse(listed);
    ProseConcat(["", "---", "", ErrorsHeading, ""], listed);
    ProseConcat(["", "---", "", ErrorsHeading, ""] + listed, [""]);
  }
}

=== FILE: importer.dfy ===
/**
 * The import engine shared by the seven job-import scripts: each parsed
 * payment is resolved to a court, checked against the jobs already stored,
 * given backfilled dates and amounts, and inserted, while the run counts
 * successes, duplicates and errors and collects the court names it could
 * not resolve. A `Variant` says how each script differs; one constant per
 * script instantiates it.
 *
 * `Math.random` is a parameter: `draws(i)` holds the day offsets, the
 * vehicle index and the generated base amount used for the `i`-th payment.
 */
module Importer {
  import opened Wrappers
  import opened Text
  import opened Calendar
  import opened Jobs
  import opened Store
  import opened Records
  import Money
  import Descriptions

  // ------------------------------------------------------------ variants

  /** Equality lookup first, then `LIKE`; or `LIKE` alone. */
  datatype Lookup = ExactThenContains | ContainsOnly

  /**
   * What happens to a court no lookup finds: report it; insert it as the
   * scripts do, where reading `result.lastID` of the promisified `db.run`
   * throws and the record counts as an error; or insert it and go on with
   * the new id, as the scripts intend.
   */
  datatype Missing = Report | CreateAsWritten | CreateIntended

  /** Random offsets around the payment date, fixed offsets before it, or the row's own date everywhere. */
  datatype DateRule = RandomOffsets | FixedOffsets | SameDay

  /** `generateAmount` (rounded or not), or `calculateAmounts` / `calculateVAT` of the record's total. */
  datatype AmountRule = Generated | GeneratedUnrounded | FromRecord

  datatype Variant = Variant(
    lookup: Lookup, missing: Missing, collect: bool, dedupe: bool,
    dates: DateRule, amounts: AmountRule, firstVehicle: bool)

  /** scripts/import-full-bank-data.js */
  const FullBank := Variant(ExactThenContains, Report, true, true, RandomOffsets, Generated, false)
  /** scripts/import-all-bank-jobs.js: no duplicate guard. */
  const AllBank := Variant(ExactThenContains, Report, true, false, RandomOffsets, Generated, false)
  /** scripts/import-from-excel.js */
  const FromExcel := Variant(ExactThenContains, Report, true, true, RandomOffsets, FromRecord, false)
  /** scripts/one-time-import.js as written: a court it inserts still counts as an error and gets no job. */
  const OneTime := Variant(ExactThenContains, CreateAsWritten, true, true, FixedOffsets, FromRecord, false)
  /** scripts/one-time-import.js as intended: the inserted court's id is used at once. */
  const OneTimeIntended := OneTime.(missing := CreateIntended)
  /** scripts/prepare-database.js as written; unresolved names are not collected. */
  const Prepare := Variant(ExactThenContains, CreateAsWritten, false, true, FixedOffsets, FromRecord, false)
  /** scripts/prepare-database.js as intended. */
  const PrepareIntended := Prepare.(missing := CreateIntended)
  /** scripts/import-jobs-from-md.js: the first vehicle and the row's date for every job. */
  const FromMarkdown := Variant(ExactThenContains, Report, true, true, SameDay, FromRecord, true)
  /** scripts/import-jobs-from-bank.js: `LIKE` only, no duplicate guard, nothing collected. */
  const FromBank := Variant(ContainsOnly, Report, false, false, RandomOffsets, GeneratedUnrounded, false)

  // ------------------------------------------------------------ inputs

  /**
   * A payment as the loop sees it: a description that did not parse, or the
   * court name, file number, payment date and total it gave.
   */
  datatype Entry = Unreadable | Readable(courtName: string, fileNumber: string, paymentDate: string, amount: Decimal)

  /** The random choices for one payment. */
  datatype Draw = Draw(daysBefore: int, daysAfter: int, vehicle: int, baseLira: int)

  /**
   * `10 + floor(r * 21)`, `1 + floor(r * 10)`, `floor(r * vehicles.length)`
   * and `1000 + floor(r * 4000)` for `0 <= r < 1`.
   */
  predicate DrawOk(d: Draw, fleet: nat) {
    10 <= d.daysBefore <= 30 && 1 <= d.daysAfter <= 10
    && (fleet == 0 || 0 <= d.vehicle < fleet)
    && 1000 <= d.baseLira <= 4999
  }

  // ------------------------------------------------------------ dates

  /**
   * `calculateDates` with random offsets: received `daysBefore` days before
   * the payment, scheduled `daysAfter` days after that.
   */
  function RandomDays(p: Date, d: Draw): (r: (Date, Date))
    requires Valid(p) && DrawOk(d, 0)
    ensures Valid(r.0) && Valid(r.1)
    ensures DayNumber(p) - 30 <= DayNumber(r.0) <= DayNumber(p) - 10
    ensures DayNumber(r.0) + 1 <= DayNumber(r.1) <= DayNumber(r.0) + 10
    ensures DayNumber(r.1) <= DayNumber(p)
  {
    var received := AddDays(p, -d.daysBefore);
    var scheduled := AddDays(received, d.daysAfter);
    AddDaysNumber(p, -d.daysBefore);
    AddDaysNumber(received, d.daysAfter);
    Between(DayNumber(p), DayNumber(received), DayNumber(scheduled), d.daysBefore, d.daysAfter);
    (received, scheduled)
  }

  lemma Between(n: int, m: int, k: int, before: int, after: int)
    requires m == n - before && k == m + after && 10 <= before <= 30 && 1 <= after <= 10
    ensures n - 30 <= m <= n - 10 && m + 1 <= k <= m + 10 && k <= n
  {
  }

  /**
   * `calculateDates` of scripts/one-time-import.js and
   * scripts/prepare-database.js: scheduled a week before the payment,
   * received three days before that.
   */
  function FixedDays(p: Date): (r: (Date, Date))
    requires Valid(p)
    ensures Valid(r.0) && Valid(r.1)
    ensures DayNumber(r.0) == DayNumber(p) - 10 && DayNumber(r.1) == DayNumber(p) - 7
  {
    var scheduled := AddDays(p, -7);
    AddDaysNumber(p, -7);
    AddDaysNumber(scheduled, -3);
    (AddDays(scheduled, -3), scheduled)
  }

  /** The payment, received and scheduled dates written into a job. */
  datatype JobDates = JobDates(payment: string, received: string, scheduled: string)

  /**
   * The dates of a new job, or `None` when `new Date(paymentDate)` is an
   * Invalid Date and `toISOString` throws a RangeError.
   */
  function Backfill(rule: DateRule, paymentDate: string, d: Draw): (r: Option<JobDates>)
    requires DrawOk(d, 0)
    ensures r.None? <==> rule != SameDay && ParseIso(paymentDate).None?
    ensures rule == SameDay ==> r == Some(JobDates(paymentDate, paymentDate, paymentDate))
    ensures rule == FixedOffsets && r.Some? ==> r.value.payment == paymentDate
  {
    match rule
    case SameDay => Some(JobDates(paymentDate, paymentDate, paymentDate))
    case RandomOffsets =>
      (match ParseIso(paymentDate)
       case None => None
       case Some(p) =>
         var (received, scheduled) := RandomDays(p, d);
         Some(JobDates(IsoString(p), IsoString(received), IsoString(scheduled))))
    case FixedOffsets =>
      match ParseIso(paymentDate)
      case None => None
      case Some(p) =>
        var (received, scheduled) := FixedDays(p);
        Some(JobDates(paymentDate, IsoString(received), IsoString(scheduled)))
  }

  // ------------------------------------------------------------ amounts

  /** The amounts of a new job: VAT at 20 %, base and VAT adding up to the total. */
  function Amounts(rule: AmountRule, total: Decimal, d: Draw): (s: Money.Split)
    requires DrawOk(d, 0)
    ensures s.rate == 20 && s.base + s.vat == s.total
    ensures rule != FromRecord ==> s.base == 100 * d.baseLira && 5 * s.vat == s.base
    ensures rule == FromRecord ==> s.total == Kurus(total)
  {
    match rule
    case Generated => Money.GeneratedAmount(d.baseLira)
    case GeneratedUnrounded => Money.GeneratedAmountUnrounded(d.baseLira)
    case FromRecord => DecimalSplit(total, 20)
  }

  /** The row the scripts insert: paid, invoiced and completed. */
  function NewJob(courtId: int, file: string, vehicleId: int, dates: JobDates, amounts: Money.Split): StoredJob {
    StoredJob(
      dates.scheduled, dates.received, dates.scheduled,
      courtId, file, vehicleId, amounts,
      Paid, Issued, Completed,
      dates.payment, dates.payment, dates.scheduled)
  }

  /** The three statuses every imported job carries. */
  predicate Settled(j: StoredJob) {
    j.payment == Paid && j.invoice == Issued && j.status == Completed
  }

  // ------------------------------------------------------------ one step

  /** The run's counters and the names of the courts it could not resolve. */
  datatype Tally = Tally(success: nat, duplicates: nat, errors: nat, created: nat, notFound: set<string>)

  const NoCounts := Tally(0, 0, 0, 0, {})

  function Total(t: Tally): nat { t.success + t.duplicates + t.errors }

  /** The database, the counters, and whether an exception ended the loop. */
  datatype Run = Run(db: Contents, tally: Tally, aborted: bool)

  /** The court a payment's name resolves to. */
  function LookupCourt(l: Lookup, courts: seq<Court>, name: string): (r: Option<Court>)
    ensures r.Some? ==> r.value in courts
    ensures r.None? <==> FindContains(courts, name).None?
    ensures l == ExactThenContains && FindExact(courts, name).Some? ==> r == FindExact(courts, name)
    ensures l == ContainsOnly ==> r == FindContains(courts, name)
  {
    ExactIsLike(courts, name);
    if l == ExactThenContains && FindExact(courts, name).Some? then FindExact(courts, name)
    else FindContains(courts, name)
  }

  /** An unresolved court: an error, and the name remembered when the script collects names. */
  function Missed(v: Variant, r: Run, name: string): (s: Run)
    ensures s.db == r.db && s.aborted == r.aborted
    ensures s.tally.errors == r.tally.errors + 1 && s.tally.success == r.tally.success
    ensures s.tally.duplicates == r.tally.duplicates && s.tally.created == r.tally.created
    ensures s.tally.notFound == if v.collect then r.tally.notFound + {name} else r.tally.notFound
  {
    r.(tally := r.tally.(errors := r.tally.errors + 1,
      notFound := if v.collect then r.tally.notFound + {name} else r.tally.notFound))
  }

  /**
   * With the court resolved: a duplicate when the guard is on and the pair
   * is stored; otherwise the dates (which can throw) and the insert.
   */
  function Place(v: Variant, fleet: seq<Vehicle>, r: Run, courtId: int, e: Entry, d: Draw): (s: Run)
    requires e.Readable? && |fleet| > 0 && DrawOk(d, |fleet|) && !r.aborted
    ensures s.db == r.db.(jobs := s.db.jobs)
    ensures r.db.jobs <= s.db.jobs && |s.db.jobs| <= |r.db.jobs| + 1
    ensures s.tally.success == r.tally.success + (|s.db.jobs| - |r.db.jobs|)
    ensures |s.db.jobs| > |r.db.jobs| ==> var j := s.db.jobs[|r.db.jobs|];
      Settled(j) && j.courtId == courtId && j.fileNumber == e.fileNumber
    ensures s.aborted ==> s.db == r.db && s.tally == r.tally
    ensures s.tally.created == r.tally.created && s.tally.notFound == r.tally.notFound && s.tally.errors == r.tally.errors
    ensures v.dedupe && HasPair(r.db.jobs, courtId, e.fileNumber) ==> s.db == r.db && s.tally.duplicates == r.tally.duplicates + 1 && s.aborted == r.aborted
    ensures !v.dedupe ==> s.tally.duplicates == r.tally.duplicates
    ensures !v.dedupe && !s.aborted ==> |s.db.jobs| == |r.db.jobs| + 1
    ensures s.aborted <==> (!(v.dedupe && HasPair(r.db.jobs, courtId, e.fileNumber)) && Backfill(v.dates, e.paymentDate, d).None?)
  {
    if v.dedupe && HasPair(r.db.jobs, courtId, e.fileNumber) then
      r.(tally := r.tally.(duplicates := r.tally.duplicates + 1))
    else
      match Backfill(v.dates, e.paymentDate, d)
      case None => r.(aborted := true)
      case Some(dates) =>
        var vehicle := if v.firstVehicle then fleet[0] else fleet[d.vehicle];
        var job := NewJob(courtId, e.fileNumber, vehicle.id, dates, Amounts(v.amounts, e.amount, d));
        r.(db := AddJob(r.db, job), tally := r.tally.(success := r.tally.success + 1))
  }

  /**
   * A court no lookup finds: reported, or inserted with the placeholder
   * city 'Bilinmiyor' and type 'Asliye Hukuk'.
   */
  function Unresolved(v: Variant, fleet: seq<Vehicle>, r: Run, e: Entry, d: Draw): (s: Run)
    requires e.Readable? && |fleet| > 0 && DrawOk(d, |fleet|) && !r.aborted
    ensures s.db.vehicles == r.db.vehicles && r.db.courts <= s.db.courts
    ensures v.missing == Report ==> s == Missed(v, r, e.courtName)
    ensures r.db.jobs <= s.db.jobs && |s.db.jobs| <= |r.db.jobs| + 1
    ensures s.tally.success == r.tally.success + (|s.db.jobs| - |r.db.jobs|)
    ensures |s.db.jobs| > |r.db.jobs| ==> Settled(s.db.jobs[|r.db.jobs|])
  {
    if v.missing == Report then Missed(v, r, e.courtName)
    else
      var (id, db) := AddCourt(r.db, e.courtName, "Bilinmiyor", None, Some("Asliye Hukuk"));
      if v.missing == CreateAsWritten || id.None? then Missed(v, r.(db := db), e.courtName)
      else
        Place(v, fleet, r.(db := db, tally := r.tally.(created := r.tally.created + 1)), id.value, e, d)
  }

  /** One pass of the import loop. */
  function Step(v: Variant, fleet: seq<Vehicle>, r: Run, e: Entry, d: Draw): (s: Run)
    requires |fleet| > 0 && DrawOk(d, |fleet|)
    ensures r.aborted ==> s == r
    ensures s.db.vehicles == r.db.vehicles && r.db.courts <= s.db.courts
    ensures v.missing == Report ==> s.db.courts == r.db.courts
    ensures r.db.jobs <= s.db.jobs && |s.db.jobs| <= |r.db.jobs| + 1
    ensures s.tally.success == r.tally.success + (|s.db.jobs| - |r.db.jobs|)
    ensures |s.db.jobs| > |r.db.jobs| ==> Settled(s.db.jobs[|r.db.jobs|])
  {
    if r.aborted then r
    else
      match e
      case Unreadable => r.(tally := r.tally.(errors := r.tally.errors + 1))
      case Readable(name, _, _, _) =>
        match LookupCourt(v.lookup, r.db.courts, name)
        case Some(court) => Place(v, fleet, r, court.id, e, d)
        case None => Unresolved(v, fleet, r, e, d)
  }

  /** A step that does not throw counts the payment exactly once: an insert, a duplicate or an error. */
  lemma StepCounts(v: Variant, fleet: seq<Vehicle>, r: Run, e: Entry, d: Draw)
    requires |fleet| > 0 && DrawOk(d, |fleet|)
    ensures !Step(v, fleet, r, e, d).aborted ==> Total(Step(v, fleet, r, e, d).tally) == Total(r.tally) + 1
  {
  }

  /** A step keeps the schema's constraints. */
  lemma StepWellFormed(v: Variant, fleet: seq<Vehicle>, r: Run, e: Entry, d: Draw)
    requires |fleet| > 0 && DrawOk(d, |fleet|) && WellFormed(r.db)
    ensures WellFormed(Step(v, fleet, r, e, d).db)
  {
  }

  /** With the guard on, a step never stores a (court, file number) pair twice. */
  lemma StepPairs(v: Variant, fleet: seq<Vehicle>, r: Run, e: Entry, d: Draw)
    requires |fleet| > 0 && DrawOk(d, |fleet|) && v.dedupe && NoDuplicatePairs(r.db.jobs)
    ensures NoDuplicatePairs(Step(v, fleet, r, e, d).db.jobs)
  {
    var s := Step(v, fleet, r, e, d);
    if |s.db.jobs| > |r.db.jobs| {
      var j := s.db.jobs[|r.db.jobs|];
      assert s.db.jobs == r.db.jobs + [j];
      AppendNewPair(r.db.jobs, j);
    }
  }

  // ------------------------------------------------------------ the loop

  /** The loop of `importJobs` over the first `|entries|` payments, `draws(i)` serving the `i`-th. */
  function RunAll(v: Variant, fleet: seq<Vehicle>, start: Run, entries: seq<Entry>, draws: nat -> Draw): (s: Run)
    requires |fleet| > 0 && forall i: nat :: DrawOk(draws(i), |fleet|)
    ensures start.aborted ==> s == start
    ensures s.db.vehicles == start.db.vehicles && start.db.courts <= s.db.courts
    ensures v.missing == Report ==> s.db.courts == start.db.courts
    ensures start.db.jobs <= s.db.jobs && |s.db.jobs| <= |start.db.jobs| + |entries|
    ensures s.tally.success == start.tally.success + (|s.db.jobs| - |start.db.jobs|)
    decreases |entries|
  {
    if entries == [] then start
    else
      var n := |entries| - 1;
      Step(v, fleet, RunAll(v, fleet, start, entries[..n], draws), entries[n], draws(n))
  }

  /** A run that no exception ends counts every payment exactly once: an insert, a duplicate or an error. */
  lemma {:induction false} RunCounts(v: Variant, fleet: seq<Vehicle>, start: Run, entries: seq<Entry>, draws: nat -> Draw)
    requires |fleet| > 0 && forall i: nat :: DrawOk(draws(i), |fleet|)
    ensures !RunAll(v, fleet, start, entries, draws).aborted ==>
      Total(RunAll(v, fleet, start, entries, draws).tally) == Total(start.tally) + |entries|
    decreases |entries|
  {
    if entries != [] {
      var n := |entries| - 1;
      RunCounts(v, fleet, start, entries[..n], draws);
      StepCounts(v, fleet, RunAll(v, fleet, start, entries[..n], draws), entries[n], draws(n));
    }
  }

  /** A run keeps the schema's constraints. */
  lemma {:induction false} RunKeepsWellFormed(v: Variant, fleet: seq<Vehicle>, start: Run, entries: seq<Entry>, draws: nat -> Draw)
    requires |fleet| > 0 && forall i: nat :: DrawOk(draws(i), |fleet|)
    ensures WellFormed(start.db) ==> WellFormed(RunAll(v, fleet, start, entries, draws).db)
    decreases |entries|
  {
    if entries != [] && WellFormed(start.db) {
      var n := |entries| - 1;
      RunKeepsWellFormed(v, fleet, start, entries[..n], draws);
      StepWellFormed(v, fleet, RunAll(v, fleet, start, entries[..n], draws), entries[n], draws(n));
    }
  }

  /** With the guard on, a run never stores a (court, file number) pair twice. */
  lemma {:induction false} RunPairs(v: Variant, fleet: seq<Vehicle>, start: Run, entries: seq<Entry>, draws: nat -> Draw)
    requires |fleet| > 0 && (forall i: nat :: DrawOk(draws(i), |fleet|)) && v.dedupe && NoDuplicatePairs(start.db.jobs)
    ensures NoDuplicatePairs(RunAll(v, fleet, start, entries, draws).db.jobs)
    decreases |entries|
  {
    if entries != [] {
      var n := |entries| - 1;
      RunPairs(v, fleet, start, entries[..n], draws);
      StepPairs(v, fleet, RunAll(v, fleet, start, entries[..n], draws), entries[n], draws(n));
    }
  }

  /** Every job a run inserts is paid, invoiced and completed. */
  lemma {:induction false} RunSettles(v: Variant, fleet: seq<Vehicle>, start: Run, entries: seq<Entry>, draws: nat -> Draw)
    requires |fleet| > 0 && forall i: nat :: DrawOk(draws(i), |fleet|)
    ensures forall k :: |start.db.jobs| <= k < |RunAll(v, fleet, start, entries, draws).db.jobs| ==>
      Settled(RunAll(v, fleet, start, entries, draws).db.jobs[k])
    decreases |entries|
  {
    if entries != [] {
      var n := |entries| - 1;
      var mid := RunAll(v, fleet, start, entries[..n], draws);
      var s := RunAll(v, fleet, start, entries, draws);
      assert s == Step(v, fleet, mid, entries[n], draws(n));
      RunSettles(v, fleet, start, entries[..n], draws);
      forall k | |start.db.jobs| <= k < |s.db.jobs| ensures Settled(s.db.jobs[k]) {
        if k < |mid.db.jobs| {
          assert s.db.jobs[k] == mid.db.jobs[k];
        } else {
          assert k == |mid.db.jobs|;
        }
      }
    }
  }

  /** The run over one more payment is one more step. */
  lemma RunAllNext(v: Variant, fleet: seq<Vehicle>, start: Run, entries: seq<Entry>, draws: nat -> Draw, i: nat)
    requires |fleet| > 0 && forall i: nat :: DrawOk(draws(i), |fleet|)
    requires i < |entries|
    ensures RunAll(v, fleet, start, entries[..i + 1], draws)
      == Step(v, fleet, RunAll(v, fleet, start, entries[..i], draws), entries[i], draws(i))
  {
    assert entries[..i + 1][..i] == entries[..i];
  }

  /** Once an exception has ended the loop, later payments change nothing. */
  lemma {:induction false} AbortedStays(v: Variant, fleet: seq<Vehicle>, start: Run, xs: seq<Entry>, ys: seq<Entry>, draws: nat -> Draw)
    requires |fleet| > 0 && forall i: nat :: DrawOk(draws(i), |fleet|)
    requires xs <= ys && RunAll(v, fleet, start, xs, draws).aborted
    ensures RunAll(v, fleet, start, ys, draws) == RunAll(v, fleet, start, xs, draws)
    decreases |ys|
  {
    if |ys| > |xs| {
      var n := |ys| - 1;
      var prev := RunAll(v, fleet, start, ys[..n], draws);
      assert prev == RunAll(v, fleet, start, xs, draws) by {
        assert xs <= ys[..n];
        AbortedStays(v, fleet, start, xs, ys[..n], draws);
      }
      assert prev.aborted;
    } else {
      assert xs == ys;
    }
  }

  /** The counters of a rerun that finds everything the first run placed already stored. */
  function Rerun(t: Tally): Tally {
    Tally(0, t.success + t.duplicates, t.errors, 0, t.notFound)
  }

  /** One payment of a rerun over a database that already holds what the first run stored. */
  lemma RerunStep(v: Variant, fleet: seq<Vehicle>, r1: Run, r2: Run, e: Entry, a: Draw, b: Draw)
    requires v.missing == Report && v.dedupe
    requires |fleet| > 0 && DrawOk(a, |fleet|) && DrawOk(b, |fleet|)
    requires !r1.aborted && r1.db.courts == r2.db.courts
    requires !Step(v, fleet, r1, e, a).aborted && Step(v, fleet, r1, e, a).db.jobs <= r2.db.jobs
    requires r2 == Run(r2.db, Rerun(r1.tally), false)
    ensures Step(v, fleet, r2, e, b) == Run(r2.db, Rerun(Step(v, fleet, r1, e, a).tally), false)
  {
    var s1 := Step(v, fleet, r1, e, a);
    var c1 := r2.db;
    if e.Readable? {
      var hit := LookupCourt(v.lookup, c1.courts, e.courtName);
      if hit.Some? {
        if HasPair(r1.db.jobs, hit.value.id, e.fileNumber) {
          HasPairGrows(r1.db.jobs, c1.jobs, hit.value.id, e.fileNumber);
        } else {
          var k := |r1.db.jobs|;
          assert s1.db.jobs[k].courtId == hit.value.id && s1.db.jobs[k].fileNumber == e.fileNumber;
          assert c1.jobs[k] == s1.db.jobs[k];
        }
      }
    }
  }

  /**
   * Running the same payments again over a database that holds everything
   * a finished run stored: no job is inserted, every payment that was
   * inserted or skipped before is now a duplicate, and the errors and
   * unresolved names are the same, whatever the random draws.
   */
  lemma {:induction false} RerunFrom(v: Variant, fleet: seq<Vehicle>, c0: Contents, c1: Contents, entries: seq<Entry>, d1: nat -> Draw, d2: nat -> Draw)
    requires v.missing == Report && v.dedupe
    requires |fleet| > 0 && (forall i: nat :: DrawOk(d1(i), |fleet|)) && (forall i: nat :: DrawOk(d2(i), |fleet|))
    requires !RunAll(v, fleet, Run(c0, NoCounts, false), entries, d1).aborted && c1.courts == c0.courts
    requires RunAll(v, fleet, Run(c0, NoCounts, false), entries, d1).db.jobs <= c1.jobs
    ensures RunAll(v, fleet, Run(c1, NoCounts, false), entries, d2)
      == Run(c1, Rerun(RunAll(v, fleet, Run(c0, NoCounts, false), entries, d1).tally), false)
    decreases |entries|
  {
    if entries != [] {
      var n := |entries| - 1;
      var first := RunAll(v, fleet, Run(c0, NoCounts, false), entries, d1);
      var mid1 := RunAll(v, fleet, Run(c0, NoCounts, false), entries[..n], d1);
      assert first == Step(v, fleet, mid1, entries[n], d1(n));
      assert !mid1.aborted;
      assert mid1.db.jobs <= first.db.jobs;
      RerunFrom(v, fleet, c0, c1, entries[..n], d1, d2);
      var mid2 := RunAll(v, fleet, Run(c1, NoCounts, false), entries[..n], d2);
      assert mid2 == Run(c1, Rerun(mid1.tally), false);
      RerunStep(v, fleet, mid1, mid2, entries[n], d1(n), d2(n));
      var second := RunAll(v, fleet, Run(c1, NoCounts, false), entries, d2);
      assert second == Step(v, fleet, mid2, entries[n], d2(n));
    }
  }

  /**
   * The scripts with a duplicate guard, run twice over the same payments:
   * the second run inserts nothing and finds every payment it can place
   * already stored.
   */
  lemma RerunInsertsNothing(v: Variant, c: Contents, entries: seq<Entry>, d1: nat -> Draw, d2: nat -> Draw)
    requires v.missing == Report && v.dedupe
    requires |c.vehicles| > 0 && (forall i: nat :: DrawOk(d1(i), |c.vehicles|)) && (forall i: nat :: DrawOk(d2(i), |c.vehicles|))
    requires !RunAll(v, c.vehicles, Run(c, NoCounts, false), entries, d1).aborted
    ensures var first := RunAll(v, c.vehicles, Run(c, NoCounts, false), entries, d1);
      var second := RunAll(v, c.vehicles, Run(first.db, NoCounts, false), entries, d2);
      second.db == first.db && !second.aborted && second.tally.success == 0
      && second.tally.duplicates == first.tally.success + first.tally.duplicates
      && second.tally.errors == first.tally.errors && second.tally.notFound == first.tally.notFound
  {
    var first := RunAll(v, c.vehicles, Run(c, NoCounts, false), entries, d1);
    RerunFrom(v, c.vehicles, c, first.db, entries, d1, d2);
  }

  /** One payment of an unguarded rerun: it ends the same way and inserts as many jobs. */
  lemma UnguardedStep(v: Variant, fleet: seq<Vehicle>, r1: Run, r2: Run, e: Entry, a: Draw, b: Draw)
    requires v.missing == Report && !v.dedupe
    requires |fleet| > 0 && DrawOk(a, |fleet|) && DrawOk(b, |fleet|)
    requires !r1.aborted && !r2.aborted && r2.tally == r1.tally && r2.db.courts == r1.db.courts
    requires !Step(v, fleet, r1, e, a).aborted
    ensures var s1 := Step(v, fleet, r1, e, a);
      var s2 := Step(v, fleet, r2, e, b);
      !s2.aborted && s2.tally == s1.tally && s2.db.courts == r2.db.courts
      && |s2.db.jobs| - |r2.db.jobs| == |s1.db.jobs| - |r1.db.jobs|
  {
  }

  lemma {:induction false} UnguardedRerunFrom(v: Variant, fleet: seq<Vehicle>, c0: Contents, c1: Contents, entries: seq<Entry>, d1: nat -> Draw, d2: nat -> Draw)
    requires v.missing == Report && !v.dedupe
    requires |fleet| > 0 && (forall i: nat :: DrawOk(d1(i), |fleet|)) && (forall i: nat :: DrawOk(d2(i), |fleet|))
    requires !RunAll(v, fleet, Run(c0, NoCounts, false), entries, d1).aborted && c1.courts == c0.courts
    ensures !RunAll(v, fleet, Run(c1, NoCounts, false), entries, d2).aborted
    ensures RunAll(v, fleet, Run(c1, NoCounts, false), entries, d2).tally == RunAll(v, fleet, Run(c0, NoCounts, false), entries, d1).tally
    ensures RunAll(v, fleet, Run(c1, NoCounts, false), entries, d2).db.courts == c1.courts
    ensures |RunAll(v, fleet, Run(c1, NoCounts, false), entries, d2).db.jobs| == |c1.jobs| + RunAll(v, fleet, Run(c0, NoCounts, false), entries, d1).tally.success
    decreases |entries|
  {
    if entries != [] {
      var n := |entries| - 1;
      UnguardedRerunFrom(v, fleet, c0, c1, entries[..n], d1, d2);
      var mid1 := RunAll(v, fleet, Run(c0, NoCounts, false), entries[..n], d1);
      var mid2 := RunAll(v, fleet, Run(c1, NoCounts, false), entries[..n], d2);
      UnguardedStep(v, fleet, mid1, mid2, entries[n], d1(n), d2(n));
    }
  }

  /**
   * Without the guard (scripts/import-all-bank-jobs.js,
   * scripts/import-jobs-from-bank.js) a second run over the same payments
   * counts the same and inserts every job again.
   */
  lemma UnguardedRerunRepeats(v: Variant, c: Contents, entries: seq<Entry>, d1: nat -> Draw, d2: nat -> Draw)
    requires v.missing == Report && !v.dedupe
    requires |c.vehicles| > 0 && (forall i: nat :: DrawOk(d1(i), |c.vehicles|)) && (forall i: nat :: DrawOk(d2(i), |c.vehicles|))
    requires !RunAll(v, c.vehicles, Run(c, NoCounts, false), entries, d1).aborted
    ensures var first := RunAll(v, c.vehicles, Run(c, NoCounts, false), entries, d1);
      var second := RunAll(v, c.vehicles, Run(first.db, NoCounts, false), entries, d2);
      !second.aborted && second.tally == first.tally
      && |second.db.jobs| == |c.jobs| + 2 * first.tally.success
  {
    var first := RunAll(v, c.vehicles, Run(c, NoCounts, false), entries, d1);
    UnguardedRerunFrom(v, c.vehicles, c, first.db, entries, d1, d2);
  }

  // ------------------------------------------------------------ against the database

  /** The duplicate query, the dates and the job insert, against the database. */
  method PlaceOne(db: Database, v: Variant, fleet: seq<Vehicle>, t: Tally, courtId: int, e: Entry, d: Draw) returns (t': Tally, aborted: bool)
    requires db.Valid() && e.Readable? && |fleet| > 0 && DrawOk(d, |fleet|)
    modifies db
    ensures db.Valid()
    ensures Run(db.State(), t', aborted) == Place(v, fleet, Run(old(db.State()), t, false), courtId, e, d)
  {
    aborted := false;
    t' := t;
    if v.dedupe && HasPair(db.jobs, courtId, e.fileNumber) {
      t' := t.(duplicates := t.duplicates + 1);
      return;
    }
    var dates := Backfill(v.dates, e.paymentDate, d);
    if dates.None? {
      aborted := true;
      return;
    }
    var vehicle := if v.firstVehicle then fleet[0] else fleet[d.vehicle];
    db.InsertJob(NewJob(courtId, e.fileNumber, vehicle.id, dates.value, Amounts(v.amounts, e.amount, d)));
    t' := t.(success := t.success + 1);
  }

  /** The court insert of scripts/one-time-import.js and scripts/prepare-database.js, against the database. */
  method CreateOne(db: Database, v: Variant, fleet: seq<Vehicle>, t: Tally, e: Entry, d: Draw) returns (t': Tally, aborted: bool)
    requires db.Valid() && e.Readable? && |fleet| > 0 && DrawOk(d, |fleet|)
    modifies db
    ensures db.Valid()
    ensures Run(db.State(), t', aborted) == Unresolved(v, fleet, Run(old(db.State()), t, false), e, d)
  {
    var missed := Missed(v, Run(db.State(), t, false), e.courtName).tally;
    if v.missing == Report {
      return missed, false;
    }
    ghost var r := Run(db.State(), t, false);
    var id := db.InsertCourt(e.courtName, "Bilinmiyor", None, Some("Asliye Hukuk"));
    if v.missing == CreateAsWritten || id.None? {
      return missed, false;
    }
    ghost var next := r.(db := db.State(), tally := t.(created := t.created + 1));
    assert Unresolved(v, fleet, r, e, d) == Place(v, fleet, next, id.value, e, d);
    t', aborted := PlaceOne(db, v, fleet, t.(created := t.created + 1), id.value, e, d);
  }

  /** One pass of the loop body against the database. */
  method ImportOne(db: Database, v: Variant, fleet: seq<Vehicle>, t: Tally, e: Entry, d: Draw) returns (t': Tally, aborted: bool)
    requires db.Valid() && |fleet| > 0 && DrawOk(d, |fleet|)
    modifies db
    ensures db.Valid()
    ensures Run(db.State(), t', aborted) == Step(v, fleet, Run(old(db.State()), t, false), e, d)
  {
    if e.Unreadable? {
      return t.(errors := t.errors + 1), false;
    }
    var court := LookupCourt(v.lookup, db.courts, e.courtName);
    if court.Some? {
      t', aborted := PlaceOne(db, v, fleet, t, court.value.id, e, d);
    } else {
      t', aborted := CreateOne(db, v, fleet, t, e, d);
    }
  }

  /** How a script ends: its input could not be read, it stopped early, or the loop ran. */
  datatype Summary = Crashed | Stopped | Done(tally: Tally, aborted: bool)

  /**
   * The vehicle check and the loop: no vehicles stops the script before
   * any payment is looked at; otherwise every payment is counted once
   * unless an exception ends the loop.
   */
  function Launch(v: Variant, c: Contents, entries: seq<Entry>, draws: nat -> Draw): (r: (Summary, Contents))
    requires forall i: nat :: DrawOk(draws(i), |c.vehicles|)
    ensures !r.0.Crashed?
    ensures r.0.Stopped? <==> |c.vehicles| == 0
    ensures r.0.Stopped? ==> r.1 == c
    ensures r.1.vehicles == c.vehicles && c.courts <= r.1.courts && c.jobs <= r.1.jobs
    ensures v.missing == Report ==> r.1.courts == c.courts
    ensures r.0.Done? ==> r.0.tally.success == |r.1.jobs| - |c.jobs|
    ensures r.0.Done? && !r.0.aborted ==> Total(r.0.tally) == |entries|
    ensures WellFormed(c) ==> WellFormed(r.1)
  {
    if |c.vehicles| == 0 then (Stopped, c)
    else
      var start := Run(c, NoCounts, false);
      var run := RunAll(v, c.vehicles, start, entries, draws);
      assert !run.aborted ==> Total(run.tally) == |entries| by {
        RunCounts(v, c.vehicles, start, entries, draws);
      }
      assert WellFormed(c) ==> WellFormed(run.db) by {
        RunKeepsWellFormed(v, c.vehicles, start, entries, draws);
      }
      (Done(run.tally, run.aborted), run.db)
  }

  /**
   * `importJobs`: read the vehicles, then run the loop body over the
   * payments in order until one throws.
   */
  method Import(db: Database, v: Variant, entries: seq<Entry>, draws: nat -> Draw) returns (s: Summary)
    requires db.Valid() && forall i: nat :: DrawOk(draws(i), |db.vehicles|)
    modifies db
    ensures db.Valid()
    ensures (s, db.State()) == Launch(v, old(db.State()), entries, draws)
  {
    var fleet := db.vehicles;
    if |fleet| == 0 {
      return Stopped;
    }
    ghost var start := Run(db.State(), NoCounts, false);
    var t := NoCounts;
    var i := 0;
    while i < |entries|
      invariant 0 <= i <= |entries| && db.Valid()
      invariant Run(db.State(), t, false) == RunAll(v, fleet, start, entries[..i], draws)
    {
      var aborted;
      t, aborted := ImportOne(db, v, fleet, t, entries[i], draws(i));
      RunAllNext(v, fleet, start, entries, draws, i);
      if aborted {
        AbortedStays(v, fleet, start, entries[..i + 1], entries, draws);
        return Done(t, true);
      }
      i := i + 1;
    }
    assert entries[..i] == entries;
    s := Done(t, false);
  }

  // ------------------------------------------------------------ the scripts

  /** The payment a parsed record gives: its description read by the script's rules, its date and total. */
  function RecordEntry(rules: Descriptions.Rules, rec: Record): Entry {
    match Descriptions.ParseCourtDescription(rules, rec.description)
    case None => Unreadable
    case Some(p) =>
      Readable(p.courtName, p.fileNumber, rec.paymentDate,
        if rec.amount.Some? then rec.amount.value.magnitude else Decimal(0, 0))
  }

  function Entries(rules: Descriptions.Rules, recs: seq<Record>): (es: seq<Entry>)
    ensures |es| == |recs|
  {
    seq(|recs|, i requires 0 <= i < |recs| => RecordEntry(rules, recs[i]))
  }

  /** Every draw fits a fleet of `fleet` vehicles. */
  ghost predicate DrawsFit(draws: nat -> Draw, fleet: nat) {
    forall i: nat :: DrawOk(draws(i), fleet)
  }

  /**
   * The body of the bank-payment scripts once the input is read: a parser
   * that threw ends the script, an empty batch stops it where the script
   * checks for one, and otherwise the loop runs. Every payment of a loop
   * that no exception ends is counted once.
   */
  function Batch(v: Variant, rules: Descriptions.Rules, parsed: Option<seq<Record>>, stopWhenEmpty: bool, c: Contents, draws: nat -> Draw): (r: (Summary, Contents))
    requires DrawsFit(draws, |c.vehicles|)
    ensures r.0.Crashed? <==> parsed.None?
    ensures r.0.Stopped? <==> parsed.Some? && ((stopWhenEmpty && parsed.value == []) || |c.vehicles| == 0)
    ensures !r.0.Done? ==> r.1 == c
    ensures r.0.Done? && !r.0.aborted ==> Total(r.0.tally) == |parsed.value|
    ensures r.0.Done? ==> r.0.tally.success == |r.1.jobs| - |c.jobs|
    ensures v.missing == Report ==> r.1.courts == c.courts
    ensures r.1.vehicles == c.vehicles && c.courts <= r.1.courts && c.jobs <= r.1.jobs
    ensures WellFormed(c) ==> WellFormed(r.1)
  {
    match parsed
    case None => (Crashed, c)
    case Some(recs) =>
      if stopWhenEmpty && recs == [] then (Stopped, c)
      else Launch(v, c, Entries(rules, recs), draws)
  }

  /** scripts/import-full-bank-data.js over the pasted extract. */
  function FullBankData(text: string, c: Contents, draws: nat -> Draw): (r: (Summary, Contents))
    requires DrawsFit(draws, |c.vehicles|)
    ensures r.0.Crashed? <==> Gather(Split(Trim(text), '\n'), ExtractLine).None?
    ensures r.0.Stopped? <==>
      (Gather(Split(Trim(text), '\n'), ExtractLine) == Some([]) ||
       (Gather(Split(Trim(text), '\n'), ExtractLine).Some? && |c.vehicles| == 0))
    ensures r.0.Done? && !r.0.aborted ==> Total(r.0.tally) == |Gather(Split(Trim(text), '\n'), ExtractLine).value|
    ensures r.1.vehicles == c.vehicles && r.1.courts == c.courts && c.jobs <= r.1.jobs
    ensures r.0.Done? ==> r.0.tally.success == |r.1.jobs| - |c.jobs|
    ensures WellFormed(c) ==> WellFormed(r.1)
  {
    Batch(FullBank, Descriptions.FullBankData, Gather(Split(Trim(text), '\n'), ExtractLine), true, c, draws)
  }

  /** scripts/import-all-bank-jobs.js: no check for an empty batch. */
  function AllBankJobs(text: string, c: Contents, draws: nat -> Draw): (r: (Summary, Contents))
    requires DrawsFit(draws, |c.vehicles|)
    ensures r.0.Crashed? <==> Gather(Split(Trim(text), '\n'), BankDataLine).None?
    ensures r.0.Stopped? <==> Gather(Split(Trim(text), '\n'), BankDataLine).Some? && |c.vehicles| == 0
    ensures r.0.Done? && !r.0.aborted ==> Total(r.0.tally) == |Gather(Split(Trim(text), '\n'), BankDataLine).value|
    ensures r.1.vehicles == c.vehicles && r.1.courts == c.courts && c.jobs <= r.1.jobs
    ensures r.0.Done? ==> r.0.tally.success == |r.1.jobs| - |c.jobs|
    ensures WellFormed(c) ==> WellFormed(r.1)
  {
    Batch(AllBank, Descriptions.AllBankJobs, Gather(Split(Trim(text), '\n'), BankDataLine), false, c, draws)
  }

  /** scripts/import-from-excel.js: an unreadable or empty sheet gives no rows and stops the script. */
  function ImportFromExcel(rows: seq<seq<Cell>>, c: Contents, draws: nat -> Draw): (r: (Summary, Contents))
    requires DrawsFit(draws, |c.vehicles|)
    ensures rows == [] ==> r == (Stopped, c)
    ensures r.0.Crashed? <==> rows != [] && Gather(DataRows(rows), ExcelRow).None?
    ensures r.0.Done? && !r.0.aborted ==> Total(r.0.tally) == |Gather(DataRows(rows), ExcelRow).value|
    ensures r.1.vehicles == c.vehicles && r.1.courts == c.courts && c.jobs <= r.1.jobs
    ensures r.0.Done? ==> r.0.tally.success == |r.1.jobs| - |c.jobs|
    ensures WellFormed(c) ==> WellFormed(r.1)
  {
    if rows == [] then (Stopped, c)
    else Batch(FromExcel, Descriptions.FullBankData, Gather(DataRows(rows), ExcelRow), true, c, draws)
  }

  /**
   * scripts/one-time-import.js as written: a missing spreadsheet or
   * database file ends it before anything else, and a court it inserts
   * counts as an error without a job.
   */
  function OneTimeImport(filesPresent: bool, rows: seq<seq<Cell>>, c: Contents, draws: nat -> Draw): (r: (Summary, Contents))
    requires DrawsFit(draws, |c.vehicles|)
    ensures !filesPresent || rows == [] ==> r == (Stopped, c)
    ensures r.0.Crashed? <==> filesPresent && rows != [] && Gather(DataRows(rows), ExcelRow).None?
    ensures r.1.vehicles == c.vehicles && c.courts <= r.1.courts && c.jobs <= r.1.jobs
    ensures r.0.Done? ==> r.0.tally.success == |r.1.jobs| - |c.jobs|
    ensures WellFormed(c) ==> WellFormed(r.1)
  {
    if !filesPresent || rows == [] then (Stopped, c)
    else Batch(OneTime, Descriptions.OneTimeImport, Gather(DataRows(rows), ExcelRow), true, c, draws)
  }

  /** scripts/one-time-import.js as intended: an inserted court gets its payment's job at once. */
  function OneTimeImportIntended(filesPresent: bool, rows: seq<seq<Cell>>, c: Contents, draws: nat -> Draw): (r: (Summary, Contents))
    requires DrawsFit(draws, |c.vehicles|)
    ensures !filesPresent || rows == [] ==> r == (Stopped, c)
    ensures r.0.Crashed? <==> filesPresent && rows != [] && Gather(DataRows(rows), ExcelRow).None?
    ensures r.1.vehicles == c.vehicles && c.courts <= r.1.courts && c.jobs <= r.1.jobs
    ensures r.0.Done? ==> r.0.tally.success == |r.1.jobs| - |c.jobs|
    ensures WellFormed(c) ==> WellFormed(r.1)
  {
    if !filesPresent || rows == [] then (Stopped, c)
    else Batch(OneTimeIntended, Descriptions.OneTimeImport, Gather(DataRows(rows), ExcelRow), true, c, draws)
  }

  /**
   * The vehicle scripts/prepare-database.js inserts into a database
   * without vehicles, before it reads the spreadsheet.
   */
  function Seeded(c: Contents): (r: Contents)
    ensures |c.vehicles| == 0 ==> r.vehicles == [Vehicle(c.nextVehicleId, "34ABC123", "Mercedes", "Sprinter", 2020, "Minib\U{00FC}s")]
    ensures |c.vehicles| > 0 ==> r == c
    ensures r.courts == c.courts && r.jobs == c.jobs
    ensures WellFormed(c) ==> WellFormed(r)
  {
    if |c.vehicles| == 0 then AddVehicle(c, "34ABC123", "Mercedes", "Sprinter", 2020, "Minib\U{00FC}s").1 else c
  }

  /**
   * scripts/prepare-database.js as written: a missing spreadsheet ends it
   * before the database is opened; otherwise the vehicle is seeded first.
   */
  function PrepareDatabase(filesPresent: bool, rows: seq<seq<Cell>>, c: Contents, draws: nat -> Draw): (r: (Summary, Contents))
    requires DrawsFit(draws, if |c.vehicles| == 0 then 1 else |c.vehicles|)
    ensures !filesPresent ==> r == (Stopped, c)
    ensures filesPresent ==> |r.1.vehicles| >= 1
    ensures filesPresent ==> (r.0.Stopped? <==> rows == [] || Gather(DataRows(rows), ExcelRow) == Some([]))
    ensures c.courts <= r.1.courts && c.jobs <= r.1.jobs
  {
    if !filesPresent then (Stopped, c)
    else
      var seeded := Seeded(c);
      if rows == [] then (Stopped, seeded)
      else Batch(Prepare, Descriptions.PrepareDatabase, Gather(DataRows(rows), ExcelRow), true, seeded, draws)
  }

  /** scripts/prepare-database.js as intended. */
  function PrepareDatabaseIntended(filesPresent: bool, rows: seq<seq<Cell>>, c: Contents, draws: nat -> Draw): (r: (Summary, Contents))
    requires DrawsFit(draws, if |c.vehicles| == 0 then 1 else |c.vehicles|)
    ensures !filesPresent ==> r == (Stopped, c)
    ensures filesPresent ==> |r.1.vehicles| >= 1
    ensures filesPresent ==> (r.0.Stopped? <==> rows == [] || Gather(DataRows(rows), ExcelRow) == Some([]))
    ensures c.courts <= r.1.courts && c.jobs <= r.1.jobs
  {
    if !filesPresent then (Stopped, c)
    else
      var seeded := Seeded(c);
      if rows == [] then (Stopped, seeded)
      else Batch(PrepareIntended, Descriptions.PrepareDatabase, Gather(DataRows(rows), ExcelRow), true, seeded, draws)
  }

  /** scripts/import-jobs-from-bank.js over its list of payments. */
  function ImportJobsFromBank(records: seq<Record>, c: Contents, draws: nat -> Draw): (r: (Summary, Contents))
    requires DrawsFit(draws, |c.vehicles|)
    ensures !r.0.Crashed?
    ensures r.0.Stopped? <==> |c.vehicles| == 0
    ensures r.0.Done? && !r.0.aborted ==> Total(r.0.tally) == |records|
    ensures r.1.vehicles == c.vehicles && r.1.courts == c.courts && c.jobs <= r.1.jobs
    ensures r.0.Done? ==> r.0.tally.success == |r.1.jobs| - |c.jobs|
    ensures WellFormed(c) ==> WellFormed(r.1)
  {
    Batch(FromBank, Descriptions.JobsFromBank, Some(records), false, c, draws)
  }

  // ------------------------------------------------------------ the markdown table

  /** `line.trim().startsWith('|') && !line.includes('---')` */
  predicate TableLine(line: string) {
    Trim(line) != [] && Trim(line)[0] == '|' && !Contains(line, "---")
  }

  /** The data rows of the table in the file: its lines that are table lines, the first one (the header) left out. */
  function TableRows(md: string): (rows: seq<string>)
    ensures forall k :: 0 <= k < |rows| ==> TableLine(rows[k])
  {
    var lines := Select(Split(md, '\n'), TableLine);
    if lines == [] then [] else lines[1..]
  }

  predicate NonEmpty(s: string) { s != [] }

  /** `line.split('|').map(p => p.trim()).filter(p => p)` */
  function Cells(line: string): seq<string> {
    Select(Map(Split(line, '|'), Trim), NonEmpty)
  }

  /**
   * One data row: at least four cells, then the date, court and file
   * number in the first three and a positive amount in the fourth. The
   * cells are never empty, so the checks on the first three never fail.
   */
  function RowEntry(line: string): Entry {
    var cells := Cells(line);
    if |cells| < 4 then Unreadable
    else
      var amount := ParseFloat(cells[3]);
      if !Accepted(amount) then Unreadable
      else Readable(cells[1], cells[2], cells[0], amount.value.magnitude)
  }

  function RowEntries(rows: seq<string>): (es: seq<Entry>)
    ensures |es| == |rows|
  {
    seq(|rows|, i requires 0 <= i < |rows| => RowEntry(rows[i]))
  }

  /** Any draw: scripts/import-jobs-from-md.js takes no random choice. */
  const NoDraw := Draw(10, 1, 0, 1000)

  /** scripts/import-jobs-from-md.js: a missing file ends it; otherwise every data row is one payment. */
  function ImportJobsFromMd(filesPresent: bool, md: string, c: Contents): (r: (Summary, Contents))
    ensures !filesPresent ==> r == (Stopped, c)
    ensures r.0.Done? && !r.0.aborted ==> Total(r.0.tally) == |TableRows(md)|
    ensures r.0.Done? ==> r.0.tally.success == |r.1.jobs| - |c.jobs|
    ensures r.1.courts == c.courts && r.1.vehicles == c.vehicles && c.jobs <= r.1.jobs
  {
    if !filesPresent then (Stopped, c)
    else Launch(FromMarkdown, c, RowEntries(TableRows(md)), (_: nat) => NoDraw)
  }

  // ------------------------------------------------------------ running a script twice

  /**
   * The loop of a script with the duplicate guard that reports unresolved
   * courts, run again on the same payments after a run that no exception
   * ended: the database stays as it is, nothing is inserted, and every
   * payment the first run inserted or skipped is now a duplicate.
   */
  lemma LaunchTwice(v: Variant, c: Contents, entries: seq<Entry>, d1: nat -> Draw, d2: nat -> Draw)
    requires v.missing == Report && v.dedupe
    requires DrawsFit(d1, |c.vehicles|) && DrawsFit(d2, |c.vehicles|)
    requires Launch(v, c, entries, d1).0.Done? && !Launch(v, c, entries, d1).0.aborted
    ensures Launch(v, Launch(v, c, entries, d1).1, entries, d2)
      == (Done(Rerun(Launch(v, c, entries, d1).0.tally), false), Launch(v, c, entries, d1).1)
  {
    var first := RunAll(v, c.vehicles, Run(c, NoCounts, false), entries, d1);
    RerunFrom(v, c.vehicles, c, first.db, entries, d1, d2);
  }

  /**
   * The loop of a script without the guard, run again on the same
   * payments: it counts the same, and inserts every job a second time.
   */
  lemma LaunchTwiceUnguarded(v: Variant, c: Contents, entries: seq<Entry>, d1: nat -> Draw, d2: nat -> Draw)
    requires v.missing == Report && !v.dedupe
    requires DrawsFit(d1, |c.vehicles|) && DrawsFit(d2, |c.vehicles|)
    requires Launch(v, c, entries, d1).0.Done? && !Launch(v, c, entries, d1).0.aborted
    ensures Launch(v, Launch(v, c, entries, d1).1, entries, d2).0 == Launch(v, c, entries, d1).0
    ensures |Launch(v, Launch(v, c, entries, d1).1, entries, d2).1.jobs| == |c.jobs| + 2 * Launch(v, c, entries, d1).0.tally.success
  {
    var first := RunAll(v, c.vehicles, Run(c, NoCounts, false), entries, d1);
    UnguardedRerunFrom(v, c.vehicles, c, first.db, entries, d1, d2);
  }

  /** scripts/import-full-bank-data.js run twice on the same extract inserts nothing the second time. */
  lemma FullBankDataTwice(text: string, c: Contents, d1: nat -> Draw, d2: nat -> Draw)
    requires DrawsFit(d1, |c.vehicles|) && DrawsFit(d2, |c.vehicles|)
    requires FullBankData(text, c, d1).0.Done? && !FullBankData(text, c, d1).0.aborted
    ensures FullBankData(text, FullBankData(text, c, d1).1, d2)
      == (Done(Rerun(FullBankData(text, c, d1).0.tally), false), FullBankData(text, c, d1).1)
  {
    var recs := Gather(Split(Trim(text), '\n'), ExtractLine).value;
    LaunchTwice(FullBank, c, Entries(Descriptions.FullBankData, recs), d1, d2);
  }

  /** scripts/import-from-excel.js run twice on the same sheet inserts nothing the second time. */
  lemma ImportFromExcelTwice(rows: seq<seq<Cell>>, c: Contents, d1: nat -> Draw, d2: nat -> Draw)
    requires DrawsFit(d1, |c.vehicles|) && DrawsFit(d2, |c.vehicles|)
    requires ImportFromExcel(rows, c, d1).0.Done? && !ImportFromExcel(rows, c, d1).0.aborted
    ensures ImportFromExcel(rows, ImportFromExcel(rows, c, d1).1, d2)
      == (Done(Rerun(ImportFromExcel(rows, c, d1).0.tally), false), ImportFromExcel(rows, c, d1).1)
  {
    var recs := Gather(DataRows(rows), ExcelRow).value;
    LaunchTwice(FromExcel, c, Entries(Descriptions.FullBankData, recs), d1, d2);
  }

  /** scripts/import-jobs-from-md.js run twice on the same file inserts nothing the second time. */
  lemma ImportJobsFromMdTwice(md: string, c: Contents)
    requires ImportJobsFromMd(true, md, c).0.Done? && !ImportJobsFromMd(true, md, c).0.aborted
    ensures ImportJobsFromMd(true, md, ImportJobsFromMd(true, md, c).1)
      == (Done(Rerun(ImportJobsFromMd(true, md, c).0.tally), false), ImportJobsFromMd(true, md, c).1)
  {
    LaunchTwice(FromMarkdown, c, RowEntries(TableRows(md)), (_: nat) => NoDraw, (_: nat) => NoDraw);
  }

  /** scripts/import-all-bank-jobs.js run twice on the same text inserts every job again. */
  lemma AllBankJobsTwice(text: string, c: Contents, d1: nat -> Draw, d2: nat -> Draw)
    requires DrawsFit(d1, |c.vehicles|) && DrawsFit(d2, |c.vehicles|)
    requires AllBankJobs(text, c, d1).0.Done? && !AllBankJobs(text, c, d1).0.aborted
    ensures AllBankJobs(text, AllBankJobs(text, c, d1).1, d2).0 == AllBankJobs(text, c, d1).0
    ensures |AllBankJobs(text, AllBankJobs(text, c, d1).1, d2).1.jobs| == |c.jobs| + 2 * AllBankJobs(text, c, d1).0.tally.success
  {
    var recs := Gather(Split(Trim(text), '\n'), BankDataLine).value;
    LaunchTwiceUnguarded(AllBank, c, Entries(Descriptions.AllBankJobs, recs), d1, d2);
  }

  /** scripts/import-jobs-from-bank.js run twice inserts every job again. */
  lemma ImportJobsFromBankTwice(records: seq<Record>, c: Contents, d1: nat -> Draw, d2: nat -> Draw)
    requires DrawsFit(d1, |c.vehicles|) && DrawsFit(d2, |c.vehicles|)
    requires ImportJobsFromBank(records, c, d1).0.Done? && !ImportJobsFromBank(records, c, d1).0.aborted
    ensures ImportJobsFromBank(records, ImportJobsFromBank(records, c, d1).1, d2).0 == ImportJobsFromBank(records, c, d1).0
    ensures |ImportJobsFromBank(records, ImportJobsFromBank(records, c, d1).1, d2).1.jobs| == |c.jobs| + 2 * ImportJobsFromBank(records, c, d1).0.tally.success
  {
    LaunchTwiceUnguarded(FromBank, c, Entries(Descriptions.JobsFromBank, records), d1, d2);
  }

  // ------------------------------------------------------------ the scripts against the database

  /** The part every bank-payment script shares once its input is read. */
  method ImportBatch(db: Database, v: Variant, rules: Descriptions.Rules, parsed: Option<seq<Record>>, stopWhenEmpty: bool, draws: nat -> Draw) returns (s: Summary)
    requires db.Valid() && DrawsFit(draws, |db.vehicles|)
    modifies db
    ensures db.Valid()
    ensures (s, db.State()) == Batch(v, rules, parsed, stopWhenEmpty, old(db.State()), draws)
  {
    if parsed.None? {
      return Crashed;
    }
    if stopWhenEmpty && parsed.value == [] {
      return Stopped;
    }
    s := Import(db, v, Entries(rules, parsed.value), draws);
  }

  method RunFullBankData(db: Database, text: string, draws: nat -> Draw) returns (s: Summary)
    requires db.Valid() && DrawsFit(draws, |db.vehicles|)
    modifies db
    ensures db.Valid()
    ensures (s, db.State()) == FullBankData(text, old(db.State()), draws)
  {
    var parsed := ParseBankExtract(text);
    s := ImportBatch(db, FullBank, Descriptions.FullBankData, parsed, true, draws);
  }

  method RunAllBankJobs(db: Database, text: string, draws: nat -> Draw) returns (s: Summary)
    requires db.Valid() && DrawsFit(draws, |db.vehicles|)
    modifies db
    ensures db.Valid()
    ensures (s, db.State()) == AllBankJobs(text, old(db.State()), draws)
  {
    var parsed := ParseBankData(text);
    s := ImportBatch(db, AllBank, Descriptions.AllBankJobs, parsed, false, draws);
  }

  method RunImportFromExcel(db: Database, rows: seq<seq<Cell>>, draws: nat -> Draw) returns (s: Summary)
    requires db.Valid() && DrawsFit(draws, |db.vehicles|)
    modifies db
    ensures db.Valid()
    ensures (s, db.State()) == ImportFromExcel(rows, old(db.State()), draws)
  {
    if rows == [] {
      return Stopped;
    }
    var parsed := ParseSheet(rows);
    s := ImportBatch(db, FromExcel, Descriptions.FullBankData, parsed, true, draws);
  }

  method RunOneTimeImport(db: Database, filesPresent: bool, rows: seq<seq<Cell>>, draws: nat -> Draw) returns (s: Summary)
    requires db.Valid() && DrawsFit(draws, |db.vehicles|)
    modifies db
    ensures db.Valid()
    ensures (s, db.State()) == OneTimeImport(filesPresent, rows, old(db.State()), draws)
  {
    if !filesPresent || rows == [] {
      return Stopped;
    }
    var parsed := ParseSheet(rows);
    s := ImportBatch(db, OneTime, Descriptions.OneTimeImport, parsed, true, draws);
  }

  method RunPrepareDatabase(db: Database, filesPresent: bool, rows: seq<seq<Cell>>, draws: nat -> Draw) returns (s: Summary)
    requires db.Valid() && DrawsFit(draws, if |db.vehicles| == 0 then 1 else |db.vehicles|)
    modifies db
    ensures db.Valid()
    ensures (s, db.State()) == PrepareDatabase(filesPresent, rows, old(db.State()), draws)
  {
    if !filesPresent {
      return Stopped;
    }
    if |db.vehicles| == 0 {
      var _ := db.InsertVehicle("34ABC123", "Mercedes", "Sprinter", 2020, "Minib\U{00FC}s");
    }
    assert db.State() == Seeded(old(db.State()));
    if rows == [] {
      return Stopped;
    }
    var parsed := ParseSheet(rows);
    s := ImportBatch(db, Prepare, Descriptions.PrepareDatabase, parsed, true, draws);
  }

  method RunImportJobsFromMd(db: Database, filesPresent: bool, md: string) returns (s: Summary)
    requires db.Valid()
    modifies db
    ensures db.Valid()
    ensures (s, db.State()) == ImportJobsFromMd(filesPresent, md, old(db.State()))
  {
    if !filesPresent {
      return Stopped;
    }
    s := Import(db, FromMarkdown, RowEntries(TableRows(md)), (_: nat) => NoDraw);
  }

  method RunImportJobsFromBank(db: Database, records: seq<Record>, draws: nat -> Draw) returns (s: Summary)
    requires db.Valid() && DrawsFit(draws, |db.vehicles|)
    modifies db
    ensures db.Valid()
    ensures (s, db.State()) == ImportJobsFromBank(records, old(db.State()), draws)
  {
    s := ImportBatch(db, FromBank, Descriptions.JobsFromBank, Some(records), false, draws);
  }

  // ------------------------------------------------------------ creating a missing court

  /** A run of a single payment. */
  function Single(v: Variant, fleet: seq<Vehicle>, c: Contents, e: Entry, d: Draw): Run
    requires |fleet| > 0 && DrawOk(d, |fleet|)
  {
    Step(v, fleet, Run(c, NoCounts, false), e, d)
  }

  /** The court the scripts insert for a name no lookup finds. */
  function Placeholder(c: Contents, name: string): Court {
    Court(c.nextCourtId, name, "Bilinmiyor", None, Some("Asliye Hukuk"))
  }

  /**
   * The second run finds the inserted court by its name and stores the
   * job: nothing stored refers to an id not yet handed out.
   */
  lemma FindsPlaceholder(v: Variant, fleet: seq<Vehicle>, c: Contents, e: Entry, d: Draw)
    requires v.lookup == ExactThenContains && v.dates == FixedOffsets && v.missing != Report
    requires |fleet| > 0 && DrawOk(d, |fleet|)
    requires e.Readable? && FindContains(c.courts, e.courtName).None? && ParseIso(e.paymentDate).Some?
    requires forall i :: 0 <= i < |c.jobs| ==> c.jobs[i].courtId < c.nextCourtId
    ensures LookupCourt(v.lookup, c.courts + [Placeholder(c, e.courtName)], e.courtName) == Some(Placeholder(c, e.courtName))
    ensures !HasPair(c.jobs, c.nextCourtId, e.fileNumber)
    ensures Place(v, fleet, Run(c.(courts := c.courts + [Placeholder(c, e.courtName)], nextCourtId := c.nextCourtId + 1), NoCounts, false), c.nextCourtId, e, d).tally.success == 1
  {
    var p := Placeholder(c, e.courtName);
    FindAppend(c.courts, [p], e.courtName);
    ExactIsLike(c.courts, e.courtName);
    assert FindExact([p], e.courtName) == Some(p);
  }

  /**
   * As written (scripts/one-time-import.js, scripts/prepare-database.js),
   * the payment whose court is missing inserts the court and is still
   * counted as an error: reading `lastID` off the `undefined` that the
   * promisified `db.run` resolves with throws. Its job is only stored by
   * a second run, which then finds the court.
   */
  lemma CreatedCourtLosesJob(v: Variant, fleet: seq<Vehicle>, c: Contents, e: Entry, d1: Draw, d2: Draw)
    requires v.missing == CreateAsWritten && v.lookup == ExactThenContains && v.dates == FixedOffsets
    requires |fleet| > 0 && DrawOk(d1, |fleet|) && DrawOk(d2, |fleet|)
    requires e.Readable? && FindContains(c.courts, e.courtName).None? && ParseIso(e.paymentDate).Some?
    requires forall i :: 0 <= i < |c.jobs| ==> c.jobs[i].courtId < c.nextCourtId
    ensures Single(v, fleet, c, e, d1).tally == NoCounts.(errors := 1, notFound := if v.collect then {e.courtName} else {})
    ensures Single(v, fleet, c, e, d1).db == c.(courts := c.courts + [Placeholder(c, e.courtName)], nextCourtId := c.nextCourtId + 1)
    ensures Single(v, fleet, Single(v, fleet, c, e, d1).db, e, d2).tally.success == 1
  {
    var r := Run(c, NoCounts, false);
    var db := c.(courts := c.courts + [Placeholder(c, e.courtName)], nextCourtId := c.nextCourtId + 1);
    assert Single(v, fleet, c, e, d1) == Missed(v, r.(db := db), e.courtName) by {
      ExactIsLike(c.courts, e.courtName);
      assert Single(v, fleet, c, e, d1) == Unresolved(v, fleet, r, e, d1);
      assert AddCourt(c, e.courtName, "Bilinmiyor", None, Some("Asliye Hukuk")) == (Some(c.nextCourtId), db);
    }
    assert Single(v, fleet, db, e, d2) == Place(v, fleet, Run(db, NoCounts, false), c.nextCourtId, e, d2) by {
      FindsPlaceholder(v, fleet, c, e, d2);
    }
    FindsPlaceholder(v, fleet, c, e, d2);
  }

  /**
   * With the insert's id used as intended, the same payment stores its
   * job at once under the new court, and a second run finds it stored.
   */
  lemma CreatedCourtKeepsJob(v: Variant, fleet: seq<Vehicle>, c: Contents, e: Entry, d1: Draw, d2: Draw)
    requires v.missing == CreateIntended && v.lookup == ExactThenContains && v.dates == FixedOffsets && v.dedupe
    requires |fleet| > 0 && DrawOk(d1, |fleet|) && DrawOk(d2, |fleet|)
    requires e.Readable? && FindContains(c.courts, e.courtName).None? && ParseIso(e.paymentDate).Some?
    requires forall i :: 0 <= i < |c.jobs| ==> c.jobs[i].courtId < c.nextCourtId
    ensures Single(v, fleet, c, e, d1).tally == NoCounts.(success := 1, created := 1)
    ensures Single(v, fleet, c, e, d1).db.courts == c.courts + [Placeholder(c, e.courtName)]
    ensures |Single(v, fleet, c, e, d1).db.jobs| == |c.jobs| + 1
    ensures Single(v, fleet, Single(v, fleet, c, e, d1).db, e, d2).tally == NoCounts.(duplicates := 1)
  {
    ExactIsLike(c.courts, e.courtName);
    FindsPlaceholder(v, fleet, c, e, d1);
    var s1 := Single(v, fleet, c, e, d1);
    var k := |c.jobs|;
    assert s1.db.jobs[k].courtId == c.nextCourtId && s1.db.jobs[k].fileNumber == e.fileNumber;
    assert HasPair(s1.db.jobs, c.nextCourtId, e.fileNumber);
    var p := Placeholder(c, e.courtName);
    FindAppend(c.courts, [p], e.courtName);
    assert FindExact([p], e.courtName) == Some(p);
  }

  /** As written, a step never counts a court as created, and each court it inserts comes with an error. */
  lemma StepAsWritten(v: Variant, fleet: seq<Vehicle>, r: Run, e: Entry, d: Draw)
    requires |fleet| > 0 && DrawOk(d, |fleet|) && v.missing == CreateAsWritten
    ensures Step(v, fleet, r, e, d).tally.created == r.tally.created
    ensures Step(v, fleet, r, e, d).tally.errors >= r.tally.errors
    ensures |Step(v, fleet, r, e, d).db.courts| - |r.db.courts| <= Step(v, fleet, r, e, d).tally.errors - r.tally.errors
  {
  }

  /**
   * As written, a run reports no created court, and it inserts at most
   * as many courts as it counts errors.
   */
  lemma {:induction false} RunAsWritten(v: Variant, fleet: seq<Vehicle>, start: Run, entries: seq<Entry>, draws: nat -> Draw)
    requires |fleet| > 0 && (forall i: nat :: DrawOk(draws(i), |fleet|)) && v.missing == CreateAsWritten
    ensures RunAll(v, fleet, start, entries, draws).tally.created == start.tally.created
    ensures RunAll(v, fleet, start, entries, draws).tally.errors >= start.tally.errors
    ensures |RunAll(v, fleet, start, entries, draws).db.courts| - |start.db.courts|
      <= RunAll(v, fleet, start, entries, draws).tally.errors - start.tally.errors
    decreases |entries|
  {
    if entries != [] {
      var n := |entries| - 1;
      RunAsWritten(v, fleet, start, entries[..n], draws);
      StepAsWritten(v, fleet, RunAll(v, fleet, start, entries[..n], draws), entries[n], draws(n));
    }
  }

  /** scripts/one-time-import.js as written never reports a new court, and every court it adds is counted as an error. */
  lemma OneTimeImportCreatesNothing(filesPresent: bool, rows: seq<seq<Cell>>, c: Contents, draws: nat -> Draw)
    requires DrawsFit(draws, |c.vehicles|)
    ensures var r := OneTimeImport(filesPresent, rows, c, draws);
      r.0.Done? ==> r.0.tally.created == 0 && |r.1.courts| - |c.courts| <= r.0.tally.errors
  {
    var r := OneTimeImport(filesPresent, rows, c, draws);
    if r.0.Done? {
      RunAsWritten(OneTime, c.vehicles, Run(c, NoCounts, false), Entries(Descriptions.OneTimeImport, Gather(DataRows(rows), ExcelRow).value), draws);
    }
  }

  /** A step whose court is already stored does not depend on the policy for missing courts, and adds no court. */
  lemma StepKnownCourt(v: Variant, fleet: seq<Vehicle>, r: Run, e: Entry, d: Draw, m: Missing)
    requires |fleet| > 0 && DrawOk(d, |fleet|)
    requires e.Readable? ==> FindContains(r.db.courts, e.courtName).Some?
    ensures Step(v, fleet, r, e, d) == Step(v.(missing := m), fleet, r, e, d)
    ensures Step(v, fleet, r, e, d).db.courts == r.db.courts
  {
  }

  /**
   * When every payment names a court already stored, the scripts as
   * written and as intended run alike and insert no court.
   */
  lemma {:induction false} KnownCourtsAgree(v: Variant, fleet: seq<Vehicle>, start: Run, entries: seq<Entry>, draws: nat -> Draw, m: Missing)
    requires |fleet| > 0 && forall i: nat :: DrawOk(draws(i), |fleet|)
    requires forall i :: 0 <= i < |entries| && entries[i].Readable? ==> FindContains(start.db.courts, entries[i].courtName).Some?
    ensures RunAll(v, fleet, start, entries, draws) == RunAll(v.(missing := m), fleet, start, entries, draws)
    ensures RunAll(v, fleet, start, entries, draws).db.courts == start.db.courts
    decreases |entries|
  {
    if entries != [] {
      var n := |entries| - 1;
      assert forall i :: 0 <= i < n ==> entries[..n][i] == entries[i];
      KnownCourtsAgree(v, fleet, start, entries[..n], draws, m);
      StepKnownCourt(v, fleet, RunAll(v, fleet, start, entries[..n], draws), entries[n], draws(n), m);
    }
  }

  /**
   * scripts/one-time-import.js as written and as intended agree on a sheet
   * whose payments all name courts already stored.
   */
  lemma OneTimeImportKnownCourts(filesPresent: bool, rows: seq<seq<Cell>>, c: Contents, draws: nat -> Draw, recs: seq<Record>)
    requires DrawsFit(draws, |c.vehicles|)
    requires Gather(DataRows(rows), ExcelRow) == Some(recs)
    requires forall i :: 0 <= i < |recs| && RecordEntry(Descriptions.OneTimeImport, recs[i]).Readable? ==>
      FindContains(c.courts, RecordEntry(Descriptions.OneTimeImport, recs[i]).courtName).Some?
    ensures OneTimeImport(filesPresent, rows, c, draws) == OneTimeImportIntended(filesPresent, rows, c, draws)
  {
    if filesPresent && rows != [] && recs != [] && |c.vehicles| > 0 {
      var es := Entries(Descriptions.OneTimeImport, recs);
      KnownCourtsAgree(OneTime, c.vehicles, Run(c, NoCounts, false), es, draws, CreateIntended);
    }
  }
}

=== FILE: jobs.dfy ===
/**
 * The job record and its status enumerations, and the helpers that go with
 * them: currency parsing (amounts are whole kuruş throughout the model; see
 * module Money for the VAT split and module Calendar for the dates).
 */
module Jobs {
  import opened Wrappers
  import opened Text

  datatype PaymentStatus = Paid | Unpaid
  datatype InvoiceStatus = Issued | NotIssued | InvoicePending
  datatype JobStatus = Pending | InProgress | Completed | Cancelled

  function PaymentLabel(p: PaymentStatus): string {
    match p
    case Paid => "Ödendi"
    case Unpaid => "Ödenmedi"
  }

  function InvoiceLabel(i: InvoiceStatus): string {
    match i
    case Issued => "Kesildi"
    case NotIssued => "Kesilmedi"
    case InvoicePending => "Beklemede"
  }

  function StatusLabel(s: JobStatus): string {
    match s
    case Pending => "Beklemede"
    case InProgress => "Devam Ediyor"
    case Completed => "Tamamlandı"
    case Cancelled => "İptal"
  }

  /** The status a stored text names, if any. */
  function ParseStatus(t: string): (r: Option<JobStatus>)
    ensures r.Some? ==> StatusLabel(r.value) == t
  {
    if t == "Beklemede" then Some(Pending)
    else if t == "Devam Ediyor" then Some(InProgress)
    else if t == "Tamamlandı" then Some(Completed)
    else if t == "İptal" then Some(Cancelled)
    else None
  }

  function ParsePayment(t: string): (r: Option<PaymentStatus>)
    ensures r.Some? ==> PaymentLabel(r.value) == t
  {
    if t == "Ödendi" then Some(Paid) else if t == "Ödenmedi" then Some(Unpaid) else None
  }

  function ParseInvoice(t: string): (r: Option<InvoiceStatus>)
    ensures r.Some? ==> InvoiceLabel(r.value) == t
  {
    if t == "Kesildi" then Some(Issued)
    else if t == "Kesilmedi" then Some(NotIssued)
    else if t == "Beklemede" then Some(InvoicePending)
    else None
  }

  /** Each label names exactly one status: reading a label back gives the status. */
  lemma LabelsRoundTrip(s: JobStatus, p: PaymentStatus, i: InvoiceStatus)
    ensures ParseStatus(StatusLabel(s)) == Some(s)
    ensures ParsePayment(PaymentLabel(p)) == Some(p)
    ensures ParseInvoice(InvoiceLabel(i)) == Some(i)
  {
  }

  /** The colour class of each job status (`JOB_STATUS_COLORS`), defined for every status. */
  function StatusColorClass(s: JobStatus): (c: string)
    ensures c != []
  {
    match s
    case Pending => "bg-yellow-100 text-yellow-800"
    case InProgress => "bg-orange-100 text-orange-800"
    case Completed => "bg-green-100 text-green-800"
    case Cancelled => "bg-red-100 text-red-800"
  }

  /** The icon of each job status (`JOB_STATUS_ICONS`), defined for every status. */
  function StatusIcon(s: JobStatus): (c: string)
    ensures c != []
  {
    match s
    case Pending => "⏳"
    case InProgress => "🔄"
    case Completed => "✅"
    case Cancelled => "❌"
  }

  /**
   * A job as the list, the dashboard and the dialogs see it. Amounts are in
   * kuruş; a missing file number is the empty string and a missing vehicle
   * or amount is 0, which is how the views test for them.
   */
  datatype Job = Job(
    id: int, receivedDate: string, scheduledDate: string, courtId: int, courtName: string,
    fileNumber: string, vehicleId: int, plate: string,
    totalAmount: int, baseAmount: int, vatAmount: int, vatRate: nat,
    paymentStatus: PaymentStatus, invoiceStatus: InvoiceStatus, status: JobStatus, statusDate: string,
    statusNote: Option<string>, invoiceNumber: Option<string>, invoiceDate: Option<string>,
    paymentDate: Option<string>, completionDate: Option<string>, notes: Option<string>)

  // ------------------------------------------------------------ currency

  /** A decimal number: `digits / 10^scale`. */
  datatype Decimal = Decimal(digits: nat, scale: nat)

  predicate DigitOrComma(c: char) { IsDigit(c) || c == ',' }

  /**
   * `parseFloat` on a string of digits, commas and at most one dot: the
   * integer digits, then a dot and the fraction digits; `None` is `NaN`
   * (no digit on either side of the dot).
   */
  function ParseDecimal(u: string): (r: Option<Decimal>)
  {
    var i := DigitRun(u);
    var rest := u[i..];
    var f := if rest != [] && rest[0] == '.' then DigitRun(rest[1..]) else 0;
    if i == 0 && f == 0 then None
    else
      var frac := if f == 0 then [] else rest[1..][..f];
      Some(Decimal(DigitsToNat(u[..i] + frac), |frac|))
  }

  /** `s.replace(',', '.')`: the first comma becomes a dot. */
  function FirstCommaToDot(s: string): (r: string)
    ensures |r| == |s|
  {
    if s == [] then []
    else if s[0] == ',' then "." + s[1..]
    else [s[0]] + FirstCommaToDot(s[1..])
  }

  /**
   * `parseCurrency`: keep only digits and commas, turn the first comma into
   * a dot, and read the number.
   */
  function ParseCurrency(s: string): Option<Decimal>
  {
    ParseDecimal(FirstCommaToDot(Filter(s, DigitOrComma)))
  }

  /**
   * A Turkish amount such as `1.200,00 ₺`: whatever the thousands dots and
   * the currency sign, when its digits and commas are lira digits, one comma
   * and kuruş digits, it is read as lira and kuruş.
   */
  lemma ParseCurrencyTurkish(s: string, lira: string, kurus: string)
    requires AllDigits(lira) && AllDigits(kurus) && kurus != []
    requires Filter(s, DigitOrComma) == lira + "," + kurus
    ensures ParseCurrency(s) == Some(Decimal(DigitsToNat(lira + kurus), |kurus|))
  {
    CommaToDot(lira, kurus);
    ParseDecimalOf(lira, kurus);
  }

  /** Digits, a dot and digits read as one decimal. */
  lemma ParseDecimalOf(lira: string, kurus: string)
    requires AllDigits(lira) && AllDigits(kurus) && kurus != []
    ensures ParseDecimal(lira + "." + kurus) == Some(Decimal(DigitsToNat(lira + kurus), |kurus|))
  {
    var u := lira + "." + kurus;
    var rest := ['.'] + kurus;
    assert u == lira + rest;
    DigitRunOf(lira, rest);
    assert u[|lira|..] == rest;
    assert rest[1..] == kurus;
    DigitRunOf(kurus, []);
    assert kurus + [] == kurus;
    assert u[..|lira|] == lira;
  }

  lemma {:induction false} CommaToDot(lira: string, kurus: string)
    requires AllDigits(lira)
    ensures FirstCommaToDot(lira + "," + kurus) == lira + "." + kurus
  {
    if lira == [] {
      assert lira + "," + kurus == "," + kurus;
      assert ("," + kurus)[1..] == kurus;
    } else {
      assert (lira + "," + kurus)[0] == lira[0];
      assert (lira + "," + kurus)[1..] == lira[1..] + "," + kurus;
      CommaToDot(lira[1..], kurus);
      assert lira + "." + kurus == [lira[0]] + (lira[1..] + "." + kurus);
    }
  }
}

/**
 * The job controller: date, file-number, amount and id checks, and the
 * validation chain of `createJob` / `updateJob`.
 */
module JobChecks {
  import opened Wrappers
  import opened Text
  import opened Calendar
  import opened Jobs

  // ------------------------------------------------------------ dates

  /** `/^\d{2}\.\d{2}\.\d{4}$/` */
  predicate DatePattern(s: string) {
    |s| == 10 && s[2] == '.' && s[5] == '.'
    && IsDigit(s[0]) && IsDigit(s[1]) && IsDigit(s[3]) && IsDigit(s[4]) && AllDigits(s[6..])
  }

  /** The three numbers of a string that matches the pattern, as `parseInt` reads them. */
  function DayOf(s: string): nat requires DatePattern(s) { DigitsToNat(s[..2]) }
  function MonthOf(s: string): nat requires DatePattern(s) { DigitsToNat(s[3..5]) }
  function YearOf(s: string): nat requires DatePattern(s) { DigitsToNat(s[6..]) }

  /**
   * `validateDate`: the pattern, then `new Date(year, month - 1, day)` must
   * give back the same day, month and year.
   */
  predicate ValidateDate(s: string) {
    DatePattern(s) && MakeDate(YearOf(s), MonthOf(s) - 1, DayOf(s)) == Date(YearOf(s), MonthOf(s), DayOf(s))
  }

  /**
   * `validateDate` accepts exactly the `DD.MM.YYYY` strings that name a real
   * calendar day of a year from 0100 on: the constructor moves years 0000
   * to 0099 into the 1900s, so the year check refuses them.
   */
  lemma ValidateDateMeans(s: string)
    ensures ValidateDate(s) <==>
      DatePattern(s) && Valid(Date(YearOf(s), MonthOf(s), DayOf(s))) && YearOf(s) >= 100
  {
    if DatePattern(s) {
      var d := Date(YearOf(s), MonthOf(s), DayOf(s));
      if Valid(d) && d.year >= 100 {
        MakeDateExact(d);
      }
      if ValidateDate(s) && d.year < 100 {
        ConstructorYear(d.year, d.month - 1, d.day);
      }
    }
  }

  /** The constructor never lands before year 1898 for a two-digit year, a month index and day of at most 99. */
  lemma ConstructorYear(y: int, monthIndex: int, day: int)
    requires 0 <= y <= 99 && -1 <= monthIndex <= 98 && 0 <= day <= 99
    ensures MakeDate(y, monthIndex, day).year >= 1898
  {
    var first := Date(1900 + y + monthIndex / 12, monthIndex % 12 + 1, 1);
    AddDaysYear(first, day - 1);
  }

  /** Moving at most a year back loses at most one year. */
  lemma AddDaysYear(d: Date, k: int)
    requires Valid(d) && k >= -365
    ensures AddDays(d, k).year >= d.year - 1
  {
    var r := AddDays(d, k);
    AddDaysNumber(d, k);
    YearRange(r);
    YearRange(d);
    var lo := if r.year + 1 <= d.year - 1 then r.year + 1 else d.year - 1;
    YearsApart(lo, d.year - 1);
    YearLength(d.year - 1);
  }

  /** A day printed by `formatDate` in a four-digit year passes `validateDate`. */
  lemma FormattedDateValid(d: Date)
    requires Valid(d) && 1000 <= d.year <= 9999
    ensures ValidateDate(FormatDotted(d))
  {
    var s := FormatDotted(d);
    var y := NatToString(d.year);
    FourDigits(d.year);
    assert s == Pad2(d.day) + "." + Pad2(d.month) + "." + y;
    assert s[..2] == Pad2(d.day) && s[3..5] == Pad2(d.month) && s[6..] == y;
    Pad2RoundTrip(d.day);
    Pad2RoundTrip(d.month);
    NatToStringRoundTrip(d.year);
    ValidateDateMeans(s);
  }

  /** Numbers 1000..9999 print with four digits. */
  lemma FourDigits(n: nat)
    requires 1000 <= n <= 9999
    ensures |NatToString(n)| == 4
  {
    NatToStringLength(n);
    assert NatToString(n) == NatToString(n / 10) + [DigitChar(n % 10)];
    assert NatToString(n / 10) == NatToString(n / 100) + [DigitChar(n / 10 % 10)];
    assert |NatToString(n / 100)| == 2;
  }

  // ------------------------------------------------------------ simple checks

  /** `validateFileNumber`: at least three characters once trimmed. */
  predicate ValidateFileNumber(f: string) { |Trim(f)| >= 3 }

  /** `validateAmount` in kuruş: above 0 and at most 1,000,000 TL. */
  predicate ValidateAmount(a: int) { 0 < a <= 100000000 }

  /** `validateCourtId`, `validateVehicleId` */
  predicate ValidateId(id: int) { id > 0 }

  // ------------------------------------------------------------ create and update

  /** `CreateJobRequest`; an absent optional field is `None`. Amounts in kuruş. */
  datatype JobRequest = JobRequest(
    receivedDate: string, scheduledDate: string, courtId: int,
    fileNumber: Option<string>, vehicleId: Option<int>, totalAmount: Option<int>,
    baseAmount: Option<int>, vatAmount: Option<int>, vatRate: Option<int>,
    paymentStatus: PaymentStatus, invoiceStatus: InvoiceStatus, status: JobStatus, statusDate: string,
    statusNote: Option<string>, invoiceNumber: Option<string>, invoiceDate: Option<string>,
    paymentDate: Option<string>, completionDate: Option<string>, notes: Option<string>)

  const BadReceivedDate := "Geçerli bir geliş tarihi giriniz (DD.MM.YYYY formatında)"
  const BadScheduledDate := "Geçerli bir yapılacak tarih giriniz (DD.MM.YYYY formatında)"
  const BadCourt := "Geçerli bir mahkeme seçiniz"
  const BadFileNumber := "Dosya numarası en az 3 karakter olmalıdır"
  const BadAmount := "Tutar 0'dan büyük ve 1.000.000 TL'den küçük olmalıdır"
  const BadVehicle := "Geçerli bir araç seçiniz"

  /** A file number is checked only when present and not empty. */
  predicate FileNumberOk(f: Option<string>) { f.None? || f.value == [] || ValidateFileNumber(f.value) }
  /** An amount is checked only when present and not 0, so 0 passes. */
  predicate AmountOk(a: Option<int>) { a.None? || a.value == 0 || ValidateAmount(a.value) }
  /** A vehicle id is checked only when present and not 0. */
  predicate VehicleOk(v: Option<int>) { v.None? || v.value == 0 || ValidateId(v.value) }

  /**
   * `createJob` (and `updateJob`, which runs the same code): the received
   * date, the scheduled date, the court, then the optional file number,
   * amount and vehicle are checked, and the first failure is reported; on
   * success the only change is the file number, trimmed, or empty when absent.
   */
  function SaveJob(req: JobRequest): (r: Result<JobRequest>)
    ensures r == Err(BadReceivedDate) <==> !ValidateDate(req.receivedDate)
    ensures r == Err(BadScheduledDate) <==> ValidateDate(req.receivedDate) && !ValidateDate(req.scheduledDate)
    ensures r == Err(BadCourt) <==>
      ValidateDate(req.receivedDate) && ValidateDate(req.scheduledDate) && !ValidateId(req.courtId)
    ensures r.Ok? <==>
      ValidateDate(req.receivedDate) && ValidateDate(req.scheduledDate) && ValidateId(req.courtId)
      && FileNumberOk(req.fileNumber) && AmountOk(req.totalAmount) && VehicleOk(req.vehicleId)
    ensures r.Ok? ==> r.value.(fileNumber := req.fileNumber) == req
    ensures r.Ok? ==> r.value.fileNumber.Some?
    ensures r.Ok? && req.fileNumber.Some? && req.fileNumber.value != [] ==>
      r.value.fileNumber.value == Trim(req.fileNumber.value) && |r.value.fileNumber.value| >= 3
  {
    if !ValidateDate(req.receivedDate) then Err(BadReceivedDate)
    else if !ValidateDate(req.scheduledDate) then Err(BadScheduledDate)
    else if !ValidateId(req.courtId) then Err(BadCourt)
    else if !FileNumberOk(req.fileNumber) then Err(BadFileNumber)
    else if !AmountOk(req.totalAmount) then Err(BadAmount)
    else if !VehicleOk(req.vehicleId) then Err(BadVehicle)
    else
      var f := if req.fileNumber.Some? && req.fileNumber.value != [] then Trim(req.fileNumber.value) else [];
      Ok(req.(fileNumber := Some(f)))
  }

  /** Saving a saved job again is accepted and changes nothing. */
  lemma SaveJobIdempotent(req: JobRequest)
    requires SaveJob(req).Ok?
    ensures SaveJob(SaveJob(req).value) == SaveJob(req)
  {
    if req.fileNumber.Some? && req.fileNumber.value != [] {
      TrimIdempotent(req.fileNumber.value);
    }
  }

  /** `updateJob`: the same checks and change, the id passed through. */
  function UpdateJob(id: int, req: JobRequest): (r: Result<(int, JobRequest)>)
    ensures r.Ok? <==> SaveJob(req).Ok?
    ensures r.Ok? ==> r.value == (id, SaveJob(req).value)
    ensures r.Err? ==> r.message == SaveJob(req).message
  {
    match SaveJob(req)
    case Ok(v) => Ok((id, v))
    case Err(m) => Err(m)
  }

  const BadJobId := "Geçersiz iş ID"
  const BadRange := "Geçerli tarih aralığı giriniz"

  /** `getJobById` and `deleteJob`: an id of 0 or below is refused before the store is asked. */
  function CheckJobId(id: int): (r: Result<int>)
    ensures r.Ok? <==> id > 0
    ensures r.Ok? ==> r.value == id
  {
    if id <= 0 then Err(BadJobId) else Ok(id)
  }

  /** `getJobsByDateRange`: both ends must pass `validateDate`. */
  function CheckDateRange(start: string, end: string): (r: Result<(string, string)>)
    ensures r.Ok? <==> ValidateDate(start) && ValidateDate(end)
    ensures r.Ok? ==> r.value == (start, end)
  {
    if !ValidateDate(start) || !ValidateDate(end) then Err(BadRange) else Ok((start, end))
  }
}

=== FILE: jobviews.dfy ===
/**
 * The job list: the search box, and the decision taken when a status is
 * changed in place (save it, or first ask for the invoice number, the
 * payment date, the completion date or the missing job details).
 */
module JobList {
  import opened Wrappers
  import opened Text
  import opened Casing
  import opened Jobs

  /**
   * A job matches a search term when the term is empty or, lower-cased, occurs
   * in one of the lower-cased dates, court name, file number, plate, payment
   * status, invoice status or notes. The job status is not searched.
   */
  predicate SearchMatches(job: Job, term: string) {
    var t := Lower(term);
    term == []
    || Contains(Lower(job.receivedDate), t) || Contains(Lower(job.scheduledDate), t)
    || Contains(Lower(job.courtName), t) || Contains(Lower(job.fileNumber), t)
    || Contains(Lower(job.plate), t)
    || Contains(Lower(PaymentLabel(job.paymentStatus)), t)
    || Contains(Lower(InvoiceLabel(job.invoiceStatus)), t)
    || (Truthy(job.notes) && Contains(Lower(job.notes.value), t))
  }

  /** The rows the list shows: the matching jobs, in their order. */
  function SearchJobs(jobs: seq<Job>, term: string): (r: seq<Job>)
    ensures term == [] ==> r == jobs
    ensures Subseq(r, jobs)
    ensures forall k :: 0 <= k < |r| ==> r[k] in jobs && SearchMatches(r[k], term)
    ensures forall k :: 0 <= k < |jobs| && SearchMatches(jobs[k], term) ==> jobs[k] in r
  {
    Select(jobs, (j: Job) => SearchMatches(j, term))
  }

  /** Changing a job's status never changes whether it matches a search. */
  lemma SearchIgnoresStatus(job: Job, s: JobStatus, term: string)
    ensures SearchMatches(job.(status := s), term) == SearchMatches(job, term)
  {
  }

  // ------------------------------------------------------------ inline editing

  /** The three columns that can be edited in place, with the chosen value. */
  datatype Edit = SetStatus(status: JobStatus) | SetPayment(payment: PaymentStatus) | SetInvoice(invoice: InvoiceStatus)

  /** `!job.fileNumber || !job.vehicleId || !job.totalAmount` */
  predicate MissingInfo(job: Job) { job.fileNumber == [] || job.vehicleId == 0 || job.totalAmount == 0 }

  /** `value || fallback` */
  function OrElse(o: Option<string>, fallback: string): string { if Truthy(o) then o.value else fallback }

  /** What saving an in-place edit does next. */
  datatype InlineStep =
    | AskInvoice(jobId: int, invoiceNumber: string, invoiceDate: string)
    | AskPayment(jobId: int, paymentDate: string)
    | OpenCompletion(job: Job)
    | AskCompletionDate(jobId: int, completionDate: string)
    | Store(updated: Job)

  /**
   * `saveInlineEdit` on the edited job (`today` is the locale date string of
   * the moment): marking an invoice issued without an invoice number asks for
   * it; marking a job paid without a payment date asks for it; completing a job
   * that lacks file number, vehicle or amount opens the completion dialog, and
   * one that lacks only the completion date asks for it. Otherwise the job is
   * stored with only the edited column changed, and the status date refreshed
   * exactly when the edited column is the status.
   */
  function InlineEditStep(job: Job, e: Edit, today: string): (r: InlineStep)
    ensures r.AskInvoice? <==> e == SetInvoice(Issued) && !Truthy(job.invoiceNumber)
    ensures r.AskPayment? <==> e == SetPayment(Paid) && !Truthy(job.paymentDate)
    ensures r.OpenCompletion? <==> e == SetStatus(Completed) && MissingInfo(job)
    ensures r.AskCompletionDate? <==>
      e == SetStatus(Completed) && !MissingInfo(job) && !Truthy(job.completionDate)
    ensures r.AskInvoice? ==> r == AskInvoice(job.id, "", OrElse(job.invoiceDate, today))
    ensures r.AskPayment? ==> r == AskPayment(job.id, today)
    ensures r.OpenCompletion? ==> r.job == job
    ensures r.AskCompletionDate? ==> r == AskCompletionDate(job.id, today)
    ensures r.Store? && e.SetStatus? ==> r.updated == job.(status := e.status, statusDate := today)
    ensures r.Store? && e.SetPayment? ==> r.updated == job.(paymentStatus := e.payment)
    ensures r.Store? && e.SetInvoice? ==> r.updated == job.(invoiceStatus := e.invoice)
  {
    if e == SetInvoice(Issued) && !Truthy(job.invoiceNumber) then
      AskInvoice(job.id, OrElse(job.invoiceNumber, ""), OrElse(job.invoiceDate, today))
    else if e == SetPayment(Paid) && !Truthy(job.paymentDate) then
      AskPayment(job.id, OrElse(job.paymentDate, today))
    else if e == SetStatus(Completed) && MissingInfo(job) then
      OpenCompletion(job)
    else if e == SetStatus(Completed) && !Truthy(job.completionDate) then
      AskCompletionDate(job.id, OrElse(job.completionDate, today))
    else
      match e
      case SetStatus(s) => Store(job.(status := s, statusDate := today))
      case SetPayment(p) => Store(job.(paymentStatus := p))
      case SetInvoice(i) => Store(job.(invoiceStatus := i))
  }

  /** `jobs.find(j => j.id === id)` */
  function FindJob(jobs: seq<Job>, id: int): (r: Option<Job>)
    ensures r.None? <==> forall k :: 0 <= k < |jobs| ==> jobs[k].id != id
    ensures r.Some? ==> r.value in jobs && r.value.id == id
  {
    if jobs == [] then None
    else if jobs[0].id == id then Some(jobs[0])
    else
      var r := FindJob(jobs[1..], id);
      assert forall k :: 1 <= k < |jobs| ==> jobs[k] == jobs[1..][k - 1];
      r
  }

  /** `saveInlineEdit`: nothing happens when the edited job is no longer in the list. */
  function SaveInlineEdit(jobs: seq<Job>, id: int, e: Edit, today: string): (r: Option<InlineStep>)
    ensures r.None? <==> FindJob(jobs, id).None?
    ensures r.Some? ==> r.value == InlineEditStep(FindJob(jobs, id).value, e, today)
  {
    match FindJob(jobs, id)
    case None => None
    case Some(job) => Some(InlineEditStep(job, e, today))
  }

  /** `saveInvoiceDetails`: the invoice is marked issued, with the number and date entered. */
  function SaveInvoiceDetails(job: Job, number: string, date: string, today: string): (r: Job)
    ensures r.invoiceStatus == Issued && r.invoiceNumber == Some(number) && r.invoiceDate == Some(date)
    ensures r.statusDate == today
    ensures r.(invoiceStatus := job.invoiceStatus, invoiceNumber := job.invoiceNumber,
               invoiceDate := job.invoiceDate, statusDate := job.statusDate) == job
  {
    job.(invoiceStatus := Issued, invoiceNumber := Some(number), invoiceDate := Some(date), statusDate := today)
  }

  /** `savePaymentDetails`: the job is marked paid on the date entered. */
  function SavePaymentDetails(job: Job, date: string, today: string): (r: Job)
    ensures r.paymentStatus == Paid && r.paymentDate == Some(date) && r.statusDate == today
    ensures r.(paymentStatus := job.paymentStatus, paymentDate := job.paymentDate, statusDate := job.statusDate) == job
  {
    job.(paymentStatus := Paid, paymentDate := Some(date), statusDate := today)
  }

  /** `saveCompletionDetails`: the job is marked completed on the date entered. */
  function SaveCompletionDetails(job: Job, date: string, today: string): (r: Job)
    ensures r.status == Completed && r.completionDate == Some(date) && r.statusDate == today
    ensures r.(status := job.status, completionDate := job.completionDate, statusDate := job.statusDate) == job
  {
    job.(status := Completed, completionDate := Some(date), statusDate := today)
  }

  /** The invoice dialog's save button is enabled only for a number that is not blank. */
  predicate InvoiceSaveEnabled(number: string) { !IsBlank(number) }

  /**
   * Each detail step completes the edit that asked for it: once the details
   * are saved, repeating the same edit stores the job as it now is.
   */
  lemma InvoiceDetailsCompleteEdit(job: Job, number: string, date: string, today: string, t: string)
    requires InvoiceSaveEnabled(number)
    ensures var j := SaveInvoiceDetails(job, number, date, today);
      InlineEditStep(j, SetInvoice(Issued), t) == Store(j)
  {
    assert |Trim(number)| <= |number|;
  }

  lemma PaymentDetailsCompleteEdit(job: Job, date: string, today: string, t: string)
    requires date != []
    ensures var j := SavePaymentDetails(job, date, today);
      InlineEditStep(j, SetPayment(Paid), t) == Store(j)
  {
  }

  lemma CompletionDetailsCompleteEdit(job: Job, date: string, today: string, t: string)
    requires date != [] && !MissingInfo(job)
    ensures var j := SaveCompletionDetails(job, date, today);
      InlineEditStep(j, SetStatus(Completed), t) == Store(j.(statusDate := t))
  {
  }
}

/**
 * The job form: its defaults, the VAT recomputed from the total, the checks
 * before submission, and the conversion between the stored `DD.MM.YYYY`
 * dates and the `YYYY-MM-DD` value of a date input.
 */
module JobForm {
  import opened Wrappers
  import opened Text
  import opened Calendar
  import Money
  import opened Jobs

  datatype JobFormData = JobFormData(
    receivedDate: string, scheduledDate: string, courtId: int, fileNumber: string, vehicleId: int,
    totalAmount: int, baseAmount: int, vatAmount: int, vatRate: nat,
    paymentStatus: PaymentStatus, invoiceStatus: InvoiceStatus, status: JobStatus, statusDate: string,
    statusNote: string, invoiceNumber: string, invoiceDate: string, paymentDate: string,
    completionDate: string, notes: string)

  /**
   * The form of a new job: received today, no scheduled date, court, vehicle
   * or amounts, VAT rate 20, pending, unpaid and not invoiced.
   */
  function NewJobForm(today: Date): (f: JobFormData)
    requires Valid(today)
    ensures f.receivedDate == FormatDotted(today) && f.statusDate == f.receivedDate && f.scheduledDate == []
    ensures f.status == Pending && f.paymentStatus == Unpaid && f.invoiceStatus == NotIssued
    ensures f.courtId == 0 && f.vehicleId == 0 && f.fileNumber == []
    ensures f.vatRate == 20 && f.totalAmount == 0 && f.baseAmount == 0 && f.vatAmount == 0
  {
    var d := FormatDotted(today);
    JobFormData(d, "", 0, "", 0, 0, 0, 0, 20, Unpaid, NotIssued, Pending, d, "", "", "", "", "", "")
  }

  /** `value || ''` */
  function OrEmpty(o: Option<string>): string { if o.Some? then o.value else "" }

  /** The form of a job being edited: its fields, the optional ones blank when absent. */
  function FormOfJob(job: Job): (f: JobFormData)
    ensures f.receivedDate == job.receivedDate && f.scheduledDate == job.scheduledDate && f.courtId == job.courtId
    ensures f.fileNumber == job.fileNumber && f.vehicleId == job.vehicleId
    ensures f.totalAmount == job.totalAmount && f.baseAmount == job.baseAmount && f.vatAmount == job.vatAmount
    ensures f.status == job.status && f.paymentStatus == job.paymentStatus && f.invoiceStatus == job.invoiceStatus
    ensures f.notes == OrEmpty(job.notes) && f.completionDate == OrEmpty(job.completionDate)
    ensures f.vatRate == job.vatRate && f.statusDate == job.statusDate
    ensures f.statusNote == OrEmpty(job.statusNote) && f.invoiceNumber == OrEmpty(job.invoiceNumber)
    ensures f.invoiceDate == OrEmpty(job.invoiceDate) && f.paymentDate == OrEmpty(job.paymentDate)
  {
    JobFormData(job.receivedDate, job.scheduledDate, job.courtId, job.fileNumber, job.vehicleId,
      job.totalAmount, job.baseAmount, job.vatAmount, job.vatRate,
      job.paymentStatus, job.invoiceStatus, job.status, job.statusDate,
      OrEmpty(job.statusNote), OrEmpty(job.invoiceNumber), OrEmpty(job.invoiceDate), OrEmpty(job.paymentDate),
      OrEmpty(job.completionDate), OrEmpty(job.notes))
  }

  /**
   * The effect on the total: while the total is above 0, base and VAT are
   * recomputed as `calculateVAT` does, so they add up to the total or one
   * kuruş more; otherwise the form is left as it is.
   */
  function RecalculateVat(f: JobFormData): (r: JobFormData)
    ensures f.totalAmount <= 0 ==> r == f
    ensures f.totalAmount > 0 ==> r == f.(baseAmount := r.baseAmount, vatAmount := r.vatAmount)
    ensures f.totalAmount > 0 ==>
      r.baseAmount == Money.UiSplit(f.totalAmount, f.vatRate).base && r.vatAmount == Money.UiSplit(f.totalAmount, f.vatRate).vat
    ensures f.totalAmount > 0 ==> f.totalAmount <= r.baseAmount + r.vatAmount <= f.totalAmount + 1
  {
    if f.totalAmount > 0 then
      var s := Money.UiSplit(f.totalAmount, f.vatRate);
      Money.UiSplitSum(f.totalAmount, f.vatRate);
      f.(baseAmount := s.base, vatAmount := s.vat)
    else f
  }

  /** The effect settles after one run: running it again changes nothing. */
  lemma RecalculateVatSettles(f: JobFormData)
    ensures RecalculateVat(RecalculateVat(f)) == RecalculateVat(f)
  {
  }

  /** Choosing a status also stamps the status date with today. */
  function StatusChanged(f: JobFormData, s: JobStatus, today: Date): (r: JobFormData)
    requires Valid(today)
    ensures r.status == s && r.statusDate == FormatDotted(today)
    ensures r.(status := f.status, statusDate := f.statusDate) == f
  {
    f.(status := s, statusDate := FormatDotted(today))
  }

  // ------------------------------------------------------------ submission

  /** The fields `handleSubmit` checks, each with the message it shows when the check fails. */
  datatype Field = ReceivedDate | ScheduledDate | CourtId | FileNumber | VehicleId | TotalAmount | CompletionDate

  function Message(x: Field): string {
    match x
    case ReceivedDate => "İş geliş tarihi zorunludur"
    case ScheduledDate => "İş yapılacak tarihi zorunludur"
    case CourtId => "Mahkeme seçimi zorunludur"
    case FileNumber => "Tamamlanan iş için dosya numarası zorunludur"
    case VehicleId => "Tamamlanan iş için araç seçimi zorunludur"
    case TotalAmount => "Tamamlanan iş için tutar girişi zorunludur"
    case CompletionDate => "Tamamlanma tarihi zorunludur"
  }

  /** Every check of `handleSubmit`, in the order it runs them. */
  const AllChecks := [ReceivedDate, ScheduledDate, CourtId, FileNumber, VehicleId, TotalAmount, CompletionDate]

  /** The outcome of each test `handleSubmit` makes on a form. */
  datatype Outcome = Outcome(
    receivedBlank: bool, scheduledBlank: bool, noCourt: bool, completed: bool,
    fileBlank: bool, noVehicle: bool, noAmount: bool, completionBlank: bool)

  function OutcomeOf(f: JobFormData): Outcome {
    Outcome(IsBlank(f.receivedDate), IsBlank(f.scheduledDate), f.courtId == 0, f.status == Completed,
      IsBlank(f.fileNumber), f.vehicleId == 0, f.totalAmount <= 0, IsBlank(f.completionDate))
  }

  /** Whether the check of one field fails; the last four run only for a completed job. */
  predicate Fails(o: Outcome, x: Field) {
    match x
    case ReceivedDate => o.receivedBlank
    case ScheduledDate => o.scheduledBlank
    case CourtId => o.noCourt
    case FileNumber => o.completed && o.fileBlank
    case VehicleId => o.completed && o.noVehicle
    case TotalAmount => o.completed && o.noAmount
    case CompletionDate => o.completed && o.completionBlank
  }

  /** A form `handleSubmit` sends on. */
  predicate FormComplete(f: JobFormData) {
    !IsBlank(f.receivedDate) && !IsBlank(f.scheduledDate) && f.courtId != 0
    && (f.status == Completed ==>
          !IsBlank(f.fileNumber) && f.vehicleId != 0 && f.totalAmount > 0 && !IsBlank(f.completionDate))
  }

  /** The failing fields of an outcome, in check order. */
  function Errors(o: Outcome): (r: seq<Field>)
    ensures Subseq(r, AllChecks)
    ensures forall x :: x in r <==> Fails(o, x)
  {
    SelectMembers(AllChecks, (x: Field) => Fails(o, x));
    EveryField();
    Select(AllChecks, (x: Field) => Fails(o, x))
  }

  /**
   * `handleSubmit`'s failed checks, collected in check order; a field is
   * reported exactly when its check fails, and none is reported exactly when
   * the form is complete.
   */
  function FormErrors(f: JobFormData): (r: seq<Field>)
    ensures Subseq(r, AllChecks)
    ensures forall x :: x in r <==> Fails(OutcomeOf(f), x)
    ensures r == [] <==> FormComplete(f)
  {
    var o := OutcomeOf(f);
    var r := Errors(o);
    assert FormComplete(f) <==> !(o.receivedBlank || o.scheduledBlank || o.noCourt
                                  || (o.completed && (o.fileBlank || o.noVehicle || o.noAmount || o.completionBlank)));
    NoErrors(o);
    r
  }

  /** An outcome has no failing field exactly when every test passed. */
  lemma NoErrors(o: Outcome)
    ensures Errors(o) == [] <==> !(o.receivedBlank || o.scheduledBlank || o.noCourt
                                   || (o.completed && (o.fileBlank || o.noVehicle || o.noAmount || o.completionBlank)))
  {
    if o.receivedBlank { assert ReceivedDate in Errors(o); }
    else if o.scheduledBlank { assert ScheduledDate in Errors(o); }
    else if o.noCourt { assert CourtId in Errors(o); }
    else if o.completed && o.fileBlank { assert FileNumber in Errors(o); }
    else if o.completed && o.noVehicle { assert VehicleId in Errors(o); }
    else if o.completed && o.noAmount { assert TotalAmount in Errors(o); }
    else if o.completed && o.completionBlank { assert CompletionDate in Errors(o); }
  }

  lemma EveryField()
    ensures forall x :: x in AllChecks
  {
    forall x: Field ensures x in AllChecks {
      match x
      case ReceivedDate => assert AllChecks[0] == x;
      case ScheduledDate => assert AllChecks[1] == x;
      case CourtId => assert AllChecks[2] == x;
      case FileNumber => assert AllChecks[3] == x;
      case VehicleId => assert AllChecks[4] == x;
      case TotalAmount => assert AllChecks[5] == x;
      case CompletionDate => assert AllChecks[6] == x;
    }
  }

  /** Each failed check overwrites the message, so the last one is shown. */
  function LastMessage(errors: seq<Field>): string
    requires errors != []
  {
    Message(errors[|errors| - 1])
  }

  /** What a submission sends: the form, with the job's id when editing. */
  datatype JobSubmission = CreateJob(data: JobFormData) | UpdateJob(id: int, data: JobFormData)

  /**
   * `handleSubmit`: with any failed check nothing is sent and the message
   * shown is that of the last failed check; otherwise the form is sent, as
   * an update of the edited job or as a new job.
   */
  function SubmitJobForm(f: JobFormData, editing: Option<Job>): (r: Result<JobSubmission>)
    ensures r.Ok? <==> FormComplete(f)
    ensures r.Err? ==> FormErrors(f) != [] && r.message == LastMessage(FormErrors(f))
    ensures r.Ok? ==> r.value.data == f && (r.value.UpdateJob? <==> editing.Some?)
    ensures r.Ok? && editing.Some? ==> r.value.id == editing.value.id
  {
    var errors := FormErrors(f);
    if errors != [] then Err(LastMessage(errors))
    else if editing.Some? then Ok(UpdateJob(editing.value.id, f))
    else Ok(CreateJob(f))
  }

  /** A new job's form always needs a scheduled date and a court before it can be sent. */
  lemma NewFormNeedsDateAndCourt(today: Date)
    requires Valid(today)
    ensures var errors := FormErrors(NewJobForm(today));
      ScheduledDate in errors && CourtId in errors && ReceivedDate !in errors
  {
    var s := FormatDotted(today);
    assert !IsSpace(s[0]) by { assert IsDigit(s[0]); }
    TrimStartDigit(s);
  }

  lemma TrimStartDigit(s: string)
    requires s != [] && !IsSpace(s[0])
    ensures !IsBlank(s)
  {
    BlankIffAllSpaces(s);
  }

  // ------------------------------------------------------------ date input

  function Reverse(parts: seq<string>): (r: seq<string>)
    ensures |r| == |parts|
    ensures forall k :: 0 <= k < |r| ==> r[k] == parts[|parts| - 1 - k]
  {
    if parts == [] then [] else Reverse(parts[1..]) + [parts[0]]
  }

  /** The date input's value: `DD.MM.YYYY` parts reversed and joined by '-', or empty. */
  function DottedToIso(s: string): string {
    if s == [] then [] else Join(Reverse(Split(s, '.')), "-")
  }

  /** The part a destructuring assignment reads: `undefined` past the end. */
  function Part(parts: seq<string>, i: nat): string {
    if i < |parts| then parts[i] else "undefined"
  }

  /** The date input's change: an empty value changes nothing, else `day.month.year`. */
  function IsoToDotted(v: string): (r: Option<string>)
    ensures r.None? <==> v == []
  {
    if v == [] then None
    else
      var p := Split(v, '-');
      Some(Part(p, 2) + "." + Part(p, 1) + "." + Part(p, 0))
  }

  /** A stored three-part date shown in the date input and read back is the same text. */
  lemma DateInputRoundTrip(s: string)
    requires s != [] && '-' !in s && |Split(s, '.')| == 3
    ensures IsoToDotted(DottedToIso(s)) == Some(s)
  {
    var parts := Split(s, '.');
    var rev := Reverse(parts);
    ReversedSplit(s, rev);
    DottedParts(s, parts);
    var iso := Join(rev, "-");
    assert iso == rev[0] + "-" + Join(rev[1..], "-");
    assert DottedToIso(s) == iso;
    assert IsoToDotted(iso) == Some(rev[2] + "." + rev[1] + "." + rev[0]);
  }

  /** The reversed parts hold no '-', so splitting their join on '-' gives them back. */
  lemma ReversedSplit(s: string, rev: seq<string>)
    requires '-' !in s && rev == Reverse(Split(s, '.'))
    ensures Split(Join(rev, "-"), '-') == rev
  {
    var parts := Split(s, '.');
    forall k | 0 <= k < |rev| ensures '-' !in rev[k] {
      NoCharInPart(s, '-', '.', |parts| - 1 - k);
    }
    SplitJoin(rev, '-');
  }

  /** A text of three dotted parts is those parts joined by dots. */
  lemma DottedParts(s: string, parts: seq<string>)
    requires parts == Split(s, '.') && |parts| == 3
    ensures s == parts[0] + "." + parts[1] + "." + parts[2]
  {
    JoinThree(parts[0], parts[1], parts[2], ".");
    assert parts == [parts[0], parts[1], parts[2]];
    JoinSplit(s, '.');
  }

  /** A part of a split has none of the characters its text lacks. */
  lemma NoCharInPart(s: string, x: char, c: char, i: nat)
    requires x !in s && i < |Split(s, c)|
    ensures x !in Split(s, c)[i]
  {
    JoinSplit(s, c);
    if x in Split(s, c)[i] {
      InJoin(Split(s, c), [c], i, x);
    }
  }

  lemma {:induction false} InJoin(parts: seq<string>, sep: string, i: nat, x: char)
    requires i < |parts| && x in parts[i]
    ensures x in Join(parts, sep)
  {
    if |parts| > 1 && i > 0 {
      InJoin(parts[1..], sep, i - 1, x);
    }
  }
}

/**
 * The completion dialog: the details a job needs before it can be marked
 * completed, and the update it sends.
 */
module JobCompletion {
  import opened Wrappers
  import opened Text
  import opened Calendar
  import Money
  import opened Jobs
  import opened JobChecks

  datatype CompletionForm = CompletionForm(fileNumber: string, vehicleId: int, totalAmount: int, completionDate: string)

  /** The dialog opens with the job's file number, vehicle and amount, completed today. */
  function OpenCompletionForm(job: Job, today: Date): (f: CompletionForm)
    requires Valid(today)
    ensures f.fileNumber == job.fileNumber && f.vehicleId == job.vehicleId && f.totalAmount == job.totalAmount
    ensures f.completionDate == FormatDotted(today)
  {
    CompletionForm(job.fileNumber, job.vehicleId, job.totalAmount, FormatDotted(today))
  }

  const NeedFileNumber := "Dosya numarası zorunludur"
  const NeedVehicle := "Araç seçimi zorunludur"
  const NeedAmount := "Tutar 0'dan büyük olmalıdır"
  const NeedCompletionDate := "Tamamlanma tarihi zorunludur"

  /** The dialog's checks, in order: file number, vehicle, amount, completion date; the first failure stops. */
  function CheckCompletion(f: CompletionForm): (r: Option<string>)
    ensures r.None? <==> !IsBlank(f.fileNumber) && f.vehicleId != 0 && f.totalAmount > 0 && f.completionDate != []
    ensures r == Some(NeedFileNumber) <==> IsBlank(f.fileNumber)
    ensures r == Some(NeedVehicle) <==> !IsBlank(f.fileNumber) && f.vehicleId == 0
    ensures r == Some(NeedAmount) <==> !IsBlank(f.fileNumber) && f.vehicleId != 0 && f.totalAmount <= 0
    ensures r == Some(NeedCompletionDate) <==>
      !IsBlank(f.fileNumber) && f.vehicleId != 0 && f.totalAmount > 0 && f.completionDate == []
  {
    if IsBlank(f.fileNumber) then Some(NeedFileNumber)
    else if f.vehicleId == 0 then Some(NeedVehicle)
    else if f.totalAmount <= 0 then Some(NeedAmount)
    else if f.completionDate == [] then Some(NeedCompletionDate)
    else None
  }

  const CompletionNote := "İş tamamlandı - eksik bilgiler eklendi"

  /**
   * The update the dialog sends for a job: completed today with the fixed
   * note, the entered details and VAT at 20 % computed as `calculateVAT`
   * does; dates, court, payment and invoice fields and notes are copied from
   * the job.
   */
  function CompletedRequest(job: Job, f: CompletionForm, today: Date): (q: JobRequest)
    requires Valid(today)
    ensures q.status == Completed && q.statusDate == FormatDotted(today)
    ensures q.statusNote == Some(CompletionNote) && q.completionDate == Some(f.completionDate)
    ensures q.fileNumber == Some(f.fileNumber) && q.vehicleId == Some(f.vehicleId)
    ensures q.totalAmount == Some(f.totalAmount) && q.vatRate == Some(20)
    ensures q.receivedDate == job.receivedDate && q.scheduledDate == job.scheduledDate && q.courtId == job.courtId
    ensures q.paymentStatus == job.paymentStatus && q.invoiceStatus == job.invoiceStatus
    ensures q.paymentDate == job.paymentDate && q.invoiceNumber == job.invoiceNumber
    ensures q.invoiceDate == job.invoiceDate && q.notes == job.notes
    ensures q.baseAmount.Some? && q.vatAmount.Some?
    ensures f.totalAmount <= q.baseAmount.value + q.vatAmount.value <= f.totalAmount + 1
  {
    var s := Money.UiSplit(f.totalAmount, 20);
    Money.UiSplitSum(f.totalAmount, 20);
    JobRequest(job.receivedDate, job.scheduledDate, job.courtId,
      Some(f.fileNumber), Some(f.vehicleId), Some(f.totalAmount),
      Some(s.base), Some(s.vat), Some(20),
      job.paymentStatus, job.invoiceStatus, Completed, FormatDotted(today),
      Some(CompletionNote), job.invoiceNumber, job.invoiceDate, job.paymentDate,
      Some(f.completionDate), job.notes)
  }

  /** `handleSubmit`: the first failed check, or the job's id with its update. */
  function CompleteJob(job: Job, f: CompletionForm, today: Date): (r: Result<(int, JobRequest)>)
    requires Valid(today)
    ensures r.Ok? <==> CheckCompletion(f).None?
    ensures r.Err? ==> CheckCompletion(f) == Some(r.message)
    ensures r.Ok? ==> r.value == (job.id, CompletedRequest(job, f, today))
  {
    match CheckCompletion(f)
    case Some(m) => Err(m)
    case None => Ok((job.id, CompletedRequest(job, f, today)))
  }

  /**
   * The dialog checks less than the controller: its update is accepted when
   * the job's dates and court are valid and the details also pass the
   * controller's file-number, vehicle and amount rules.
   */
  lemma CompletionAccepted(job: Job, f: CompletionForm, today: Date)
    requires Valid(today) && CompleteJob(job, f, today).Ok?
    requires ValidateDate(job.receivedDate) && ValidateDate(job.scheduledDate) && ValidateId(job.courtId)
    requires ValidateFileNumber(f.fileNumber) && ValidateId(f.vehicleId) && ValidateAmount(f.totalAmount)
    ensures SaveJob(CompleteJob(job, f, today).value.1).Ok?
  {
  }

  /**
   * A job the dialog completes has everything the in-place status edit asks
   * for: a file number, a vehicle, an amount and a completion date.
   */
  lemma CompletionFillsMissing(job: Job, f: CompletionForm, today: Date)
    requires Valid(today) && CompleteJob(job, f, today).Ok?
    ensures var q := CompleteJob(job, f, today).value.1;
      q.fileNumber.value != [] && q.vehicleId.value != 0 && q.totalAmount.value != 0 && Truthy(q.completionDate)
  {
    assert |Trim(f.fileNumber)| <= |f.fileNumber|;
  }
}

=== FILE: money.dfy ===
/**
 * Amounts in integer kuruş (hundredths of a lira). The JavaScript code works
 * on doubles and rounds to two decimals with `Math.round(x * 100) / 100`;
 * here every amount is already a whole number of kuruş and the rounding is
 * exact: `Math.round(p / q)` is `floor(p / q + 1/2)`.
 */
module Money {

  /** `Math.round(p / q)` for a positive `q`: the nearest integer, halves rounded up. */
  function RoundDiv(p: int, q: int): (r: int)
    requires q > 0
    ensures 2 * q * r <= 2 * p + q < 2 * q * r + 2 * q
  {
    var r := (2 * p + q) / (2 * q);
    DivBounds(2 * p + q, 2 * q);
    r
  }

  lemma DivBounds(a: int, b: int)
    requires b > 0
    ensures b * (a / b) <= a < b * (a / b) + b
  {
  }

  /** The three amounts of a job and its VAT rate in percent. */
  datatype Split = Split(base: int, vat: int, total: int, rate: nat)

  /**
   * `calculateAmounts` / `calculateVAT` of the import scripts: the base is the
   * total divided by 1 + rate/100, rounded to the kuruş, and the VAT is what
   * remains of the total, so the two parts always add up to the total.
   */
  function ScriptSplit(total: int, rate: nat): (s: Split)
    ensures s.total == total && s.rate == rate
    ensures s.base + s.vat == total
    ensures 2 * (100 + rate) * s.base <= 200 * total + (100 + rate) < 2 * (100 + rate) * s.base + 2 * (100 + rate)
  {
    var base := RoundDiv(100 * total, 100 + rate);
    Split(base, total - base, total, rate)
  }

  /**
   * `calculateVAT` of src/shared/types/Job.ts (and the same arithmetic in the
   * job form and the completion dialog): base and VAT are each rounded from
   * the exact quotient, so their sum may exceed the total by one kuruş.
   */
  function UiSplit(total: int, rate: nat): (s: Split)
    ensures s.total == total && s.rate == rate
    ensures 2 * (100 + rate) * s.base <= 200 * total + (100 + rate) < 2 * (100 + rate) * s.base + 2 * (100 + rate)
    ensures 2 * (100 + rate) * s.vat <= 2 * rate * total + (100 + rate) < 2 * (100 + rate) * s.vat + 2 * (100 + rate)
  {
    Split(RoundDiv(100 * total, 100 + rate), RoundDiv(rate * total, 100 + rate), total, rate)
  }

  /**
   * In exact arithmetic, base and VAT of `UiSplit` add up to the total, or to
   * one kuruş more exactly when the exact base lies halfway between two kuruş.
   */
  lemma UiSplitSum(total: int, rate: nat)
    ensures var s := UiSplit(total, rate);
      s.base + s.vat == total || s.base + s.vat == total + 1
    ensures var s := UiSplit(total, rate);
      s.base + s.vat == total + 1 <==> (200 * total + 100 + rate) % (200 + 2 * rate) == 0
  {
    var s := UiSplit(total, rate);
    var q := 100 + rate;
    var a := 200 * total + q;
    // The two numerators add up to a multiple of 2q: a + (2 * rate * total + q) == 2 * q * (total + 1).
    assert a + (2 * rate * total + q) == 2 * q * (total + 1);
    SumOfRounds(a, 2 * rate * total + q, 2 * q, total + 1, s.base, s.vat);
  }

  /**
   * If two numerators add up to `b * n`, their floors add up to `n` when
   * the first is a multiple of `b` and to `n - 1` otherwise.
   */
  lemma SumOfRounds(a: int, c: int, b: int, n: int, x: int, y: int)
    requires b > 0 && a + c == b * n
    requires b * x <= a < b * x + b
    requires b * y <= c < b * y + b
    ensures x + y == n || x + y == n - 1
    ensures x + y == n <==> a % b == 0
  {
    assert b * (x + y) <= b * n < b * (x + y) + 2 * b;
    assert x + y <= n < x + y + 2 by {
      if x + y > n { MulMono(b, n + 1, x + y); }
      if n >= x + y + 2 { MulMono(b, x + y + 2, n); }
    }
    if x + y == n {
      assert b * (x + y) == b * x + b * y;
      assert (a - b * x) + (c - b * y) == 0;
      ModOfMultiple(a, b, x);
    } else {
      assert a % b != 0 by {
        if a % b == 0 {
          var k := a / b;
          assert a == b * k;
          if k <= x { MulMono(b, k, x); }
          else { MulMono(b, x + 1, k); }
        }
      }
    }
  }

  lemma MulMono(b: int, i: int, j: int)
    requires b > 0 && i <= j
    ensures b * i <= b * j
  {
  }

  lemma ModOfMultiple(a: int, b: int, k: int)
    requires b > 0 && a == b * k
    ensures a % b == 0
  {
    var t := k - a / b;
    assert b * t == a % b by {
      assert a == b * (a / b) + a % b;
      assert b * t == b * k - b * (a / b);
    }
    if t >= 1 { MulMono(b, 1, t); }
    if t <= -1 { MulMono(b, t, -1); }
  }

  /** At 20 % the rounded base is `(5 · total + 3) div 6`. */
  lemma TwentyPercentBase(total: int)
    ensures ScriptSplit(total, 20).base == (5 * total + 3) / 6
    ensures UiSplit(total, 20).base == (5 * total + 3) / 6
  {
    assert (200 * total + 120) / 240 == (5 * total + 3) / 6;
  }

  /**
   * The one-kuruş overshoot of `UiSplit` happens: 0.09 TL splits into
   * 0.08 + 0.02, where the scripts give 0.08 + 0.01.
   */
  lemma UiSplitOvershoots()
    ensures UiSplit(9, 20) == Split(8, 2, 9, 20)
    ensures ScriptSplit(9, 20) == Split(8, 1, 9, 20)
  {
  }

  /**
   * `generateAmount` of scripts/import-full-bank-data.js: a whole-lira base,
   * VAT of 20 % rounded to the kuruş, and the rounded sum as total.
   */
  function GeneratedAmount(baseLira: int): (s: Split)
    requires 1000 <= baseLira <= 4999
    ensures s.rate == 20 && s.base == 100 * baseLira
    ensures 5 * s.vat == s.base && s.total == s.base + s.vat
    ensures 100000 <= s.base <= 499900
  {
    var vat := RoundDiv(baseLira * 20 * 100, 100);
    Split(100 * baseLira, vat, 100 * baseLira + vat, 20)
  }

  /**
   * `generateAmount` of scripts/import-jobs-from-bank.js: the same amounts
   * without rounding, which for a whole-lira base are already whole kuruş.
   */
  function GeneratedAmountUnrounded(baseLira: int): (s: Split)
    requires 1000 <= baseLira <= 4999
    ensures s == GeneratedAmount(baseLira)
  {
    Split(100 * baseLira, baseLira * 20, 100 * baseLira + baseLira * 20, 20)
  }
}

=== FILE: plates.dfy ===
/**
 * Turkish licence plates (src/modules/vehicles/controllers/VehicleController.ts)
 * and the vehicle form that uses them (src/modules/vehicles/views/VehicleForm.tsx):
 * the plate formatter, the plate validator, the save rules of the controller
 * and the submit checks of the form.
 */
module Plates {
  import opened Wrappers
  import opened Text
  import opened Casing
  import Similarity

  // ------------------------------------------------------------ fold table

  /** `turkishToEnglish`, in the order `Object.keys` visits it. */
  const TurkishToEnglish: seq<(char, char)> := [
    ('ç', 'C'), ('Ç', 'C'),
    ('ğ', 'G'), ('Ğ', 'G'),
    ('ı', 'I'), ('İ', 'I'), ('i', 'I'),
    ('ö', 'O'), ('Ö', 'O'),
    ('ş', 'S'), ('Ş', 'S'),
    ('ü', 'U'), ('Ü', 'U')
  ]

  /** The value of the first entry whose key is `c`, or `c` itself. */
  function Lookup(c: char, table: seq<(char, char)>): char
  {
    if table == [] then c
    else if table[0].0 == c then table[0].1
    else Lookup(c, table[1..])
  }

  /**
   * Every value of the table is a capital ASCII letter and no key is, so a
   * replacement never produces a key of a later entry.
   */
  predicate NoChains(table: seq<(char, char)>) {
    forall j :: 0 <= j < |table| ==> IsUpper(table[j].1) && !IsUpper(table[j].0)
  }

  /** `s.replace(new RegExp(from, 'g'), to)` for a one-character `from`. */
  function ReplaceChar(s: string, from: char, to: char): (r: string)
    ensures |r| == |s|
    ensures forall k :: 0 <= k < |s| ==> r[k] == if s[k] == from then to else s[k]
  {
    seq(|s|, k requires 0 <= k < |s| => if s[k] == from then to else s[k])
  }

  lemma {:induction false} LookupPrefix(c: char, table: seq<(char, char)>, k: nat)
    requires k < |table| && NoChains(table)
    ensures Lookup(c, table[..k + 1]) ==
      var d := Lookup(c, table[..k]); if d == table[k].0 then table[k].1 else d
    decreases k
  {
    if k > 0 && table[0].0 != c {
      assert table[1..][..k] == table[..k + 1][1..];
      assert table[1..][..k - 1] == table[..k][1..];
      assert NoChains(table[1..]) by {
        forall j | 0 <= j < |table[1..]| ensures IsUpper(table[1..][j].1) && !IsUpper(table[1..][j].0) {
          assert table[1..][j] == table[j + 1];
        }
      }
      LookupPrefix(c, table[1..], k - 1);
    } else if k > 0 {
      assert table[..k + 1][0] == table[0] && table[..k][0] == table[0];
    }
  }

  /** Every fold of the table, character by character. */
  function FoldTurkish(s: string): (r: string)
    ensures |r| == |s|
  {
    seq(|s|, k requires 0 <= k < |s| => Lookup(s[k], TurkishToEnglish))
  }

  lemma {:induction false} LookupMiss(c: char, table: seq<(char, char)>)
    requires forall j :: 0 <= j < |table| ==> table[j].0 != c
    ensures Lookup(c, table) == c
  {
    if table != [] {
      assert forall j :: 0 <= j < |table[1..]| ==> table[1..][j] == table[j + 1];
      LookupMiss(c, table[1..]);
    }
  }

  /** Capital ASCII letters, digits and spaces are not keys of the table. */
  lemma FoldFixed(s: string)
    requires forall k :: 0 <= k < |s| ==> IsUpper(s[k]) || IsDigit(s[k]) || s[k] == ' '
    ensures FoldTurkish(s) == s
  {
    forall k | 0 <= k < |s| ensures Lookup(s[k], TurkishToEnglish) == s[k] {
      LookupMiss(s[k], TurkishToEnglish);
    }
  }

  // ------------------------------------------------------------ formatting

  predicate PlateChar(c: char) { IsUpper(c) || IsDigit(c) }
  /** Outside the class `[QWXÇĞIÖŞÜ]`; its `I` is the Latin capital I. */
  predicate Allowed(c: char) {
    c != 'Q' && c != 'W' && c != 'X' && c != 'Ç' && c != 'Ğ' && c != 'I' && c != 'Ö' && c != 'Ş' && c != 'Ü'
  }
  predicate NotUpper(c: char) { !IsUpper(c) }

  /** The text `formatPlate` works on after upper-casing, folding and both filters. */
  function Cleaned(input: string): string
  {
    Filter(Filter(FoldTurkish(Upper(input)), PlateChar), Allowed)
  }

  /** Length of the run of capital letters at the start of `s`. */
  function UpperRun(s: string): (n: nat)
    ensures n <= |s|
    ensures forall k :: 0 <= k < n ==> IsUpper(s[k])
    ensures n < |s| ==> !IsUpper(s[n])
  {
    if s != [] && IsUpper(s[0]) then 1 + UpperRun(s[1..]) else 0
  }

  /** `s.match(/[A-Z]+/)?.[0] || ''`: the first run of capital letters. */
  function FirstLetters(s: string): (r: string)
    ensures forall k :: 0 <= k < |r| ==> IsUpper(r[k])
  {
    if s == [] then []
    else if IsUpper(s[0]) then s[..UpperRun(s)]
    else FirstLetters(s[1..])
  }

  /** The letter run and the digits, each preceded by a space when present. */
  function Layout(letters: string, numbers: string): string
  {
    (if letters != [] then " " + letters else []) + (if numbers != [] then " " + numbers else [])
  }

  /** The part of `formatPlate` after the province code, for the rest `rest` of the cleaned text. */
  function Groups(rest: string): string
  {
    Layout(FirstLetters(rest), Filter(rest, NotUpper))
  }

  /** `formatPlate(input)`: province code, letter group and digits, separated by single spaces. */
  function Formatted(input: string): string
  {
    var cleaned := Cleaned(input);
    if |cleaned| >= 2 then cleaned[..2] + (if |cleaned| > 2 then Groups(cleaned[2..]) else [])
    else cleaned
  }

  /**
   * `formatPlate`: upper-cases, applies the fold table entry by entry,
   * drops everything but `A`–`Z` and digits, drops `Q`, `W`, `X` and `I`,
   * then spaces out the province code, the first letter run and the digits.
   */
  method FormatPlate(input: string) returns (formatted: string)
    ensures formatted == Formatted(input)
  {
    var cleaned := Upper(input);
    cleaned := ApplyFoldTable(cleaned);
    cleaned := Filter(cleaned, PlateChar);
    cleaned := Filter(cleaned, Allowed);
    assert cleaned == Cleaned(input);
    if |cleaned| >= 2 {
      formatted := cleaned[..2];
      if |cleaned| > 2 {
        var remaining := cleaned[2..];
        var letters := FirstLetters(remaining);
        var numbers := Filter(remaining, NotUpper);
        ghost var code := formatted;
        ghost var g1: string := if letters != [] then " " + letters else [];
        ghost var g2: string := if numbers != [] then " " + numbers else [];
        assert g1 + g2 == Groups(remaining);
        if letters != [] {
          formatted := formatted + (" " + letters);
        }
        assert formatted == code + g1;
        if numbers != [] {
          formatted := formatted + (" " + numbers);
        }
        assert formatted == code + g1 + g2;
      }
      return;
    }
    formatted := cleaned;
  }

  /** The loop of `formatPlate` over the fold table, replacing every occurrence of each key in turn. */
  method ApplyFoldTable(s: string) returns (r: string)
    ensures r == FoldTurkish(s)
  {
    r := s;
    assert NoChains(TurkishToEnglish);
    var k := 0;
    while k < |TurkishToEnglish|
      invariant 0 <= k <= |TurkishToEnglish|
      invariant |r| == |s|
      invariant forall i :: 0 <= i < |r| ==> r[i] == Lookup(s[i], TurkishToEnglish[..k])
    {
      var entry := TurkishToEnglish[k];
      r := ReplaceChar(r, entry.0, entry.1);
      forall i | 0 <= i < |r|
        ensures r[i] == Lookup(s[i], TurkishToEnglish[..k + 1])
      {
        LookupPrefix(s[i], TurkishToEnglish, k);
      }
      k := k + 1;
    }
    assert TurkishToEnglish[..k] == TurkishToEnglish;
  }

  /** Characters a formatted plate is made of. */
  predicate PlateText(s: string) {
    forall k :: 0 <= k < |s| ==> (PlateChar(s[k]) || s[k] == ' ') && Allowed(s[k])
  }

  predicate CleanText(s: string) {
    forall k :: 0 <= k < |s| ==> PlateChar(s[k]) && Allowed(s[k])
  }

  lemma CleanedText(input: string)
    ensures CleanText(Cleaned(input))
  {
    var a := Filter(FoldTurkish(Upper(input)), PlateChar);
    var b := Filter(a, Allowed);
    forall k | 0 <= k < |b| ensures PlateChar(b[k]) {
      assert b[k] in a by { FilterMember(a, Allowed, k); }
    }
  }

  lemma {:induction false} FilterMember(s: string, keep: char -> bool, k: nat)
    requires k < |Filter(s, keep)|
    ensures Filter(s, keep)[k] in s
  {
    if s != [] {
      if keep(s[0]) && k == 0 {
      } else {
        var j := if keep(s[0]) then k - 1 else k;
        FilterMember(s[1..], keep, j);
        assert Filter(s[1..], keep)[j] in s[1..];
      }
    }
  }

  /** Dropping the capitals of a cleaned text leaves its digits. */
  lemma FilterUpperDigits(s: string)
    requires CleanText(s)
    ensures AllDigits(Filter(s, NotUpper))
  {
    forall k | 0 <= k < |Filter(s, NotUpper)| ensures IsDigit(Filter(s, NotUpper)[k]) {
      FilterMember(s, NotUpper, k);
    }
  }

  lemma {:induction false} FirstLettersMember(s: string)
    ensures forall k :: 0 <= k < |FirstLetters(s)| ==> FirstLetters(s)[k] in s
  {
    if s != [] && !IsUpper(s[0]) {
      FirstLettersMember(s[1..]);
    }
  }

  lemma PlateTextConcat(a: string, b: string)
    requires PlateText(a) && PlateText(b)
    ensures PlateText(a + b)
  {
    forall k | 0 <= k < |a + b| ensures (PlateChar((a + b)[k]) || (a + b)[k] == ' ') && Allowed((a + b)[k]) {
      if k >= |a| { assert (a + b)[k] == b[k - |a|]; }
    }
  }

  lemma LayoutText(l: string, n: string)
    requires CleanText(l) && CleanText(n)
    ensures PlateText(Layout(l, n))
  {
    assert PlateText(" ");
    if l != [] { PlateTextConcat(" ", l); }
    if n != [] { PlateTextConcat(" ", n); }
    PlateTextConcat(if l != [] then " " + l else [], if n != [] then " " + n else []);
  }

  /** Every character of `Filter(s, keep)` is a character of `s` the filter keeps. */
  lemma FilterClean(s: string, keep: char -> bool)
    requires CleanText(s)
    ensures CleanText(Filter(s, keep))
  {
    var r := Filter(s, keep);
    forall k | 0 <= k < |r| ensures PlateChar(r[k]) && Allowed(r[k]) {
      FilterMember(s, keep, k);
    }
  }

  lemma FirstLettersClean(s: string)
    requires CleanText(s)
    ensures CleanText(FirstLetters(s))
  {
    FirstLettersMember(s);
  }

  /** The output of `formatPlate` holds only `A`–`Z`, digits and spaces, and never `Q`, `W`, `X` or `I`. */
  lemma FormattedText(input: string)
    ensures PlateText(Formatted(input))
  {
    var c := Cleaned(input);
    CleanedText(input);
    if |c| >= 2 {
      assert CleanText(c[..2]);
      if |c| > 2 {
        var rest := c[2..];
        assert CleanText(rest);
        FirstLettersClean(rest);
        FilterClean(rest, NotUpper);
        LayoutText(FirstLetters(rest), Filter(rest, NotUpper));
        PlateTextConcat(c[..2], Groups(rest));
      } else {
        assert Formatted(input) == c[..2] + [];
      }
    }
  }

  lemma {:induction false} UpperRunOf(l: string, n: string)
    requires AllUpper(l) && AllDigits(n)
    ensures UpperRun(l + n) == |l|
  {
    if l != [] {
      assert (l + n)[1..] == l[1..] + n;
      UpperRunOf(l[1..], n);
    } else if n != [] {
      assert !IsUpper((l + n)[0]);
    }
  }

  lemma {:induction false} NoLetters(n: string)
    requires AllDigits(n)
    ensures FirstLetters(n) == []
  {
    if n != [] { NoLetters(n[1..]); }
  }

  /** A filter that keeps none of the characters of `s` returns the empty string. */
  lemma {:induction false} FilterNone(s: string, keep: char -> bool)
    requires forall k :: 0 <= k < |s| ==> !keep(s[k])
    ensures Filter(s, keep) == []
  {
    if s != [] {
      assert forall k :: 0 <= k < |s[1..]| ==> s[1..][k] == s[k + 1];
      FilterNone(s[1..], keep);
    }
  }

  lemma SpaceThen(w: string, keep: char -> bool)
    requires !keep(' ')
    ensures Filter(" " + w, keep) == Filter(w, keep)
  {
    FilterConcat(" ", w, keep);
    assert Filter(" ", keep) == [] + Filter([], keep);
  }

  /** The letter run and the digits are read back from the letters followed by the digits. */
  lemma SplitLetters(l: string, n: string)
    requires AllUpper(l) && AllDigits(n)
    ensures FirstLetters(l + n) == l && Filter(l + n, NotUpper) == n
  {
    FilterNone(l, NotUpper);
    FilterConcat(l, n, NotUpper);
    if l != [] {
      UpperRunOf(l, n);
      assert (l + n)[..|l|] == l;
    } else {
      NoLetters(n);
      assert l + n == n;
    }
  }

  /** Cleaning the layout drops its spaces and nothing else. */
  lemma LayoutCleaned(l: string, n: string)
    requires AllUpper(l) && AllDigits(n)
    ensures Filter(Layout(l, n), PlateChar) == l + n
  {
    var gl := if l != [] then " " + l else [];
    var gn := if n != [] then " " + n else [];
    FilterConcat(gl, gn, PlateChar);
    if l != [] { SpaceThen(l, PlateChar); }
    if n != [] { SpaceThen(n, PlateChar); }
    assert Filter(l, PlateChar) == l;
    assert Filter(n, PlateChar) == n;
  }

  /**
   * Laying out an already cleaned text and cleaning the result again gives
   * back the letter run followed by the digits, and splitting that again
   * gives the same two groups.
   */
  lemma GroupsRoundTrip(rest: string)
    requires CleanText(rest)
    ensures var l, n := FirstLetters(rest), Filter(rest, NotUpper);
      Filter(Groups(rest), PlateChar) == l + n && Groups(l + n) == Groups(rest)
  {
    var l, n := FirstLetters(rest), Filter(rest, NotUpper);
    FilterUpperDigits(rest);
    LayoutCleaned(l, n);
    SplitLetters(l, n);
  }

  /** A text of capitals, digits and spaces without forbidden letters is cleaned by dropping its spaces. */
  lemma CleanedOfText(f: string)
    requires PlateText(f)
    ensures Cleaned(f) == Filter(f, PlateChar)
  {
    UpperFixed(f);
    FoldFixed(f);
    var r := Filter(f, PlateChar);
    forall k | 0 <= k < |r| ensures Allowed(r[k]) {
      FilterMember(f, PlateChar, k);
    }
  }

  /** `formatPlate` is idempotent: a formatted plate is formatted again to itself. */
  lemma FormattedIdempotent(input: string)
    ensures Formatted(Formatted(input)) == Formatted(input)
  {
    var c := Cleaned(input);
    var f := Formatted(input);
    CleanedText(input);
    FormattedText(input);
    CleanedOfText(f);
    if |c| > 2 {
      var rest := c[2..];
      assert CleanText(rest);
      var g := Groups(rest);
      assert f == c[..2] + g;
      FilterConcat(c[..2], g, PlateChar);
      assert Filter(c[..2], PlateChar) == c[..2];
      GroupsRoundTrip(rest);
      var c2 := c[..2] + (FirstLetters(rest) + Filter(rest, NotUpper));
      assert Cleaned(f) == c2;
      assert c2[..2] == c[..2];
      assert c2[2..] == FirstLetters(rest) + Filter(rest, NotUpper);
    } else if |c| == 2 {
      assert f == c;
      assert Filter(f, PlateChar) == f;
    } else {
      assert Filter(f, PlateChar) == f;
    }
  }

  // ------------------------------------------------------------ validation

  /** `/^[0-9]{2}[A-Z]{1,3}[0-9]{1,5}$/.test(s)`, matched left to right. */
  predicate PlatePattern(s: string) {
    |s| >= 2 && IsDigit(s[0]) && IsDigit(s[1])
    && var n := UpperRun(s[2..]);
    1 <= n <= 3 && 1 <= |s| - 2 - n <= 5 && AllDigits(s[2 + n..])
  }

  /**
   * `validatePlate`: false for the empty string; otherwise, with whitespace
   * removed, 5 to 8 characters, a province code that `parseInt` does not
   * read as a number outside 1..81, and the plate pattern.
   */
  predicate ValidatePlate(plate: string) {
    if plate == [] then false else ValidCleaned(RemoveSpaces(plate))
  }

  /** The checks `validatePlate` makes once the whitespace is removed. */
  predicate ValidCleaned(cleaned: string) {
    if |cleaned| < 5 || |cleaned| > 8 then false
    else
      var ilKodu := ParseInt(cleaned[..2]);
      if ilKodu.Some? && (ilKodu.value < 1 || ilKodu.value > 81) then false
      else PlatePattern(cleaned)
  }

  predicate AllUpper(s: string) { forall k :: 0 <= k < |s| ==> IsUpper(s[k]) }

  /** After the province code, `n` capital letters and then only digits, 1 to 5 of them. */
  predicate GroupsAt(c: string, n: nat) {
    1 <= n <= 3 && 2 + n < |c| && |c| - 2 - n <= 5 && AllUpper(c[2..2 + n]) && AllDigits(c[2 + n..])
  }

  /**
   * A plate, with its whitespace removed: a two-digit province code from 01
   * to 81, one to three capital letters, one to five digits, 5 to 8
   * characters in all.
   */
  ghost predicate PlateShape(c: string) {
    5 <= |c| <= 8 && IsDigit(c[0]) && IsDigit(c[1])
    && 1 <= 10 * DigitValue(c[0]) + DigitValue(c[1]) <= 81
    && exists n :: GroupsAt(c, n)
  }

  lemma TwoDigits(c: string)
    requires |c| >= 2 && IsDigit(c[0]) && IsDigit(c[1])
    ensures ParseInt(c[..2]) == Some(10 * DigitValue(c[0]) + DigitValue(c[1]))
  {
    var u := c[..2];
    assert u == [c[0], c[1]];
    assert AllDigits(u);
    assert u[..1] == [c[0]];
    assert DigitsToNat([c[0]]) == DigitValue(c[0]) by {
      assert [c[0]][..0] == [];
    }
    assert DigitsToNat(u) == 10 * DigitValue(c[0]) + DigitValue(c[1]);
    ParseIntDigits(u);
  }

  lemma PatternGroups(c: string)
    requires PlatePattern(c)
    ensures GroupsAt(c, UpperRun(c[2..]))
  {
    var n := UpperRun(c[2..]);
    assert c[2..2 + n] == c[2..][..n];
  }

  lemma GroupsPattern(c: string, n: nat)
    requires |c| >= 2 && IsDigit(c[0]) && IsDigit(c[1]) && GroupsAt(c, n)
    ensures PlatePattern(c)
  {
    assert c[2..] == c[2..2 + n] + c[2 + n..];
    UpperRunOf(c[2..2 + n], c[2 + n..]);
  }

  lemma ValidCleanedShape(c: string)
    ensures ValidCleaned(c) <==> PlateShape(c)
  {
    ValidCleanedPattern(c);
    if 5 <= |c| <= 8 && IsDigit(c[0]) && IsDigit(c[1]) {
      TwoDigits(c);
      if PlatePattern(c) {
        PatternGroups(c);
      }
      if PlateShape(c) {
        var n: nat :| GroupsAt(c, n);
        GroupsPattern(c, n);
      }
    }
  }

  lemma ValidCleanedPattern(c: string)
    ensures ValidCleaned(c) ==> 5 <= |c| <= 8 && PlatePattern(c)
  {
  }

  /** `validatePlate` accepts exactly the strings whose whitespace-free form has the plate shape. */
  lemma ValidatePlateShape(plate: string)
    ensures ValidatePlate(plate) <==> PlateShape(RemoveSpaces(plate))
  {
    ValidCleanedShape(RemoveSpaces(plate));
    if plate == [] {
      assert RemoveSpaces(plate) == [];
    }
  }

  /** Whitespace anywhere in the input does not change the verdict. */
  lemma ValidatePlateIgnoresSpaces(plate: string)
    ensures ValidatePlate(plate) == ValidatePlate(RemoveSpaces(plate))
  {
    ValidatePlateShape(plate);
    ValidatePlateShape(RemoveSpaces(plate));
    RemoveSpacesNoSpaces(plate);
    RemoveSpacesFixed(RemoveSpaces(plate));
  }

  // ------------------------------------------------------------ vehicles

  datatype Vehicle = Vehicle(id: int, plate: string, brand: string, model: string, year: int, vehicleType: string)

  /** The fields of `CreateVehicleRequest` (and of `UpdateVehicleRequest` without its id). */
  datatype VehicleData = VehicleData(plate: string, brand: string, model: string, year: int, vehicleType: string)

  /**
   * `createVehicle` / `updateVehicle`: a plate failing `validatePlate` is
   * refused; otherwise the request goes to the store with only its plate
   * replaced by `formatPlate(plate)`.
   */
  function SaveVehicle(data: VehicleData): (r: Result<VehicleData>)
    ensures r.Err? <==> !ValidatePlate(data.plate)
    ensures r.Ok? ==> r.value == data.(plate := r.value.plate)
    ensures r.Ok? ==> PlateText(r.value.plate) && Formatted(r.value.plate) == r.value.plate
  {
    if !ValidatePlate(data.plate) then Err("Geçersiz plaka formatı")
    else
      FormattedText(data.plate);
      FormattedIdempotent(data.plate);
      Ok(data.(plate := Formatted(data.plate)))
  }

  /** A plate that already went through `formatPlate` is stored exactly as given. */
  lemma SaveFormattedPlate(data: VehicleData, typed: string)
    requires data.plate == Formatted(typed) && ValidatePlate(data.plate)
    ensures SaveVehicle(data) == Ok(data)
  {
    FormattedIdempotent(typed);
  }

  /**
   * `validatePlate` accepts `Q`, `W`, `X` and `I` as letters, which `formatPlate`
   * deletes: a plate whose letter group is one of them (such as "34X12" or "34I12") is
   * accepted, saved without a letter group ("34 12"), and that saved plate
   * is refused by `validatePlate`.
   */
  lemma SavedPlateCanFailValidation(code: string, x: char, digits: string)
    requires |code| == 2 && AllDigits(code) && 1 <= 10 * DigitValue(code[0]) + DigitValue(code[1]) <= 81
    requires x == 'Q' || x == 'W' || x == 'X' || x == 'I'
    requires 2 <= |digits| <= 5 && AllDigits(digits)
    ensures ValidatePlate(code + [x] + digits)
    ensures SaveVehicle(VehicleData(code + [x] + digits, "", "", 0, "")).value.plate == code + " " + digits
    ensures !ValidatePlate(code + " " + digits)
  {
    ForbiddenLetterValid(code, x, digits);
    ForbiddenLetterFormatted(code, x, digits);
    LayoutDigits(code, digits);
    SavedPlate(VehicleData(code + [x] + digits, "", "", 0, ""));
    ForbiddenLetterSavedInvalid(code, digits);
  }

  lemma LayoutDigits(code: string, digits: string)
    requires digits != []
    ensures code + Layout([], digits) == code + " " + digits
  {
  }

  /** A valid plate is saved as `formatPlate` formats it. */
  lemma SavedPlate(data: VehicleData)
    requires ValidatePlate(data.plate)
    ensures SaveVehicle(data).Ok? && SaveVehicle(data).value.plate == Formatted(data.plate)
  {
  }

  lemma ForbiddenLetterValid(code: string, x: char, digits: string)
    requires |code| == 2 && AllDigits(code) && 1 <= 10 * DigitValue(code[0]) + DigitValue(code[1]) <= 81
    requires IsUpper(x) && 2 <= |digits| <= 5 && AllDigits(digits)
    ensures ValidatePlate(code + [x] + digits)
  {
    var c := code + [x] + digits;
    assert NoSpaces(c) by {
      forall k | 0 <= k < |c| ensures !IsSpace(c[k]) {
        if k >= 3 { assert c[k] == digits[k - 3]; }
      }
    }
    RemoveSpacesFixed(c);
    assert GroupsAt(c, 1) by {
      assert c[2..3] == [x] && c[3..] == digits;
    }
    assert c[0] == code[0] && c[1] == code[1];
    ValidCleanedShape(c);
  }

  lemma ForbiddenLetterFormatted(code: string, x: char, digits: string)
    requires |code| == 2 && AllDigits(code) && (x == 'Q' || x == 'W' || x == 'X' || x == 'I') && AllDigits(digits)
    ensures Formatted(code + [x] + digits) == code + Layout([], digits)
  {
    var c := code + [x] + digits;
    assert Cleaned(c) == code + [] + digits by {
      CleanedConcat(code + [x], digits);
      CleanedConcat(code, [x]);
      CleanedChar(x);
      CleanedDigits(code);
      CleanedDigits(digits);
    }
    FormattedOfCleaned(c, code, [], digits);
  }

  /** Digits are kept by cleaning. */
  lemma CleanedDigits(d: string)
    requires AllDigits(d)
    ensures Cleaned(d) == d
  {
    CleanedOfText(d);
  }

  lemma ForbiddenLetterSavedInvalid(code: string, digits: string)
    requires |code| == 2 && AllDigits(code) && AllDigits(digits)
    ensures !ValidatePlate(code + " " + digits)
  {
    var c := code + digits;
    SpacedGroups(code, digits);
    ValidCleanedShape(c);
    if |c| > 2 {
      assert c[2] == digits[0];
      DigitAfterCode(c);
    }
  }

  lemma SpacedGroups(a: string, b: string)
    requires NoSpaces(a) && NoSpaces(b)
    ensures RemoveSpaces(a + " " + b) == a + b
  {
    assert a + " " + b == a + (" " + b);
    RemoveSpacesConcat(a, " " + b);
    SpaceDropped(b);
    RemoveSpacesFixed(a);
    RemoveSpacesFixed(b);
  }

  /** A digit right after the province code leaves no letter group. */
  lemma DigitAfterCode(c: string)
    requires |c| > 2 && IsDigit(c[2])
    ensures !PlateShape(c)
  {
  }

  /** `validatePlate` that also refuses the letters `formatPlate` deletes. */
  predicate ValidatePlateStrict(plate: string) {
    ValidatePlate(plate) && forall k :: 0 <= k < |plate| ==> Allowed(plate[k])
  }

  /**
   * With the strict check, what is saved is the same plate with single
   * spaces between its groups, and it passes the check again.
   */
  lemma StrictPlateSavedValid(plate: string)
    requires ValidatePlateStrict(plate)
    ensures RemoveSpaces(Formatted(plate)) == RemoveSpaces(plate)
    ensures ValidatePlateStrict(Formatted(plate))
  {
    StrictPlateSpaces(plate);
    var f := Formatted(plate);
    FormattedText(plate);
    assert ValidatePlate(f) by {
      assert f != [] by { assert |RemoveSpaces(f)| >= 5; }
    }
  }

  /** A strictly valid plate is saved with the same characters, only its spacing changes. */
  lemma StrictPlateSpaces(plate: string)
    requires ValidatePlateStrict(plate)
    ensures RemoveSpaces(Formatted(plate)) == RemoveSpaces(plate)
    ensures |RemoveSpaces(plate)| >= 5
  {
    var c := RemoveSpaces(plate);
    ValidatePlateShape(plate);
    var n: nat :| GroupsAt(c, n);
    CleanedOfPlate(plate);
    FormattedOfGroups(plate, c, n);
    LaidOut(c, n);
  }

  lemma FormattedOfGroups(input: string, c: string, n: nat)
    requires Cleaned(input) == c && GroupsAt(c, n)
    ensures Formatted(input) == c[..2] + Layout(c[2..2 + n], c[2 + n..])
  {
    assert c == c[..2] + c[2..2 + n] + c[2 + n..];
    FormattedOfCleaned(input, c[..2], c[2..2 + n], c[2 + n..]);
  }

  /** Removing the spaces of the laid-out groups gives back the plate. */
  lemma LaidOut(c: string, n: nat)
    requires GroupsAt(c, n) && IsDigit(c[0]) && IsDigit(c[1])
    ensures RemoveSpaces(c[..2] + Layout(c[2..2 + n], c[2 + n..])) == c
  {
    var l, d := c[2..2 + n], c[2 + n..];
    RemoveSpacesConcat(c[..2], Layout(l, d));
    LayoutSpaces(l, d);
    RemoveSpacesFixed(c[..2]);
    assert c == c[..2] + (l + d);
  }

  /** A cleaned text made of a two-character code, capitals and digits is laid out as those three groups. */
  lemma FormattedOfCleaned(input: string, p: string, l: string, d: string)
    requires Cleaned(input) == p + l + d && |p| == 2 && AllUpper(l) && AllDigits(d)
    ensures Formatted(input) == p + Layout(l, d)
  {
    var c := Cleaned(input);
    assert c[..2] == p;
    if |c| > 2 {
      assert c[2..] == l + d;
      SplitLetters(l, d);
    } else {
      assert l == [] && d == [];
    }
  }

  /** Removing the whitespace of the layout gives back the letters followed by the digits. */
  lemma LayoutSpaces(l: string, n: string)
    requires AllUpper(l) && AllDigits(n)
    ensures RemoveSpaces(Layout(l, n)) == l + n
  {
    var gl := if l != [] then " " + l else [];
    var gn := if n != [] then " " + n else [];
    RemoveSpacesConcat(gl, gn);
    if l != [] { SpaceDropped(l); }
    if n != [] { SpaceDropped(n); }
    RemoveSpacesFixed(l);
    RemoveSpacesFixed(n);
  }

  lemma SpaceDropped(w: string)
    ensures RemoveSpaces(" " + w) == RemoveSpaces(w)
  {
    assert (" " + w)[0] == ' ';
    assert (" " + w)[1..] == w;
  }

  lemma FoldConcat(a: string, b: string)
    ensures FoldTurkish(a + b) == FoldTurkish(a) + FoldTurkish(b)
  {
    forall k | 0 <= k < |a + b| ensures FoldTurkish(a + b)[k] == (FoldTurkish(a) + FoldTurkish(b))[k] {
      if k >= |a| { assert (a + b)[k] == b[k - |a|]; }
    }
  }

  /** Cleaning works character by character: the cleaned concatenation is the concatenation of the cleaned parts. */
  lemma CleanedConcat(a: string, b: string)
    ensures Cleaned(a + b) == Cleaned(a) + Cleaned(b)
  {
    UpperConcat(a, b);
    FoldConcat(Upper(a), Upper(b));
    var fa, fb := FoldTurkish(Upper(a)), FoldTurkish(Upper(b));
    FilterConcat(fa, fb, PlateChar);
    FilterConcat(Filter(fa, PlateChar), Filter(fb, PlateChar), Allowed);
  }

  /** A space, a capital or a digit is kept by cleaning exactly when it is a capital or digit other than `Q`, `W`, `X` and `I`. */
  lemma CleanedChar(c: char)
    requires IsSpace(c) || PlateChar(c)
    ensures Cleaned([c]) == if PlateChar(c) && Allowed(c) then [c] else []
  {
    FoldedChar(c);
    FilterSingle(c, PlateChar);
    FilterSingle(c, Allowed);
    assert Filter([], Allowed) == [];
  }

  /** Upper-casing and folding leave a space, a capital or a digit as it is. */
  lemma FoldedChar(c: char)
    requires IsSpace(c) || PlateChar(c)
    ensures FoldTurkish(Upper([c])) == [c]
  {
    assert [c][1..] == [];
    assert Upper([c]) == [c] by {
      assert UpperChar(c) == [c];
    }
    LookupMiss(c, TurkishToEnglish);
  }

  lemma FilterSingle(c: char, keep: char -> bool)
    ensures Filter([c], keep) == if keep(c) then [c] else []
  {
    assert [c][1..] == [];
  }

  /** A text of spaces and of the characters cleaning keeps is cleaned by removing its whitespace. */
  lemma {:induction false} CleanedSpacedText(s: string)
    requires forall k :: 0 <= k < |s| ==> IsSpace(s[k]) || (PlateChar(s[k]) && Allowed(s[k]))
    ensures Cleaned(s) == RemoveSpaces(s)
  {
    if s == [] {
      assert Upper(s) == [];
    } else {
      var t := s[1..];
      assert s == [s[0]] + t;
      CleanedConcat([s[0]], t);
      RemoveSpacesConcat([s[0]], t);
      CleanedChar(s[0]);
      assert [s[0]][1..] == [];
      assert RemoveSpaces([s[0]]) == if IsSpace(s[0]) then [] else [s[0]];
      assert forall k :: 0 <= k < |t| ==> t[k] == s[k + 1];
      CleanedSpacedText(t);
    }
  }

  /** The characters of a text with the plate shape are capitals and digits. */
  lemma ShapeChars(c: string)
    requires PlateShape(c)
    ensures forall k :: 0 <= k < |c| ==> PlateChar(c[k])
  {
    var n: nat :| GroupsAt(c, n);
    forall k | 0 <= k < |c| ensures PlateChar(c[k]) {
      if 2 <= k < 2 + n {
        assert c[k] == c[2..2 + n][k - 2];
      } else if k >= 2 + n {
        assert c[k] == c[2 + n..][k - 2 - n];
      }
    }
  }

  /** A strictly valid plate is cleaned to its whitespace-free form. */
  lemma CleanedOfPlate(plate: string)
    requires ValidatePlateStrict(plate)
    ensures Cleaned(plate) == RemoveSpaces(plate)
  {
    var c := RemoveSpaces(plate);
    ValidatePlateShape(plate);
    ShapeChars(c);
    forall k | 0 <= k < |plate| && !IsSpace(plate[k]) ensures PlateChar(plate[k]) {
      RemoveSpacesKeeps(plate, k);
    }
    CleanedSpacedText(plate);
  }

  // ------------------------------------------------------------ vehicle form

  datatype VehicleFormError = InvalidPlate | MissingBrand | MissingModel | InvalidYear

  /**
   * `handleSubmit` of the vehicle form: the plate, the brand, the model and
   * the year are checked in that order and the first failure is reported;
   * `currentYear` stands for `new Date().getFullYear()`.
   */
  function CheckVehicleForm(form: VehicleData, currentYear: int): (r: Option<VehicleFormError>)
    ensures r == None <==>
      ValidatePlate(form.plate) && !IsBlank(form.brand) && !IsBlank(form.model) && 1900 <= form.year <= currentYear + 1
    ensures r == Some(InvalidPlate) <==> !ValidatePlate(form.plate)
    ensures r == Some(MissingBrand) <==> ValidatePlate(form.plate) && IsBlank(form.brand)
    ensures r == Some(MissingModel) <==> ValidatePlate(form.plate) && !IsBlank(form.brand) && IsBlank(form.model)
  {
    if !ValidatePlate(form.plate) then Some(InvalidPlate)
    else if IsBlank(form.brand) then Some(MissingBrand)
    else if IsBlank(form.model) then Some(MissingModel)
    else if form.year < 1900 || form.year > currentYear + 1 then Some(InvalidYear)
    else None
  }

  /** `handlePlateChange`: every keystroke stores `formatPlate(value)` as the plate. */
  function PlateChanged(form: VehicleData, value: string): (r: VehicleData)
    ensures r.plate == Formatted(value) && Formatted(r.plate) == r.plate
    ensures r.(plate := form.plate) == form
  {
    FormattedIdempotent(value);
    form.(plate := Formatted(value))
  }

  /**
   * A form whose plate was typed through `handlePlateChange` and that passes
   * `handleSubmit` is stored by the controller exactly as shown.
   */
  lemma FormSubmissionStored(form: VehicleData, typed: string, currentYear: int)
    requires form.plate == Formatted(typed)
    requires CheckVehicleForm(form, currentYear) == None
    ensures SaveVehicle(form) == Ok(form)
  {
    SaveFormattedPlate(form, typed);
  }

  /** Vehicles other than the one with id `id`, in their order. */
  function WithoutId(vs: seq<Vehicle>, id: int): (r: seq<Vehicle>)
    ensures |r| <= |vs| && Subseq(r, vs)
    ensures forall k :: 0 <= k < |r| ==> r[k].id != id && r[k] in vs
    ensures forall k :: 0 <= k < |vs| && vs[k].id != id ==> vs[k] in r
  {
    Select(vs, (x: Vehicle) => x.id != id)
  }


  /**
   * `loadPlateSuggestions`: every vehicle but the one being edited, offered
   * with its plate as the text to compare.
   */
  function PlateSuggestions(all: seq<Vehicle>, editing: Option<Vehicle>): (r: seq<Similarity.Suggestion>)
    ensures editing.None? ==> |r| == |all|
    ensures editing.Some? ==> forall k :: 0 <= k < |r| ==> r[k].id != editing.value.id
    ensures forall k :: 0 <= k < |r| ==> exists v :: v in all && r[k] == Similarity.Suggestion(v.id, v.plate)
  {
    var kept := if editing.Some? then WithoutId(all, editing.value.id) else all;
    seq(|kept|, k requires 0 <= k < |kept| => Similarity.Suggestion(kept[k].id, kept[k].plate))
  }

  /**
   * `checkPlateSimilarity`: the vehicles `search` finds for the formatted
   * plate; a truthy `excludeId` (any value but 0) removes that vehicle, and a
   * failed search gives the empty list.
   */
  function CheckPlateSimilarity(plate: string, search: string -> Result<seq<Vehicle>>, excludeId: int): (r: seq<Vehicle>)
    ensures search(Formatted(plate)).Err? ==> r == []
    ensures search(Formatted(plate)).Ok? && excludeId == 0 ==> r == search(Formatted(plate)).value
    ensures search(Formatted(plate)).Ok? ==> forall v :: v in search(Formatted(plate)).value && v.id != excludeId ==> v in r
    ensures excludeId != 0 ==> forall k :: 0 <= k < |r| ==> r[k].id != excludeId
    ensures forall v :: v in r ==> search(Formatted(plate)).Ok? && v in search(Formatted(plate)).value
  {
    match search(Formatted(plate))
    case Err(_) => []
    case Ok(found) => if excludeId != 0 then WithoutId(found, excludeId) else found
  }
}

=== FILE: records.dfy ===
/**
 * How the import scripts read their input into payment records: lines of
 * tab-separated text pasted from a bank statement, or rows of a bank
 * spreadsheet. A record is the payment date as an ISO 8601 text
 * `YYYY-MM-DD`, the payment description and, from a spreadsheet, the amount.
 * Also here: the `new Date(...)` reading of such a date, the rendering
 * `toISOString().split('T')[0]`, and the VAT split the scripts apply to a
 * spreadsheet amount.
 */
module Records {
  import opened Wrappers
  import opened Text
  import opened Calendar
  import Money
  import opened Jobs

  // ------------------------------------------------------------ the markers

  const OfficeMarker := "MAHKEMELER VEZNES\U{0130}"
  const AdminMarker := "\U{0130}DARE MAHKEMES\U{0130}"
  const RegionalMarker := "B\U{00D6}LGE ADL\U{0130}YE"

  /** A court payment: the description names a cashier office of the courts. */
  predicate HasMarker(d: string) {
    Contains(d, OfficeMarker) || Contains(d, AdminMarker) || Contains(d, RegionalMarker)
  }

  // ------------------------------------------------------------ DD/MM/YYYY

  /** `s.padStart(2, '0')` */
  function PadStart2(s: string): (r: string)
    ensures |r| >= 2 && |r| >= |s|
    ensures r[|r| - |s|..] == s
    ensures forall i :: 0 <= i < |r| - |s| ==> r[i] == '0'
    ensures |s| >= 2 ==> r == s
  {
    if |s| >= 2 then s else seq(2 - |s|, _ => '0') + s
  }

  /**
   * `const [day, month, year] = date.split('/')` followed by
   * `${year}-${month.padStart(2, '0')}-${day.padStart(2, '0')}`. Without a
   * slash `month` is undefined and `padStart` throws: `None`. With one
   * slash `year` is undefined and prints as "undefined".
   */
  function SlashToIso(date: string): (r: Option<string>)
  {
    var parts := Split(date, '/');
    if |parts| < 2 then None
    else
      var year := if |parts| >= 3 then parts[2] else "undefined";
      Some(year + "-" + PadStart2(parts[1]) + "-" + PadStart2(parts[0]))
  }

  /** The conversion throws exactly when the text holds no slash. */
  lemma SlashToIsoThrows(date: string)
    ensures SlashToIso(date).None? <==> '/' !in date
  {
    SplitParts(date, '/');
  }

  /** `s.split(c)` has more than one part exactly when `c` occurs in `s`. */
  lemma {:induction false} SplitParts(s: string, c: char)
    ensures |Split(s, c)| >= 2 <==> c in s
    decreases |s|
  {
    if s != [] {
      SplitParts(s[1..], c);
      assert c in s <==> s[0] == c || c in s[1..];
    }
  }

  /** `DD/MM/YYYY` becomes `YYYY-MM-DD`, day and month padded to two digits. */
  lemma SlashToIsoOf(day: string, month: string, year: string)
    requires '/' !in day && '/' !in month && '/' !in year
    ensures SlashToIso(day + "/" + month + "/" + year) == Some(year + "-" + PadStart2(month) + "-" + PadStart2(day))
  {
    JoinThree(day, month, year, "/");
    SplitJoin([day, month, year], '/');
  }

  /**
   * A real day written `D/M/YYYY` or `DD/MM/YYYY` (four-digit year) becomes
   * its ISO 8601 rendering.
   */
  lemma SlashDateIsIso(d: Date)
    requires Valid(d) && 1000 <= d.year <= 9999
    ensures SlashToIso(NatToString(d.day) + "/" + NatToString(d.month) + "/" + NatToString(d.year)) == Some(IsoDate(d))
    ensures SlashToIso(Pad2(d.day) + "/" + Pad2(d.month) + "/" + NatToString(d.year)) == Some(IsoDate(d))
  {
    PadStartNat(d.day);
    PadStartNat(d.month);
    SlashDigits(NatToString(d.day), NatToString(d.month), d);
    SlashDigits(Pad2(d.day), Pad2(d.month), d);
  }

  /** Day and month digits that pad to the rendering's two digits, and a four-digit year. */
  lemma SlashDigits(day: string, month: string, d: Date)
    requires Valid(d) && 1000 <= d.year <= 9999
    requires AllDigits(day) && AllDigits(month)
    requires PadStart2(day) == Pad2(d.day) && PadStart2(month) == Pad2(d.month)
    ensures SlashToIso(day + "/" + month + "/" + NatToString(d.year)) == Some(IsoDate(d))
  {
    var y := NatToString(d.year);
    DigitsHaveNoSlash(day);
    DigitsHaveNoSlash(month);
    DigitsHaveNoSlash(y);
    SlashToIsoOf(day, month, y);
    LongYear(d.year);
  }

  /** `padStart(2, '0')` pads a number's digits the way `Pad2` does. */
  lemma PadStartNat(n: nat)
    ensures PadStart2(NatToString(n)) == Pad2(n)
    ensures PadStart2(Pad2(n)) == Pad2(n)
  {
    assert seq(1, _ => '0') == ['0'];
  }

  lemma DigitsHaveNoSlash(s: string)
    requires AllDigits(s)
    ensures '/' !in s
  {
    forall i | 0 <= i < |s|
      ensures s[i] != '/'
    {
      assert IsDigit(s[i]);
    }
  }

  /** A year of four digits needs no padding. */
  lemma LongYear(y: nat)
    requires 1000 <= y
    ensures Pad4(y) == NatToString(y)
  {
    NatToStringAtLeast(y);
  }

  lemma {:induction false} NatToStringAtLeast(n: nat)
    ensures n >= 1000 ==> |NatToString(n)| >= 4
    ensures n >= 100 ==> |NatToString(n)| >= 3
    ensures n >= 10 ==> |NatToString(n)| >= 2
    decreases n
  {
    if n >= 10 { NatToStringAtLeast(n / 10); }
  }

  // ------------------------------------------------------------ records

  /** A payment record; `amount` is present when the input had an amount column. */
  datatype Record = Record(paymentDate: string, description: string, amount: Option<Num>)

  /** What reading one line or row does: skip it, keep a record, or throw a TypeError. */
  datatype Outcome = Dropped | Kept(record: Record) | Throws

  /**
   * The loop body of `parseBankExtract` (scripts/import-full-bank-data.js):
   * at least three tab-separated fields, a marker in the trimmed third
   * field, and the trimmed first field converted to an ISO date.
   */
  function ExtractLine(line: string): (o: Outcome)
    ensures o.Kept? ==> HasMarker(o.record.description) && o.record.amount.None?
  {
    var parts := Split(line, '\t');
    if |parts| < 3 then Dropped
    else
      var description := Trim(parts[2]);
      if !HasMarker(description) then Dropped
      else
        match SlashToIso(Trim(parts[0]))
        case None => Throws
        case Some(iso) => Kept(Record(iso, description, None))
  }

  /** A line is dropped exactly when it has fewer than three fields or its description names no cashier office. */
  lemma ExtractLineDropped(line: string)
    ensures var parts := Split(line, '\t');
      ExtractLine(line).Dropped? <==> |parts| < 3 || !HasMarker(Trim(parts[2]))
  {
  }

  /** A statement line `date TAB number TAB description` is read as that date and description. */
  lemma ExtractLineOf(date: string, number: string, description: string)
    requires '\t' !in date && '\t' !in number && '\t' !in description
    requires HasMarker(Trim(description)) && '/' in Trim(date)
    ensures SlashToIso(Trim(date)).Some?
    ensures ExtractLine(date + "\t" + number + "\t" + description)
      == Kept(Record(SlashToIso(Trim(date)).value, Trim(description), None))
  {
    SlashToIsoThrows(Trim(date));
    TabFields(date, number, description);
  }

  lemma TabFields(a: string, b: string, c: string)
    requires '\t' !in a && '\t' !in b && '\t' !in c
    ensures Split(a + "\t" + b + "\t" + c, '\t') == [a, b, c]
  {
    JoinThree(a, b, c, "\t");
    SplitJoin([a, b, c], '\t');
  }

  /**
   * The loop body of `parseBankData` (scripts/import-all-bank-jobs.js): at
   * least two fields, the description is the trimmed second field, and
   * there is no marker filter.
   */
  function BankDataLine(line: string): (o: Outcome)
    ensures o.Dropped? <==> |Split(line, '\t')| < 2
    ensures o.Kept? ==> o.record.description == Trim(Split(line, '\t')[1]) && o.record.amount.None?
  {
    var parts := Split(line, '\t');
    if |parts| < 2 then Dropped
    else
      match SlashToIso(Trim(parts[0]))
      case None => Throws
      case Some(iso) => Kept(Record(iso, Trim(parts[1]), None))
  }

  /**
   * The records of the kept items in input order; `None` when reading an
   * item throws, which ends the script.
   */
  function Gather<T>(items: seq<T>, read: T -> Outcome): (r: Option<seq<Record>>)
    ensures r.Some? ==> |r.value| <= |items|
    decreases |items|
  {
    if items == [] then Some([])
    else
      match Gather(items[..|items| - 1], read)
      case None => None
      case Some(rs) =>
        match read(items[|items| - 1])
        case Throws => None
        case Dropped => Some(rs)
        case Kept(rec) => Some(rs + [rec])
  }

  /** Reading stops with an error exactly when some item throws. */
  lemma {:induction false} GatherThrows<T>(items: seq<T>, read: T -> Outcome)
    ensures Gather(items, read).None? <==> exists i :: 0 <= i < |items| && read(items[i]).Throws?
    decreases |items|
  {
    if items != [] {
      var init := items[..|items| - 1];
      GatherThrows(init, read);
      assert forall i :: 0 <= i < |init| ==> init[i] == items[i];
      if exists i :: 0 <= i < |items| && read(items[i]).Throws? {
        var i :| 0 <= i < |items| && read(items[i]).Throws?;
        if i < |init| { assert read(init[i]).Throws?; }
      }
    }
  }

  /**
   * Every record comes from a kept item: the records of `a + b` are those
   * of `a` followed by those of `b`, so the input order is kept.
   */
  lemma {:induction false} GatherAppend<T>(a: seq<T>, b: seq<T>, read: T -> Outcome)
    ensures Gather(a + b, read) ==
      if Gather(a, read).Some? && Gather(b, read).Some? then Some(Gather(a, read).value + Gather(b, read).value)
      else None
    decreases |b|
  {
    if b == [] {
      assert a + b == a;
      if Gather(a, read).Some? { assert Gather(a, read).value + [] == Gather(a, read).value; }
    } else {
      var b0 := b[..|b| - 1];
      GatherAppend(a, b0, read);
      assert (a + b)[..|a + b| - 1] == a + b0;
      assert (a + b)[|a + b| - 1] == b[|b| - 1];
      if Gather(a, read).None? {
      } else if Gather(b0, read).Some? {
        var ra := Gather(a, read).value;
        var rb := Gather(b0, read).value;
        match read(b[|b| - 1])
        case Throws =>
        case Dropped =>
        case Kept(rec) => assert ra + rb + [rec] == ra + (rb + [rec]);
      }
    }
  }

  /** A single item gives its record, nothing, or the error. */
  lemma GatherOne<T>(x: T, read: T -> Outcome)
    ensures Gather([x], read) == match read(x)
      case Throws => None
      case Dropped => Some([])
      case Kept(rec) => Some([rec])
  {
    var items := [x];
    assert items[..|items| - 1] == [];
    assert Gather(items[..|items| - 1], read) == Some([]);
    match read(x)
    case Kept(rec) => assert [] + [rec] == [rec];
    case Dropped =>
    case Throws =>
  }

  /** Every record of `parseBankExtract` names a cashier office and came from some line. */
  lemma ExtractRecords(lines: seq<string>)
    requires Gather(lines, ExtractLine).Some?
    ensures forall k :: 0 <= k < |Gather(lines, ExtractLine).value| ==>
      HasMarker(Gather(lines, ExtractLine).value[k].description)
    ensures forall k :: 0 <= k < |Gather(lines, ExtractLine).value| ==>
      exists i :: 0 <= i < |lines| && ExtractLine(lines[i]) == Kept(Gather(lines, ExtractLine).value[k])
  {
    GatherFrom(lines, ExtractLine);
  }

  lemma {:induction false} GatherFrom<T>(items: seq<T>, read: T -> Outcome)
    requires Gather(items, read).Some?
    ensures forall k :: 0 <= k < |Gather(items, read).value| ==>
      exists i :: 0 <= i < |items| && read(items[i]) == Kept(Gather(items, read).value[k])
    decreases |items|
  {
    if items != [] {
      var init := items[..|items| - 1];
      GatherFrom(init, read);
      assert forall i :: 0 <= i < |init| ==> init[i] == items[i];
    }
  }

  /** `parseBankExtract`: trim the text, split it into lines and read each. */
  method ParseBankExtract(text: string) returns (r: Option<seq<Record>>)
    ensures r == Gather(Split(Trim(text), '\n'), ExtractLine)
  {
    r := ReadLines(Split(Trim(text), '\n'), ExtractLine);
  }

  /** `parseBankData` of scripts/import-all-bank-jobs.js */
  method ParseBankData(text: string) returns (r: Option<seq<Record>>)
    ensures r == Gather(Split(Trim(text), '\n'), BankDataLine)
  {
    r := ReadLines(Split(Trim(text), '\n'), BankDataLine);
  }

  /** The loop shared by the parsers: push each kept record; a throw ends it. */
  method ReadLines<T>(items: seq<T>, read: T -> Outcome) returns (r: Option<seq<Record>>)
    ensures r == Gather(items, read)
  {
    var results: seq<Record> := [];
    var i := 0;
    while i < |items|
      invariant 0 <= i <= |items|
      invariant Gather(items[..i], read) == Some(results)
    {
      assert items[..i + 1][..i] == items[..i];
      match read(items[i]) {
        case Throws =>
          GatherThrows(items, read);
          return None;
        case Dropped =>
        case Kept(rec) =>
          results := results + [rec];
      }
      i := i + 1;
    }
    assert items[..i] == items;
    r := Some(results);
  }

  // ------------------------------------------------------------ spreadsheets

  /** A JavaScript number as an exact signed decimal. */
  datatype Num = Num(negative: bool, magnitude: Decimal)

  /** `x > 0` */
  predicate Positive(n: Num) { !n.negative && n.magnitude.digits > 0 }

  /** A spreadsheet cell as `sheet_to_json` gives it: missing, text or a number. */
  datatype Cell = Empty | Text(text: string) | Number(num: Num)

  /** The cell is truthy in JavaScript. */
  predicate TruthyCell(c: Cell) {
    match c
    case Empty => false
    case Text(s) => s != []
    case Number(n) => n.magnitude.digits != 0
  }

  /**
   * `parseFloat(s)`: leading whitespace, an optional sign, then digits
   * with at most one dot; `None` is `NaN`.
   */
  function ParseFloat(s: string): (r: Option<Num>)
  {
    var t := TrimStart(s);
    if t != [] && (t[0] == '-' || t[0] == '+') then
      match ParseDecimal(t[1..])
      case None => None
      case Some(d) => Some(Num(t[0] == '-', d))
    else
      match ParseDecimal(t)
      case None => None
      case Some(d) => Some(Num(false, d))
  }

  predicate NotComma(c: char) { c != ',' }

  /**
   * The amount column: a number as it is, a text with its commas removed
   * and read by `parseFloat`, anything else 0.
   */
  function CellAmount(c: Cell): (r: Option<Num>)
    ensures c.Number? ==> r == Some(c.num)
    ensures c.Text? ==> r == ParseFloat(Filter(c.text, NotComma))
  {
    match c
    case Empty => Some(Num(false, Decimal(0, 0)))
    case Text(s) => ParseFloat(Filter(s, NotComma))
    case Number(n) => Some(n)
  }

  /** `!totalAmount || totalAmount <= 0` is false. */
  predicate Accepted(a: Option<Num>) { a.Some? && Positive(a.value) }

  function Pow10(n: nat): (p: nat)
    ensures p >= 1
  {
    if n == 0 then 1 else 10 * Pow10(n - 1)
  }

  /**
   * `XLSX.SSF.parse_date_code(v)` in the 1900 date system: `None` (null)
   * below 0 or above 2958465; the whole days count from 31 December 1899,
   * with day 60 the nonexistent 29 February 1900 and day 0 the "0 January".
   */
  function SerialDate(n: Num): (r: Option<(int, nat, nat)>)
    ensures r.Some? ==> 1 <= r.value.1 <= 12
  {
    if n.negative && n.magnitude.digits > 0 then None
    else if n.magnitude.digits > 2958465 * Pow10(n.magnitude.scale) then None
    else
      var date := n.magnitude.digits / Pow10(n.magnitude.scale);
      if date == 60 then Some((1900, 2, 29))
      else if date == 0 then Some((1900, 1, 0))
      else
        var d := AddDays(Date(1900, 1, 1), (if date > 60 then date - 1 else date) - 1);
        Some((d.year, d.month, d.day))
  }

  /** The date column of `parseExcelRow`: the ISO text, `null`, or a TypeError. */
  datatype DateCell = NoDate | IsoText(iso: string) | DateThrows

  function ExcelDate(c: Cell): (r: DateCell)
    ensures c.Empty? <==> r.NoDate?
    ensures c.Text? ==> (r.DateThrows? <==> '/' !in c.text)
  {
    match c
    case Empty => NoDate
    case Text(s) =>
      SlashToIsoThrows(s);
      (match SlashToIso(s)
       case None => DateThrows
       case Some(iso) => IsoText(iso))
    case Number(n) =>
      match SerialDate(n)
      case None => DateThrows
      case Some((y, m, d)) => IsoText(IntToString(y) + "-" + Pad2(m) + "-" + Pad2(d))
  }

  /**
   * `parseExcelRow` (scripts/import-from-excel.js, scripts/one-time-import.js,
   * scripts/prepare-database.js): seven cells at least, a truthy text in
   * column 5 naming a cashier office, a date in column 0 and a positive
   * amount in column 6. A truthy number in column 5 has no `includes` and
   * throws.
   */
  function ExcelRow(row: seq<Cell>): (o: Outcome)
    ensures o.Kept? ==> |row| >= 7 && row[5].Text? && HasMarker(row[5].text) && o.record.description == row[5].text
    ensures o.Kept? ==> Accepted(o.record.amount) && o.record.amount == CellAmount(row[6])
    ensures |row| < 7 ==> o.Dropped?
  {
    if |row| < 7 then Dropped
    else
      match row[5]
      case Empty => Dropped
      case Number(n) => (if n.magnitude.digits == 0 then Dropped else Throws)
      case Text(description) =>
        if !HasMarker(description) then Dropped
        else
          match ExcelDate(row[0])
          case NoDate => Dropped
          case DateThrows => Throws
          case IsoText(iso) =>
            var amount := CellAmount(row[6]);
            if !Accepted(amount) then Dropped
            else Kept(Record(iso, description, amount))
  }

  /** A row without a cashier office in column 5, or with a missing, zero, negative or unreadable amount, gives nothing. */
  lemma ExcelRowDropped(row: seq<Cell>)
    requires |row| >= 7 && row[5].Text? && row[0].Text? && '/' in row[0].text
    ensures ExcelRow(row).Dropped? <==> !HasMarker(row[5].text) || !Accepted(CellAmount(row[6]))
  {
  }

  /** The spreadsheet rows the scripts look at: from index 12 on. */
  function DataRows(rows: seq<seq<Cell>>): (r: seq<seq<Cell>>)
    ensures |rows| <= 12 ==> r == []
    ensures |rows| > 12 ==> r == rows[12..]
  {
    if |rows| <= 12 then [] else rows[12..]
  }

  /** The first twelve rows never matter. */
  lemma HeaderRowsIgnored(a: seq<seq<Cell>>, b: seq<seq<Cell>>, rest: seq<seq<Cell>>)
    requires |a| == 12 && |b| == 12
    ensures Gather(DataRows(a + rest), ExcelRow) == Gather(DataRows(b + rest), ExcelRow)
  {
    assert (a + rest)[12..] == rest;
    assert (b + rest)[12..] == rest;
  }

  /** The loop `for (let i = 12; i < excelData.length; i++)` over `parseExcelRow`. */
  method ParseSheet(rows: seq<seq<Cell>>) returns (r: Option<seq<Record>>)
    ensures r == Gather(DataRows(rows), ExcelRow)
  {
    r := ReadLines(DataRows(rows), ExcelRow);
  }

  // ------------------------------------------------------------ ISO dates

  predicate IsoShape(s: string) {
    |s| == 10 && s[4] == '-' && s[7] == '-'
    && AllDigits(s[..4]) && AllDigits(s[5..7]) && AllDigits(s[8..])
  }

  /**
   * `new Date(s)` for a date-only ISO text: four-digit year, a month
   * 01..12 and a day 01..31; a day past the end of the month runs into the
   * next month. `None` is an Invalid Date.
   */
  function ParseIso(s: string): (r: Option<Date>)
    ensures r.Some? ==> Valid(r.value) && 0 <= r.value.year <= 10000
  {
    if !IsoShape(s) then None
    else
      var y, m, d := DigitsToNat(s[..4]), DigitsToNat(s[5..7]), DigitsToNat(s[8..]);
      if 1 <= m <= 12 && 1 <= d <= 31 then
        FourDigits(s[..4]);
        var r := AddDays(Date(y, m, 1), d - 1);
        DayInMonthRange(y, m, d);
        Some(r)
      else None
  }

  lemma {:induction false} FourDigits(s: string)
    requires AllDigits(s)
    ensures DigitsToNat(s) < Pow10(|s|)
    decreases |s|
  {
    if s != [] {
      FourDigits(s[..|s| - 1]);
    }
  }

  /** Rolling at most 30 days into a month of year `y` stays within years `y` and `y + 1`. */
  lemma DayInMonthRange(y: nat, m: int, d: int)
    requires 1 <= m <= 12 && 1 <= d <= 31 && y < 10000
    ensures 0 <= AddDays(Date(y, m, 1), d - 1).year <= 10000
  {
    var first := Date(y, m, 1);
    var r := AddDays(first, d - 1);
    AddDaysNumber(first, d - 1);
    YearRange(r);
    YearRange(first);
    if r.year < y {
      YearsApart(r.year + 1, y);
      assert false;
    }
    if r.year > y + 1 {
      YearsApart(y + 2, r.year);
      YearLength(y + 1);
      assert false;
    }
  }

  /** `toISOString().split('T')[0]`; years outside 0..9999 get a sign and six digits. */
  function IsoString(d: Date): (s: string)
    requires Valid(d)
  {
    if 0 <= d.year <= 9999 then IsoDate(d)
    else
      var t := NatToString(if d.year < 0 then -d.year else d.year);
      (if d.year < 0 then "-" else "+") + (if |t| < 6 then seq(6 - |t|, _ => '0') else []) + t
        + "-" + Pad2(d.month) + "-" + Pad2(d.day)
  }

  /** Reading back a rendered day gives the day. */
  lemma IsoRoundTrip(d: Date)
    requires Valid(d) && 0 <= d.year <= 9999
    ensures ParseIso(IsoString(d)) == Some(d)
  {
    var s := IsoDate(d);
    NatToStringLength(d.year);
    assert |Pad4(d.year)| == 4;
    assert |Pad2(d.month)| == 2 && |Pad2(d.day)| == 2;
    assert s[..4] == Pad4(d.year);
    assert s[5..7] == Pad2(d.month);
    assert s[8..] == Pad2(d.day);
    Pad4RoundTrip(d.year);
    Pad2RoundTrip(d.month);
    Pad2RoundTrip(d.day);
    var first := Date(d.year, d.month, 1);
    AddDaysNumber(first, d.day - 1);
    DayNumberInjective(AddDays(first, d.day - 1), d);
  }

  // ------------------------------------------------------------ amounts

  /** `Math.round(x * 100)` for a non-negative decimal `x`: its kuruş, halves rounded up. */
  function Kurus(d: Decimal): (k: int)
    ensures k >= 0
  {
    Money.RoundDiv(100 * d.digits, Pow10(d.scale))
  }

  /**
   * `calculateAmounts` / `calculateVAT` of the scripts on an exact decimal
   * total: the base is the total divided by 1 + rate/100, rounded to the
   * kuruş; the VAT is the exact total minus that base, rounded to the kuruş;
   * the total is rounded to the kuruş. Base and VAT add up to the rounded
   * total.
   */
  function DecimalSplit(d: Decimal, rate: nat): (s: Money.Split)
    ensures s.total == Kurus(d) && s.rate == rate
    ensures s.base + s.vat == s.total
    ensures var q := (100 + rate) * Pow10(d.scale);
      2 * q * s.base <= 2 * 10000 * d.digits + q < 2 * q * s.base + 2 * q
  {
    var q := Pow10(d.scale);
    var base := Money.RoundDiv(100 * 100 * d.digits, (100 + rate) * q);
    RoundShift(100 * d.digits, base, q);
    Money.Split(base, Money.RoundDiv(100 * d.digits - base * q, q), Kurus(d), rate)
  }

  /** Subtracting whole units before rounding subtracts them after. */
  lemma RoundShift(p: int, b: int, q: int)
    requires q > 0
    ensures Money.RoundDiv(p - b * q, q) == Money.RoundDiv(p, q) - b
  {
    var r := Money.RoundDiv(p, q);
    var s := Money.RoundDiv(p - b * q, q);
    assert 2 * q * (r - b) <= 2 * (p - b * q) + q < 2 * q * (r - b) + 2 * q;
    if s < r - b { Money.MulMono(2 * q, s + 1, r - b); }
    if s > r - b { Money.MulMono(2 * q, r - b + 1, s); }
  }

  /** An amount already in whole kuruş splits as the integer-kuruş split does. */
  lemma WholeKurusSplit(d: Decimal, rate: nat)
    requires d.scale <= 2
    ensures DecimalSplit(d, rate) == Money.ScriptSplit(Kurus(d), rate)
  {
    var q := Pow10(d.scale);
    var c := Pow10(2 - d.scale);
    PowSplit(d.scale);
    var k := d.digits * c;
    assert 100 * d.digits == k * q by {
      assert q * c == 100;
      calc {
        k * q;
        d.digits * (c * q);
        d.digits * 100;
      }
    }
    assert Kurus(d) == k by { RoundExact(k, q); }
    RoundScale(100 * k, 100 + rate, q);
    assert 100 * 100 * d.digits == 100 * k * q;
    assert (100 + rate) * q == q * (100 + rate);
  }

  lemma PowSplit(s: nat)
    requires s <= 2
    ensures Pow10(s) * Pow10(2 - s) == 100
  {
    assert Pow10(1) == 10;
    assert Pow10(2) == 100;
  }

  /** `Money.RoundDiv(k * q, q) == k` */
  lemma RoundExact(k: int, q: int)
    requires q > 0
    ensures Money.RoundDiv(k * q, q) == k
  {
    var r := Money.RoundDiv(k * q, q);
    if r < k { Money.MulMono(2 * q, r + 1, k); }
    if r > k { Money.MulMono(2 * q, k + 1, r); }
  }

  /** Scaling numerator and denominator by the same factor leaves the rounded quotient alone. */
  lemma RoundScale(p: int, q: int, c: int)
    requires q > 0 && c > 0
    ensures Money.RoundDiv(p * c, q * c) == Money.RoundDiv(p, q)
  {
    var r := Money.RoundDiv(p, q);
    var s := Money.RoundDiv(p * c, q * c);
    assert 2 * q * r <= 2 * p + q < 2 * q * r + 2 * q;
    assert 2 * (q * c) * s <= 2 * (p * c) + q * c < 2 * (q * c) * s + 2 * (q * c);
    assert 2 * (q * c) * s == (2 * q * s) * c;
    assert 2 * (p * c) + q * c == (2 * p + q) * c;
    assert 2 * (q * c) * s + 2 * (q * c) == (2 * q * s + 2 * q) * c;
    MulCancel(2 * q * s, 2 * p + q, c);
    MulCancelLt(2 * p + q, 2 * q * s + 2 * q, c);
    if s < r { Money.MulMono(2 * q, s + 1, r); }
    if s > r { Money.MulMono(2 * q, r + 1, s); }
  }

  lemma MulCancel(a: int, b: int, c: int)
    requires c > 0 && a * c <= b * c
    ensures a <= b
  {
    if a > b { Money.MulMono(c, b + 1, a); }
  }

  lemma MulCancelLt(a: int, b: int, c: int)
    requires c > 0 && a * c < b * c
    ensures a < b
  {
    if a >= b { Money.MulMono(c, b, a); }
  }
}

=== FILE: similarity.dfy ===
/**
 * The fuzzy matcher of the smart input box (src/shared/components/SmartInput.tsx):
 * Turkish-to-ASCII normalisation, Levenshtein distance, a 0..100 similarity
 * score, and the ranked, truncated suggestion list with its colour tier.
 */
module Similarity {
  import opened Text
  import Money

  // ------------------------------------------------------------ normalising

  /**
   * One character after `toLowerCase()` and the fold replacements, or nothing
   * when `[^a-z0-9\s]` removes it. `İ` lower-cases to `i` plus a combining
   * dot, which the filter then drops, and the Kelvin sign lower-cases to `k`.
   */
  function FoldChar(c: char): (r: seq<char>)
    ensures |r| <= 1
    ensures Folded(r)
  {
    if IsUpper(c) then [(c as int + 32) as char]
    else if IsLower(c) || IsDigit(c) || IsSpace(c) then [c]
    else if c == 'ç' || c == 'Ç' then ['c']
    else if c == 'ğ' || c == 'Ğ' then ['g']
    else if c == 'ı' || c == 'İ' then ['i']
    else if c == 'ö' || c == 'Ö' then ['o']
    else if c == 'ş' || c == 'Ş' then ['s']
    else if c == 'ü' || c == 'Ü' then ['u']
    else if c == '\U{212A}' then ['k']
    else []
  }

  /** Only characters the filter `[^a-z0-9\s]` lets through. */
  predicate Folded(s: string) {
    forall k :: 0 <= k < |s| ==> IsLower(s[k]) || IsDigit(s[k]) || IsSpace(s[k])
  }

  predicate CanonChar(c: char) { IsLower(c) || IsDigit(c) || c == ' ' }
  predicate CanonChars(s: string) { forall k :: 0 <= k < |s| ==> CanonChar(s[k]) }
  predicate SingleSpaced(s: string) { forall k :: 0 < k < |s| ==> !(s[k - 1] == ' ' && s[k] == ' ') }

  /** What `normalizeString` produces: `[a-z0-9]` words separated by single spaces. */
  predicate Canonical(r: string) {
    CanonChars(r) && SingleSpaced(r) && (r == [] || (r[0] != ' ' && r[|r| - 1] != ' '))
  }

  function Fold(s: string): (r: string)
    ensures Folded(r)
  {
    if s == [] then []
    else
      var h, t := FoldChar(s[0]), Fold(s[1..]);
      assert forall k :: |h| <= k < |h + t| ==> (h + t)[k] == t[k - |h|];
      h + t
  }

  /** `replace(/\s+/g, ' ')`: every run of whitespace becomes one space. */
  function CollapseSpaces(s: string): (r: string)
  {
    if s == [] then []
    else if IsSpace(s[0]) then [' '] + CollapseSpaces(TrimStart(s[1..]))
    else [s[0]] + CollapseSpaces(s[1..])
  }

  lemma {:induction false} CollapseShape(s: string)
    requires Folded(s)
    ensures CanonChars(CollapseSpaces(s)) && SingleSpaced(CollapseSpaces(s))
    ensures s != [] ==> CollapseSpaces(s) != [] && (IsSpace(s[0]) <==> CollapseSpaces(s)[0] == ' ')
    decreases |s|
  {
    if s != [] {
      var r := CollapseSpaces(s);
      if IsSpace(s[0]) {
        var t := TrimStart(s[1..]);
        assert Folded(t) by {
          forall k | 0 <= k < |t| ensures IsLower(t[k]) || IsDigit(t[k]) || IsSpace(t[k]) {
            assert t[k] == s[1 + |s[1..]| - |t| + k];
          }
        }
        CollapseShape(t);
        var ct := CollapseSpaces(t);
        assert r == [' '] + ct;
        assert forall k :: 1 <= k < |r| ==> r[k] == ct[k - 1];
      } else {
        assert Folded(s[1..]) by {
          forall k | 0 <= k < |s[1..]| ensures IsLower(s[1..][k]) || IsDigit(s[1..][k]) || IsSpace(s[1..][k]) {
            assert s[1..][k] == s[k + 1];
          }
        }
        CollapseShape(s[1..]);
        var ct := CollapseSpaces(s[1..]);
        assert r == [s[0]] + ct;
        assert forall k :: 1 <= k < |r| ==> r[k] == ct[k - 1];
      }
    }
  }

  lemma TrimmedCanonical(c: string)
    requires CanonChars(c) && SingleSpaced(c)
    ensures Canonical(Trim(c))
  {
    var i := TrimOffset(c);
    CanonInfix(c, i, i + |Trim(c)|);
    assert IsSpace(' ');
  }

  lemma CanonInfix(c: string, i: nat, j: nat)
    requires CanonChars(c) && SingleSpaced(c) && i <= j <= |c|
    ensures CanonChars(c[i..j]) && SingleSpaced(c[i..j])
  {
    var v := c[i..j];
    assert forall k :: 0 <= k < |v| ==> v[k] == c[k + i];
  }

  /** `normalizeString`: fold, drop, collapse whitespace, trim. */
  function Normalize(s: string): string
  {
    Trim(CollapseSpaces(Fold(s)))
  }

  /** The normal form is lower-case ASCII words and digits separated by single spaces. */
  lemma NormalizeCanonical(s: string)
    ensures Canonical(Normalize(s))
  {
    CollapseShape(Fold(s));
    TrimmedCanonical(CollapseSpaces(Fold(s)));
  }

  lemma {:induction false} FoldCanonical(r: string)
    requires CanonChars(r)
    ensures Fold(r) == r
    decreases |r|
  {
    if r != [] {
      assert CanonChars(r[1..]) by {
        forall k | 0 <= k < |r[1..]| ensures CanonChar(r[1..][k]) { assert r[1..][k] == r[k + 1]; }
      }
      FoldCanonical(r[1..]);
      assert CanonChar(r[0]);
      assert FoldChar(r[0]) == [r[0]];
    }
  }

  lemma CanonNotSpace(c: char)
    requires CanonChar(c) && c != ' '
    ensures !IsSpace(c)
  {
  }

  lemma CollapseWordChar(r: string)
    requires r != [] && !IsSpace(r[0])
    ensures CollapseSpaces(r) == [r[0]] + CollapseSpaces(r[1..])
  {
  }

  lemma CollapseOneSpace(u: string)
    requires u == [] || !IsSpace(u[0])
    ensures CollapseSpaces([' '] + u) == [' '] + CollapseSpaces(u)
  {
    assert ([' '] + u)[1..] == u;
    assert TrimStart(u) == u;
  }

  lemma {:induction false} CollapseCanonical(r: string)
    requires CanonChars(r) && SingleSpaced(r)
    requires r == [] || r[0] != ' '
    ensures CollapseSpaces(r) == r
    decreases |r|
  {
    if r != [] {
      CanonNotSpace(r[0]);
      CollapseWordChar(r);
      var u := r[1..];
      CanonSuffix(r, 1);
      if |r| > 1 && r[1] == ' ' {
        // a single space, and the text after it does not start with a space
        var v := r[2..];
        CanonSuffix(r, 2);
        if v != [] {
          assert v[0] == r[2] && r[2] != ' ';
          CanonNotSpace(v[0]);
        }
        assert u == [' '] + v;
        CollapseOneSpace(v);
        CollapseCanonical(v);
      } else {
        CollapseCanonical(u);
      }
      assert r == [r[0]] + u;
    }
  }

  lemma CanonSuffix(r: string, d: nat)
    requires CanonChars(r) && SingleSpaced(r) && d <= |r|
    ensures CanonChars(r[d..]) && SingleSpaced(r[d..])
  {
    var v := r[d..];
    assert forall k :: 0 <= k < |v| ==> v[k] == r[k + d];
  }

  /** Normalising twice is normalising once. */
  lemma NormalizeIdempotent(s: string)
    ensures Normalize(Normalize(s)) == Normalize(s)
  {
    var r := Normalize(s);
    NormalizeCanonical(s);
    FoldCanonical(r);
    CollapseCanonical(r);
    if r != [] {
      assert CanonChar(r[0]) && CanonChar(r[|r| - 1]);
      assert TrimStart(r) == r;
      assert TrimEnd(r) == r;
    }
  }

  // ------------------------------------------------------------ distance

  function Min3(a: nat, b: nat, c: nat): (m: nat)
    ensures m <= a && m <= b && m <= c && (m == a || m == b || m == c)
  {
    if a <= b && a <= c then a else if b <= c then b else c
  }

  /**
   * The edit distance the matrix of `levenshteinDistance` holds for a prefix
   * `a` of the first string and `b` of the second: equal last characters take
   * the diagonal, otherwise one plus the least of substitute, insert, delete.
   */
  function Lev(a: string, b: string): nat
    decreases |a| + |b|
  {
    if |a| == 0 then |b|
    else if |b| == 0 then |a|
    else
      var a', b' := a[..|a| - 1], b[..|b| - 1];
      if a[|a| - 1] == b[|b| - 1] then Lev(a', b')
      else 1 + Min3(Lev(a', b'), Lev(a', b), Lev(a, b'))
  }

  lemma LevStep(s1: string, s2: string, i: nat, j: nat)
    requires 1 <= i <= |s2| && 1 <= j <= |s1|
    ensures Lev(s1[..j], s2[..i]) ==
      if s2[i - 1] == s1[j - 1] then Lev(s1[..j - 1], s2[..i - 1])
      else 1 + Min3(Lev(s1[..j - 1], s2[..i - 1]), Lev(s1[..j - 1], s2[..i]), Lev(s1[..j], s2[..i - 1]))
  {
    assert s1[..j][..j - 1] == s1[..j - 1];
    assert s2[..i][..i - 1] == s2[..i - 1];
  }

  /** Row `r` of the matrix holds the distances of every prefix of `s1` to `s2[..r]`. */
  ghost predicate RowDone(m: array2<nat>, s1: string, s2: string, r: nat)
    requires m.Length0 == |s2| + 1 && m.Length1 == |s1| + 1 && r <= |s2|
    reads m
  {
    forall c :: 0 <= c <= |s1| ==> m[r, c] == Lev(s1[..c], s2[..r])
  }

  /** The inner loop of `levenshteinDistance`: fills row `i` from row `i - 1`. */
  method FillRow(m: array2<nat>, s1: string, s2: string, i: nat)
    requires m.Length0 == |s2| + 1 && m.Length1 == |s1| + 1 && 1 <= i <= |s2|
    requires RowDone(m, s1, s2, i - 1)
    requires m[i, 0] == i
    modifies m
    ensures RowDone(m, s1, s2, i)
    ensures forall r, c :: 0 <= r < m.Length0 && 0 <= c < m.Length1 && r != i ==> m[r, c] == old(m[r, c])
  {
    assert m[i, 0] == Lev(s1[..0], s2[..i]);
    var j := 1;
    while j <= |s1|
      invariant 1 <= j <= |s1| + 1
      invariant RowDone(m, s1, s2, i - 1)
      invariant forall c :: 0 <= c < j ==> m[i, c] == Lev(s1[..c], s2[..i])
      invariant forall r, c :: 0 <= r < m.Length0 && 0 <= c < m.Length1 && r != i ==> m[r, c] == old(m[r, c])
    {
      LevStep(s1, s2, i, j);
      if s2[i - 1] == s1[j - 1] {
        m[i, j] := m[i - 1, j - 1];
      } else {
        m[i, j] := Min3(m[i - 1, j - 1] + 1, m[i, j - 1] + 1, m[i - 1, j] + 1);
      }
      j := j + 1;
    }
  }

  /**
   * `levenshteinDistance(str1, str2)`: fills the (|str2|+1) × (|str1|+1)
   * matrix row by row and returns its last cell.
   */
  method LevenshteinDistance(str1: string, str2: string) returns (d: nat)
    ensures d == Lev(str1, str2)
  {
    var n1, n2 := |str1|, |str2|;
    var matrix := new nat[n2 + 1, n1 + 1];
    var i := 0;
    while i <= n2
      invariant 0 <= i <= n2 + 1
      invariant forall r :: 0 <= r < i ==> matrix[r, 0] == r
    {
      matrix[i, 0] := i;
      i := i + 1;
    }
    var j := 0;
    while j <= n1
      invariant 0 <= j <= n1 + 1
      invariant forall c :: 0 <= c < j ==> matrix[0, c] == c
      invariant forall r :: 0 <= r <= n2 ==> matrix[r, 0] == r
    {
      matrix[0, j] := j;
      j := j + 1;
    }
    assert RowDone(matrix, str1, str2, 0);
    i := 1;
    while i <= n2
      invariant 1 <= i <= n2 + 1
      invariant forall r :: 0 <= r < i ==> RowDone(matrix, str1, str2, r)
      invariant forall r :: i <= r <= n2 ==> matrix[r, 0] == r
    {
      label before:
      FillRow(matrix, str1, str2, i);
      forall r | 0 <= r < i ensures RowDone(matrix, str1, str2, r) {
        assert old@before(RowDone(matrix, str1, str2, r));
        assert forall c :: 0 <= c <= n1 ==> matrix[r, c] == old@before(matrix[r, c]);
      }
      i := i + 1;
    }
    assert RowDone(matrix, str1, str2, n2);
    d := matrix[n2, n1];
    assert str1[..n1] == str1 && str2[..n2] == str2;
  }

  /** A string is at distance 0 from itself. */
  lemma {:induction false} LevSelf(a: string)
    ensures Lev(a, a) == 0
    decreases |a|
  {
    if a != [] { LevSelf(a[..|a| - 1]); }
  }


  /** The distance does not depend on the order of the arguments. */
  lemma {:induction false} LevSymmetric(a: string, b: string)
    ensures Lev(a, b) == Lev(b, a)
    decreases |a| + |b|
  {
    if |a| > 0 && |b| > 0 {
      var a', b' := a[..|a| - 1], b[..|b| - 1];
      LevSymmetric(a', b');
      LevSymmetric(a', b);
      LevSymmetric(a, b');
    }
  }

  /** The distance lies between the difference and the larger of the lengths. */
  lemma {:induction false} LevBounds(a: string, b: string)
    ensures Lev(a, b) <= (if |a| < |b| then |b| else |a|)
    ensures Lev(a, b) >= (if |a| < |b| then |b| - |a| else |a| - |b|)
    decreases |a| + |b|
  {
    if |a| > 0 && |b| > 0 {
      var a', b' := a[..|a| - 1], b[..|b| - 1];
      LevBounds(a', b');
      LevBounds(a', b);
      LevBounds(a, b');
    }
  }

  /** Distance 0 means the strings are equal. */
  lemma {:induction false} LevZero(a: string, b: string)
    ensures Lev(a, b) == 0 <==> a == b
    decreases |a| + |b|
  {
    if a == b {
      LevSelf(a);
    } else if |a| > 0 && |b| > 0 {
      var a', b' := a[..|a| - 1], b[..|b| - 1];
      LevZero(a', b');
      assert a == a' + [a[|a| - 1]] && b == b' + [b[|b| - 1]];
    }
  }

  // ------------------------------------------------------------ score

  function Max(a: nat, b: nat): nat { if a < b then b else a }

  /** `Math.round(kept / m * 100)` on exact rationals. */
  function Percent(kept: nat, m: nat): (r: int)
    requires 0 < m && kept <= m
    ensures 0 <= r <= 100
    ensures r == 100 <==> 200 * kept + m >= 200 * m
  {
    var r := Money.RoundDiv(100 * kept, m);
    PercentBounds(kept, m, r);
    r
  }

  lemma PercentBounds(kept: nat, m: nat, r: int)
    requires 0 < m && kept <= m
    requires 2 * m * r <= 200 * kept + m < 2 * m * r + 2 * m
    ensures 0 <= r <= 100
    ensures r == 100 <==> 200 * kept + m >= 200 * m
  {
    if r <= -1 { Money.MulMono(2 * m, r, -1); }
    if r >= 101 { Money.MulMono(2 * m, 101, r); }
    if r <= 99 { Money.MulMono(2 * m, r, 99); }
  }

  /**
   * `calculateSimilarity`: 100 for equal normal forms, otherwise the share of
   * the longer normal form that needs no edit, as a rounded percentage.
   */
  function Score(s1: string, s2: string): (r: int)
    ensures 0 <= r <= 100
  {
    NormalScore(Normalize(s1), Normalize(s2))
  }

  /** `calculateSimilarity` from the point where both strings are normalised. */
  function NormalScore(n1: string, n2: string): (r: int)
    ensures 0 <= r <= 100
  {
    if n1 == n2 then 100
    else
      var m := Max(|n1|, |n2|);
      if m == 0 then 100
      else
        LevBounds(n1, n2);
        Percent(m - Lev(n1, n2), m)
  }

  lemma NormalScoreSymmetric(n1: string, n2: string)
    ensures NormalScore(n1, n2) == NormalScore(n2, n1)
  {
    LevSymmetric(n1, n2);
  }

  /** Swapping the two strings does not change the score. */
  lemma ScoreSymmetric(s1: string, s2: string)
    ensures Score(s1, s2) == Score(s2, s1)
  {
    NormalScoreSymmetric(Normalize(s1), Normalize(s2));
  }

  lemma NormalScoreHundred(n1: string, n2: string)
    requires |n1| < 200 && |n2| < 200
    ensures NormalScore(n1, n2) == 100 <==> n1 == n2
  {
    if n1 != n2 {
      LevZero(n1, n2);
      LevBounds(n1, n2);
      assert Max(|n1|, |n2|) > 0;
    }
  }

  /**
   * For normal forms under 200 characters, a score of 100 means exactly that
   * both strings normalise to the same text.
   */
  lemma ScoreHundred(s1: string, s2: string)
    requires |Normalize(s1)| < 200 && |Normalize(s2)| < 200
    ensures Score(s1, s2) == 100 <==> Normalize(s1) == Normalize(s2)
  {
    NormalScoreHundred(Normalize(s1), Normalize(s2));
  }

  /** Case, Turkish letters, punctuation and spacing do not affect the score. */
  lemma ScoreOfNormalized(s1: string, s2: string)
    ensures Score(Normalize(s1), s2) == Score(s1, s2)
  {
    NormalizeIdempotent(s1);
  }

  // ------------------------------------------------------------ ranking

  datatype Suggestion = Suggestion(id: int, displayText: string)
  datatype Scored = Scored(item: Suggestion, similarity: int)

  const DefaultMinChars: nat := 3
  const DefaultMaxSuggestions: nat := 5
  const DefaultThreshold: int := 60

  /** `items.map(item => ({ item, similarity: calculateSimilarity(input, item.displayText) }))` */
  function ScoreAll(input: string, items: seq<Suggestion>): (r: seq<Scored>)
    ensures |r| == |items|
    ensures forall k :: 0 <= k < |r| ==> r[k] == Scored(items[k], Score(input, items[k].displayText))
    ensures forall y :: y in r ==> y.item in items && y.similarity == Score(input, y.item.displayText)
  {
    var score := (item: Suggestion) => Score(input, item.displayText);
    var r := seq(|items|, k requires 0 <= k < |items| => Scored(items[k], score(items[k])));
    ScoredMembers(items, r, score);
    r
  }

  lemma ScoredMembers(items: seq<Suggestion>, r: seq<Scored>, score: Suggestion -> int)
    requires |r| == |items| && forall k :: 0 <= k < |r| ==> r[k] == Scored(items[k], score(items[k]))
    ensures forall y :: y in r ==> y.item in items && y.similarity == score(y.item)
  {
    forall y | y in r ensures y.item in items && y.similarity == score(y.item) {
      var w :| 0 <= w < |r| && r[w] == y;
    }
  }

  /** `filter(entry => entry.similarity >= threshold)`, order kept. */
  function KeepAtLeast(s: seq<Scored>, threshold: int): (r: seq<Scored>)
    ensures forall k :: 0 <= k < |r| ==> r[k].similarity >= threshold && r[k] in s
    ensures forall k :: 0 <= k < |s| && s[k].similarity >= threshold ==> s[k] in r
  {
    if s == [] then []
    else
      var t := KeepAtLeast(s[1..], threshold);
      assert forall k :: 1 <= k < |s| ==> s[k] == s[1..][k - 1];
      if s[0].similarity >= threshold then [s[0]] + t else t
  }

  predicate Descending(s: seq<Scored>) {
    forall i, j :: 0 <= i < j < |s| ==> s[i].similarity >= s[j].similarity
  }

  /** Places `x` after every element scoring at least as much, so ties keep their order. */
  function Insert(s: seq<Scored>, x: Scored): (r: seq<Scored>)
    requires Descending(s)
    ensures |r| == |s| + 1
    ensures Descending(r)
    ensures forall k :: 0 <= k < |r| ==> r[k] == x || r[k] in s
  {
    if s == [] then [x]
    else if s[|s| - 1].similarity >= x.similarity then
      assert forall k :: 0 <= k < |s| ==> s[k].similarity >= x.similarity by {
        forall k | 0 <= k < |s| ensures s[k].similarity >= x.similarity {
          assert s[k].similarity >= s[|s| - 1].similarity;
        }
      }
      AppendLowest(s, x);
      s + [x]
    else
      var s', l := s[..|s| - 1], s[|s| - 1];
      DescendingInit(s);
      var t := Insert(s', x);
      assert forall k :: 0 <= k < |t| ==> t[k].similarity >= l.similarity;
      AppendLowest(t, l);
      assert s == s' + [l];
      assert forall k :: 0 <= k < |t| ==> t[k] == x || t[k] in s;
      t + [l]
  }

  /** Dropping the last entry keeps the order, and every other entry scores at least as much as it. */
  lemma DescendingInit(s: seq<Scored>)
    requires Descending(s) && s != []
    ensures Descending(s[..|s| - 1])
    ensures forall y :: y in s[..|s| - 1] ==> y.similarity >= s[|s| - 1].similarity
  {
    var s' := s[..|s| - 1];
    forall y | y in s' ensures y.similarity >= s[|s| - 1].similarity {
      var w :| 0 <= w < |s'| && s'[w] == y;
      assert s[w] == y;
    }
  }

  /** Insertion adds exactly `x` to the entries. */
  lemma {:induction false} InsertPermutes(s: seq<Scored>, x: Scored)
    requires Descending(s)
    ensures multiset(Insert(s, x)) == multiset(s) + multiset{x}
  {
    if s != [] && s[|s| - 1].similarity < x.similarity {
      var s', l := s[..|s| - 1], s[|s| - 1];
      DescendingInit(s);
      InsertPermutes(s', x);
      assert s == s' + [l];
    }
  }

  lemma AppendLowest(t: seq<Scored>, l: Scored)
    requires Descending(t)
    requires forall k :: 0 <= k < |t| ==> t[k].similarity >= l.similarity
    ensures Descending(t + [l])
  {
    var r := t + [l];
    forall i, j | 0 <= i < j < |r| ensures r[i].similarity >= r[j].similarity {
      assert r[i] == t[i];
    }
  }

  /** `sort((a, b) => b.similarity - a.similarity)`: highest score first. */
  function SortDescending(s: seq<Scored>): (r: seq<Scored>)
    ensures |r| == |s|
    ensures Descending(r)
    ensures multiset(r) == multiset(s)
    ensures forall k :: 0 <= k < |r| ==> r[k] in s
  {
    if s == [] then []
    else
      var s' := s[..|s| - 1];
      assert s == s' + [s[|s| - 1]];
      var t := SortDescending(s');
      assert forall y :: y in t ==> y in s;
      InsertPermutes(t, s[|s| - 1]);
      Insert(t, s[|s| - 1])
  }

  /** `slice(0, n)`. */
  function Take<T>(s: seq<T>, n: nat): (r: seq<T>)
    ensures |r| == if |s| < n then |s| else n
    ensures r == s[..|r|]
  {
    if |s| <= n then s else s[..n]
  }

  /** The filter, sort and slice steps of `checkSimilarity` on already scored entries. */
  function Rank(all: seq<Scored>, threshold: int, maxSuggestions: nat): (r: seq<Scored>)
    ensures |r| <= maxSuggestions
    ensures Descending(r)
    ensures forall k :: 0 <= k < |r| ==> r[k].similarity >= threshold && r[k] in all
  {
    var sorted := SortDescending(KeepAtLeast(all, threshold));
    var r := Take(sorted, maxSuggestions);
    assert forall k :: 0 <= k < |r| ==> r[k] == sorted[k];
    r
  }

  /**
   * An entry that passes the threshold is ranked, unless the list is full
   * and everything in it scores at least as much.
   */
  lemma RankKeepsBest(all: seq<Scored>, threshold: int, maxSuggestions: nat, y: Scored)
    requires y in all && y.similarity >= threshold
    ensures var r := Rank(all, threshold, maxSuggestions);
      y in r || (|r| == maxSuggestions && forall k :: 0 <= k < |r| ==> r[k].similarity >= y.similarity)
  {
    var kept := KeepAtLeast(all, threshold);
    var sorted := SortDescending(kept);
    var r := Take(sorted, maxSuggestions);
    var w :| 0 <= w < |all| && all[w] == y;
    assert y in kept;
    assert y in multiset(kept);
    assert y in multiset(sorted);
    var p :| 0 <= p < |sorted| && sorted[p] == y;
    if p < |r| {
      assert r[p] == y;
    } else {
      forall k | 0 <= k < |r| ensures r[k].similarity >= y.similarity {
        assert r[k] == sorted[k];
      }
    }
  }

  /**
   * `checkSimilarity`: nothing for an empty input or one shorter than
   * `minChars`; otherwise every suggestion scored against its display text,
   * those under the threshold dropped, the rest highest first, at most
   * `maxSuggestions` of them.
   */
  function CheckSimilarity(input: string, items: seq<Suggestion>, minChars: nat, maxSuggestions: nat, threshold: int): (r: seq<Scored>)
    ensures input == [] || |input| < minChars ==> r == []
    ensures |r| <= maxSuggestions
    ensures Descending(r)
    ensures forall k :: 0 <= k < |r| ==> r[k].similarity >= threshold
    ensures forall k :: 0 <= k < |r| ==> r[k].item in items && r[k].similarity == Score(input, r[k].item.displayText)
  {
    if input == [] || |input| < minChars then []
    else Rank(ScoreAll(input, items), threshold, maxSuggestions)
  }

  /**
   * A suggestion that passes the threshold is in the list, unless the list
   * is full and everything in it scores at least as much.
   */
  lemma CheckSimilarityKeepsBest(input: string, items: seq<Suggestion>, minChars: nat, maxSuggestions: nat, threshold: int, x: Suggestion)
    requires input != [] && |input| >= minChars
    requires x in items
    requires Score(input, x.displayText) >= threshold
    ensures var r := CheckSimilarity(input, items, minChars, maxSuggestions, threshold);
      Scored(x, Score(input, x.displayText)) in r
      || (|r| == maxSuggestions && forall k :: 0 <= k < |r| ==> r[k].similarity >= Score(input, x.displayText))
  {
    var all := ScoreAll(input, items);
    var w :| 0 <= w < |items| && items[w] == x;
    assert all[w] == Scored(x, Score(input, x.displayText));
    RankKeepsBest(all, threshold, maxSuggestions, all[w]);
  }

  // ------------------------------------------------------------ styling

  datatype Tier = Neutral | Red | Yellow | Blue

  /** `getInputStyling`: the colour of the box, from the first (highest) suggestion. */
  function Styling(similar: seq<Scored>): (t: Tier)
    ensures similar == [] <==> t == Neutral
    ensures t == Red <==> similar != [] && similar[0].similarity >= 90
    ensures t == Yellow <==> similar != [] && 75 <= similar[0].similarity < 90
  {
    if similar == [] then Neutral
    else
      var top := similar[0].similarity;
      if top >= 90 then Red else if top >= 75 then Yellow else Blue
  }

  /** On a ranked list the tier is decided by the best score of all. */
  lemma StylingUsesBest(similar: seq<Scored>)
    requires Descending(similar) && similar != []
    ensures Styling(similar) == Red <==> exists k :: 0 <= k < |similar| && similar[k].similarity >= 90
  {
  }
}

=== FILE: sorting.dfy ===
/**
 * `Array.prototype.sort` with a comparator `(a, b) => key(a) - key(b)`:
 * the views sort rows by an integer key, ascending. The sort here is an
 * insertion sort; what the views rely on is that the result is ordered by
 * the key and holds the same elements.
 */
module Sorting {
  /** `xs` is ascending by `key`. */
  predicate SortedOn<T>(xs: seq<T>, key: T -> int) {
    forall i, j :: 0 <= i < j < |xs| ==> key(xs[i]) <= key(xs[j])
  }

  /** Puts `x` in front of the first element whose key is not below its own. */
  function InsertOn<T>(x: T, xs: seq<T>, key: T -> int): (r: seq<T>)
    requires SortedOn(xs, key)
    ensures SortedOn(r, key)
    ensures multiset(r) == multiset(xs) + multiset{x}
    ensures |r| == |xs| + 1
  {
    if xs == [] || key(x) <= key(xs[0]) then
      [x] + xs
    else
      var t := InsertOn(x, xs[1..], key);
      assert xs == [xs[0]] + xs[1..];
      LowerBound(xs[0], xs[1..], x, t, key);
      [xs[0]] + t
  }

  /** An element whose key is at most those of `rest` and of `x` is at most every key of a rearrangement of them. */
  lemma LowerBound<T>(h: T, rest: seq<T>, x: T, t: seq<T>, key: T -> int)
    requires SortedOn([h] + rest, key) && key(h) <= key(x)
    requires multiset(t) == multiset(rest) + multiset{x}
    ensures forall k :: 0 <= k < |t| ==> key(h) <= key(t[k])
  {
    forall k | 0 <= k < |t| ensures key(h) <= key(t[k]) {
      assert t[k] in multiset(t);
      if t[k] != x {
        assert t[k] in multiset(rest);
        var m :| 0 <= m < |rest| && rest[m] == t[k];
        var hr := [h] + rest;
        assert hr[0] == h && hr[m + 1] == t[k];
        assert key(hr[0]) <= key(hr[m + 1]);
      }
    }
  }

  /** The elements of `xs`, ascending by `key`. */
  function SortOn<T>(xs: seq<T>, key: T -> int): (r: seq<T>)
    ensures SortedOn(r, key)
    ensures multiset(r) == multiset(xs)
    ensures |r| == |xs|
  {
    if xs == [] then []
    else
      assert xs == [xs[0]] + xs[1..];
      InsertOn(xs[0], SortOn(xs[1..], key), key)
  }

  /** A sorted sequence: every element of a prefix comes no later, by key, than every element after it. */
  lemma PrefixBeforeRest<T>(xs: seq<T>, key: T -> int, n: nat)
    requires SortedOn(xs, key) && n <= |xs|
    ensures forall i, j :: 0 <= i < n <= j < |xs| ==> key(xs[..n][i]) <= key(xs[j])
  {
  }
}

=== FILE: store.dfy ===
/**
 * The SQLite database the import scripts write to, as an in-memory store:
 * the courts, vehicles and jobs tables in insertion order, and the next
 * AUTOINCREMENT ids. Only what the scripts use is kept: the UNIQUE
 * constraints on court names and vehicle plates, the equality and `LIKE`
 * lookups, and the (court, file number) query of the duplicate guard.
 */
module Store {
  import opened Wrappers
  import opened Text
  import Money
  import opened Jobs

  /** A row of `courts`. */
  datatype Court = Court(id: int, name: string, city: string, district: Option<string>, kind: Option<string>)

  /** A row of `vehicles`. */
  datatype Vehicle = Vehicle(id: int, plate: string, brand: string, model: string, year: int, kind: string)

  /** A row of `jobs` as the scripts write it. */
  datatype StoredJob = StoredJob(
    date: string, receivedDate: string, scheduledDate: string,
    courtId: int, fileNumber: string, vehicleId: int,
    amounts: Money.Split,
    payment: PaymentStatus, invoice: InvoiceStatus, status: JobStatus,
    statusDate: string, paymentDate: string, completionDate: string)

  /** The tables and the next AUTOINCREMENT ids. */
  datatype Contents = Contents(
    courts: seq<Court>, jobs: seq<StoredJob>, vehicles: seq<Vehicle>,
    nextCourtId: int, nextVehicleId: int)

  /**
   * The constraints of the schema: court names and plates are UNIQUE, and
   * ids are positive, increase in insertion order and stay below the next id.
   */
  predicate WellFormed(c: Contents) {
    c.nextCourtId > 0 && c.nextVehicleId > 0
    && (forall i, j :: 0 <= i < j < |c.courts| ==> c.courts[i].name != c.courts[j].name && c.courts[i].id < c.courts[j].id)
    && (forall i :: 0 <= i < |c.courts| ==> 0 < c.courts[i].id < c.nextCourtId)
    && (forall i, j :: 0 <= i < j < |c.vehicles| ==> c.vehicles[i].plate != c.vehicles[j].plate && c.vehicles[i].id < c.vehicles[j].id)
    && (forall i :: 0 <= i < |c.vehicles| ==> 0 < c.vehicles[i].id < c.nextVehicleId)
  }

  /** An empty database. */
  const Empty := Contents([], [], [], 1, 1)

  // ------------------------------------------------------------ lookups

  /** SQLite's `LIKE` folds ASCII letters only. */
  function FoldAscii(c: char): char {
    if 'A' <= c <= 'Z' then (c as int + 32) as char else c
  }

  function FoldAll(s: string): (r: string)
    ensures |r| == |s| && forall i :: 0 <= i < |s| ==> r[i] == FoldAscii(s[i])
  {
    seq(|s|, i requires 0 <= i < |s| => FoldAscii(s[i]))
  }

  /** `name LIKE '%part%'`, with `%` and `_` inside `part` taken literally. */
  predicate Like(name: string, part: string) {
    Contains(FoldAll(name), FoldAll(part))
  }

  /** `SELECT ... FROM courts WHERE name = ?`: the court with that name. */
  function FindExact(courts: seq<Court>, name: string): (r: Option<Court>)
    ensures r.Some? ==> r.value in courts && r.value.name == name
    ensures r.None? <==> forall i :: 0 <= i < |courts| ==> courts[i].name != name
    decreases |courts|
  {
    if courts == [] then None
    else if courts[0].name == name then Some(courts[0])
    else
      assert forall i :: 1 <= i < |courts| ==> courts[i] == courts[1..][i - 1];
      FindExact(courts[1..], name)
  }

  /**
   * `SELECT ... FROM courts WHERE name LIKE '%name%'`: the first court, in
   * insertion order, whose name contains `name` up to ASCII case.
   */
  function FindContains(courts: seq<Court>, name: string): (r: Option<Court>)
    ensures r.Some? ==> r.value in courts && Like(r.value.name, name)
    ensures r.None? <==> forall i :: 0 <= i < |courts| ==> !Like(courts[i].name, name)
    decreases |courts|
  {
    if courts == [] then None
    else if Like(courts[0].name, name) then Some(courts[0])
    else
      assert forall i :: 1 <= i < |courts| ==> courts[i] == courts[1..][i - 1];
      FindContains(courts[1..], name)
  }

  /** A court found by name is also found by `LIKE`: a name contains itself. */
  lemma ExactIsLike(courts: seq<Court>, name: string)
    ensures FindExact(courts, name).Some? ==> FindContains(courts, name).Some?
  {
    if FindExact(courts, name).Some? {
      var i :| 0 <= i < |courts| && courts[i] == FindExact(courts, name).value;
      assert FoldAll(courts[i].name) <= FoldAll(name);
      assert Like(courts[i].name, name);
    }
  }

  /** Courts added later never change which court a lookup finds first. */
  lemma {:induction false} FindAppend(a: seq<Court>, b: seq<Court>, name: string)
    ensures FindContains(a + b, name) == if FindContains(a, name).Some? then FindContains(a, name) else FindContains(b, name)
    ensures FindExact(a + b, name) == if FindExact(a, name).Some? then FindExact(a, name) else FindExact(b, name)
    decreases |a|
  {
    if a == [] {
      assert a + b == b;
    } else {
      assert (a + b)[0] == a[0];
      assert (a + b)[1..] == a[1..] + b;
      FindAppend(a[1..], b, name);
    }
  }

  /** `SELECT id FROM jobs WHERE file_number = ? AND court_id = ?` finds a row. */
  predicate HasPair(jobs: seq<StoredJob>, courtId: int, file: string) {
    exists i :: 0 <= i < |jobs| && jobs[i].courtId == courtId && jobs[i].fileNumber == file
  }

  /** No two jobs share a court and a file number. */
  predicate NoDuplicatePairs(jobs: seq<StoredJob>) {
    forall i, j :: 0 <= i < j < |jobs| ==> !(jobs[i].courtId == jobs[j].courtId && jobs[i].fileNumber == jobs[j].fileNumber)
  }

  /** Appending a job whose pair is new keeps the pairs unique. */
  lemma AppendNewPair(jobs: seq<StoredJob>, j: StoredJob)
    requires NoDuplicatePairs(jobs) && !HasPair(jobs, j.courtId, j.fileNumber)
    ensures NoDuplicatePairs(jobs + [j])
  {
    var js := jobs + [j];
    forall p, q | 0 <= p < q < |js|
      ensures !(js[p].courtId == js[q].courtId && js[p].fileNumber == js[q].fileNumber)
    {
      if q == |jobs| {
        assert js[p] == jobs[p];
      }
    }
  }

  /** A pair found in some jobs is still found once more jobs are added. */
  lemma HasPairGrows(jobs: seq<StoredJob>, more: seq<StoredJob>, courtId: int, file: string)
    requires jobs <= more && HasPair(jobs, courtId, file)
    ensures HasPair(more, courtId, file)
  {
    var i :| 0 <= i < |jobs| && jobs[i].courtId == courtId && jobs[i].fileNumber == file;
    assert more[i] == jobs[i];
  }

  // ------------------------------------------------------------ inserts

  /**
   * `INSERT INTO courts (...)`: refused when the name is taken (UNIQUE),
   * otherwise the new court gets the next id and goes last.
   */
  function AddCourt(c: Contents, name: string, city: string, district: Option<string>, kind: Option<string>): (r: (Option<int>, Contents))
    ensures r.0.None? <==> FindExact(c.courts, name).Some?
    ensures r.0.None? ==> r.1 == c
    ensures r.0.Some? ==> r.1.courts == c.courts + [Court(r.0.value, name, city, district, kind)] && r.0.value == c.nextCourtId
    ensures r.1.jobs == c.jobs && r.1.vehicles == c.vehicles
    ensures WellFormed(c) ==> WellFormed(r.1)
  {
    if FindExact(c.courts, name).Some? then (None, c)
    else
      var id := c.nextCourtId;
      var courts := c.courts + [Court(id, name, city, district, kind)];
      assert forall i :: 0 <= i < |c.courts| ==> courts[i] == c.courts[i];
      (Some(id), c.(courts := courts, nextCourtId := id + 1))
  }

  /** `INSERT INTO vehicles (...)`: refused when the plate is taken (UNIQUE). */
  function AddVehicle(c: Contents, plate: string, brand: string, model: string, year: int, kind: string): (r: (Option<int>, Contents))
    ensures r.0.None? <==> exists i :: 0 <= i < |c.vehicles| && c.vehicles[i].plate == plate
    ensures r.0.None? ==> r.1 == c
    ensures r.0.Some? ==> r.1.vehicles == c.vehicles + [Vehicle(r.0.value, plate, brand, model, year, kind)]
    ensures r.1.jobs == c.jobs && r.1.courts == c.courts
    ensures WellFormed(c) ==> WellFormed(r.1)
  {
    if exists i :: 0 <= i < |c.vehicles| && c.vehicles[i].plate == plate then (None, c)
    else
      var id := c.nextVehicleId;
      var vehicles := c.vehicles + [Vehicle(id, plate, brand, model, year, kind)];
      assert forall i :: 0 <= i < |c.vehicles| ==> vehicles[i] == c.vehicles[i];
      (Some(id), c.(vehicles := vehicles, nextVehicleId := id + 1))
  }

  /** `INSERT INTO jobs (...)`: the jobs table has no UNIQUE constraint, so it always succeeds. */
  function AddJob(c: Contents, j: StoredJob): (r: Contents)
    ensures r.jobs == c.jobs + [j] && r.courts == c.courts && r.vehicles == c.vehicles
    ensures WellFormed(c) ==> WellFormed(r)
  {
    c.(jobs := c.jobs + [j])
  }

  /** The database the scripts open. */
  class Database {
    var courts: seq<Court>
    var jobs: seq<StoredJob>
    var vehicles: seq<Vehicle>
    var nextCourtId: int
    var nextVehicleId: int

    function State(): Contents
      reads this
    {
      Contents(courts, jobs, vehicles, nextCourtId, nextVehicleId)
    }

    predicate Valid()
      reads this
    {
      WellFormed(State())
    }

    /** Opening a database file with these contents. */
    constructor (c: Contents)
      requires WellFormed(c)
      ensures Valid() && State() == c
    {
      courts := c.courts;
      jobs := c.jobs;
      vehicles := c.vehicles;
      nextCourtId := c.nextCourtId;
      nextVehicleId := c.nextVehicleId;
    }

    method InsertCourt(name: string, city: string, district: Option<string>, kind: Option<string>) returns (id: Option<int>)
      requires Valid()
      modifies this
      ensures Valid()
      ensures (id, State()) == AddCourt(old(State()), name, city, district, kind)
    {
      var r := AddCourt(State(), name, city, district, kind);
      id := r.0;
      courts := r.1.courts;
      nextCourtId := r.1.nextCourtId;
    }

    method InsertVehicle(plate: string, brand: string, model: string, year: int, kind: string) returns (id: Option<int>)
      requires Valid()
      modifies this
      ensures Valid()
      ensures (id, State()) == AddVehicle(old(State()), plate, brand, model, year, kind)
    {
      var r := AddVehicle(State(), plate, brand, model, year, kind);
      id := r.0;
      vehicles := r.1.vehicles;
      nextVehicleId := r.1.nextVehicleId;
    }

    method InsertJob(j: StoredJob)
      requires Valid()
      modifies this
      ensures Valid()
      ensures State() == AddJob(old(State()), j)
    {
      jobs := jobs + [j];
    }
  }
}

=== FILE: text.dfy ===
/** Optional values, used wherever the JavaScript code returns `null`, `undefined` or `NaN`. */
module Wrappers {
  datatype Option<+T> = None | Some(value: T)

  /** A value, or the message of the `Error` the JavaScript code throws. */
  datatype Result<+T> = Ok(value: T) | Err(message: string)
}

/**
 * Character classes and string helpers shared by the whole model:
 * the JavaScript whitespace class (`\s`, `trim`), `split` on one character,
 * `join`, `includes`, decimal digits and `parseInt`.
 */
module Text {
  import opened Wrappers

  /** `\s` and the characters `String.prototype.trim` removes: WhiteSpace and LineTerminator. */
  predicate IsSpace(c: char) {
    c == ' ' || c == '\t' || c == '\n' || c == '\r' || c == '\U{000B}' || c == '\U{000C}'
    || c == '\U{00A0}' || c == '\U{1680}' || ('\U{2000}' <= c <= '\U{200A}')
    || c == '\U{2028}' || c == '\U{2029}' || c == '\U{202F}' || c == '\U{205F}'
    || c == '\U{3000}' || c == '\U{FEFF}'
  }

  predicate IsDigit(c: char) { '0' <= c <= '9' }
  predicate IsUpper(c: char) { 'A' <= c <= 'Z' }
  predicate IsLower(c: char) { 'a' <= c <= 'z' }

  predicate AllDigits(s: string) { forall i :: 0 <= i < |s| ==> IsDigit(s[i]) }
  predicate AllSpaces(s: string) { forall i :: 0 <= i < |s| ==> IsSpace(s[i]) }
  predicate NoSpaces(s: string) { forall i :: 0 <= i < |s| ==> !IsSpace(s[i]) }

  /** `s.trimStart()` */
  function TrimStart(s: string): (r: string)
    ensures |r| <= |s| && r == s[|s| - |r|..]
    ensures AllSpaces(s[..|s| - |r|])
    ensures r == [] || !IsSpace(r[0])
  {
    if s != [] && IsSpace(s[0]) then TrimStart(s[1..]) else s
  }

  /** `s.trimEnd()` */
  function TrimEnd(s: string): (r: string)
    ensures |r| <= |s| && r == s[..|r|]
    ensures AllSpaces(s[|r|..])
    ensures r == [] || !IsSpace(r[|r| - 1])
  {
    if s != [] && IsSpace(s[|s| - 1]) then
      var r := TrimEnd(s[..|s| - 1]);
      assert s[..|s| - 1][..|r|] == s[..|r|];
      assert s[|r|..] == s[..|s| - 1][|r|..] + [s[|s| - 1]];
      r
    else s
  }

  /** `s.trim()`: the longest infix of `s` that neither starts nor ends with whitespace. */
  function Trim(s: string): (r: string)
    ensures |r| <= |s|
    ensures r == [] || (!IsSpace(r[0]) && !IsSpace(r[|r| - 1]))
  {
    TrimEnd(TrimStart(s))
  }

  /** Where the trimmed text starts inside the text. */
  lemma TrimOffset(s: string) returns (i: nat)
    ensures i + |Trim(s)| <= |s| && Trim(s) == s[i..i + |Trim(s)|]
  {
    var t := TrimStart(s);
    i := |s| - |t|;
    assert Trim(s) == t[..|Trim(s)|];
  }

  /** `!s.trim()` in JavaScript: the string is empty or only whitespace. */
  predicate IsBlank(s: string) { Trim(s) == [] }

  lemma {:induction false} TrimStartEmpty(s: string)
    ensures TrimStart(s) == [] <==> AllSpaces(s)
  {
    if s != [] && IsSpace(s[0]) {
      TrimStartEmpty(s[1..]);
      assert AllSpaces(s[1..]) ==> AllSpaces(s) by {
        if AllSpaces(s[1..]) {
          forall i | 0 <= i < |s| ensures IsSpace(s[i]) { if i > 0 { assert s[i] == s[1..][i - 1]; } }
        }
      }
    }
  }

  /** A string is blank exactly when every character is whitespace. */
  lemma BlankIffAllSpaces(s: string)
    ensures IsBlank(s) <==> AllSpaces(s)
  {
    TrimStartEmpty(s);
    var t := TrimStart(s);
    if TrimEnd(t) == [] {
      assert t[|TrimEnd(t)|..] == t;
    }
  }

  /** Trimming twice changes nothing. */
  lemma TrimIdempotent(s: string)
    ensures Trim(Trim(s)) == Trim(s)
  {
    var r := Trim(s);
    if r != [] {
      assert TrimStart(r) == r;
      assert TrimEnd(r) == r;
    }
  }

  /** `s.replace(/\s/g, '')` */
  function RemoveSpaces(s: string): (r: string)
    ensures |r| <= |s|
  {
    if s == [] then []
    else (if IsSpace(s[0]) then [] else [s[0]]) + RemoveSpaces(s[1..])
  }

  lemma {:induction false} RemoveSpacesConcat(a: string, b: string)
    ensures RemoveSpaces(a + b) == RemoveSpaces(a) + RemoveSpaces(b)
  {
    if a == [] {
      assert a + b == b;
    } else {
      assert (a + b)[0] == a[0];
      assert (a + b)[1..] == a[1..] + b;
      RemoveSpacesConcat(a[1..], b);
    }
  }

  /** The result of `RemoveSpaces` holds no whitespace. */
  lemma {:induction false} RemoveSpacesNoSpaces(s: string)
    ensures NoSpaces(RemoveSpaces(s))
  {
    if s != [] {
      RemoveSpacesNoSpaces(s[1..]);
    }
  }

  /** A string without whitespace is its own `RemoveSpaces`. */
  lemma {:induction false} RemoveSpacesFixed(s: string)
    requires NoSpaces(s)
    ensures RemoveSpaces(s) == s
  {
    if s != [] {
      assert NoSpaces(s[1..]) by {
        forall i | 0 <= i < |s[1..]| ensures !IsSpace(s[1..][i]) { assert s[1..][i] == s[i + 1]; }
      }
      RemoveSpacesFixed(s[1..]);
      assert s == [s[0]] + s[1..];
    }
  }

  /** A character that is not whitespace survives `RemoveSpaces`. */
  lemma {:induction false} RemoveSpacesKeeps(s: string, k: nat)
    requires k < |s| && !IsSpace(s[k])
    ensures s[k] in RemoveSpaces(s)
  {
    if k > 0 {
      RemoveSpacesKeeps(s[1..], k - 1);
    }
  }

  /** An optional text that JavaScript treats as true: present and not empty. */
  predicate Truthy(o: Option<string>) { o.Some? && o.value != [] }

  /** `a` is `b` with some elements left out, the rest in the same order. */
  predicate Subseq<T(==)>(a: seq<T>, b: seq<T>)
    decreases |b|
  {
    a == [] || (b != [] && ((a[0] == b[0] && Subseq(a[1..], b[1..])) || Subseq(a, b[1..])))
  }

  /** `xs.filter(p)`: the elements for which `p` holds, in their order. */
  function Select<T(==)>(xs: seq<T>, p: T -> bool): (r: seq<T>)
    ensures |r| <= |xs| && Subseq(r, xs)
    ensures forall k :: 0 <= k < |r| ==> p(r[k]) && r[k] in xs
    ensures forall k :: 0 <= k < |xs| && p(xs[k]) ==> xs[k] in r
    ensures (forall k :: 0 <= k < |xs| ==> p(xs[k])) ==> r == xs
  {
    if xs == [] then []
    else
      var t := Select(xs[1..], p);
      assert forall k :: 1 <= k < |xs| ==> xs[k] == xs[1..][k - 1];
      if p(xs[0]) then
        var r := [xs[0]] + t;
        assert r[1..] == t;
        r
      else t
  }

  /** `xs.map(f)` */
  function Map<T, U>(xs: seq<T>, f: T -> U): (r: seq<U>)
    ensures |r| == |xs| && forall k :: 0 <= k < |xs| ==> r[k] == f(xs[k])
  {
    seq(|xs|, k requires 0 <= k < |xs| => f(xs[k]))
  }

  /** The elements `Select` keeps are exactly the elements for which `p` holds. */
  lemma SelectMembers<T>(xs: seq<T>, p: T -> bool)
    ensures forall x :: x in Select(xs, p) <==> x in xs && p(x)
  {
    var r := Select(xs, p);
    forall x | x in xs && p(x) ensures x in r {
      var k :| 0 <= k < |xs| && xs[k] == x;
    }
  }

  /** Filtering a concatenation filters each part. */
  lemma {:induction false} SelectConcat<T>(a: seq<T>, b: seq<T>, p: T -> bool)
    ensures Select(a + b, p) == Select(a, p) + Select(b, p)
    decreases |a|
  {
    if a == [] {
      assert a + b == b;
    } else {
      assert (a + b)[0] == a[0];
      assert (a + b)[1..] == a[1..] + b;
      SelectConcat(a[1..], b, p);
    }
  }

  /** Keeps the characters of `s` for which `keep` holds, in order. */
  function Filter(s: string, keep: char -> bool): (r: string)
    ensures |r| <= |s|
    ensures forall i :: 0 <= i < |r| ==> keep(r[i])
    ensures (forall i :: 0 <= i < |s| ==> keep(s[i])) ==> r == s
  {
    if s == [] then []
    else (if keep(s[0]) then [s[0]] else []) + Filter(s[1..], keep)
  }

  lemma {:induction false} FilterConcat(a: string, b: string, keep: char -> bool)
    ensures Filter(a + b, keep) == Filter(a, keep) + Filter(b, keep)
  {
    if a != [] {
      assert (a + b)[0] == a[0];
      assert (a + b)[1..] == a[1..] + b;
      FilterConcat(a[1..], b, keep);
    } else {
      assert a + b == b;
    }
  }

  /** `s.includes(p)` */
  predicate Contains(s: string, p: string)
    decreases |s|
  {
    p <= s || (s != [] && Contains(s[1..], p))
  }

  /** `s.split(c)`: never empty, and no part contains `c`. */
  function Split(s: string, c: char): (parts: seq<string>)
    ensures |parts| >= 1
    ensures forall i :: 0 <= i < |parts| ==> c !in parts[i]
    ensures c !in s ==> parts == [s]
  {
    if s == [] then [[]]
    else if s[0] == c then [[]] + Split(s[1..], c)
    else
      var rest := Split(s[1..], c);
      assert c !in s ==> c !in s[1..] && rest == [s[1..]] && [s[0]] + s[1..] == s;
      [[s[0]] + rest[0]] + rest[1..]
  }

  /** `parts.join(sep)` */
  function Join(parts: seq<string>, sep: string): string {
    if parts == [] then []
    else if |parts| == 1 then parts[0]
    else parts[0] + sep + Join(parts[1..], sep)
  }

  /** Three parts joined by a separator. */
  lemma JoinThree(a: string, b: string, c: string, sep: string)
    ensures Join([a, b, c], sep) == a + sep + b + sep + c
  {
    assert [a, b, c][1..] == [b, c];
    assert [b, c][1..] == [c];
    assert Join([c], sep) == c;
    assert Join([b, c], sep) == b + sep + c;
  }

  /** Splitting and joining on the same character gives back the input. */
  lemma {:induction false} JoinSplit(s: string, c: char)
    ensures Join(Split(s, c), [c]) == s
  {
    if s == [] {
    } else if s[0] == c {
      JoinSplit(s[1..], c);
    } else {
      JoinSplit(s[1..], c);
      var rest := Split(s[1..], c);
      var parts := [[s[0]] + rest[0]] + rest[1..];
      assert Split(s, c) == parts;
      if |rest| > 1 {
        assert parts[1..] == rest[1..];
        assert Join(rest, [c]) == rest[0] + [c] + Join(rest[1..], [c]);
        assert Join(parts, [c]) == ([s[0]] + rest[0]) + [c] + Join(rest[1..], [c]);
      } else {
        assert parts == [[s[0]] + rest[0]];
      }
      assert s == [s[0]] + s[1..];
    }
  }

  /** Parts without the separator, joined and split again, come back unchanged. */
  lemma {:induction false} SplitJoin(parts: seq<string>, c: char)
    requires |parts| >= 1
    requires forall i :: 0 <= i < |parts| ==> c !in parts[i]
    ensures Split(Join(parts, [c]), c) == parts
  {
    if |parts| == 1 {
      SplitNoSep(parts[0], [], c);
    } else {
      SplitJoin(parts[1..], c);
      assert Join(parts, [c]) == parts[0] + ([c] + Join(parts[1..], [c]));
      SplitNoSep(parts[0], [c] + Join(parts[1..], [c]), c);
      assert ([c] + Join(parts[1..], [c]))[1..] == Join(parts[1..], [c]);
      assert [parts[0]] + parts[1..] == parts;
    }
  }

  /** A separator-free head `w` followed by `t` splits into `w` glued to the first part of `t`. */
  lemma {:induction false} SplitNoSep(w: string, t: string, c: char)
    requires c !in w
    ensures t == [] ==> Split(w + t, c) == [w]
    ensures t != [] && t[0] == c ==> Split(w + t, c) == [w] + Split(t[1..], c)
  {
    if w == [] {
      assert w + t == t;
    } else {
      SplitNoSep(w[1..], t, c);
      assert (w + t)[1..] == w[1..] + t;
      assert [w[0]] + w[1..] == w;
    }
  }

  // ---------------------------------------------------------------- digits

  function DigitValue(c: char): (v: nat)
    requires IsDigit(c)
    ensures v < 10
  {
    (c as int) - ('0' as int)
  }

  function DigitChar(v: nat): (c: char)
    requires v < 10
    ensures IsDigit(c) && DigitValue(c) == v
  {
    (('0' as int) + v) as char
  }

  /** The number written by a string of decimal digits (leading zeros allowed). */
  function DigitsToNat(s: string): nat
    requires AllDigits(s)
  {
    if s == [] then 0 else 10 * DigitsToNat(s[..|s| - 1]) + DigitValue(s[|s| - 1])
  }

  /** Decimal rendering of a natural number, as `String(n)` prints it. */
  function NatToString(n: nat): (s: string)
    ensures |s| >= 1 && AllDigits(s)
    ensures |s| > 1 ==> s[0] != '0'
    ensures |s| == 1 <==> n < 10
    ensures n < 100 ==> |s| <= 2
    decreases n
  {
    if n < 10 then [DigitChar(n)] else NatToString(n / 10) + [DigitChar(n % 10)]
  }

  /** Rendering a number in decimal and reading it back gives the number. */
  lemma {:induction false} NatToStringRoundTrip(n: nat)
    ensures DigitsToNat(NatToString(n)) == n
    decreases n
  {
    if n >= 10 {
      NatToStringRoundTrip(n / 10);
      var s := NatToString(n);
      assert s[..|s| - 1] == NatToString(n / 10);
    }
  }

  /** Leading zeros do not change the value. */
  lemma {:induction false} DigitsToNatZeros(k: nat, s: string)
    requires AllDigits(s)
    ensures AllDigits(seq(k, _ => '0') + s)
    ensures DigitsToNat(seq(k, _ => '0') + s) == DigitsToNat(s)
    decreases |s|
  {
    var z := seq(k, _ => '0');
    if s == [] {
      assert z + s == z;
      ZerosValue(k);
    } else {
      DigitsToNatZeros(k, s[..|s| - 1]);
      assert (z + s)[..|z + s| - 1] == z + s[..|s| - 1];
    }
  }

  lemma {:induction false} ZerosValue(k: nat)
    ensures AllDigits(seq(k, _ => '0'))
    ensures DigitsToNat(seq(k, _ => '0')) == 0
  {
    if k > 0 {
      ZerosValue(k - 1);
      assert seq(k, _ => '0')[..k - 1] == seq(k - 1, _ => '0');
    }
  }

  /** `String(n).padStart(2, '0')` */
  function Pad2(n: nat): (s: string)
    ensures |s| >= 2 && AllDigits(s)
    ensures n < 100 ==> |s| == 2
  {
    var t := NatToString(n);
    if |t| < 2 then ['0'] + t else t
  }

  /** Zero padding is undone by reading the digits back. */
  lemma Pad2RoundTrip(n: nat)
    ensures DigitsToNat(Pad2(n)) == n
  {
    NatToStringRoundTrip(n);
    var t := NatToString(n);
    if |t| < 2 {
      DigitsToNatZeros(1, t);
      assert seq(1, _ => '0') == ['0'];
    }
  }

  /** `String(n).padStart(4, '0')`, used where the model prints a year of the ISO form. */
  function Pad4(n: nat): (s: string)
    ensures |s| >= 4 && AllDigits(s)
  {
    var t := NatToString(n);
    if |t| < 4 then seq(4 - |t|, _ => '0') + t else t
  }

  lemma Pad4RoundTrip(n: nat)
    ensures DigitsToNat(Pad4(n)) == n
  {
    NatToStringRoundTrip(n);
    var t := NatToString(n);
    if |t| < 4 { DigitsToNatZeros(4 - |t|, t); }
  }

  /** Length of the longest run of digits at the start of `s`. */
  function DigitRun(s: string): (k: nat)
    ensures k <= |s| && AllDigits(s[..k])
    ensures k < |s| ==> !IsDigit(s[k])
  {
    if s != [] && IsDigit(s[0]) then
      var k := 1 + DigitRun(s[1..]);
      assert s[..k] == [s[0]] + s[1..][..k - 1];
      k
    else 0
  }

  /** The digit run of digits followed by something else is exactly those digits. */
  lemma {:induction false} DigitRunOf(number: string, rest: string)
    requires AllDigits(number) && (rest == [] || !IsDigit(rest[0]))
    ensures DigitRun(number + rest) == |number|
    decreases |number|
  {
    if number != [] {
      DigitRunOf(number[1..], rest);
      assert (number + rest)[1..] == number[1..] + rest;
    } else {
      assert number + rest == rest;
    }
  }

  /** The value of the digit run at the start of `u`; `None` when `u` does not start with a digit. */
  function LeadingNat(u: string): (r: Option<nat>)
    ensures AllDigits(u) && u != [] ==> r == Some(DigitsToNat(u))
  {
    var k := DigitRun(u);
    if k == 0 then None
    else
      assert AllDigits(u) ==> k == |u| && u[..k] == u;
      Some(DigitsToNat(u[..k]))
  }

  /**
   * `parseInt(s)` with no radix: leading whitespace, an optional sign, then
   * either `0x`/`0X` and the longest run of hexadecimal digits, or the
   * longest run of decimal digits; `None` stands for `NaN` (no digit where
   * one is needed).
   */
  function ParseInt(s: string): (r: Option<int>)
  {
    Signed(TrimStart(s))
  }

  /** The optional sign and the magnitude of text with no leading whitespace. */
  function Signed(t: string): (r: Option<int>)
  {
    if t != [] && t[0] == '-' then
      match Magnitude(t[1..])
      case Some(n) => Some(-(n as int))
      case None => None
    else if t != [] && t[0] == '+' then
      match Magnitude(t[1..])
      case Some(n) => Some(n as int)
      case None => None
    else
      match Magnitude(t)
      case Some(n) => Some(n as int)
      case None => None
  }

  /** Text that starts with `0x` or `0X`, which `parseInt` reads in base 16. */
  predicate HexPrefixed(u: string) {
    |u| >= 2 && u[0] == '0' && (u[1] == 'x' || u[1] == 'X')
  }

  /** The unsigned number after the sign: hexadecimal after a `0x` prefix, decimal otherwise. */
  function Magnitude(u: string): (r: Option<nat>)
    ensures AllDigits(u) && u != [] ==> r == Some(DigitsToNat(u))
    ensures HexPrefixed(u) ==> r == LeadingHex(u[2..])
    ensures !HexPrefixed(u) ==> r == LeadingNat(u)
  {
    if HexPrefixed(u) then LeadingHex(u[2..]) else LeadingNat(u)
  }

  predicate IsHexDigit(c: char) { IsDigit(c) || 'a' <= c <= 'f' || 'A' <= c <= 'F' }

  predicate AllHex(s: string) { forall i :: 0 <= i < |s| ==> IsHexDigit(s[i]) }

  function HexValue(c: char): (v: nat)
    requires IsHexDigit(c)
    ensures v < 16
    ensures IsDigit(c) ==> v == DigitValue(c)
    ensures !IsDigit(c) ==> v >= 10
  {
    if IsDigit(c) then DigitValue(c)
    else if 'a' <= c <= 'f' then (c as int) - ('a' as int) + 10
    else (c as int) - ('A' as int) + 10
  }

  /** The value of a run of hexadecimal digits, most significant first. */
  function HexToNat(s: string): nat
    requires AllHex(s)
  {
    if s == [] then 0 else 16 * HexToNat(s[..|s| - 1]) + HexValue(s[|s| - 1])
  }

  /** Length of the longest run of hexadecimal digits at the start of `s`. */
  function HexRun(s: string): (k: nat)
    ensures k <= |s| && AllHex(s[..k])
    ensures k < |s| ==> !IsHexDigit(s[k])
  {
    if s != [] && IsHexDigit(s[0]) then
      var k := 1 + HexRun(s[1..]);
      assert s[..k] == [s[0]] + s[1..][..k - 1];
      k
    else 0
  }

  /** The value of the hexadecimal run at the start of `u`; `None` when there is none. */
  function LeadingHex(u: string): (r: Option<nat>)
    ensures AllHex(u) && u != [] ==> r == Some(HexToNat(u))
    ensures u == [] || !IsHexDigit(u[0]) <==> r.None?
  {
    var k := HexRun(u);
    if k == 0 then None
    else
      assert AllHex(u) ==> k == |u| && u[..k] == u;
      Some(HexToNat(u[..k]))
  }

  /** `parseInt` reads hexadecimal digits after a `0x` or `0X` prefix, with or without a minus sign. */
  lemma ParseIntHex(t: string)
    requires HexPrefixed(t) && AllHex(t[2..]) && |t| > 2
    ensures ParseInt(t) == Some(HexToNat(t[2..]) as int)
    ensures ParseInt("-" + t) == Some(-(HexToNat(t[2..]) as int))
  {
    HexUnsigned(t);
    HexNegated(t);
  }

  lemma HexUnsigned(t: string)
    requires HexPrefixed(t) && AllHex(t[2..]) && |t| > 2
    ensures ParseInt(t) == Some(HexToNat(t[2..]) as int)
  {
    HexMagnitude(t, t[2..]);
    TrimStartKeeps(t);
  }

  lemma HexNegated(t: string)
    requires HexPrefixed(t) && AllHex(t[2..]) && |t| > 2
    ensures ParseInt("-" + t) == Some(-(HexToNat(t[2..]) as int))
  {
    var m := "-" + t;
    assert m[0] == '-' && m[1..] == t;
    HexMagnitude(t, t[2..]);
    SignedMinus(m, HexToNat(t[2..]));
    TrimStartKeeps(m);
  }

  lemma HexMagnitude(t: string, u: string)
    requires AllHex(u) && u != []
    requires |t| >= 2 && t[0] == '0' && (t[1] == 'x' || t[1] == 'X') && t[2..] == u
    ensures Magnitude(t) == Some(HexToNat(u)) && Signed(t) == Some(HexToNat(u) as int)
  {
    assert HexPrefixed(t);
  }

  /** `0x` with no hexadecimal digit after it is `NaN`. */
  lemma ParseIntBarePrefix(rest: string)
    requires rest == [] || !IsHexDigit(rest[0])
    ensures ParseInt("0x" + rest).None?
  {
    var t := "0x" + rest;
    assert HexPrefixed(t) && t[2..] == rest;
    TrimStartKeeps(t);
  }

  /** A string of digits is read back as its value. */
  lemma ParseIntDigits(u: string)
    requires AllDigits(u) && u != []
    ensures ParseInt(u) == Some(DigitsToNat(u) as int)
  {
    assert TrimStart(u) == u;
  }

  /** A minus sign followed by digits is read as the negated value. */
  lemma ParseIntMinus(u: string)
    requires AllDigits(u) && u != []
    ensures ParseInt("-" + u) == Some(-(DigitsToNat(u) as int))
  {
    var s := "-" + u;
    assert s[0] == '-' && s[1..] == u;
    MinusDigits(s, u);
  }

  lemma MinusDigits(t: string, u: string)
    requires AllDigits(u) && u != []
    requires t != [] && t[0] == '-' && t[1..] == u
    ensures ParseInt(t) == Some(-(DigitsToNat(u) as int))
  {
    TrimStartKeeps(t);
    SignedMinus(t, DigitsToNat(u));
  }

  lemma SignedMinus(t: string, n: nat)
    requires t != [] && t[0] == '-' && Magnitude(t[1..]) == Some(n)
    ensures Signed(t) == Some(-(n as int))
  {
  }

  /** Text that does not start with whitespace is its own `trimStart`. */
  lemma TrimStartKeeps(s: string)
    requires s != [] && !IsSpace(s[0])
    ensures TrimStart(s) == s
  {
  }

  /** `s.indexOf(p)`: the first position at which `p` occurs in `s`. */
  function IndexOf(s: string, p: string): (r: Option<nat>)
    ensures r.Some? ==> r.value + |p| <= |s| && p <= s[r.value..]
    ensures r.Some? ==> forall i :: 0 <= i < r.value ==> !(p <= s[i..])
    ensures r.None? ==> forall i :: 0 <= i <= |s| ==> !(p <= s[i..])
    decreases |s|
  {
    if p <= s then Some(0)
    else if s == [] then None
    else
      var r := IndexOf(s[1..], p);
      assert forall i :: 1 <= i <= |s| ==> s[i..] == s[1..][i - 1..];
      if r.None? then None else Some(r.value + 1)
  }

  /** `indexOf` finds a position exactly when `includes` holds. */
  lemma {:induction false} IndexOfContains(s: string, p: string)
    ensures IndexOf(s, p).Some? <==> Contains(s, p)
    decreases |s|
  {
    if s != [] && !(p <= s) {
      IndexOfContains(s[1..], p);
    }
  }

  /** `s.replace(p, q)` with a text pattern: only the first occurrence of `p` is replaced. */
  function ReplaceFirst(s: string, p: string, q: string): (r: string)
    ensures !Contains(s, p) ==> r == s
  {
    IndexOfContains(s, p);
    match IndexOf(s, p)
    case None => s
    case Some(i) => s[..i] + q + s[i + |p|..]
  }
}
